=== FILE: README.md ===
# Global-signal routing and CUFR scheduling, modelled in Dafny

This project models the part of RapidWright's routers that handles global signals. It covers:

- **the Versal clock router** (`VersalClockRouting`), which builds a clock net's route in stages:
  - from the clock buffer (BUFG) to the nearest horizontal routing track (HROUTE_HSR);
  - from there to the centroid clock region;
  - from the centroid track to a vertical distribution line (VDISTR);
  - from the vertical routing line (VROUTE) to one VDISTR per target clock region;
  - from each VDISTR to a horizontal distribution line (HDISTR_LOCAL) that drives a GCLK of its region;
  - from those lines to every leaf clock buffer (LCB);
  - from every LCB to the clock sink pins it was assigned;
- **the clock and static-net helpers of `GlobalSignalRouting`**:
  - the dominant clock region of a node;
  - the clock regions of a net and their split around a centroid;
  - the assignment of sink pins to LCBs;
  - the VCC/GND router `routeStaticNet`, its pruning rule, its source test and its table of LUT output wire names;
- **the schedule of the parallel connection router `CUFR`**: which batches of connections a
  partition tree hands to the per-connection router, and in what order;
- **the classification of nets** (`NetTools`) and of routing-resource node types (`RouteNodeType`).

## How the model is built

The device is a value, `Device.Graph`:
- It has total functions from nodes to downhill and uphill nodes, wire connections, intent codes,
  clock regions, wire names and tile coordinates.
- Route-thru and site-pin queries are also fields of the graph.
- Which nodes are in use is a parameter `status: Node -> NodeStatus`. That is what the routers'
  `getNodeStatus` callback answers.

The clock or static net being routed is a `Nets.Net` object. Its fields are:
- the pins;
- the set of routed pin indices;
- the PIP list that the routers append to.

The routers' `RouteNode` wrappers are entries of a sequence (`SearchArena.RouteNode`). A parent is
the index of an earlier entry. `BackPips` stands for both `getPIPsBackToSourceByNodes` and the
wire-based `getPIPsBackToSource`, because wires and nodes are identified.

Each search loop of the source is a `while` loop in a `method`:
- **First-in first-out queues** are the tail of the arena.
- **Priority queues** are sets of arena indices, polled at an entry of least cost.

Each stage is specified by what it promises about its result:
- **`RouteBufgToNearestRoutingTrack`:** the appended PIPs are a walk from the source to an
  HROUTE_HSR node, and no such walk is shorter.
- **LCB search:** it fails exactly when no walk of enterable nodes of the region reaches the LCB.
- **Corrected sink search:** it fails exactly when no walk of checked edges reaches the sink.
- **LCB mapping:** every input pin is given to exactly one usable leaf buffer two hops uphill of
  its INT node.
- **Static router:** every pin it marks routed is reached by a path of the net's PIPs that starts
  at a node already in use or at a usable static source, and every source pin it creates is the
  site pin of the first node of such a path.

Java exceptions and failed `assert`s are the `Err` values of `Wrappers.Result`:
- `NullDereference` is a null pointer dereference;
- `AssertionViolated` is an `assert` with assertions enabled;
- `Unroutable` and `WatchdogExpired` are the `RuntimeException`s the routers throw.

## Model

| member | source | states |
|---|---|---|
| Cufr.RouteSucceedsIffWellShaped | src/com/xilinx/rapidwright/rwroute/CUFR.java:136-152 | The traversal of a partition tree succeeds exactly when every leaf has no middle subtree and every inner node has both a left and a right subtree, whatever order the forks take |
| Cufr.MiddleRoutedFirst | src/com/xilinx/rapidwright/rwroute/CUFR.java:142-150 | In an inner node the middle subtree's batches are routed first, then the full traces of the left and right subtrees, in one of the two orders |
| Cufr.OnlyLeavesRouted | src/com/xilinx/rapidwright/rwroute/CUFR.java:136-151 | The batches routed are, as a multiset, exactly the connection lists of the leaves; an inner node's own list is never routed |
| Cufr.RoutedBatchesAreLeaves | src/com/xilinx/rapidwright/rwroute/CUFR.java:136-151 | Every routed batch is the connection list of some leaf of the tree |
| Cufr.LeafRoutesOwnConnections | src/com/xilinx/rapidwright/rwroute/CUFR.java:138-140 | A leaf routes its own connections in exactly one call |
| Cufr.ForkOrderIrrelevant | src/com/xilinx/rapidwright/rwroute/CUFR.java:147-150 | The order in which the two forked subtrees run changes neither success nor the multiset of routed batches |
| Cufr.CufrRouter.RouteIndirectConnections | src/com/xilinx/rapidwright/rwroute/CUFR.java:155-163 | The partition tree is rebuilt on the first iteration or when bounding boxes were enlarged, and kept otherwise; the root's trace is appended to the routed batches, and a missing tree is a null dereference |
| Cufr.CufrRouter.GetConnectionState | src/com/xilinx/rapidwright/rwroute/CUFR.java:114-117 | A worker's state is created once on its first request and the same instance is returned afterwards; nothing else changes |
| NetTools.NoSourceNotClock | src/com/xilinx/rapidwright/design/NetTools.java:41-45 | A net without a source pin is never a clock net, and it is global exactly when it is static |
| NetTools.UltraScaleClockNets | src/com/xilinx/rapidwright/design/NetTools.java:48-50 | On UltraScale and UltraScale+, a net is a clock net exactly when its source pin is CLK_OUT, CLKOUT or CLKFBOUT |
| NetTools.VersalClockNets | src/com/xilinx/rapidwright/design/NetTools.java:51-55 | On Versal, a net is a clock net exactly when its source is the O pin of a BUF* site in a CLK* tile |
| NetTools.OtherSeriesClockNets | src/com/xilinx/rapidwright/design/NetTools.java:56-57 | On other series, the net's own clock flag decides |
| NetTools.GlobalNets | src/com/xilinx/rapidwright/design/NetTools.java:60-62 | Static nets are global; a non-static net is global exactly when it is a clock net |
| RouteNodeTypes.ExclusiveSinkValues | src/com/xilinx/rapidwright/rwroute/RouteNodeType.java:53-55 | isExclusiveSink holds exactly for EXCLUSIVE_SINK, EXCLUSIVE_SINK_EAST and EXCLUSIVE_SINK_WEST |
| RouteNodeTypes.LocalValues | src/com/xilinx/rapidwright/rwroute/RouteNodeType.java:57-59 | isLocal holds exactly for LOCAL, LOCAL_EAST and LOCAL_WEST |
| RouteNodeTypes.ExclusiveSinkNotLocal | src/com/xilinx/rapidwright/rwroute/RouteNodeType.java:53-59 | No node type is both an exclusive sink and local |
| RouteNodeTypes.OthersAreNeither | src/com/xilinx/rapidwright/rwroute/RouteNodeType.java:29-51 | The other four enum values satisfy neither predicate |
| GlobalSignalRouting.CountWireRegions | src/com/xilinx/rapidwright/rwroute/GlobalSignalRouting.java:131-138 | The count map has a key for exactly the regions some wire lies in, and each count is the number of such wires |
| GlobalSignalRouting.GetDominateClockRegionOfNode | src/com/xilinx/rapidwright/rwroute/GlobalSignalRouting.java:128-152 | The answer is none exactly when no wire lies in a clock region; otherwise it is a region holding at least as many of the node's wires as any other region |
| GlobalSignalRouting.GetClockRegionsOfNet | src/com/xilinx/rapidwright/rwroute/GlobalSignalRouting.java:229-238 | The result lists every sink pin's region once, holds no other region, and lists them in the order of their first sink |
| GlobalSignalRouting.DivideClockRegions | src/com/xilinx/rapidwright/rwroute/GlobalSignalRouting.java:240-249 | A null region is a null dereference, and only then does the call fail. Otherwise up lists, in input order, exactly the regions above the centroid's row and down the others in input order, so every region goes to exactly one list |
| GlobalSignalRouting.SplitRows | src/com/xilinx/rapidwright/rwroute/GlobalSignalRouting.java:240-249 | Every region of the up filter is an input region above the centroid's row, and every region of the down filter an input region at or below it |
| GlobalSignalRouting.SplitKeepsAll | src/com/xilinx/rapidwright/rwroute/GlobalSignalRouting.java:240-249 | Together the two filters hold every input region exactly as often as the input does |
| GlobalSignalRouting.FirstReusable | src/com/xilinx/rapidwright/rwroute/GlobalSignalRouting.java:286-290 | The position of the first candidate that is already chosen or already in use, with no reusable candidate before it; none when no candidate is reusable |
| GlobalSignalRouting.ChooseLcb | src/com/xilinx/rapidwright/rwroute/GlobalSignalRouting.java:270-300 | The LCB chosen is none exactly when there is no candidate; it is reusable whenever some candidate is, and otherwise it is the first candidate |
| GlobalSignalRouting.CandidatesAreTwoHopLeaves | src/com/xilinx/rapidwright/rwroute/GlobalSignalRouting.java:270-294 | Every candidate is a usable GLOBAL_LEAF two hops uphill of the INT node, through a usable node |
| GlobalSignalRouting.ReusableStopsScan | src/com/xilinx/rapidwright/rwroute/GlobalSignalRouting.java:286-290 | A reusable leaf buffer met after only non-reusable candidates is the mapper's choice, so the early exit agrees with ChooseLcb |
| GlobalSignalRouting.ScannedAll | src/com/xilinx/rapidwright/rwroute/GlobalSignalRouting.java:297-300 | A scan that meets no reusable candidate settles on the first candidate it found, or on none |
| GlobalSignalRouting.ScanLeaves | src/com/xilinx/rapidwright/rwroute/GlobalSignalRouting.java:276-293 | The inner scan either ends the search with the mapper's choice or extends the candidate list by the usable leaf buffers uphill of the next node |
| GlobalSignalRouting.FindLcb | src/com/xilinx/rapidwright/rwroute/GlobalSignalRouting.java:270-300 | The nested scan returns exactly ChooseLcb of the INT node's two-hop candidates |
| GlobalSignalRouting.ChosenIsTwoHopLeaf | src/com/xilinx/rapidwright/rwroute/GlobalSignalRouting.java:270-300 | The buffer chosen for an INT node is a usable leaf buffer two hops uphill of it |
| GlobalSignalRouting.MapPin | src/com/xilinx/rapidwright/rwroute/GlobalSignalRouting.java:261-305 | An output pin leaves the mapping and the used set unchanged. An input pin without an INT node throws, and so does one with no candidate LCB. Otherwise the pin is appended to the list of the buffer ChooseLcb picks from its INT node's two-hop candidates, that buffer joins the used set, and the mapping invariant is kept |
| GlobalSignalRouting.MappingDone | src/com/xilinx/rapidwright/rwroute/GlobalSignalRouting.java:300-304 | Once all pins have been looked at, the invariant gives the promised mapping: each input pin is listed exactly once, under a two-hop leaf buffer of its first INT node, in pin order |
| GlobalSignalRouting.GetLcbPinMappings | src/com/xilinx/rapidwright/rwroute/GlobalSignalRouting.java:256-308 | The result is the pin-by-pin replay in which each input pin goes to ChooseLcb's buffer, the first failing pin deciding the error. On success every input pin is in the list of exactly one usable leaf buffer two hops uphill of its first INT node, and lists keep pin order; a failure names a pin with no INT node or no candidate |
| GlobalSignalRouting.MapReplayStopped | src/com/xilinx/rapidwright/rwroute/GlobalSignalRouting.java:261-305 | Once one pin fails, the whole mapping fails with that pin's error |
| StaticSources.LutPinIndexInverts | src/com/xilinx/rapidwright/rwroute/GlobalSignalRouting.java:65-78 | The initializer's order numbers the 64 LUT outputs one to one: the index of an output gives it back |
| StaticSources.LutPinAtInverts | src/com/xilinx/rapidwright/rwroute/GlobalSignalRouting.java:65-78 | Each of the 64 positions of the initializer's order names one LUT output, whose index is that position |
| StaticSources.LutPinNameInjective | src/com/xilinx/rapidwright/rwroute/GlobalSignalRouting.java:65-78 | Distinct LUT outputs have distinct wire names |
| StaticSources.LutTableMembers | src/com/xilinx/rapidwright/rwroute/GlobalSignalRouting.java:65-78 | The table holds exactly the wire names of the LUT outputs: A to H of SLICEL and SLICEM, as _O, MUX and the two Versal _O_PIN sites |
| StaticSources.BuildLutOutputPinNames | src/com/xilinx/rapidwright/rwroute/GlobalSignalRouting.java:65-78 | The static initializer's loops build that table, with 64 different names |
| StaticSources.LutTableNameLength | src/com/xilinx/rapidwright/rwroute/GlobalSignalRouting.java:65-78 | Every table name is at least 20 characters long, so every index the usability test reads exists |
| StaticSources.LutNameSlices | src/com/xilinx/rapidwright/rwroute/GlobalSignalRouting.java:605-636 | The character nine from the end of a table name is its Versal site digit (on other names, a fixed letter). The suffix tests (_O_PIN, _O, MUX) identify exactly the shape of a name, and the cut-out site-pin names carry its LUT letter |
| StaticSources.IsNodeUsableStaticSource | src/com/xilinx/rapidwright/rwroute/GlobalSignalRouting.java:592-642 | A node tied to the net's constant is usable; a node that is neither tied nor a LUT output is not; failures are only index, assertion or unexpected-name errors |
| StaticSources.LutSiteTest | src/com/xilinx/rapidwright/rwroute/GlobalSignalRouting.java:601-640 | The site test on a LUT output name fails only with an index, assertion or unexpected-name error |
| StaticSources.UsableStaticSourceByLutPin | src/com/xilinx/rapidwright/rwroute/GlobalSignalRouting.java:592-642 | For every LUT output name, the string slicing decides exactly what the field-level rule UsableLut decides: an empty site is usable, else the output's site wire (and for a MUX output the 6-LUT and 5-LUT outputs) must carry no other net |
| StaticSources.MuxNeedsFreeLuts | src/com/xilinx/rapidwright/rwroute/GlobalSignalRouting.java:619-632 | A MUX output on a placed site whose 6-LUT or 5-LUT output carries a net of another type is never usable |
| StaticSources.IsThisOurStaticSource | src/com/xilinx/rapidwright/rwroute/GlobalSignalRouting.java:577-582 | A node the net already uses is a source; any other node is one exactly when it is a usable static source |
| StaticSources.PruneNode | src/com/xilinx/rapidwright/rwroute/GlobalSignalRouting.java:541-569 | Global and long-line nodes and unavailable nodes are pruned. An in-use node is kept and recorded as used; the assertion that it was not visited is the only failure. Any other node is pruned exactly when it was visited |
| StaticRouting.TraceBack | src/com/xilinx/rapidwright/rwroute/GlobalSignalRouting.java:437-447 | Following the back pointers from the source found gives a repeat-free path to the sink, each step an uphill step the search may take |
| StaticRouting.ExpandUphill | src/com/xilinx/rapidwright/rwroute/GlobalSignalRouting.java:478-488 | The queue grows by exactly the uphill nodes, in order, that are not skipped route-thrus and that pruneNode keeps, each pointing back at the polled node. The used set grows by exactly the in-use uphill nodes. The call fails exactly when pruneNode meets an in-use node already visited. The search invariant is kept |
| StaticRouting.KeptUphill | src/com/xilinx/rapidwright/rwroute/GlobalSignalRouting.java:478-488 | A node is queued exactly when it is an uphill node that is neither a skipped route-thru nor pruned |
| StaticRouting.ExpandOne | src/com/xilinx/rapidwright/rwroute/GlobalSignalRouting.java:478-488 | One uphill node is queued, pointing back at the polled node, exactly when it is not a skipped route-thru and pruneNode keeps it. It is recorded as used exactly when it is in use. The assertion fails exactly when it is in use and already visited |
| StaticRouting.SourceFound | src/com/xilinx/rapidwright/rwroute/GlobalSignalRouting.java:431-457 | When the polled node is one of our static sources, the traced path runs from it to the sink and is recorded as used |
| StaticRouting.StaticSinkSearch | src/com/xilinx/rapidwright/rwroute/GlobalSignalRouting.java:405-493 | The backward search for one sink either finds a repeat-free path of search steps from a used, in-use or usable source to the sink, or gives up (empty queue or watchdog); the used set grows only by in-use nodes and path nodes |
| StaticRouting.SourcePinToCreate | src/com/xilinx/rapidwright/rwroute/GlobalSignalRouting.java:451-457 | A source pin is created exactly for a VCC/GND net whose source node is not tied to the constant and has an output site pin, and it is that site pin |
| StaticRouting.SinksReached | src/com/xilinx/rapidwright/rwroute/GlobalSignalRouting.java:444-447 | Once the net's PIPs are set, every sink the loop routed is reached by a search path made of them that starts at an in-use node or a usable static source |
| StaticRouting.GroundedAlong | src/com/xilinx/rapidwright/rwroute/GlobalSignalRouting.java:437-447 | Along a search path of the net's PIPs whose first node is reached from a source, every node is reached from a source too |
| StaticRouting.SourcePinsCreatedFor | src/com/xilinx/rapidwright/rwroute/GlobalSignalRouting.java:451-457 | Every source pin collected is the output site pin of the first node of a path of the net's PIPs to a newly routed pin |
| StaticRouting.RouteSinks | src/com/xilinx/rapidwright/rwroute/GlobalSignalRouting.java:391-499 | The sink loop marks routed only input pins it found a search path for, each reached by the collected PIPs from an in-use node or a usable static source; there is one path per newly routed pin. The collected PIPs are exactly the old ones and the PIPs of the paths found. The source pins to create are exactly those the paths' first nodes need |
| StaticRouting.RouteFoundSink | src/com/xilinx/rapidwright/rwroute/GlobalSignalRouting.java:431-457 | A sink whose path was found is marked routed, the PIPs collected grow by exactly that path's PIPs, the path is recorded for the sink, and the sink loop's state is kept |
| StaticRouting.CreateSourcePins | src/com/xilinx/rapidwright/rwroute/GlobalSignalRouting.java:502-528 | The call fails exactly when some requested site pin belongs to another net. Every pin appended is a routed output pin made from a requested site pin not yet on the net, and on success every such site pin gets one; the old pins and PIPs stay |
| StaticRouting.CreateSourcePin | src/com/xilinx/rapidwright/rwroute/GlobalSignalRouting.java:502-528 | One site pin: the call fails exactly when the pin is on another net; a pin not yet on any net is appended as a routed output pin; otherwise nothing changes |
| StaticRouting.NewPinsCreatedFor | src/com/xilinx/rapidwright/rwroute/GlobalSignalRouting.java:502-528 | Every appended pin is the new pin of a needed site pin that was collected for the source of a path to a newly routed pin |
| StaticRouting.RouteStaticNet | src/com/xilinx/rapidwright/rwroute/GlobalSignalRouting.java:334-531 | Every pin newly routed is an input pin with its own search path, reached by a path of the net's PIPs that starts at an in-use node or a usable static source. Once the sinks are searched, the call fails exactly when a source site pin some path needs is on another net. Pins appended are routed output pins, one for each needed site pin that was on no net. On success the PIPs are, each once, exactly the old ones and the PIPs of the paths found, each new one a search step; on failure the PIPs are unchanged |
| StaticRouting.StaticNetRouted | src/com/xilinx/rapidwright/rwroute/GlobalSignalRouting.java:437-530 | Once the PIPs are the old ones plus the paths' PIPs, every newly routed pin is reached from a source by them, and every appended pin is the site pin of the first node of one of their paths |
| VersalClockRouting.NearestTrackSearch | src/com/xilinx/rapidwright/router/VersalClockRouting.java:45-68 | The breadth-first search from the source stops at the first polled HROUTE_HSR entry, none polled before it being one, or gives up after 301 polls or when the queue is empty |
| VersalClockRouting.RouteBufgToNearestRoutingTrack | src/com/xilinx/rapidwright/router/VersalClockRouting.java:45-68 | A found routing track is an HROUTE_HSR and the appended PIPs are a walk from the source to it; no downhill walk from the source reaches an HROUTE_HSR in fewer hops; otherwise nothing is appended, and a net without a source is a null dereference |
| VersalClockRouting.NearestHsr | src/com/xilinx/rapidwright/router/VersalClockRouting.java:180-187 | The nearest HROUTE_HSR on the parent chain, with no HROUTE_HSR between it and the start; none when the chain holds none |
| VersalClockRouting.WalkToHsr | src/com/xilinx/rapidwright/router/VersalClockRouting.java:180-187 | The parent walk ends at NearestHsr (none where the router would dereference null) |
| VersalClockRouting.CentroidExpand | src/com/xilinx/rapidwright/router/VersalClockRouting.java:164-215 | Expanding an entry keeps the centroid arena invariant (allowed intents, visited once, cost the Manhattan distance to the region), and a stop is reported only at the VROUTE/GCLK/VDISTR_LVL2 pattern in the target region |
| VersalClockRouting.CentroidSearch | src/com/xilinx/rapidwright/router/VersalClockRouting.java:90-222 | On success the returned entry is the stop entry, its VROUTE parent, or the nearest HROUTE_HSR above that parent, as the two flags select; failures are the watchdog and null dereferences |
| VersalClockRouting.RouteToCentroid | src/com/xilinx/rapidwright/router/VersalClockRouting.java:78-222 | The appended PIPs are a walk from the start node to the answer. The answer is a GCLK when not adjusted (as in the three-argument form, which passes false for both flags), a VROUTE of the target region when adjusted, or an HROUTE_HSR when a centroid HROUTE is asked for. Nothing is appended otherwise |
| VersalClockRouting.DistributionLineSearch | src/com/xilinx/rapidwright/router/VersalClockRouting.java:300-324 | The breadth-first search over clocking wire connections stops at the first polled VDISTR of the region, none polled before it being one; a polled node without a clock region is a null dereference |
| VersalClockRouting.TransitionToRegion | src/com/xilinx/rapidwright/router/VersalClockRouting.java:300-324 | A found VDISTR of the region is reached by the appended PIPs, and no walk over clocking connections reaches one in fewer hops |
| VersalClockRouting.TransitionCentroidToDistributionLine | src/com/xilinx/rapidwright/router/VersalClockRouting.java:278-285 | A VDISTR is its own answer; otherwise the answer is a VDISTR of the line's own region reached by the appended PIPs |
| VersalClockRouting.VerticalTarget | src/com/xilinx/rapidwright/router/VersalClockRouting.java:287-298 | The target is the region one row down when routing down from above row 0, else the line's own region |
| VersalClockRouting.TransitionCentroidToVerticalDistributionLine | src/com/xilinx/rapidwright/router/VersalClockRouting.java:287-298 | As the two-argument form, but the VDISTR found lies in VerticalTarget's region; a line without a region going down is a null dereference |
| VersalClockRouting.NearestVroute | src/com/xilinx/rapidwright/router/VersalClockRouting.java:897-919 | The answer is a VROUTE of least distance from the centroid row. It is none exactly when every distance reaches Integer.MAX_VALUE. A VROUTE on the wrong side of the centroid fails the assertion, and only that fails |
| VersalDistribution.VdistrSearch | src/com/xilinx/rapidwright/router/VersalClockRouting.java:409-465 | The best-first search grows the arena only by children of allowed intents, and a found entry is a VDISTR in the region's row |
| VersalDistribution.VdistrStep | src/com/xilinx/rapidwright/router/VersalClockRouting.java:409-467 | An INUSE line found becomes a starting point and adds no PIP. Otherwise exactly its back PIPs are collected, a walk from the VROUTE or from an end of an earlier PIP; their ends become starting points, and the line is reached by a walk of collected PIPs from the VROUTE. Not finding a line throws |
| VersalDistribution.VerticalRegion | src/com/xilinx/rapidwright/router/VersalClockRouting.java:409-467 | One region's search extends the lines found so far, keeping every line reached as LinesReached states. The line found is an INUSE VDISTR of the row with an empty walk, or is reached by a walk from the VROUTE or an earlier PIP's end; the PIPs grow by exactly that walk's PIPs |
| VersalDistribution.VerticalStep | src/com/xilinx/rapidwright/router/VersalClockRouting.java:409-467 | One more target region is handled: its line and walk extend the record of lines and walks, and the collected PIPs stay exactly the union of the walks |
| VersalDistribution.VerticalLinesSearch | src/com/xilinx/rapidwright/router/VersalClockRouting.java:390-467 | Every target region gets a VDISTR of its row; each one not INUSE is reached by a walk of collected PIPs from the VROUTE, and so is every end of a collected PIP. The collected PIPs are exactly the union of the regions' walks: none for an INUSE line, else the back path from the VROUTE or an earlier PIP's end |
| VersalDistribution.RouteVrouteToVerticalDistributionLines | src/com/xilinx/rapidwright/router/VersalClockRouting.java:390-471 | Every target region maps to a VDISTR of its row. A line not in use, and each end of every appended PIP, is reached by a walk of appended PIPs from the VROUTE. The PIPs are appended once each, and only on success, and they are exactly the union of the regions' walks |
| VersalDistribution.ReachedAlong | src/com/xilinx/rapidwright/router/VersalClockRouting.java:424-431 | A walk of new back PIPs from a reached node reaches both ends of each of its PIPs and its last node |
| VersalDistribution.LinesReachedStep | src/com/xilinx/rapidwright/router/VersalClockRouting.java:420-436 | A line found for one more region keeps every line found so far a VDISTR of its row, INUSE ones starting points and the others reached from the VROUTE |
| VersalDistribution.HdistrSearch | src/com/xilinx/rapidwright/router/VersalClockRouting.java:497-558 | A found entry is an HDISTR_LOCAL driving a GCLK of the region; a starting line that is itself such a GCLK is a null dereference, and only then |
| VersalDistribution.FirstInUse | src/com/xilinx/rapidwright/router/VersalClockRouting.java:516-524 | The number of back PIPs before the first that starts at an INUSE node |
| VersalDistribution.ThroughFirstInUse | src/com/xilinx/rapidwright/router/VersalClockRouting.java:516-524 | The prefix of the back PIPs up to and including the first that starts at an INUSE node |
| VersalDistribution.CollectUntilInUse | src/com/xilinx/rapidwright/router/VersalClockRouting.java:516-524 | The PIP loop keeps exactly ThroughFirstInUse, and its assertion fails exactly when a PIP before the first INUSE start starts at a node that is not AVAILABLE |
| VersalDistribution.HorizontalRegion | src/com/xilinx/rapidwright/router/VersalClockRouting.java:497-559 | One region's HDISTR_LOCAL is reached from the region's vertical line; the kept PIPs are that path through its first INUSE node, each a downhill edge into an allowed intent |
| VersalDistribution.HorizontalStep | src/com/xilinx/rapidwright/router/VersalClockRouting.java:497-559 | One more target region is handled: its HDISTR_LOCAL and full back path extend the record, and the collected PIPs stay exactly the paths' prefixes through their first INUSE start |
| VersalDistribution.HorizontalLinesSearch | src/com/xilinx/rapidwright/router/VersalClockRouting.java:480-559 | Every target region gets an HDISTR_LOCAL driving one of its GCLKs, reached as HorizontalRegion states; the collected PIPs are exactly the regions' back paths cut after their first INUSE start |
| VersalDistribution.RouteVerticalToHorizontalDistributionLines | src/com/xilinx/rapidwright/router/VersalClockRouting.java:480-562 | Every target region maps to an HDISTR_LOCAL reached from its vertical line. The PIPs are appended once each, and only on success, and they are exactly the regions' back paths cut after their first INUSE start. A null dereference happens only for a region with no line or whose line is a GCLK |
| VersalDistribution.VdistrLinesAreNotGclks | src/com/xilinx/rapidwright/router/VersalClockRouting.java:760-805 | The lines of the vertical stage are VDISTRs, never GCLKs, so the horizontal stage never dereferences null when it starts from them |
| VersalDistribution.RouteToHorizontalDistributionLines | src/com/xilinx/rapidwright/router/VersalClockRouting.java:760-805 | The two stages together map every target region to an HDISTR_LOCAL that drives one of its GCLKs. Each region's vertical line is a VDISTR of its row reached, unless INUSE, by appended PIPs from the VROUTE; the HDISTR_LOCAL is reached from that line by a walk whose PIPs up to the first INUSE start are appended. The appended PIPs are exactly the vertical walks' PIPs and the horizontal walks' kept prefixes, each a downhill edge; failures are only unroutable lines or assertions |
| VersalDistribution.RegionsRouted | src/com/xilinx/rapidwright/router/VersalClockRouting.java:760-805 | The vertical stage's reachability and the horizontal stage's paths hold together over the PIPs both stages append |
| VersalLeafRouting.GetStartingPoints | src/com/xilinx/rapidwright/router/VersalClockRouting.java:574-586 | One starting set per region of the distribution lines, holding exactly that region's line |
| VersalLeafRouting.PollCheapest | src/com/xilinx/rapidwright/router/VersalClockRouting.java:608 | The polled entry is queued and costs no more than any queued entry |
| VersalLeafRouting.EnqueueChildren | src/com/xilinx/rapidwright/router/VersalClockRouting.java:637-653 | Each enterable downhill node not yet visited is appended as a child with its distance to the LCB as cost |
| VersalLeafRouting.LcbSearch | src/com/xilinx/rapidwright/router/VersalClockRouting.java:598-655 | The search finds the LCB exactly when some walk of enterable nodes of the region leads from a starting point to it |
| VersalLeafRouting.ExhaustedNoWalk | src/com/xilinx/rapidwright/router/VersalClockRouting.java:598-655 | A search whose queue ran empty leaves no walk to the LCB |
| VersalLeafRouting.LcbFound | src/com/xilinx/rapidwright/router/VersalClockRouting.java:610-620 | The back path of a found entry is a walk of enterable nodes from a starting point |
| VersalLeafRouting.ReachedWalks | src/com/xilinx/rapidwright/router/VersalClockRouting.java:610-620 | A node reached through kept PIPs of the region has a walk from the starting points |
| VersalLeafRouting.RouteOneLcb | src/com/xilinx/rapidwright/router/VersalClockRouting.java:598-656 | When one LCB is found, exactly its back PIPs are kept, a walk of enterable nodes of its region from an original starting point of that region or an end of a PIP kept earlier for an LCB of the same region, and their ends become starting points of its region only. When it is not found, no walk from the region's starting points reaches it |
| VersalLeafRouting.AllLcbsReached | src/com/xilinx/rapidwright/router/VersalClockRouting.java:598-656 | When every listed LCB was handled, every LCB of the target set is reached and routable |
| VersalLeafRouting.LcbRoutes | src/com/xilinx/rapidwright/router/VersalClockRouting.java:588-656 | Success holds exactly when every LCB has a walk of enterable nodes of its region from the starting points. Then every LCB is reached by the kept PIPs, which are exactly the union of one back path per LCB, each through enterable nodes of the LCB's region from an original starting point of it or an end of a PIP of an earlier path of the same region |
| VersalLeafRouting.RouteToLcbs | src/com/xilinx/rapidwright/router/VersalClockRouting.java:588-658 | On success the PIPs appended, once each, are exactly the union of the LCBs' back paths, and they reach every LCB; on failure the net is unchanged and some LCB has no walk |
| VersalLeafRouting.RouteDistributionToLcbs | src/com/xilinx/rapidwright/router/VersalClockRouting.java:569-572 | The LCB stage from one distribution line per region succeeds exactly when every LCB has a walk from its region's line; the appended PIPs are then exactly the LCBs' back paths from those lines |
| VersalSinkRouting.SinkSearchAsWritten | src/com/xilinx/rapidwright/router/VersalClockRouting.java:699-739 | The search as written answers an arena of checked children and an entry wrapping the sink |
| VersalSinkRouting.AsWrittenMissesSink | src/com/xilinx/rapidwright/router/VersalClockRouting.java:730-737 | On a four-node graph with a checked walk from the LCB to the sink, the search as written fails while the corrected search finds the sink |
| VersalSinkRouting.BfsLoop | src/com/xilinx/rapidwright/router/VersalClockRouting.java:699-739 | The queue loop computes SinkBfs from the LCB alone |
| VersalSinkRouting.BfsFoundWalks | src/com/xilinx/rapidwright/router/VersalClockRouting.java:699-739 | When every marked node is enqueued, a found sink is reached by a walk of checked edges |
| VersalSinkRouting.BfsComplete | src/com/xilinx/rapidwright/router/VersalClockRouting.java:699-739 | When every marked node is enqueued, a sink reached by a checked walk is found |
| VersalSinkRouting.SearchFromStart | src/com/xilinx/rapidwright/router/VersalClockRouting.java:699-739 | The corrected search from the LCB finds the sink exactly when a walk of checked edges reaches it |
| VersalSinkRouting.SinkSearch | src/com/xilinx/rapidwright/router/VersalClockRouting.java:699-739 | The search for a sink answers an entry wrapping the sink exactly when a walk of checked edges leads from the LCB to it |
| VersalSinkRouting.CollectThroughInUse | src/com/xilinx/rapidwright/router/VersalClockRouting.java:703-718 | The PIP loop keeps the back path through its first INUSE start. Its assertions fail exactly when a PIP before that one does not start at an AVAILABLE node, or one after it does not start at an INUSE node |
| VersalSinkRouting.FoundChain | src/com/xilinx/rapidwright/router/VersalClockRouting.java:699-739 | The back PIPs of the sink found are a walk from the LCB to it, each passing every check |
| VersalSinkRouting.SinkStep | src/com/xilinx/rapidwright/router/VersalClockRouting.java:702-721 | The sink found next is marked routed and reached through the kept PIPs |
| VersalSinkRouting.RouteLcbSinks | src/com/xilinx/rapidwright/router/VersalClockRouting.java:693-741 | With the corrected search: each sink of one LCB is marked routed and reached by kept checked PIPs, and the PIPs kept are exactly, sink by sink, a checked back path from the LCB cut after its first INUSE start; only those sinks become routed; an unroutable failure names a sink no checked walk reaches |
| VersalSinkRouting.SinksOfLcb | src/com/xilinx/rapidwright/router/VersalClockRouting.java:688-749 | With the corrected search: one LCB's kept PIPs, exactly those of its sinks' cut back paths, are appended once each and their nodes join the used set. The earlier LCBs stay done; on failure nothing is appended |
| VersalSinkRouting.AppendLcbPips | src/com/xilinx/rapidwright/router/VersalClockRouting.java:743-748 | The PIPs kept for one LCB are appended, each once and nothing else, their nodes join the used set, and the LCB joins those done |
| VersalSinkRouting.RouteNextLcb | src/com/xilinx/rapidwright/router/VersalClockRouting.java:688-748 | With the corrected search: one more LCB is done and its sinks' cut back paths extend the record, or the call fails with the PIPs unchanged |
| VersalSinkRouting.RouteLcbsToSinks | src/com/xilinx/rapidwright/router/VersalClockRouting.java:666-750 | With the corrected search: only assigned sinks become routed. The appended PIPs are checked edges, and they are exactly, LCB by LCB in the map's order, the cut back paths of its sinks, each searched avoiding the nodes of the earlier LCBs' PIPs; this holds on failure too, for the LCBs completed. On success every sink of every LCB is reached through them. An unroutable failure names a sink that no walk avoiding earlier LCBs' nodes reaches |

## Left out

- **Not modelled at all**, because they sit outside the global-signal core:
  - the rest of `VersalClockRouting`: `routeToCentroidNode`, `routeCentroidToVerticalDistributionLines`, `check`, and `incrementalClockRouter` apart from its nearest-VROUTE choice (its PIP scan, centroid row, region split and the calls to the modelled stages);
  - the rest of `GlobalSignalRouting`: `symmetricClkRouting`, `routeClkWithPartialRoutes`, the UltraScale clock-routing calls and the debug output;
  - CUFR's timers, statistics and graph factories.
- CUFR's partition-tree builder is not part of this model. `Cufr.CufrRouter.RouteIndirectConnections` takes the tree it would build as a parameter.
- The fork of CUFR's left and right subtrees runs in parallel in the source; the model runs them one after the other, in an order chosen per node. The worker-to-state map is an explicit field, not a thread-local.
- Device queries are fields of `Device.Graph`. Wires and nodes are identified, and the route-thru helper is one of these fields.
- Node status is a parameter, not the routers' callback. Hash-set and hash-map iteration order is a parameter (`Enumerate`). Tie-breaking in priority queues is unspecified.
- `RouteNode` equality by node and the resetting of a root's parent are modelled by arena entries.
- Root costs and costs nobody sets are taken as 0.
- Java `int` overflow of costs, deltas and watchdog counters is not modelled: integers are unbounded.
- Java `assert`s are modelled as enabled (they become `AssertionViolated` errors).
- GlobalSignalRouting.GetDominateClockRegionOfNode: returns the dominant region itself, not its name string.
- VersalClockRouting.CentroidSearch: a search whose queue runs empty answers none, and the model does not characterise that case. VersalClockRouting.RouteToCentroid inherits this.
- VersalDistribution.VdistrSearch: a search that finds no VDISTR is not characterised; in particular the model does not prove that no walk exists.
- VersalDistribution.HdistrSearch: a search that finds no HDISTR_LOCAL is not characterised either.
- StaticRouting.StaticSinkSearch: a sink left unrouted is not proved unreachable. The 50000-expansion watchdog can stop the search before it has explored everything.
- VersalSinkRouting.RouteLcbSinks: uses the corrected sink search (see Findings), not the search as written; its unroutable-failure clause describes the corrected search.
- VersalSinkRouting.SinksOfLcb: uses the corrected sink search, as RouteLcbSinks does.
- VersalSinkRouting.RouteLcbsToSinks: uses the corrected sink search, as RouteLcbSinks does.
- VersalSinkRouting.RouteNextLcb: uses the corrected sink search, as SinksOfLcb does.
- VersalSinkRouting.RouteLcbsToSinks: on failure, sinks already marked routed stay routed, and the PIPs of the LCB being routed are dropped, as in the source.

## Findings

| source | as written | input that shows it | evidently intended | confidence | as-written member | corrected member |
|---|---|---|---|---|---|---|
| src/com/xilinx/rapidwright/router/VersalClockRouting.java:730-737 | The sink search marks a downhill node visited once its intent code passes. Only then does it reject the node for being used by an earlier LCB, for being reached over a route-thru PIP, or for being unavailable. A node rejected over one edge is never enqueued later over another edge | LCB node 0 with downhill 0→{1,2}, 2→{1}, 1→{3}; only 0→1 is a route-thru; all nodes are IMUX and available; the sink is on node 3. The search marks node 1 while rejecting the route-thru, so it never follows 0→2→1→3 | A sink is found whenever some walk of edges that pass every check leads from the LCB to it | not executed | VersalSinkRouting.AsWrittenMissesSink | VersalSinkRouting.SinkSearch |

=== FILE: Cufr.dfy ===
/**
 * The scheduling order of the parallel connection router (Recursive Partitioning Ternary Tree).
 * A partition-tree node carries its own connections and up to three subtrees. Routing a tree calls
 * the per-connection router of the base router once per leaf; the trace of those calls (one batch
 * of connections per call) is the observable effect. The fork of the left and right subtrees is
 * sequential here, in an order chosen per node by `leftFirst`.
 */
module Cufr {
  import opened Wrappers
  import opened Device

  type Connection = nat
  type Batch = seq<Connection>

  datatype PartitionTreeNode = PartitionTreeNode(
    connections: seq<Connection>,
    left: Option<PartitionTreeNode>,
    right: Option<PartitionTreeNode>,
    middle: Option<PartitionTreeNode>)

  predicate IsLeaf(t: PartitionTreeNode)
  {
    t.left.None? && t.right.None?
  }

  /** The shape the traversal asserts: leaves have no middle, inner nodes have both sides. */
  ghost predicate WellShaped(t: PartitionTreeNode)
    decreases t
  {
    if IsLeaf(t) then t.middle.None?
    else
      && t.left.Some? && t.right.Some?
      && WellShaped(t.left.value) && WellShaped(t.right.value)
      && (t.middle.Some? ==> WellShaped(t.middle.value))
  }

  /** `b` is the connection list of some leaf of `t`. */
  ghost predicate HasLeafWith(t: PartitionTreeNode, b: Batch)
    decreases t
  {
    || (IsLeaf(t) && t.connections == b)
    || (t.left.Some? && HasLeafWith(t.left.value, b))
    || (t.right.Some? && HasLeafWith(t.right.value, b))
    || (t.middle.Some? && HasLeafWith(t.middle.value, b))
  }

  /** The connection lists of the leaves of `t`, counted with multiplicity. */
  ghost function LeafBatches(t: PartitionTreeNode): multiset<Batch>
    decreases t
  {
    if IsLeaf(t) then multiset{t.connections}
    else
      (if t.left.Some? then LeafBatches(t.left.value) else multiset{})
      + (if t.right.Some? then LeafBatches(t.right.value) else multiset{})
      + (if t.middle.Some? then LeafBatches(t.middle.value) else multiset{})
  }

  /**
   * routePartitionTree: the batches handed to the per-connection router, in order. A leaf routes
   * its own list; an inner node routes its middle subtree first, then its left and right subtrees
   * (in the order `leftFirst` picks). A failed shape assertion is an error.
   */
  function RoutePartitionTree(t: PartitionTreeNode, leftFirst: PartitionTreeNode -> bool)
    : Result<seq<Batch>, RouteError>
    decreases t
  {
    if IsLeaf(t) then
      if t.middle.Some? then Err(AssertionViolated) else Ok([t.connections])
    else if t.left.None? || t.right.None? then Err(AssertionViolated)
    else
      var m := if t.middle.Some? then RoutePartitionTree(t.middle.value, leftFirst) else Ok([]);
      var l := RoutePartitionTree(t.left.value, leftFirst);
      var r := RoutePartitionTree(t.right.value, leftFirst);
      if m.Err? then m
      else if l.Err? then l
      else if r.Err? then r
      else if leftFirst(t) then Ok(m.value + l.value + r.value)
      else Ok(m.value + r.value + l.value)
  }

  /** The traversal succeeds exactly on well-shaped trees, whatever order the forks take. */
  lemma {:induction false} RouteSucceedsIffWellShaped(t: PartitionTreeNode, leftFirst: PartitionTreeNode -> bool)
    ensures RoutePartitionTree(t, leftFirst).Ok? <==> WellShaped(t)
    decreases t
  {
    if !IsLeaf(t) && t.left.Some? && t.right.Some? {
      RouteSucceedsIffWellShaped(t.left.value, leftFirst);
      RouteSucceedsIffWellShaped(t.right.value, leftFirst);
      if t.middle.Some? {
        RouteSucceedsIffWellShaped(t.middle.value, leftFirst);
      }
    }
  }

  /**
   * In an inner node's trace the middle subtree's batches come first, and the left and right
   * subtrees' traces both follow in full, one after the other.
   */
  lemma MiddleRoutedFirst(t: PartitionTreeNode, leftFirst: PartitionTreeNode -> bool)
    requires !IsLeaf(t) && RoutePartitionTree(t, leftFirst).Ok?
    ensures t.left.Some? && t.right.Some?
    ensures RoutePartitionTree(t.left.value, leftFirst).Ok?
    ensures RoutePartitionTree(t.right.value, leftFirst).Ok?
    ensures t.middle.Some? ==> RoutePartitionTree(t.middle.value, leftFirst).Ok?
    ensures var tr := RoutePartitionTree(t, leftFirst).value;
      var m := if t.middle.Some? then RoutePartitionTree(t.middle.value, leftFirst).value else [];
      var l := RoutePartitionTree(t.left.value, leftFirst).value;
      var r := RoutePartitionTree(t.right.value, leftFirst).value;
      tr == m + l + r || tr == m + r + l
  {
  }

  /**
   * Each leaf's list is handed to the router exactly once and nothing else is: an inner node's
   * own list is never routed directly.
   */
  lemma {:induction false} OnlyLeavesRouted(t: PartitionTreeNode, leftFirst: PartitionTreeNode -> bool)
    requires RoutePartitionTree(t, leftFirst).Ok?
    ensures multiset(RoutePartitionTree(t, leftFirst).value) == LeafBatches(t)
    decreases t
  {
    var tr := RoutePartitionTree(t, leftFirst).value;
    if !IsLeaf(t) {
      MiddleRoutedFirst(t, leftFirst);
      var l := RoutePartitionTree(t.left.value, leftFirst).value;
      var r := RoutePartitionTree(t.right.value, leftFirst).value;
      OnlyLeavesRouted(t.left.value, leftFirst);
      OnlyLeavesRouted(t.right.value, leftFirst);
      var m: seq<Batch> := [];
      if t.middle.Some? {
        m := RoutePartitionTree(t.middle.value, leftFirst).value;
        OnlyLeavesRouted(t.middle.value, leftFirst);
      }
      assert multiset(tr) == multiset(m) + multiset(l) + multiset(r);
    }
  }

  /** Every batch handed to the router is the connection list of some leaf. */
  lemma {:induction false} RoutedBatchesAreLeaves(t: PartitionTreeNode, leftFirst: PartitionTreeNode -> bool)
    requires RoutePartitionTree(t, leftFirst).Ok?
    ensures forall b | b in RoutePartitionTree(t, leftFirst).value :: HasLeafWith(t, b)
    decreases t
  {
    var tr := RoutePartitionTree(t, leftFirst).value;
    if !IsLeaf(t) {
      MiddleRoutedFirst(t, leftFirst);
      var l := RoutePartitionTree(t.left.value, leftFirst).value;
      var r := RoutePartitionTree(t.right.value, leftFirst).value;
      RoutedBatchesAreLeaves(t.left.value, leftFirst);
      RoutedBatchesAreLeaves(t.right.value, leftFirst);
      var m: seq<Batch> := [];
      if t.middle.Some? {
        m := RoutePartitionTree(t.middle.value, leftFirst).value;
        RoutedBatchesAreLeaves(t.middle.value, leftFirst);
      }
      forall b | b in tr
        ensures HasLeafWith(t, b)
      {
        assert b in m || b in l || b in r;
      }
    }
  }

  /** A leaf routes exactly its own connections, in one call. */
  lemma LeafRoutesOwnConnections(t: PartitionTreeNode, leftFirst: PartitionTreeNode -> bool)
    requires IsLeaf(t) && t.middle.None?
    ensures RoutePartitionTree(t, leftFirst) == Ok([t.connections])
  {
  }

  /** The order in which the forks run changes neither the outcome nor the routed batches. */
  lemma ForkOrderIrrelevant(t: PartitionTreeNode, o1: PartitionTreeNode -> bool, o2: PartitionTreeNode -> bool)
    ensures RoutePartitionTree(t, o1).Ok? == RoutePartitionTree(t, o2).Ok?
    ensures RoutePartitionTree(t, o1).Ok? ==>
      multiset(RoutePartitionTree(t, o1).value) == multiset(RoutePartitionTree(t, o2).value)
  {
    RouteSucceedsIffWellShaped(t, o1);
    RouteSucceedsIffWellShaped(t, o2);
    if RoutePartitionTree(t, o1).Ok? {
      OnlyLeavesRouted(t, o1);
      OnlyLeavesRouted(t, o2);
    }
  }

  /** Per-worker scratch state of the connection router. */
  class ConnectionState {
    constructor ()
    {
    }
  }

  type WorkerId = nat

  class CufrRouter {
    var partitionTree: Option<PartitionTreeNode>
    var routeIteration: nat
    const enlargeBoundingBox: bool
    /** The batches handed to the per-connection router so far. */
    var routedBatches: seq<Batch>
    var connectionState: map<WorkerId, ConnectionState>

    constructor (routeIteration: nat, enlargeBoundingBox: bool)
      ensures this.routeIteration == routeIteration && this.enlargeBoundingBox == enlargeBoundingBox
      ensures partitionTree.None? && routedBatches == [] && connectionState == map[]
    {
      this.routeIteration := routeIteration;
      this.enlargeBoundingBox := enlargeBoundingBox;
      partitionTree := None;
      routedBatches := [];
      connectionState := map[];
    }

    /**
     * routeIndirectConnections: rebuilds the partition tree (to `rebuilt`, what the tree builder
     * returns for the sorted indirect connections) on the first iteration or when bounding boxes
     * are enlarged, keeps the previous tree otherwise, and routes the tree's root.
     */
    method RouteIndirectConnections(rebuilt: PartitionTreeNode, leftFirst: PartitionTreeNode -> bool)
      returns (r: Result<(), RouteError>)
      modifies this
      ensures old(routeIteration) == 1 || enlargeBoundingBox ==> partitionTree == Some(rebuilt)
      ensures !(old(routeIteration) == 1 || enlargeBoundingBox) ==> partitionTree == old(partitionTree)
      ensures partitionTree.None? ==> r == Err(NullDereference) && routedBatches == old(routedBatches)
      ensures partitionTree.Some? ==>
        match RoutePartitionTree(partitionTree.value, leftFirst)
        case Ok(tr) => r.Ok? && routedBatches == old(routedBatches) + tr
        case Err(e) => r == Err(e) && routedBatches == old(routedBatches)
      ensures routeIteration == old(routeIteration) && connectionState == old(connectionState)
    {
      var firstIteration := routeIteration == 1;
      if firstIteration || enlargeBoundingBox {
        partitionTree := Some(rebuilt);
      }
      if partitionTree.None? {
        return Err(NullDereference);
      }
      match RoutePartitionTree(partitionTree.value, leftFirst)
      case Ok(tr) =>
        routedBatches := routedBatches + tr;
        r := Ok(());
      case Err(e) =>
        r := Err(e);
    }

    /**
     * getConnectionState: the state of `worker`, created on its first request and returned as
     * the same instance on every later one.
     */
    method GetConnectionState(worker: WorkerId) returns (s: ConnectionState)
      modifies this
      ensures worker in old(connectionState) ==>
        s == old(connectionState)[worker] && connectionState == old(connectionState)
      ensures worker !in old(connectionState) ==>
        fresh(s) && connectionState == old(connectionState)[worker := s]
      ensures partitionTree == old(partitionTree) && routedBatches == old(routedBatches)
      ensures routeIteration == old(routeIteration)
    {
      if worker in connectionState {
        s := connectionState[worker];
      } else {
        s := new ConnectionState();
        connectionState := connectionState[worker := s];
      }
    }
  }
}

=== FILE: Device.dfy ===
/**
 * The device database as the global-signal router sees it. Nodes are identified by number;
 * every query the router makes of a node (its downhill and uphill neighbours, its intent code,
 * the clock region of its tile, its wire name, ...) is a total function field of `Graph`.
 * The node universe `nodes` is finite and closed under the neighbour queries.
 */
module Device {
  import opened Wrappers

  type Node = nat

  datatype Series = Series7 | UltraScale | UltraScalePlus | Versal | OtherSeries

  datatype NetType = Gnd | Vcc | Wire | UnknownType

  /** The intent codes the router branches on; every other code is `OtherIntent`. */
  datatype IntentCode =
    | GlobalHrouteHsr | GlobalHroute | GlobalGclk | GlobalVroute
    | GlobalVdistr | GlobalVdistrLvl1 | GlobalVdistrLvl2
    | GlobalHdistr | GlobalHdistrLocal | GlobalLeaf | GlobalBufg
    | Pinfeed | Hlong | Vlong
    | CleCnode | IntfCnode | CleCtrl | IntfCtrl | Iri | Inode | Pinbounce | CleBnode | Imux
    | OtherIntent

  /** The node-status oracle's answer for a node. */
  datatype NodeStatus = Available | InUse | Unavailable

  /** A clock region; `row` is also the region's instance Y coordinate. */
  datatype ClockRegion = ClockRegion(row: int, col: int)

  /** A programmable interconnect point, directed from its start node to its end node. */
  datatype Pip = Pip(startNode: Node, endNode: Node)

  /** A physical site pin: the site, the pin name, its direction, its connected node and tile region. */
  datatype SitePin = SitePin(site: nat, pinName: string, isInput: bool, node: Node,
                             tileRegion: Option<ClockRegion>)

  /**
   * A site-pin instance of a net: its name, whether it is an output, the node it connects to,
   * the clock region of its tile, and the interconnect nodes its input projects onto (None when
   * the projection gives null).
   */
  datatype Pin = Pin(name: string, isOut: bool, node: Node, tileRegion: Option<ClockRegion>,
                     intNodes: Option<seq<Node>>)

  datatype Graph = Graph(
    nodes: set<Node>,
    downhill: Node -> seq<Node>,
    uphill: Node -> seq<Node>,
    wireConnections: Node -> seq<Node>,
    intent: Node -> IntentCode,
    region: Node -> Option<ClockRegion>,
    wireName: Node -> string,
    tileY: Node -> int,
    wireRegions: Node -> seq<Option<ClockRegion>>,
    centerDistance: (Node, ClockRegion) -> int,
    nodeDistance: (Node, Node) -> int,
    isRouteThru: (Node, Node) -> bool,
    isVersalClocking: IntentCode -> bool,
    onBliCleBotTile: Node -> bool,
    tiedToVcc: Node -> bool,
    tiedToGnd: Node -> bool,
    sitePin: Node -> Option<SitePin>
  )

  /** The node universe is closed under every neighbour query. */
  ghost predicate Closed(g: Graph)
  {
    && (forall n, d | n in g.nodes && d in g.downhill(n) :: d in g.nodes)
    && (forall n, u | n in g.nodes && u in g.uphill(n) :: u in g.nodes)
    && (forall n, w | n in g.nodes && w in g.wireConnections(n) :: w in g.nodes)
  }

  /** Ways in which a routing call ends abnormally. */
  datatype RouteError =
    | Unroutable          // a search ran out of candidates and the router throws
    | WatchdogExpired     // a bounded search ran out of its watchdog and the router throws
    | NullDereference     // the router dereferences a null value
    | AssertionViolated   // a Java assertion fails (assertions enabled)
    | IndexOutOfRange     // an array index outside its bounds
    | NoIntNode           // an input pin projects onto no interconnect node
    | NoLcbCandidate      // no leaf clock buffer can drive an input pin
    | UnexpectedWireName  // a wire name with a suffix the static router does not know
    | PinOnOtherNet       // a source pin to create is already used by another net

  function Abs(x: int): nat
  {
    if x < 0 then -x else x
  }

  /** The cost used by the centroid search: Manhattan distance between two clock regions. */
  function RegionDistance(a: ClockRegion, b: ClockRegion): nat
  {
    Abs(a.col - b.col) + Abs(a.row - b.row)
  }
}

=== FILE: GlobalSignalRouting.dfy ===
/**
 * The clock-net helpers of the global-signal router: the dominant clock region of a node, the
 * clock regions of a net's sinks and their up/down split around a centroid, and the mapping of
 * each clock sink pin to the leaf clock buffer (LCB) that will drive it.
 */
module GlobalSignalRouting {
  import opened Wrappers
  import opened Device
  import opened SearchArena

  // ---------------------------------------------------------------- dominant clock region

  /** crCounts: for every region some wire of the node lies in, the number of such wires. */
  method CountWireRegions(wires: seq<Option<ClockRegion>>) returns (counts: map<ClockRegion, nat>)
    ensures forall cr :: cr in counts <==> Some(cr) in wires
    ensures forall cr | cr in counts :: counts[cr] == multiset(wires)[Some(cr)] && counts[cr] >= 1
  {
    counts := map[];
    var i := 0;
    while i < |wires|
      invariant 0 <= i <= |wires|
      invariant forall cr :: cr in counts <==> Some(cr) in wires[..i]
      invariant forall cr | cr in counts :: counts[cr] == multiset(wires[..i])[Some(cr)] && counts[cr] >= 1
    {
      assert wires[..i + 1] == wires[..i] + [wires[i]];
      if wires[i].Some? {
        var cr := wires[i].value;
        var c := if cr in counts then counts[cr] else 0;
        counts := counts[cr := c + 1];
      }
      i := i + 1;
    }
    assert wires[..i] == wires;
  }

  /**
   * getDominateClockRegionOfNode: a region holding at least as many of the node's wires as any
   * other region (ties go to whichever the hash map yields first), or None when no wire of the
   * node lies in a clock region.
   */
  method GetDominateClockRegionOfNode(g: Graph, node: Node) returns (dominate: Option<ClockRegion>)
    ensures dominate.None? <==> forall w | w in g.wireRegions(node) :: w.None?
    ensures dominate.Some? ==> Some(dominate.value) in g.wireRegions(node)
    ensures dominate.Some? ==> forall cr ::
      multiset(g.wireRegions(node))[Some(cr)] <= multiset(g.wireRegions(node))[Some(dominate.value)]
  {
    var wires := g.wireRegions(node);
    var counts := CountWireRegions(wires);
    dominate := None;
    var max := 0;
    var rest := counts.Keys;
    while rest != {}
      invariant rest <= counts.Keys
      invariant forall cr | cr in counts && cr !in rest :: counts[cr] <= max
      invariant dominate.Some? ==> dominate.value in counts && counts[dominate.value] == max
      invariant dominate.None? ==> max == 0 && rest == counts.Keys
      decreases rest
    {
      var cr :| cr in rest;
      if counts[cr] > max {
        max := counts[cr];
        dominate := Some(cr);
      }
      rest := rest - {cr};
    }
    assert forall w | w in wires && w.Some? :: w.value in counts;
    if dominate.Some? {
      forall cr
        ensures multiset(wires)[Some(cr)] <= multiset(wires)[Some(dominate.value)]
      {
        if Some(cr) in wires {
          assert cr in counts;
        }
      }
    }
  }

  // ---------------------------------------------------------------- clock regions of a net

  /** Pin j is a sink (input) pin of the net whose tile lies in region r (None: no region). */
  ghost predicate SinkIn(pins: seq<Pin>, j: int, r: Option<ClockRegion>)
  {
    0 <= j < |pins| && !pins[j].isOut && pins[j].tileRegion == r
  }

  /** Some sink pin before position i lies in region r. */
  ghost predicate SinkBefore(pins: seq<Pin>, i: int, r: Option<ClockRegion>)
  {
    exists j | 0 <= j < i :: SinkIn(pins, j, r)
  }

  /**
   * getClockRegionsOfNet: the distinct tile regions of the net's sink pins, each listed once, in
   * the order of their first appearance among the sinks.
   */
  method GetClockRegionsOfNet(pins: seq<Pin>) returns (regions: seq<Option<ClockRegion>>)
    ensures Distinct(regions)
    ensures forall j | 0 <= j < |pins| && !pins[j].isOut :: pins[j].tileRegion in regions
    ensures forall k | 0 <= k < |regions| :: SinkBefore(pins, |pins|, regions[k])
    ensures forall a, b, i | 0 <= a < b < |regions| && SinkIn(pins, i, regions[b]) ::
      SinkBefore(pins, i, regions[a])
  {
    regions := [];
    ghost var first: seq<nat> := [];
    var i := 0;
    while i < |pins|
      invariant 0 <= i <= |pins|
      invariant |first| == |regions| && Distinct(regions)
      invariant forall j | 0 <= j < i && !pins[j].isOut :: pins[j].tileRegion in regions
      invariant forall k | 0 <= k < |regions| :: first[k] < i && SinkIn(pins, first[k], regions[k])
      invariant forall k | 0 <= k < |regions| :: forall j | 0 <= j < first[k] :: !SinkIn(pins, j, regions[k])
      invariant forall a, b | 0 <= a < b < |regions| :: first[a] < first[b]
    {
      var pin := pins[i];
      if !pin.isOut && pin.tileRegion !in regions {
        regions := regions + [pin.tileRegion];
        first := first + [i];
      }
      i := i + 1;
    }
    forall k | 0 <= k < |regions|
      ensures SinkBefore(pins, |pins|, regions[k])
    {
      assert SinkIn(pins, first[k], regions[k]);
    }
    forall a, b, j | 0 <= a < b < |regions| && SinkIn(pins, j, regions[b])
      ensures SinkBefore(pins, j, regions[a])
    {
      assert first[b] <= j;
      assert SinkIn(pins, first[a], regions[a]);
    }
  }

  /** The regions of a list that has no null entry. */
  ghost function Present(regions: seq<Option<ClockRegion>>): seq<ClockRegion>
    requires forall k | 0 <= k < |regions| :: regions[k].Some?
  {
    seq(|regions|, k requires 0 <= k < |regions| => regions[k].value)
  }

  /** The regions above the centroid's row, in their order in `regions`. */
  function RegionsAbove(regions: seq<ClockRegion>, centroid: ClockRegion): seq<ClockRegion>
    decreases |regions|
  {
    if regions == [] then []
    else
      var last := regions[|regions| - 1];
      RegionsAbove(regions[..|regions| - 1], centroid) + (if last.row > centroid.row then [last] else [])
  }

  /** The regions at or below the centroid's row, in their order in `regions`. */
  function RegionsNotAbove(regions: seq<ClockRegion>, centroid: ClockRegion): seq<ClockRegion>
    decreases |regions|
  {
    if regions == [] then []
    else
      var last := regions[|regions| - 1];
      RegionsNotAbove(regions[..|regions| - 1], centroid) + (if last.row > centroid.row then [] else [last])
  }

  /** The regions above hold only rows above the centroid's, the others only rows not above. */
  lemma {:induction false} SplitRows(regions: seq<ClockRegion>, centroid: ClockRegion)
    ensures forall cr | cr in RegionsAbove(regions, centroid) :: cr in regions && cr.row > centroid.row
    ensures forall cr | cr in RegionsNotAbove(regions, centroid) :: cr in regions && cr.row <= centroid.row
    decreases |regions|
  {
    if regions != [] {
      SplitRows(regions[..|regions| - 1], centroid);
    }
  }

  /** Together the two filters hold every region of the input, as often as it occurs there. */
  lemma {:induction false} SplitKeepsAll(regions: seq<ClockRegion>, centroid: ClockRegion)
    ensures multiset(RegionsAbove(regions, centroid)) + multiset(RegionsNotAbove(regions, centroid))
         == multiset(regions)
    decreases |regions|
  {
    if regions != [] {
      var front := regions[..|regions| - 1];
      SplitKeepsAll(front, centroid);
      assert regions == front + [regions[|regions| - 1]];
    }
  }

  /** One more region of the input extends exactly one of the two filters. */
  lemma DivideStep(regions: seq<Option<ClockRegion>>, i: nat, centroid: ClockRegion)
    requires i < |regions| && forall k | 0 <= k <= i :: regions[k].Some?
    ensures Present(regions[..i + 1]) == Present(regions[..i]) + [regions[i].value]
    ensures RegionsAbove(Present(regions[..i + 1]), centroid) == RegionsAbove(Present(regions[..i]), centroid)
      + (if regions[i].value.row > centroid.row then [regions[i].value] else [])
    ensures RegionsNotAbove(Present(regions[..i + 1]), centroid) == RegionsNotAbove(Present(regions[..i]), centroid)
      + (if regions[i].value.row > centroid.row then [] else [regions[i].value])
  {
    var p := Present(regions[..i + 1]);
    assert p == Present(regions[..i]) + [regions[i].value];
    assert p[..|p| - 1] == Present(regions[..i]);
  }

  /**
   * divideClockRegions: each region goes to exactly one of the two lists, `up` when its
   * instance Y is above the centroid's and `down` otherwise, each list keeping the order of the
   * input. A null region is dereferenced.
   */
  method DivideClockRegions(regions: seq<Option<ClockRegion>>, centroid: ClockRegion)
    returns (r: Result<(seq<ClockRegion>, seq<ClockRegion>), RouteError>)
    ensures r.Err? <==> exists k | 0 <= k < |regions| :: regions[k].None?
    ensures r.Err? ==> r.error == NullDereference
    ensures r.Ok? ==> forall cr | cr in r.value.0 :: cr.row > centroid.row
    ensures r.Ok? ==> forall cr | cr in r.value.1 :: cr.row <= centroid.row
    ensures r.Ok? ==> multiset(r.value.0) + multiset(r.value.1) == multiset(Present(regions))
    ensures r.Ok? ==> r.value.0 == RegionsAbove(Present(regions), centroid)
    ensures r.Ok? ==> r.value.1 == RegionsNotAbove(Present(regions), centroid)
  {
    var up: seq<ClockRegion> := [];
    var down: seq<ClockRegion> := [];
    var i := 0;
    while i < |regions|
      invariant 0 <= i <= |regions|
      invariant forall k | 0 <= k < i :: regions[k].Some?
      invariant up == RegionsAbove(Present(regions[..i]), centroid)
      invariant down == RegionsNotAbove(Present(regions[..i]), centroid)
    {
      if regions[i].None? {
        return Err(NullDereference);
      }
      var cr := regions[i].value;
      DivideStep(regions, i, centroid);
      if cr.row > centroid.row {
        up := up + [cr];
      } else {
        down := down + [cr];
      }
      i := i + 1;
    }
    assert regions[..i] == regions;
    SplitRows(Present(regions), centroid);
    SplitKeepsAll(Present(regions), centroid);
    r := Ok((up, down));
  }

  // ---------------------------------------------------------------- LCB pin mapping

  /** The leaf clock buffers among `ps` that the status oracle does not rule out, in order. */
  function LeafFilter(g: Graph, status: Node -> NodeStatus, ps: seq<Node>): seq<Node>
    decreases |ps|
  {
    if ps == [] then []
    else
      var last := ps[|ps| - 1];
      LeafFilter(g, status, ps[..|ps| - 1])
      + (if g.intent(last) == GlobalLeaf && status(last) != Unavailable then [last] else [])
  }

  /**
   * The LCB candidates of an INT node whose uphill nodes are `prevs`, in scan order: the leaf
   * buffers uphill of each usable uphill node.
   */
  function Candidates(g: Graph, status: Node -> NodeStatus, prevs: seq<Node>): seq<Node>
    decreases |prevs|
  {
    if prevs == [] then []
    else
      var last := prevs[|prevs| - 1];
      Candidates(g, status, prevs[..|prevs| - 1]) + LeavesUphill(g, status, last)
  }

  /** The leaf buffers uphill of `prev`, none when `prev` itself is unavailable. */
  function LeavesUphill(g: Graph, status: Node -> NodeStatus, prev: Node): seq<Node>
  {
    if status(prev) != Unavailable then LeafFilter(g, status, g.uphill(prev)) else []
  }

  /** A candidate already chosen for an earlier pin, or already in use, is reused at once. */
  predicate Reusable(n: Node, used: set<Node>, status: Node -> NodeStatus)
  {
    n in used || status(n) == InUse
  }

  /** The position of the first reusable candidate, None when no candidate is reusable. */
  function FirstReusable(cands: seq<Node>, used: set<Node>, status: Node -> NodeStatus): (r: Option<nat>)
    ensures r.Some? ==> r.value < |cands| && Reusable(cands[r.value], used, status)
    ensures r.Some? ==> forall j | 0 <= j < r.value :: !Reusable(cands[j], used, status)
    ensures r.None? ==> forall k | 0 <= k < |cands| :: !Reusable(cands[k], used, status)
  {
    if cands == [] then None
    else if Reusable(cands[0], used, status) then Some(0)
    else
      match FirstReusable(cands[1..], used, status)
      case None => None
      case Some(i) => Some(i + 1)
  }

  /**
   * The candidate the mapper settles on: the first reusable candidate when there is one,
   * otherwise the first candidate, and None when there is no candidate at all.
   */
  function ChooseLcb(cands: seq<Node>, used: set<Node>, status: Node -> NodeStatus): (r: Option<Node>)
    ensures r.None? <==> cands == []
    ensures r.Some? ==> r.value in cands
    ensures (exists k | 0 <= k < |cands| :: Reusable(cands[k], used, status)) ==> Reusable(r.value, used, status)
    ensures (forall k | 0 <= k < |cands| :: !Reusable(cands[k], used, status)) && cands != [] ==> r == Some(cands[0])
  {
    match FirstReusable(cands, used, status)
    case Some(i) => Some(cands[i])
    case None => if cands == [] then None else Some(cands[0])
  }

  /** `c` is a usable leaf buffer two hops uphill of `intNode` through a usable node. */
  ghost predicate IsTwoHopLeaf(g: Graph, status: Node -> NodeStatus, intNode: Node, c: Node)
  {
    && g.intent(c) == GlobalLeaf && status(c) != Unavailable
    && exists prev | prev in g.uphill(intNode) :: status(prev) != Unavailable && c in g.uphill(prev)
  }

  lemma ConcatAssoc(x: seq<Node>, y: seq<Node>, z: seq<Node>)
    ensures (x + y) + z == x + (y + z)
  {
  }

  /** LeafFilter on a list with one more node at its end. */
  lemma LeafFilterLast(g: Graph, status: Node -> NodeStatus, front: seq<Node>, last: Node)
    ensures LeafFilter(g, status, front + [last]) == LeafFilter(g, status, front)
      + (if g.intent(last) == GlobalLeaf && status(last) != Unavailable then [last] else [])
  {
    var ps := front + [last];
    assert ps[..|ps| - 1] == front;
  }

  /** Candidates on a list with one more uphill node at its end. */
  lemma CandidatesLast(g: Graph, status: Node -> NodeStatus, front: seq<Node>, last: Node)
    ensures Candidates(g, status, front + [last]) == Candidates(g, status, front) + LeavesUphill(g, status, last)
  {
    var ps := front + [last];
    assert ps[..|ps| - 1] == front;
  }

  lemma {:induction false} LeafFilterAppend(g: Graph, status: Node -> NodeStatus, a: seq<Node>, b: seq<Node>)
    ensures LeafFilter(g, status, a + b) == LeafFilter(g, status, a) + LeafFilter(g, status, b)
    decreases |b|
  {
    if b == [] {
      assert a + b == a;
    } else {
      var b', last := b[..|b| - 1], b[|b| - 1];
      var tail := (if g.intent(last) == GlobalLeaf && status(last) != Unavailable then [last] else []);
      assert b == b' + [last] && a + b == (a + b') + [last];
      LeafFilterLast(g, status, a + b', last);
      LeafFilterLast(g, status, b', last);
      calc {
        LeafFilter(g, status, a + b);
        LeafFilter(g, status, a + b') + tail;
        { LeafFilterAppend(g, status, a, b'); }
        (LeafFilter(g, status, a) + LeafFilter(g, status, b')) + tail;
        { ConcatAssoc(LeafFilter(g, status, a), LeafFilter(g, status, b'), tail); }
        LeafFilter(g, status, a) + (LeafFilter(g, status, b') + tail);
        LeafFilter(g, status, a) + LeafFilter(g, status, b);
      }
    }
  }

  lemma {:induction false} CandidatesAppend(g: Graph, status: Node -> NodeStatus, a: seq<Node>, b: seq<Node>)
    ensures Candidates(g, status, a + b) == Candidates(g, status, a) + Candidates(g, status, b)
    decreases |b|
  {
    if b == [] {
      assert a + b == a;
    } else {
      var b', last := b[..|b| - 1], b[|b| - 1];
      var tail := LeavesUphill(g, status, last);
      assert b == b' + [last] && a + b == (a + b') + [last];
      CandidatesLast(g, status, a + b', last);
      CandidatesLast(g, status, b', last);
      calc {
        Candidates(g, status, a + b);
        Candidates(g, status, a + b') + tail;
        { CandidatesAppend(g, status, a, b'); }
        (Candidates(g, status, a) + Candidates(g, status, b')) + tail;
        { ConcatAssoc(Candidates(g, status, a), Candidates(g, status, b'), tail); }
        Candidates(g, status, a) + (Candidates(g, status, b') + tail);
        Candidates(g, status, a) + Candidates(g, status, b);
      }
    }
  }

  lemma {:induction false} LeafFilterMembers(g: Graph, status: Node -> NodeStatus, ps: seq<Node>)
    ensures forall c | c in LeafFilter(g, status, ps) ::
      c in ps && g.intent(c) == GlobalLeaf && status(c) != Unavailable
    decreases |ps|
  {
    if ps != [] {
      LeafFilterMembers(g, status, ps[..|ps| - 1]);
    }
  }

  /** Every candidate is a usable leaf buffer two hops uphill of the INT node. */
  lemma {:induction false} CandidatesAreTwoHopLeaves(g: Graph, status: Node -> NodeStatus, intNode: Node, prevs: seq<Node>)
    requires forall p | p in prevs :: p in g.uphill(intNode)
    ensures forall c | c in Candidates(g, status, prevs) :: IsTwoHopLeaf(g, status, intNode, c)
    decreases |prevs|
  {
    if prevs != [] {
      var last := prevs[|prevs| - 1];
      CandidatesAreTwoHopLeaves(g, status, intNode, prevs[..|prevs| - 1]);
      if status(last) != Unavailable {
        LeafFilterMembers(g, status, g.uphill(last));
      }
    }
  }

  lemma LeafFilterStep(g: Graph, status: Node -> NodeStatus, ups: seq<Node>, j: nat)
    requires j < |ups|
    ensures LeafFilter(g, status, ups[..j + 1]) == LeafFilter(g, status, ups[..j])
      + (if g.intent(ups[j]) == GlobalLeaf && status(ups[j]) != Unavailable then [ups[j]] else [])
  {
    assert ups[..j + 1] == ups[..j] + [ups[j]];
    LeafFilterLast(g, status, ups[..j], ups[j]);
  }

  lemma CandidatesStep(g: Graph, status: Node -> NodeStatus, prevs: seq<Node>, i: nat)
    requires i < |prevs|
    ensures Candidates(g, status, prevs[..i + 1]) == Candidates(g, status, prevs[..i]) + LeavesUphill(g, status, prevs[i])
  {
    assert prevs[..i + 1] == prevs[..i] + [prevs[i]];
    CandidatesLast(g, status, prevs[..i], prevs[i]);
  }

  /** The leaf filter splits around a leaf buffer found at position j of an uphill list. */
  lemma LeafFilterSplit(g: Graph, status: Node -> NodeStatus, ups: seq<Node>, j: nat)
    requires j < |ups| && g.intent(ups[j]) == GlobalLeaf && status(ups[j]) != Unavailable
    ensures LeafFilter(g, status, ups) ==
      LeafFilter(g, status, ups[..j]) + [ups[j]] + LeafFilter(g, status, ups[j + 1..])
  {
    var x, y, z := ups[..j], ups[j], ups[j + 1..];
    assert ups == (x + [y]) + z;
    LeafFilterAppend(g, status, x + [y], z);
    LeafFilterLast(g, status, x, y);
  }

  /** The candidate list splits around the uphill node at position i. */
  lemma CandidatesSplit(g: Graph, status: Node -> NodeStatus, prevs: seq<Node>, i: nat)
    requires i < |prevs| && status(prevs[i]) != Unavailable
    ensures Candidates(g, status, prevs) == Candidates(g, status, prevs[..i])
      + LeafFilter(g, status, g.uphill(prevs[i])) + Candidates(g, status, prevs[i + 1..])
  {
    var x, y, z := prevs[..i], prevs[i], prevs[i + 1..];
    assert prevs == (x + [y]) + z;
    CandidatesAppend(g, status, x + [y], z);
    CandidatesLast(g, status, x, y);
  }

  /**
   * When the scan meets a reusable leaf buffer at position j of the uphill list of prevs[i],
   * after candidates none of which is reusable, that buffer is the mapper's choice.
   */
  lemma ReusableStopsScan(g: Graph, status: Node -> NodeStatus, used: set<Node>, prevs: seq<Node>,
                          i: nat, j: nat, found: seq<Node>)
    requires i < |prevs| && status(prevs[i]) != Unavailable && j < |g.uphill(prevs[i])|
    requires found == Candidates(g, status, prevs[..i]) + LeafFilter(g, status, g.uphill(prevs[i])[..j])
    requires forall k | 0 <= k < |found| :: !Reusable(found[k], used, status)
    requires var pp := g.uphill(prevs[i])[j];
      g.intent(pp) == GlobalLeaf && status(pp) != Unavailable && Reusable(pp, used, status)
    ensures ChooseLcb(Candidates(g, status, prevs), used, status) == Some(g.uphill(prevs[i])[j])
  {
    var ups := g.uphill(prevs[i]);
    LeafFilterSplit(g, status, ups, j);
    CandidatesSplit(g, status, prevs, i);
    ReusableAfterNone(Candidates(g, status, prevs[..i]), LeafFilter(g, status, ups[..j]), ups[j],
      LeafFilter(g, status, ups[j + 1..]), Candidates(g, status, prevs[i + 1..]), used, status);
  }

  /** A reusable candidate that follows only non-reusable ones is chosen. */
  lemma ReusableAfterNone(a: seq<Node>, b: seq<Node>, pp: Node, c: seq<Node>, d: seq<Node>,
                          used: set<Node>, status: Node -> NodeStatus)
    requires forall k | 0 <= k < |a + b| :: !Reusable((a + b)[k], used, status)
    requires Reusable(pp, used, status)
    ensures ChooseLcb(a + (b + [pp] + c) + d, used, status) == Some(pp)
  {
    var all := a + (b + [pp] + c) + d;
    assert all[|a + b|] == pp;
    assert forall k | 0 <= k < |a + b| :: all[k] == (a + b)[k];
    var r := FirstReusable(all, used, status);
    assert r.Some? && r.value == |a + b|;
  }

  /** The scan state after the first i uphill nodes: their candidates, none of them reusable. */
  ghost predicate ScannedUpTo(g: Graph, status: Node -> NodeStatus, used: set<Node>, prevs: seq<Node>,
                              i: nat, found: seq<Node>)
  {
    && i <= |prevs| && found == Candidates(g, status, prevs[..i])
    && forall k | 0 <= k < |found| :: !Reusable(found[k], used, status)
  }

  /** A scan that meets no reusable candidate settles on the first candidate, if any. */
  lemma ScannedAll(g: Graph, status: Node -> NodeStatus, used: set<Node>, prevs: seq<Node>,
                   found: seq<Node>)
    requires ScannedUpTo(g, status, used, prevs, |prevs|, found)
    ensures ChooseLcb(Candidates(g, status, prevs), used, status) ==
      if found == [] then None else Some(found[0])
  {
    assert prevs[..|prevs|] == prevs;
  }

  /**
   * The inner scan of getLCBPinMappings over the uphill nodes of prevs[i]: a reusable leaf buffer
   * ends the whole scan as the mapper's choice, otherwise every usable one joins the candidates.
   */
  method ScanLeaves(g: Graph, status: Node -> NodeStatus, used: set<Node>, prevs: seq<Node>, i: nat,
                    found: seq<Node>)
    returns (hit: Option<Node>, found': seq<Node>)
    requires i < |prevs| && status(prevs[i]) != Unavailable
    requires ScannedUpTo(g, status, used, prevs, i, found)
    ensures hit.Some? ==> hit == ChooseLcb(Candidates(g, status, prevs), used, status)
    ensures hit.None? ==> ScannedUpTo(g, status, used, prevs, i + 1, found')
  {
    var ups := g.uphill(prevs[i]);
    found' := found;
    var j := 0;
    while j < |ups|
      invariant 0 <= j <= |ups|
      invariant found' == found + LeafFilter(g, status, ups[..j])
      invariant forall k | 0 <= k < |found'| :: !Reusable(found'[k], used, status)
    {
      var prevPrev := ups[j];
      LeafFilterStep(g, status, ups, j);
      if g.intent(prevPrev) == GlobalLeaf && status(prevPrev) != Unavailable {
        if prevPrev in used || status(prevPrev) == InUse {
          ReusableStopsScan(g, status, used, prevs, i, j, found');
          return Some(prevPrev), found';
        }
        ConcatAssoc(found, LeafFilter(g, status, ups[..j]), [prevPrev]);
        found' := found' + [prevPrev];
      }
      j := j + 1;
    }
    assert ups[..j] == ups;
    CandidatesStep(g, status, prevs, i);
    hit := None;
  }

  /**
   * The two-hop uphill scan of getLCBPinMappings for one INT node: stops at the first reusable
   * leaf buffer, otherwise collects every available one and takes the first.
   */
  method FindLcb(g: Graph, status: Node -> NodeStatus, used: set<Node>, intNode: Node)
    returns (chosen: Option<Node>)
    ensures chosen == ChooseLcb(Candidates(g, status, g.uphill(intNode)), used, status)
  {
    var prevs := g.uphill(intNode);
    var lcbCandidates: seq<Node> := [];
    var i := 0;
    while i < |prevs|
      invariant ScannedUpTo(g, status, used, prevs, i, lcbCandidates)
    {
      if status(prevs[i]) != Unavailable {
        var hit;
        hit, lcbCandidates := ScanLeaves(g, status, used, prevs, i, lcbCandidates);
        if hit.Some? {
          return hit;
        }
      } else {
        CandidatesStep(g, status, prevs, i);
      }
      i := i + 1;
    }
    ScannedAll(g, status, used, prevs, lcbCandidates);
    if lcbCandidates == [] {
      return None;
    }
    chosen := Some(lcbCandidates[0]);
  }

  /**
   * What getLCBPinMappings has built after looking at the first i pins: owner names, for every
   * input pin seen, the leaf buffer whose list holds it.
   */
  ghost predicate MappingInv(g: Graph, status: Node -> NodeStatus, pins: seq<Pin>, i: nat,
                             m: map<Node, seq<nat>>, owner: map<nat, Node>)
  {
    && i <= |pins|
    && (forall j :: j in owner <==> 0 <= j < i && !pins[j].isOut)
    && OwnersAgree(m, owner)
    && OwnersAreLeaves(g, status, pins, owner)
    && ListsBelow(m, i)
  }

  /** Every listed pin is owned by the buffer whose list it is in, and every owned pin is listed. */
  ghost predicate OwnersAgree(m: map<Node, seq<nat>>, owner: map<nat, Node>)
  {
    && (forall k, j | k in m && j in m[k] :: j in owner && owner[j] == k)
    && (forall j | j in owner :: owner[j] in m && j in m[owner[j]])
  }

  /** Every owner is a two-hop leaf buffer of the first INT node of its pin. */
  ghost predicate OwnersAreLeaves(g: Graph, status: Node -> NodeStatus, pins: seq<Pin>, owner: map<nat, Node>)
  {
    forall j | j in owner ::
      && j < |pins| && pins[j].intNodes.Some? && |pins[j].intNodes.value| > 0
      && IsTwoHopLeaf(g, status, pins[j].intNodes.value[0], owner[j])
  }

  /** Every list is increasing and holds only pins below i. */
  ghost predicate ListsBelow(m: map<Node, seq<nat>>, i: nat)
  {
    forall k | k in m :: Increasing(m[k]) && forall j | j in m[k] :: j < i
  }

  predicate Increasing(s: seq<nat>)
  {
    forall a, b | 0 <= a < b < |s| :: s[a] < s[b]
  }

  lemma AgreeStep(m: map<Node, seq<nat>>, owner: map<nat, Node>, i: nat, n: Node)
    requires OwnersAgree(m, owner) && i !in owner
    ensures OwnersAgree(m[n := (if n in m then m[n] else []) + [i]], owner[i := n])
  {
    var list := if n in m then m[n] else [];
    var m' := m[n := list + [i]];
    var o' := owner[i := n];
    forall k, j | k in m' && j in m'[k]
      ensures j in o' && o'[j] == k
    {
      if k == n && j !in list {
        assert j == i;
      }
    }
    forall j | j in o'
      ensures o'[j] in m' && j in m'[o'[j]]
    {
      if j != i && owner[j] == n {
        assert j in list;
      }
    }
  }

  lemma LeavesStep(g: Graph, status: Node -> NodeStatus, pins: seq<Pin>, owner: map<nat, Node>, i: nat, n: Node)
    requires OwnersAreLeaves(g, status, pins, owner)
    requires i < |pins| && pins[i].intNodes.Some? && |pins[i].intNodes.value| > 0
    requires IsTwoHopLeaf(g, status, pins[i].intNodes.value[0], n)
    ensures OwnersAreLeaves(g, status, pins, owner[i := n])
  {
  }

  lemma ListsStep(m: map<Node, seq<nat>>, i: nat, n: Node)
    requires ListsBelow(m, i)
    ensures ListsBelow(m[n := (if n in m then m[n] else []) + [i]], i + 1)
  {
    var list := if n in m then m[n] else [];
    var s := list + [i];
    forall a, b | 0 <= a < b < |s|
      ensures s[a] < s[b]
    {
      assert s[a] == list[a] && list[a] in list;
    }
  }

  /** Appending input pin i to the list of leaf buffer n keeps the mapping invariant. */
  lemma MappingStep(g: Graph, status: Node -> NodeStatus, pins: seq<Pin>, i: nat,
                    m: map<Node, seq<nat>>, owner: map<nat, Node>, n: Node)
    requires MappingInv(g, status, pins, i, m, owner)
    requires i < |pins| && !pins[i].isOut
    requires pins[i].intNodes.Some? && |pins[i].intNodes.value| > 0
    requires IsTwoHopLeaf(g, status, pins[i].intNodes.value[0], n)
    ensures MappingInv(g, status, pins, i + 1,
      m[n := (if n in m then m[n] else []) + [i]], owner[i := n])
  {
    AgreeStep(m, owner, i, n);
    LeavesStep(g, status, pins, owner, i, n);
    ListsStep(m, i, n);
  }

  /** Skipping output pin i keeps the mapping invariant. */
  lemma MappingSkip(g: Graph, status: Node -> NodeStatus, pins: seq<Pin>, i: nat,
                    m: map<Node, seq<nat>>, owner: map<nat, Node>)
    requires MappingInv(g, status, pins, i, m, owner)
    requires i < |pins| && pins[i].isOut
    ensures MappingInv(g, status, pins, i + 1, m, owner)
  {
    assert ListsBelow(m, i + 1);
  }

  /** Pin j is in the list of some leaf buffer. */
  ghost predicate Assigned(m: map<Node, seq<nat>>, j: nat)
  {
    exists k :: k in m && j in m[k]
  }

  /**
   * What getLCBPinMappings returns: every listed pin is an input pin mapped to a two-hop leaf
   * buffer of its first INT node, every input pin is listed under exactly one buffer, and each
   * list keeps the pins in their original order.
   */
  ghost predicate PinMapping(g: Graph, status: Node -> NodeStatus, pins: seq<Pin>, m: map<Node, seq<nat>>)
  {
    && (forall k, i | k in m && i in m[k] ::
         && i < |pins| && !pins[i].isOut
         && pins[i].intNodes.Some? && |pins[i].intNodes.value| > 0
         && IsTwoHopLeaf(g, status, pins[i].intNodes.value[0], k))
    && (forall i | 0 <= i < |pins| && !pins[i].isOut :: Assigned(m, i))
    && (forall k1, k2, i | k1 in m && k2 in m && i in m[k1] && i in m[k2] :: k1 == k2)
    && (forall k | k in m :: Increasing(m[k]))
  }

  /** The buffer the mapper settles on for an INT node is a two-hop leaf buffer of it. */
  lemma ChosenIsTwoHopLeaf(g: Graph, status: Node -> NodeStatus, used: set<Node>, intNode: Node)
    ensures var c := ChooseLcb(Candidates(g, status, g.uphill(intNode)), used, status);
      c.Some? ==> IsTwoHopLeaf(g, status, intNode, c.value)
  {
    CandidatesAreTwoHopLeaves(g, status, intNode, g.uphill(intNode));
  }

  /** Once every pin is looked at, the mapping invariant gives what getLCBPinMappings promises. */
  lemma MappingDone(g: Graph, status: Node -> NodeStatus, pins: seq<Pin>,
                    m: map<Node, seq<nat>>, owner: map<nat, Node>)
    requires MappingInv(g, status, pins, |pins|, m, owner)
    ensures PinMapping(g, status, pins, m)
  {
    forall j | 0 <= j < |pins| && !pins[j].isOut
      ensures Assigned(m, j)
    {
      assert owner[j] in m && j in m[owner[j]];
    }
    forall k1, k2, i | k1 in m && k2 in m && i in m[k1] && i in m[k2]
      ensures k1 == k2
    {
      assert owner[i] == k1 && owner[i] == k2;
    }
  }

  /** Input pin i has an INT node, but no usable leaf buffer lies two hops uphill of the first one. */
  ghost predicate NoCandidate(g: Graph, status: Node -> NodeStatus, pins: seq<Pin>, i: int)
    requires 0 <= i < |pins|
  {
    && !pins[i].isOut && pins[i].intNodes.Some? && |pins[i].intNodes.value| > 0
    && Candidates(g, status, g.uphill(pins[i].intNodes.value[0])) == []
  }

  /**
   * Reference definition of one iteration of getLCBPinMappings: an output pin is skipped; an
   * input pin joins the list of the buffer ChooseLcb picks among the two-hop leaf buffers of its
   * first INT node, where the buffers already chosen are the keys of the map so far.
   */
  function MapOne(g: Graph, status: Node -> NodeStatus, p: Pin, i: nat, m: map<Node, seq<nat>>)
    : Result<map<Node, seq<nat>>, RouteError>
  {
    if p.isOut then Ok(m)
    else if p.intNodes.None? || p.intNodes.value == [] then Err(NoIntNode)
    else match ChooseLcb(Candidates(g, status, g.uphill(p.intNodes.value[0])), m.Keys, status)
      case None => Err(NoLcbCandidate)
      case Some(c) => Ok(m[c := (if c in m then m[c] else []) + [i]])
  }

  /** Reference definition of getLCBPinMappings over the first k pins: the first error stops it. */
  function MapReplay(g: Graph, status: Node -> NodeStatus, pins: seq<Pin>, k: nat)
    : Result<map<Node, seq<nat>>, RouteError>
    requires k <= |pins|
  {
    if k == 0 then Ok(map[])
    else match MapReplay(g, status, pins, k - 1)
      case Err(e) => Err(e)
      case Ok(m) => MapOne(g, status, pins[k - 1], k - 1, m)
  }

  /** Once the replay has failed, it fails the same way over every longer prefix. */
  lemma {:induction false} MapReplayStopped(g: Graph, status: Node -> NodeStatus, pins: seq<Pin>, k: nat,
                                           e: RouteError)
    requires k <= |pins| && MapReplay(g, status, pins, k) == Err(e)
    ensures MapReplay(g, status, pins, |pins|) == Err(e)
    decreases |pins| - k
  {
    if k < |pins| {
      MapReplayStopped(g, status, pins, k + 1, e);
    }
  }

  /** One iteration of getLCBPinMappings: pin i joins the list of the buffer chosen for it. */
  method MapPin(g: Graph, status: Node -> NodeStatus, pins: seq<Pin>, i: nat,
                m: map<Node, seq<nat>>, used: set<Node>, ghost owner: map<nat, Node>)
    returns (r: Result<(), RouteError>, m': map<Node, seq<nat>>, used': set<Node>,
             ghost owner': map<nat, Node>)
    requires i < |pins| && MappingInv(g, status, pins, i, m, owner) && used == m.Keys
    ensures r.Err? ==> r.error == NoIntNode || r.error == NoLcbCandidate
    ensures r.Ok? && pins[i].isOut ==> m' == m && used' == used
    ensures r.Ok? && !pins[i].isOut ==>
      && pins[i].intNodes.Some? && |pins[i].intNodes.value| > 0
      && var c := ChooseLcb(Candidates(g, status, g.uphill(pins[i].intNodes.value[0])), used, status);
         c.Some? && m' == m[c.value := (if c.value in m then m[c.value] else []) + [i]]
         && used' == used + {c.value}
    ensures r.Ok? ==> used' == m'.Keys
    ensures r.Ok? ==> MapOne(g, status, pins[i], i, m) == Ok(m')
    ensures r.Err? ==> MapOne(g, status, pins[i], i, m) == Err(r.error)
    ensures r.Err? && r.error == NoIntNode ==>
      !pins[i].isOut && (pins[i].intNodes.None? || pins[i].intNodes.value == [])
    ensures r.Err? && r.error == NoLcbCandidate ==> NoCandidate(g, status, pins, i)
    ensures r.Ok? ==> MappingInv(g, status, pins, i + 1, m', owner')
  {
    var p := pins[i];
    if p.isOut {
      MappingSkip(g, status, pins, i, m, owner);
      return Ok(()), m, used, owner;
    }
    if p.intNodes.None? || p.intNodes.value == [] {
      return Err(NoIntNode), m, used, owner;
    }
    var intNode := p.intNodes.value[0];
    var chosen := FindLcb(g, status, used, intNode);
    if chosen.None? {
      return Err(NoLcbCandidate), m, used, owner;
    }
    var n := chosen.value;
    ChosenIsTwoHopLeaf(g, status, used, intNode);
    MappingStep(g, status, pins, i, m, owner, n);
    var list := if n in m then m[n] else [];
    r, m', used', owner' := Ok(()), m[n := list + [i]], used + {n}, owner[i := n];
  }

  /**
   * getLCBPinMappings: every input pin is put in the list of exactly one leaf clock buffer, a
   * usable leaf buffer two hops uphill of the pin's first INT node; output pins are skipped.
   * A pin without an INT node or without a candidate throws.
   */
  method GetLcbPinMappings(g: Graph, status: Node -> NodeStatus, pins: seq<Pin>)
    returns (r: Result<map<Node, seq<nat>>, RouteError>)
    ensures r.Err? ==> (r.error == NoIntNode || r.error == NoLcbCandidate)
    ensures r.Err? && r.error == NoIntNode ==>
      exists i | 0 <= i < |pins| :: !pins[i].isOut && (pins[i].intNodes.None? || pins[i].intNodes.value == [])
    ensures r.Err? && r.error == NoLcbCandidate ==> exists i | 0 <= i < |pins| :: NoCandidate(g, status, pins, i)
    ensures r.Ok? ==> PinMapping(g, status, pins, r.value)
    ensures r == MapReplay(g, status, pins, |pins|)
  {
    var lcbMappings: map<Node, seq<nat>> := map[];
    var usedLcbs: set<Node> := {};
    ghost var owner: map<nat, Node> := map[];
    var i := 0;
    while i < |pins|
      invariant 0 <= i <= |pins|
      invariant MappingInv(g, status, pins, i, lcbMappings, owner)
      invariant usedLcbs == lcbMappings.Keys
      invariant MapReplay(g, status, pins, i) == Ok(lcbMappings)
    {
      var res;
      res, lcbMappings, usedLcbs, owner := MapPin(g, status, pins, i, lcbMappings, usedLcbs, owner);
      if res.Err? {
        assert MapReplay(g, status, pins, i + 1) == Err(res.error);
        MapReplayStopped(g, status, pins, i + 1, res.error);
        return Err(res.error);
      }
      i := i + 1;
    }
    MappingDone(g, status, pins, lcbMappings, owner);
    r := Ok(lcbMappings);
  }
}

=== FILE: NetTools.dfy ===
/** Classification of nets into clock nets and global (clock or static) nets. */
module NetTools {
  import opened Wrappers
  import opened Strings
  import opened Device

  /** The source site-pin instance of a net: its pin name, the name of its tile and of its site. */
  datatype SourcePin = SourcePin(name: string, tileName: string, siteName: string)

  /**
   * What the classification reads of a net: the device series, the source pin (None when the
   * net has none), whether the net is static, and the net's own clock flag (Net.isClockNet()).
   */
  datatype NetView = NetView(series: Series, source: Option<SourcePin>, isStatic: bool,
                             ownClockFlag: bool)

  const ClockSourceNamesOfUs: set<string> := {"CLK_OUT", "CLKOUT", "CLKFBOUT"}
  const ClockSourceNamesOfVersal: set<string> := {"O"}

  predicate IsClockNet(net: NetView)
  {
    match net.source
    case None => false
    case Some(src) =>
      if net.series == UltraScale || net.series == UltraScalePlus then
        src.name in ClockSourceNamesOfUs
      else if net.series == Versal then
        StartsWith(src.tileName, "CLK") && StartsWith(src.siteName, "BUF")
        && src.name in ClockSourceNamesOfVersal
      else
        net.ownClockFlag
  }

  predicate IsGlobalNet(net: NetView)
  {
    net.isStatic || IsClockNet(net)
  }

  /** A net without a source is never a clock net, whatever its series or own flag. */
  lemma NoSourceNotClock(net: NetView)
    requires net.source.None?
    ensures !IsClockNet(net)
    ensures IsGlobalNet(net) <==> net.isStatic
  {
  }

  /** On UltraScale and UltraScale+, a net is a clock net iff its source pin is a clock output. */
  lemma UltraScaleClockNets(net: NetView)
    requires net.series in {UltraScale, UltraScalePlus} && net.source.Some?
    ensures IsClockNet(net) <==> net.source.value.name in {"CLK_OUT", "CLKOUT", "CLKFBOUT"}
  {
  }

  /** On Versal, a net is a clock net iff it is driven by the O pin of a BUF* site in a CLK* tile. */
  lemma VersalClockNets(net: NetView)
    requires net.series == Versal && net.source.Some?
    ensures IsClockNet(net) <==>
      (StartsWith(net.source.value.tileName, "CLK") && StartsWith(net.source.value.siteName, "BUF")
       && net.source.value.name == "O")
  {
  }

  /** On every other series the net's own clock flag decides. */
  lemma OtherSeriesClockNets(net: NetView)
    requires net.series !in {UltraScale, UltraScalePlus, Versal} && net.source.Some?
    ensures IsClockNet(net) == net.ownClockFlag
  {
  }

  /** Static nets are global; a non-static net is global exactly when it is a clock net. */
  lemma GlobalNets(net: NetView)
    ensures net.isStatic ==> IsGlobalNet(net)
    ensures !net.isStatic ==> (IsGlobalNet(net) <==> IsClockNet(net))
  {
  }
}

=== FILE: Nets.dfy ===
/**
 * A net as the routers update it in place: its pins, the routed flag of each pin (kept as the
 * set of indices of routed pins) and its list of PIPs.
 */
module Nets {
  import opened Wrappers
  import opened Device
  import opened SearchArena

  class Net {
    const id: nat
    const netType: NetType
    var pins: seq<Pin>
    var routed: set<nat>
    var pips: seq<Pip>

    /** Only existing pins carry a routed flag. */
    ghost predicate Valid()
      reads this
    {
      forall i | i in routed :: i < |pins|
    }

    constructor (id: nat, netType: NetType, pins: seq<Pin>, pips: seq<Pip>)
      ensures Valid()
      ensures this.id == id && this.netType == netType
      ensures this.pins == pins && this.pips == pips && routed == {}
    {
      this.id := id;
      this.netType := netType;
      this.pins := pins;
      this.pips := pips;
      this.routed := {};
    }

    /** getPIPs().addAll(more). */
    method AddPips(more: seq<Pip>)
      modifies this
      ensures pips == old(pips) + more
      ensures pins == old(pins) && routed == old(routed)
    {
      pips := pips + more;
    }

    /** setPIPs(s) for a hash set s: the list holds each element of s once, in any order. */
    method SetPips(s: set<Pip>)
      modifies this
      ensures forall p :: p in pips <==> p in s
      ensures Distinct(pips)
      ensures pins == old(pins) && routed == old(routed)
    {
      var listed := Enumerate(s);
      pips := listed;
    }

    /** setPIPs(new ArrayList<>(new HashSet<>(getPIPs()))): drops repeated PIPs, keeps the set. */
    method Deduplicate()
      modifies this
      ensures forall p :: p in pips <==> p in old(pips)
      ensures Distinct(pips)
      ensures pins == old(pins) && routed == old(routed)
    {
      var s := set p | p in pips;
      SetPips(s);
    }

    /** setRouted(true) on the pin at index i. */
    method SetRouted(i: nat)
      requires Valid() && i < |pins|
      modifies this
      ensures Valid()
      ensures routed == old(routed) + {i}
      ensures pins == old(pins) && pips == old(pips)
    {
      routed := routed + {i};
    }

    /** addPin(p): the new pin is appended and starts unrouted. */
    method AddPin(p: Pin) returns (i: nat)
      requires Valid()
      modifies this
      ensures Valid()
      ensures i == |old(pins)| && pins == old(pins) + [p]
      ensures routed == old(routed) && pips == old(pips)
    {
      i := |pins|;
      pins := pins + [p];
    }
  }
}

=== FILE: RouteNodeTypes.dfy ===
/** The classification of routing-resource nodes used by the connection router. */
module RouteNodeTypes {

  datatype RouteNodeType =
    | ExclusiveSource
    | ExclusiveSink
    | ExclusiveSinkEast
    | ExclusiveSinkWest
    | SuperLongLine     // a node that spans two SLRs
    | LagunaPinfeed     // a node entering a Laguna tile, or leading to a super long line
    | NonLocal
    | Local
    | LocalEast
    | LocalWest

  predicate IsExclusiveSink(t: RouteNodeType)
  {
    t == ExclusiveSink || t == ExclusiveSinkEast || t == ExclusiveSinkWest
  }

  predicate IsLocal(t: RouteNodeType)
  {
    t == Local || t == LocalEast || t == LocalWest
  }

  /** The exclusive-sink values are exactly the three sink variants. */
  lemma ExclusiveSinkValues(t: RouteNodeType)
    ensures IsExclusiveSink(t) <==> t in {ExclusiveSink, ExclusiveSinkEast, ExclusiveSinkWest}
  {
  }

  /** The local values are exactly the three local variants. */
  lemma LocalValues(t: RouteNodeType)
    ensures IsLocal(t) <==> t in {Local, LocalEast, LocalWest}
  {
  }

  /** No value is both an exclusive sink and local. */
  lemma ExclusiveSinkNotLocal(t: RouteNodeType)
    ensures !(IsExclusiveSink(t) && IsLocal(t))
  {
  }

  /** The remaining four values satisfy neither predicate. */
  lemma OthersAreNeither(t: RouteNodeType)
    requires t in {ExclusiveSource, SuperLongLine, LagunaPinfeed, NonLocal}
    ensures !IsExclusiveSink(t) && !IsLocal(t)
  {
  }
}

=== FILE: SearchArena.dfy ===
/**
 * Search wrappers. The router's RouteNode objects (a node, a back pointer to the wrapper it was
 * reached from, and a cost) are entries of an arena: a parent is the index of an earlier entry.
 * The PIPs "back to source" of an entry are the pairs (parent node, child node) met while walking
 * the parent chain from that entry to its root.
 */
module SearchArena {
  import opened Wrappers
  import opened Device

  datatype RouteNode = RouteNode(node: Node, parent: Option<nat>, cost: int)

  /** Every back pointer names an earlier entry, so every parent chain ends at a root. */
  ghost predicate WellFormed(arena: seq<RouteNode>)
  {
    forall i | 0 <= i < |arena| && arena[i].parent.Some? :: arena[i].parent.value < i
  }

  /** The node of entry `i`, if it has a parent, is a successor (by `succ`) of its parent's node. */
  ghost predicate LinkOk(arena: seq<RouteNode>, succ: Node -> seq<Node>, i: nat)
    requires WellFormed(arena) && i < |arena|
  {
    arena[i].parent.Some? ==> arena[i].node in succ(arena[arena[i].parent.value].node)
  }

  /** Every child entry's node is among the successors (by `succ`) of its parent's node. */
  ghost predicate LinkedBy(arena: seq<RouteNode>, succ: Node -> seq<Node>)
  {
    && WellFormed(arena)
    && forall i | 0 <= i < |arena| :: LinkOk(arena, succ, i)
  }

  ghost predicate NodesIn(arena: seq<RouteNode>, nodes: set<Node>)
  {
    forall i | 0 <= i < |arena| :: arena[i].node in nodes
  }

  /** The PIPs from entry `i` back to the root of its chain, nearest first (getPIPsBackToSource). */
  function BackPips(arena: seq<RouteNode>, i: nat): seq<Pip>
    requires WellFormed(arena) && i < |arena|
    decreases i
  {
    match arena[i].parent
    case None => []
    case Some(p) => [Pip(arena[p].node, arena[i].node)] + BackPips(arena, p)
  }

  /** The nodes of the chain that ends at entry `i`, root first. */
  function PathTo(arena: seq<RouteNode>, i: nat): seq<Node>
    requires WellFormed(arena) && i < |arena|
    decreases i
  {
    match arena[i].parent
    case None => [arena[i].node]
    case Some(p) => PathTo(arena, p) + [arena[i].node]
  }

  /** The index of the root of the chain that ends at entry `i`. */
  function Root(arena: seq<RouteNode>, i: nat): (r: nat)
    requires WellFormed(arena) && i < |arena|
    ensures r <= i && arena[r].parent.None?
    decreases i
  {
    match arena[i].parent
    case None => i
    case Some(p) => Root(arena, p)
  }

  /** Every back PIP of a linked arena is an edge of the successor relation. */
  lemma {:induction false} BackPipsFollowLinks(arena: seq<RouteNode>, succ: Node -> seq<Node>, i: nat)
    requires LinkedBy(arena, succ) && i < |arena|
    ensures forall pip | pip in BackPips(arena, i) :: pip.endNode in succ(pip.startNode)
    decreases i
  {
    match arena[i].parent
    case None =>
    case Some(p) =>
      assert LinkOk(arena, succ, i);
      BackPipsFollowLinks(arena, succ, p);
  }

  /**
   * The back PIPs are exactly the consecutive pairs of the chain, read from the entry towards the
   * root; the chain starts at the root's node and ends at the entry's node.
   */
  lemma {:induction false} BackPipsArePathPairs(arena: seq<RouteNode>, i: nat)
    requires WellFormed(arena) && i < |arena|
    ensures var path := PathTo(arena, i);
      && |path| == |BackPips(arena, i)| + 1
      && path[0] == arena[Root(arena, i)].node
      && arena[Root(arena, i)].parent.None?
      && path[|path| - 1] == arena[i].node
      && forall k | 0 <= k < |BackPips(arena, i)| ::
           BackPips(arena, i)[k] == Pip(path[|path| - 2 - k], path[|path| - 1 - k])
    decreases i
  {
    match arena[i].parent
    case None =>
    case Some(p) =>
      BackPipsArePathPairs(arena, p);
      var pips := BackPips(arena, i);
      var path := PathTo(arena, i);
      assert pips == [Pip(arena[p].node, arena[i].node)] + BackPips(arena, p);
      assert path == PathTo(arena, p) + [arena[i].node];
      forall k | 0 <= k < |pips|
        ensures pips[k] == Pip(path[|path| - 2 - k], path[|path| - 1 - k])
      {
        if k > 0 {
          assert pips[k] == BackPips(arena, p)[k - 1];
        }
      }
  }

  /**
   * `pips`, nearest first, are the PIPs of a walk in the graph `succ` that starts at `from` and
   * ends at `to`: each PIP is an edge, each one ends where the previous one (nearer `to`) starts.
   */
  ghost predicate BackChain(pips: seq<Pip>, succ: Node -> seq<Node>, from: Node, to: Node)
    decreases |pips|
  {
    if pips == [] then from == to
    else
      && pips[0].endNode == to
      && pips[0].endNode in succ(pips[0].startNode)
      && BackChain(pips[1..], succ, from, pips[0].startNode)
  }

  /** The back PIPs of an entry form a walk from the node of its root to its own node. */
  lemma {:induction false} BackPipsChain(arena: seq<RouteNode>, succ: Node -> seq<Node>, i: nat)
    requires LinkedBy(arena, succ) && i < |arena|
    ensures BackChain(BackPips(arena, i), succ, arena[Root(arena, i)].node, arena[i].node)
    decreases i
  {
    match arena[i].parent
    case None =>
    case Some(p) =>
      assert LinkOk(arena, succ, i);
      BackPipsChain(arena, succ, p);
      assert BackPips(arena, i)[1..] == BackPips(arena, p);
  }

  /** A walk from `mid` to `to` after a walk from `from` to `mid` is a walk from `from` to `to`. */
  lemma {:induction false} ChainJoin(p: seq<Pip>, q: seq<Pip>, succ: Node -> seq<Node>,
                                     from: Node, mid: Node, to: Node)
    requires BackChain(p, succ, mid, to) && BackChain(q, succ, from, mid)
    ensures BackChain(p + q, succ, from, to)
    decreases |p|
  {
    if p == [] {
      assert p + q == q;
    } else {
      ChainJoin(p[1..], q, succ, from, mid, p[0].startNode);
      assert (p + q)[0] == p[0] && (p + q)[1..] == p[1..] + q;
    }
  }

  /**
   * Every PIP of a walk is reached by the walk's own tail: its end node by the suffix from it on,
   * its start node by the suffix after it.
   */
  lemma {:induction false} ChainSuffix(p: seq<Pip>, succ: Node -> seq<Node>, from: Node, to: Node,
                                       k: nat)
    requires BackChain(p, succ, from, to) && k < |p|
    ensures BackChain(p[k..], succ, from, p[k].endNode)
    ensures BackChain(p[k + 1..], succ, from, p[k].startNode)
    decreases k
  {
    if k > 0 {
      ChainSuffix(p[1..], succ, from, p[0].startNode, k - 1);
      assert p[1..][k - 1..] == p[k..] && p[1..][k..] == p[k + 1..];
    }
  }

  /** In an arena whose only root is its first entry, every chain ends at that entry. */
  lemma {:induction false} SingleRoot(arena: seq<RouteNode>, i: nat)
    requires WellFormed(arena) && i < |arena|
    requires forall j | 0 < j < |arena| :: arena[j].parent.Some?
    ensures Root(arena, i) == 0
    decreases i
  {
    match arena[i].parent
    case None =>
    case Some(p) => SingleRoot(arena, p);
  }

  /** A walk through `succ` every node of which, after the first, passes the filter `ok`. */
  ghost predicate Walk(w: seq<Node>, succ: Node -> seq<Node>, ok: Node -> bool)
  {
    forall m | 0 < m < |w| :: w[m] in succ(w[m - 1]) && ok(w[m])
  }

  /** Some entry of the arena wraps `d` and has entry `j` as its parent. */
  ghost predicate HasChild(arena: seq<RouteNode>, j: nat, d: Node)
  {
    exists i | 0 <= i < |arena| :: arena[i].parent == Some(j) && arena[i].node == d
  }

  /**
   * The arena of a first-in first-out search from entry 0 after the first `expanded` entries have
   * been polled and expanded: every other entry is a child of an expanded entry, children come in
   * the order of their parents, and every successor that passes `ok` of an expanded entry has
   * been wrapped as its child.
   */
  ghost predicate BfsExplored(arena: seq<RouteNode>, succ: Node -> seq<Node>, ok: Node -> bool,
                              expanded: nat)
  {
    && WellFormed(arena)
    && 0 < |arena| && expanded <= |arena| && arena[0].parent.None?
    && (forall i | 0 < i < |arena| :: arena[i].parent.Some? && arena[i].parent.value < expanded)
    && (forall i, j | 0 < i < j < |arena| && arena[i].parent.Some? && arena[j].parent.Some? ::
          arena[i].parent.value <= arena[j].parent.value)
    && (forall j, d | 0 <= j < expanded && d in succ(arena[j].node) && ok(d) :: HasChild(arena, j, d))
  }

  /** Entries of a first-in first-out arena come in order of their number of hops from the root. */
  lemma {:induction false} DepthMonotone(arena: seq<RouteNode>, succ: Node -> seq<Node>,
                                          ok: Node -> bool, expanded: nat, i: nat, j: nat)
    requires BfsExplored(arena, succ, ok, expanded)
    requires i <= j < |arena|
    ensures |BackPips(arena, i)| <= |BackPips(arena, j)|
    decreases j
  {
    if i > 0 {
      var pi, pj := arena[i].parent.value, arena[j].parent.value;
      DepthMonotone(arena, succ, ok, expanded, pi, pj);
    }
  }

  /** An entry fewer hops from the root than entry `f` comes before it. */
  lemma FewerHopsBefore(arena: seq<RouteNode>, succ: Node -> seq<Node>, ok: Node -> bool,
                        f: nat, e: nat)
    requires BfsExplored(arena, succ, ok, f) && f < |arena| && e < |arena|
    requires |BackPips(arena, e)| < |BackPips(arena, f)|
    ensures e < f
  {
    if f <= e {
      DepthMonotone(arena, succ, ok, f, f, e);
    }
  }

  /**
   * Node `m` of a walk from the root is wrapped by an entry `e` at most `m` hops from the root, as
   * long as `m` is fewer hops than the entry `f` polled next.
   */
  lemma {:induction false} WalkPrefixReached(arena: seq<RouteNode>, succ: Node -> seq<Node>,
                                              ok: Node -> bool, f: nat, w: seq<Node>, m: nat)
    returns (e: nat)
    requires BfsExplored(arena, succ, ok, f) && f < |arena|
    requires Walk(w, succ, ok) && 0 < |w| && w[0] == arena[0].node
    requires m < |w| && m < |BackPips(arena, f)|
    ensures e < |arena| && arena[e].node == w[m] && |BackPips(arena, e)| <= m
    decreases m
  {
    if m == 0 {
      assert BackPips(arena, 0) == [];
      e := 0;
    } else {
      var p := WalkPrefixReached(arena, succ, ok, f, w, m - 1);
      FewerHopsBefore(arena, succ, ok, f, p);
      assert w[m] in succ(arena[p].node) && ok(w[m]);
      assert HasChild(arena, p, w[m]);
      e :| 0 <= e < |arena| && arena[e].parent == Some(p) && arena[e].node == w[m];
      assert |BackPips(arena, e)| == |BackPips(arena, p)| + 1;
    }
  }

  /** An entry fewer hops from the root than entry `f` was polled before it, so it is no goal. */
  lemma NoGoalNearer(arena: seq<RouteNode>, succ: Node -> seq<Node>, ok: Node -> bool,
                     goal: Node -> bool, f: nat, e: nat)
    requires BfsExplored(arena, succ, ok, f) && f < |arena| && e < |arena|
    requires forall j | 0 <= j < f :: !goal(arena[j].node)
    requires |BackPips(arena, e)| < |BackPips(arena, f)|
    ensures !goal(arena[e].node)
  {
    FewerHopsBefore(arena, succ, ok, f, e);
  }

  /**
   * Breadth-first optimality: when the first `f` polled entries were expanded without meeting
   * `goal` and entry `f` is polled next, no walk from the root through `succ` and `ok` reaches a
   * goal node in fewer hops than the back PIPs of entry `f`.
   */
  lemma NoNearerGoal(arena: seq<RouteNode>, succ: Node -> seq<Node>, ok: Node -> bool,
                     goal: Node -> bool, f: nat, w: seq<Node>)
    requires BfsExplored(arena, succ, ok, f) && f < |arena|
    requires forall j | 0 <= j < f :: !goal(arena[j].node)
    requires Walk(w, succ, ok) && 0 < |w| && w[0] == arena[0].node && goal(w[|w| - 1])
    ensures |BackPips(arena, f)| <= |w| - 1
  {
    if |w| - 1 < |BackPips(arena, f)| {
      var e := WalkPrefixReached(arena, succ, ok, f, w, |w| - 1);
      NoGoalNearer(arena, succ, ok, goal, f, e);
      assert false;
    }
  }

  /**
   * The entries a first-in first-out search appends when it expands entry `parent`: one child per
   * node of `ds` that passes `ok`, in the order of `ds`.
   */
  function ChildEntries(ds: seq<Node>, ok: Node -> bool, parent: nat): seq<RouteNode>
    decreases |ds|
  {
    if ds == [] then []
    else
      var last := ds[|ds| - 1];
      ChildEntries(ds[..|ds| - 1], ok, parent) + (if ok(last) then [RouteNode(last, Some(parent), 0)] else [])
  }

  /** The children are exactly the nodes of `ds` that pass `ok`, all pointing at `parent`. */
  lemma {:induction false} ChildEntriesMembers(ds: seq<Node>, ok: Node -> bool, parent: nat)
    ensures forall k | 0 <= k < |ChildEntries(ds, ok, parent)| ::
      var e := ChildEntries(ds, ok, parent)[k];
      e.parent == Some(parent) && e.node in ds && ok(e.node)
    ensures forall d | d in ds && ok(d) ::
      exists k | 0 <= k < |ChildEntries(ds, ok, parent)| :: ChildEntries(ds, ok, parent)[k].node == d
    decreases |ds|
  {
    if ds != [] {
      var init := ds[..|ds| - 1];
      ChildEntriesMembers(init, ok, parent);
      var c := ChildEntries(ds, ok, parent);
      var ci := ChildEntries(init, ok, parent);
      assert ds == init + [ds[|ds| - 1]];
      forall d | d in ds && ok(d)
        ensures exists k | 0 <= k < |c| :: c[k].node == d
      {
        if d in init {
          var k :| 0 <= k < |ci| && ci[k].node == d;
          assert c[k] == ci[k];
        } else {
          assert c[|c| - 1].node == d;
        }
      }
    }
  }

  /**
   * The state of a first-in first-out search from `root` whose first `head` entries have been
   * polled and expanded.
   */
  ghost predicate BfsState(arena: seq<RouteNode>, succ: Node -> seq<Node>, ok: Node -> bool,
                           root: Node, head: nat)
  {
    && 0 < |arena| && arena[0] == RouteNode(root, None, 0)
    && head <= |arena| && LinkedBy(arena, succ) && BfsExplored(arena, succ, ok, head)
  }

  lemma BfsStateStep(arena: seq<RouteNode>, succ: Node -> seq<Node>, ok: Node -> bool,
                     root: Node, head: nat)
    requires BfsState(arena, succ, ok, root, head) && head < |arena|
    ensures var next := arena + ChildEntries(succ(arena[head].node), ok, head);
      BfsState(next, succ, ok, root, head + 1) && next[..|arena|] == arena
  {
    ExpandStep(arena, succ, ok, head);
  }

  /** The inner loop of a first-in first-out expansion: `q.add(new RouteNode(d, parent))` for each d. */
  method AppendChildren(arena: seq<RouteNode>, ds: seq<Node>, ok: Node -> bool, parent: nat)
    returns (next: seq<RouteNode>)
    ensures next == arena + ChildEntries(ds, ok, parent)
  {
    next := arena;
    var t := 0;
    while t < |ds|
      invariant t <= |ds| && next == arena + ChildEntries(ds[..t], ok, parent)
    {
      assert ds[..t + 1][..t] == ds[..t];
      if ok(ds[t]) {
        next := next + [RouteNode(ds[t], Some(parent), 0)];
      }
      t := t + 1;
    }
    assert ds[..t] == ds;
  }

  /** Appending the children of the next entry to be expanded keeps the search breadth-first. */
  lemma ExpandStep(arena: seq<RouteNode>, succ: Node -> seq<Node>, ok: Node -> bool, k: nat)
    requires BfsExplored(arena, succ, ok, k) && LinkedBy(arena, succ) && k < |arena|
    ensures var next := arena + ChildEntries(succ(arena[k].node), ok, k);
      BfsExplored(next, succ, ok, k + 1) && LinkedBy(next, succ)
      && next[0] == arena[0] && next[..|arena|] == arena
  {
    var c := ChildEntries(succ(arena[k].node), ok, k);
    ChildEntriesMembers(succ(arena[k].node), ok, k);
    ExpandLinks(arena, succ, ok, k, c);
    ExpandChildren(arena, succ, ok, k, c);
  }

  lemma ExpandLinks(arena: seq<RouteNode>, succ: Node -> seq<Node>, ok: Node -> bool, k: nat,
                    c: seq<RouteNode>)
    requires BfsExplored(arena, succ, ok, k) && LinkedBy(arena, succ) && k < |arena|
    requires forall m | 0 <= m < |c| :: c[m].parent == Some(k) && c[m].node in succ(arena[k].node)
    ensures LinkedBy(arena + c, succ)
    ensures forall i | 0 < i < |arena + c| :: (arena + c)[i].parent.Some? && (arena + c)[i].parent.value < k + 1
    ensures forall i, j | 0 < i < j < |arena + c| && (arena + c)[i].parent.Some? && (arena + c)[j].parent.Some? ::
          (arena + c)[i].parent.value <= (arena + c)[j].parent.value
  {
    var next := arena + c;
    assert forall i | |arena| <= i < |next| :: next[i] == c[i - |arena|];
    assert forall i | 0 <= i < |arena| :: next[i] == arena[i];
    forall i | 0 <= i < |next| ensures LinkOk(next, succ, i) {
      if i < |arena| {
        assert LinkOk(arena, succ, i);
        if arena[i].parent.Some? {
          assert next[arena[i].parent.value] == arena[arena[i].parent.value];
        }
      } else {
        assert next[k] == arena[k];
      }
    }
  }

  lemma ExpandChildren(arena: seq<RouteNode>, succ: Node -> seq<Node>, ok: Node -> bool, k: nat,
                       c: seq<RouteNode>)
    requires BfsExplored(arena, succ, ok, k) && k < |arena|
    requires forall d | d in succ(arena[k].node) && ok(d) ::
      exists m | 0 <= m < |c| :: c[m].node == d
    requires forall m | 0 <= m < |c| :: c[m].parent == Some(k)
    ensures forall j, d | 0 <= j < k + 1 && d in succ((arena + c)[j].node) && ok(d) :: HasChild(arena + c, j, d)
  {
    var next := arena + c;
    forall j, d | 0 <= j < k + 1 && d in succ(next[j].node) && ok(d)
      ensures HasChild(next, j, d)
    {
      assert next[j] == arena[j];
      if j < k {
        assert HasChild(arena, j, d);
        var i :| 0 <= i < |arena| && arena[i].parent == Some(j) && arena[i].node == d;
        assert next[i] == arena[i];
      } else {
        var m :| 0 <= m < |c| && c[m].node == d;
        assert next[|arena| + m] == c[m];
      }
    }
  }

  /** The queue without its element at position k. */
  function RemoveAt(q: seq<nat>, k: nat): (r: seq<nat>)
    requires k < |q|
    ensures |r| == |q| - 1
    ensures multiset(r) + multiset{q[k]} == multiset(q)
    ensures forall j | 0 <= j < |r| :: r[j] == if j < k then q[j] else q[j + 1]
  {
    assert q == q[..k] + [q[k]] + q[k + 1..];
    q[..k] + q[k + 1..]
  }

  /**
   * Poll of a priority queue of arena entries ordered by cost: the position of an entry whose
   * cost is no larger than that of any other queued entry. Ties are not specified by the router.
   */
  method PollMin(arena: seq<RouteNode>, q: seq<nat>) returns (k: nat)
    requires |q| > 0
    requires forall j | 0 <= j < |q| :: q[j] < |arena|
    ensures k < |q|
    ensures forall j | 0 <= j < |q| :: arena[q[k]].cost <= arena[q[j]].cost
  {
    k := 0;
    var j := 1;
    while j < |q|
      invariant 1 <= j <= |q| && k < j
      invariant forall m | 0 <= m < j :: arena[q[k]].cost <= arena[q[m]].cost
    {
      if arena[q[j]].cost < arena[q[k]].cost {
        k := j;
      }
      j := j + 1;
    }
  }

  ghost predicate Distinct<T>(s: seq<T>)
  {
    forall i, j | 0 <= i < j < |s| :: s[i] != s[j]
  }

  /** The elements of a hash set in its (unspecified) iteration order. */
  method Enumerate<T>(s: set<T>) returns (r: seq<T>)
    ensures forall p :: p in r <==> p in s
    ensures Distinct(r)
  {
    r := [];
    var rest := s;
    while rest != {}
      invariant rest <= s
      invariant forall p :: p in r <==> p in s && p !in rest
      invariant Distinct(r)
      decreases rest
    {
      var p :| p in rest;
      r := r + [p];
      rest := rest - {p};
    }
  }

  /** The filter of a search that follows every successor. */
  function AnyNode(n: Node): bool
  {
    true
  }

  /** Every queued index names an entry of the arena. */
  ghost predicate QueuedIn(q: seq<nat>, arena: seq<RouteNode>)
  {
    forall k | 0 <= k < |q| :: q[k] < |arena|
  }

  /** The arena indices lo, lo + 1, ..., hi - 1, in order. */
  function Span(lo: nat, hi: nat): (r: seq<nat>)
    requires lo <= hi
    ensures |r| == hi - lo && forall j | 0 <= j < |r| :: r[j] == lo + j
  {
    seq(hi - lo, j => lo + j)
  }

  /** The nodes a set of PIPs starts or ends at. */
  function PipNodes(pips: set<Pip>): set<Node>
  {
    (set p | p in pips :: p.startNode) + (set p | p in pips :: p.endNode)
  }

  function PipSet(pips: seq<Pip>): set<Pip>
  {
    set p | p in pips
  }

  lemma PipNodesSnoc(pips: seq<Pip>, t: nat)
    requires t < |pips|
    ensures PipNodes(PipSet(pips[..t + 1]))
         == PipNodes(PipSet(pips[..t])) + {pips[t].startNode, pips[t].endNode}
  {
    assert PipSet(pips[..t + 1]) == PipSet(pips[..t]) + {pips[t]} by {
      assert pips[..t + 1] == pips[..t] + [pips[t]];
    }
  }

  /** More PIPs have more ends. */
  lemma PipNodesGrow(a: set<Pip>, b: set<Pip>)
    requires a <= b
    ensures PipNodes(a) <= PipNodes(b)
  {
  }

  lemma PipSetConcat(a: seq<Pip>, b: seq<Pip>)
    ensures PipSet(a + b) == PipSet(a) + PipSet(b)
  {
    assert forall p | p in a + b :: p in a || p in b;
  }

  /** The PIPs of every walk of `walks`. */
  function UnionPips(walks: seq<seq<Pip>>): set<Pip>
  {
    if walks == [] then {} else UnionPips(walks[..|walks| - 1]) + PipSet(walks[|walks| - 1])
  }

  /** A PIP is in the union exactly when some walk holds it. */
  lemma {:induction false} UnionPipsMembers(walks: seq<seq<Pip>>)
    ensures forall p :: p in UnionPips(walks) <==> exists t | 0 <= t < |walks| :: p in walks[t]
    decreases |walks|
  {
    if walks != [] {
      var init := walks[..|walks| - 1];
      UnionPipsMembers(init);
      assert forall t | 0 <= t < |init| :: init[t] == walks[t];
    }
  }

  /** One more walk adds its PIPs to the union. */
  lemma UnionPipsSnoc(walks: seq<seq<Pip>>, w: seq<Pip>)
    ensures UnionPips(walks + [w]) == UnionPips(walks) + PipSet(w)
  {
    assert (walks + [w])[..|walks|] == walks;
  }

  /** Entry `e` is a child of `parent` that the expansion of `ds` may append. */
  ghost predicate UnmarkedChild(e: RouteNode, ds: seq<Node>, ok: Node -> bool, keep: Node -> bool,
                                cost: Node -> int, parent: nat, marked: set<Node>)
  {
    && e == RouteNode(e.node, Some(parent), cost(e.node))
    && e.node in ds && ok(e.node) && keep(e.node) && e.node !in marked
  }

  /**
   * `next` and `marked'` are what expanding entry `parent` of `arena` over the successors `ds`
   * gives: each successor that passes `ok` is marked, and those that were not marked before and
   * pass `keep` are appended once each as children of `parent`.
   */
  ghost predicate Expanded(arena: seq<RouteNode>, next: seq<RouteNode>, ds: seq<Node>,
                           ok: Node -> bool, keep: Node -> bool, cost: Node -> int, parent: nat,
                           marked: set<Node>, marked': set<Node>)
  {
    && |arena| <= |next| && next[..|arena|] == arena
    && (forall i | |arena| <= i < |next| :: UnmarkedChild(next[i], ds, ok, keep, cost, parent, marked))
    && (forall i, j | |arena| <= i < j < |next| :: next[i].node != next[j].node)
    && marked' == marked + (set d | d in ds && ok(d))
    && (forall d | d in ds && ok(d) && keep(d) && d !in marked ::
          exists i | |arena| <= i < |next| :: next[i].node == d)
    && (forall i | |arena| <= i < |next| :: next[i].node in marked')
  }

  /** What the inner loop of ExpandUnmarked keeps after the first `t` successors. */
  ghost predicate ExpandedUpTo(arena: seq<RouteNode>, next: seq<RouteNode>, ds: seq<Node>, t: nat,
                               ok: Node -> bool, keep: Node -> bool, cost: Node -> int, parent: nat,
                               marked: set<Node>, marked': set<Node>)
    requires t <= |ds|
  {
    && |arena| <= |next| && next[..|arena|] == arena
    && (forall i | |arena| <= i < |next| :: UnmarkedChild(next[i], ds, ok, keep, cost, parent, marked))
    && (forall i | |arena| <= i < |next| :: next[i].node in marked')
    && (forall i, j | |arena| <= i < j < |next| :: next[i].node != next[j].node)
    && marked' == marked + (set d | d in ds[..t] && ok(d))
    && (forall d | d in marked' && d !in marked && keep(d) ::
          exists i | |arena| <= i < |next| :: next[i].node == d)
  }

  /** One successor more. */
  lemma ExpandedUpToStep(arena: seq<RouteNode>, next: seq<RouteNode>, ds: seq<Node>, t: nat,
                         ok: Node -> bool, keep: Node -> bool, cost: Node -> int, parent: nat,
                         marked: set<Node>, marked': set<Node>, next2: seq<RouteNode>,
                         marked2: set<Node>)
    requires t < |ds| && ExpandedUpTo(arena, next, ds, t, ok, keep, cost, parent, marked, marked')
    requires marked2 == if ok(ds[t]) && ds[t] !in marked' then marked' + {ds[t]} else marked'
    requires next2 == if ok(ds[t]) && ds[t] !in marked' && keep(ds[t])
                      then next + [RouteNode(ds[t], Some(parent), cost(ds[t]))] else next
    ensures ExpandedUpTo(arena, next2, ds, t + 1, ok, keep, cost, parent, marked, marked2)
  {
    var d := ds[t];
    assert ds[..t + 1] == ds[..t] + [d];
    forall e | e in marked2 && e !in marked && keep(e)
      ensures exists i | |arena| <= i < |next2| :: next2[i].node == e
    {
      if e == d && d !in marked' {
        assert next2[|next2| - 1].node == d;
      } else {
        var i :| |arena| <= i < |next| && next[i].node == e;
        assert next2[i] == next[i];
      }
    }
  }

  /**
   * The arena and the marks the inner loop of ExpandUnmarked ends with, once it has taken the
   * successors `ds[t..]` from the arena `next` and the marks `marked`.
   */
  function ExpandFrom(ds: seq<Node>, t: nat, ok: Node -> bool, keep: Node -> bool,
                      cost: Node -> int, parent: nat, next: seq<RouteNode>, marked: set<Node>)
    : (seq<RouteNode>, set<Node>)
    requires t <= |ds|
    decreases |ds| - t
  {
    if t == |ds| then (next, marked)
    else
      var d := ds[t];
      if ok(d) && d !in marked then
        ExpandFrom(ds, t + 1, ok, keep, cost, parent,
                   if keep(d) then next + [RouteNode(d, Some(parent), cost(d))] else next,
                   marked + {d})
      else ExpandFrom(ds, t + 1, ok, keep, cost, parent, next, marked)
  }

  /** What ExpandFrom computes from the start is an expansion of `arena` over `ds`. */
  lemma {:induction false} ExpandFromExpanded(arena: seq<RouteNode>, ds: seq<Node>, t: nat,
                                              ok: Node -> bool, keep: Node -> bool,
                                              cost: Node -> int, parent: nat, next: seq<RouteNode>,
                                              marked: set<Node>, marked': set<Node>)
    requires t <= |ds| && ExpandedUpTo(arena, next, ds, t, ok, keep, cost, parent, marked, marked')
    ensures var e := ExpandFrom(ds, t, ok, keep, cost, parent, next, marked');
      Expanded(arena, e.0, ds, ok, keep, cost, parent, marked, e.1)
    decreases |ds| - t
  {
    if t == |ds| {
      assert ds[..t] == ds;
    } else {
      var d := ds[t];
      var marked2 := if ok(d) && d !in marked' then marked' + {d} else marked';
      var next2 := if ok(d) && d !in marked' && keep(d)
                   then next + [RouteNode(d, Some(parent), cost(d))] else next;
      ExpandedUpToStep(arena, next, ds, t, ok, keep, cost, parent, marked, marked', next2, marked2);
      ExpandFromExpanded(arena, ds, t + 1, ok, keep, cost, parent, next2, marked, marked2);
    }
  }

  /** Expanding `arena` over `ds` from the start. */
  lemma ExpansionExpanded(arena: seq<RouteNode>, ds: seq<Node>, ok: Node -> bool,
                          keep: Node -> bool, cost: Node -> int, parent: nat, marked: set<Node>)
    ensures var e := ExpandFrom(ds, 0, ok, keep, cost, parent, arena, marked);
      Expanded(arena, e.0, ds, ok, keep, cost, parent, marked, e.1)
  {
    assert ds[..0] == [];
    ExpandFromExpanded(arena, ds, 0, ok, keep, cost, parent, arena, marked, marked);
  }

  /**
   * The inner loop of a search that marks a node the first time it meets it: each successor `d`
   * of entry `parent`, in the order of `ds`, that passes `ok` and is not yet marked is marked, and
   * appended as a child of `parent` with cost `cost(d)` if it also passes `keep`.
   */
  method ExpandUnmarked(arena: seq<RouteNode>, ds: seq<Node>, ok: Node -> bool, keep: Node -> bool,
                        cost: Node -> int, parent: nat, marked: set<Node>)
    returns (next: seq<RouteNode>, marked': set<Node>)
    ensures |arena| <= |next| && next[..|arena|] == arena
    ensures Expanded(arena, next, ds, ok, keep, cost, parent, marked, marked')
    ensures (next, marked') == ExpandFrom(ds, 0, ok, keep, cost, parent, arena, marked)
  {
    next, marked' := arena, marked;
    var t := 0;
    while t < |ds|
      invariant t <= |ds|
      invariant ExpandedUpTo(arena, next, ds, t, ok, keep, cost, parent, marked, marked')
      invariant ExpandFrom(ds, t, ok, keep, cost, parent, next, marked')
             == ExpandFrom(ds, 0, ok, keep, cost, parent, arena, marked)
    {
      var d := ds[t];
      ghost var next1, marked1 := next, marked';
      if ok(d) && d !in marked' {
        marked' := marked' + {d};
        if keep(d) {
          next := next + [RouteNode(d, Some(parent), cost(d))];
        }
      }
      ExpandedUpToStep(arena, next1, ds, t, ok, keep, cost, parent, marked, marked1, next, marked');
      t := t + 1;
    }
    assert ds[..t] == ds;
  }

  /**
   * An expansion over successors in `universe` either marks nothing new and appends nothing, or
   * shrinks the unmarked part of `universe`.
   */
  lemma ExpandedMeasure(universe: set<Node>, arena: seq<RouteNode>, next: seq<RouteNode>,
                        ds: seq<Node>, ok: Node -> bool, keep: Node -> bool, cost: Node -> int,
                        parent: nat, marked: set<Node>, marked': set<Node>)
    requires Expanded(arena, next, ds, ok, keep, cost, parent, marked, marked')
    requires forall d | d in ds :: d in universe
    ensures marked <= marked'
    ensures marked' == marked ==> |next| == |arena|
    ensures marked' != marked ==> |universe - marked'| < |universe - marked|
  {
    if marked' != marked {
      var d :| d in marked' && d !in marked;
      MarkShrinks(universe, marked, marked', d);
    }
    if |arena| < |next| {
      assert UnmarkedChild(next[|arena|], ds, ok, keep, cost, parent, marked);
      assert next[|arena|].node in marked' - marked;
    }
  }

  /** A prefix of a prefix is a prefix. */
  lemma PrefixTrans(a: seq<RouteNode>, b: seq<RouteNode>, c: seq<RouteNode>)
    requires |a| <= |b| <= |c| && b[..|a|] == a && c[..|b|] == b
    ensures c[..|a|] == a
  {
    assert c[..|a|] == c[..|b|][..|a|];
  }

  /** Marking a node of `universe` shrinks the unmarked part of it. */
  lemma MarkShrinks(universe: set<Node>, marked: set<Node>, marked': set<Node>, d: Node)
    requires marked <= marked' && d in universe && d in marked' && d !in marked
    ensures |universe - marked'| < |universe - marked|
  {
    SubsetCard(universe - marked', (universe - marked) - {d});
  }

  lemma {:induction false} SubsetCard(a: set<Node>, b: set<Node>)
    requires a <= b
    ensures |a| <= |b|
    decreases |a|
  {
    if a != {} {
      var x :| x in a;
      SubsetCard(a - {x}, b - {x});
    }
  }

  /** Children of one linked entry keep the arena linked. */
  lemma AppendChildrenLinked(arena: seq<RouteNode>, succ: Node -> seq<Node>, parent: nat,
                             next: seq<RouteNode>)
    requires LinkedBy(arena, succ) && parent < |arena|
    requires |arena| <= |next| && next[..|arena|] == arena
    requires forall i | |arena| <= i < |next| ::
      next[i].parent == Some(parent) && next[i].node in succ(arena[parent].node)
    ensures LinkedBy(next, succ)
  {
    assert forall i | 0 <= i < |arena| :: next[i] == arena[i];
    assert WellFormed(next);
    forall i | 0 <= i < |next| ensures LinkOk(next, succ, i) {
      if i < |arena| {
        assert LinkOk(arena, succ, i);
        if arena[i].parent.Some? {
          assert next[arena[i].parent.value] == arena[arena[i].parent.value];
        }
      } else {
        assert next[parent] == arena[parent];
      }
    }
  }

  /** Roots appended to a linked arena keep it linked. */
  lemma AppendRootsLinked(arena: seq<RouteNode>, succ: Node -> seq<Node>, next: seq<RouteNode>)
    requires LinkedBy(arena, succ)
    requires |arena| <= |next| && next[..|arena|] == arena
    requires forall i | |arena| <= i < |next| :: next[i].parent.None?
    ensures LinkedBy(next, succ)
  {
    assert forall i | 0 <= i < |arena| :: next[i] == arena[i];
    assert WellFormed(next);
    forall i | 0 <= i < |next| ensures LinkOk(next, succ, i) {
      if i < |arena| {
        assert LinkOk(arena, succ, i);
        if arena[i].parent.Some? {
          assert next[arena[i].parent.value] == arena[arena[i].parent.value];
        }
      }
    }
  }

  /**
   * The back PIPs of an entry run between nodes of entries, and each ends at the node of a child
   * entry: if every node is in `nodes` and every child's node passes `childOk`, so do the PIPs.
   */
  lemma {:induction false} BackPipsWithin(arena: seq<RouteNode>, i: nat, nodes: set<Node>,
                                          childOk: Node -> bool)
    requires WellFormed(arena) && i < |arena| && NodesIn(arena, nodes)
    requires forall j | 0 <= j < |arena| && arena[j].parent.Some? :: childOk(arena[j].node)
    ensures forall pip | pip in BackPips(arena, i) ::
      pip.startNode in nodes && pip.endNode in nodes && childOk(pip.endNode)
    decreases i
  {
    match arena[i].parent
    case None =>
    case Some(p) =>
      BackPipsWithin(arena, p, nodes, childOk);
  }
}

=== FILE: StaticRouting.dfy ===
/**
 * routeStaticNet: the VCC/GND router. For every unrouted input pin it searches backwards (uphill)
 * from the pin's node, breadth first, until it meets a node that can serve as the net's static
 * source, and then adds the PIPs of the path it found, source to sink.
 */
module StaticRouting {
  import opened Wrappers
  import opened Device
  import opened SearchArena
  import opened StaticSources
  import opened Nets

  /**
   * A route-thru from `up` into `curr` is skipped, unless `curr` is an IRI node or lies on a
   * BLI CLE bottom tile.
   */
  predicate SkippedRouteThru(g: Graph, up: Node, curr: Node)
  {
    g.isRouteThru(up, curr) && g.intent(curr) != Iri && !g.onBliCleBotTile(curr)
  }

  /**
   * An uphill step the search can take from `curr` to `up`: `up` drives `curr`, the step is not
   * a skipped route-thru, and `up` passes the intent and status tests of pruneNode.
   */
  predicate SearchStep(g: Graph, status: Node -> NodeStatus, up: Node, curr: Node)
  {
    && up in g.uphill(curr)
    && !SkippedRouteThru(g, up, curr)
    && !PrunedIntent(g.intent(up)) && status(up) != Unavailable
  }

  /** A path the backward search can find: source first, sink last, each pair a search step. */
  ghost predicate StaticPath(g: Graph, status: Node -> NodeStatus, path: seq<Node>, sink: Node)
  {
    && |path| > 0 && path[|path| - 1] == sink
    && forall k | 0 <= k < |path| - 1 :: SearchStep(g, status, path[k], path[k + 1])
  }

  /** The PIP from the k-th node of a path to the next one. */
  function PipAt(path: seq<Node>, k: nat): Pip
    requires k + 1 < |path|
  {
    Pip(path[k], path[k + 1])
  }

  /** The PIPs between consecutive nodes of a source-to-sink path (getPIPsFromNodes(path, true)). */
  function PathPips(path: seq<Node>): set<Pip>
  {
    set k | 0 <= k < |path| - 1 :: PipAt(path, k)
  }

  /**
   * Visited node x points back at a visited node it is a search step from, polled before it
   * (rank is the poll order).
   */
  ghost predicate PointsBack(g: Graph, status: Node -> NodeStatus, visited: set<Node>,
                             prev: map<Node, Node>, rank: map<Node, nat>, x: Node)
  {
    && x in prev && prev[x] in visited && x in rank && prev[x] in rank
    && rank[prev[x]] < rank[x] && SearchStep(g, status, x, prev[x])
  }

  /** The back pointers of one search: every visited node but the sink points back. */
  ghost predicate BackPointers(g: Graph, status: Node -> NodeStatus, sink: Node, visited: set<Node>,
                               prev: map<Node, Node>, rank: map<Node, nat>)
  {
    && (forall x | x in visited :: x in rank && rank[x] < |visited|)
    && (forall x {:trigger PointsBack(g, status, visited, prev, rank, x)} | x in visited && x != sink ::
         PointsBack(g, status, visited, prev, rank, x))
  }

  /** Queued node x points back at a visited node it is a search step from. */
  ghost predicate QueuedBack(g: Graph, status: Node -> NodeStatus, visited: set<Node>, prev: map<Node, Node>, x: Node)
  {
    x in prev && prev[x] in visited && SearchStep(g, status, x, prev[x])
  }

  /** The outcome of one sink's search: the path found, if any, and the used-node set after it. */
  datatype SinkSearch = SinkSearch(path: Option<seq<Node>>, used: set<Node>)

  /**
   * The trace back of routeStaticNet: follows the back pointers from the source just found to the
   * sink, collecting the path source first.
   */
  method TraceBack(ghost g: Graph, ghost status: Node -> NodeStatus, sink: Node, prev: map<Node, Node>,
                   from: Node, ghost visited: set<Node>, ghost rank: map<Node, nat>)
    returns (path: seq<Node>)
    requires BackPointers(g, status, sink, visited, prev, rank)
    requires from in visited && sink in visited && sink !in prev
    ensures |path| > 0 && path[0] == from
    ensures StaticPath(g, status, path, sink)
    ensures Distinct(path)
    ensures forall n | n in path :: n in visited
  {
    path := [from];
    var cur := from;
    while cur in prev
      invariant |path| > 0 && cur in visited && path[|path| - 1] == cur && path[0] == from
      invariant forall n | n in path :: n in visited
      invariant forall k | 0 <= k < |path| - 1 :: SearchStep(g, status, path[k], path[k + 1])
      invariant forall a, b | 0 <= a < b < |path| :: rank[path[a]] > rank[path[b]]
      decreases rank[cur]
    {
      assert PointsBack(g, status, visited, prev, rank, cur);
      var next := prev[cur];
      path := path + [next];
      cur := next;
    }
    assert cur == sink || PointsBack(g, status, visited, prev, rank, cur);
  }

  /**
   * What holds of a search in progress: the used set only grew by in-use nodes; before the first
   * poll the queue holds just the sink; afterwards the sink is visited and has no back pointer;
   * every queued node is visited, the sink, or points back at a visited node it is a step from.
   */
  ghost predicate SearchState(g: Graph, status: Node -> NodeStatus, sink: Node, used0: set<Node>,
                              q: seq<Node>, visited: set<Node>, used: set<Node>,
                              prev: map<Node, Node>, rank: map<Node, nat>)
  {
    && used0 <= used && (forall n | n in used - used0 :: status(n) == InUse)
    && (visited == {} ==> q == [sink] && prev == map[])
    && (visited != {} ==> sink in visited)
    && sink !in prev
    && BackPointers(g, status, sink, visited, prev, rank)
    && forall x | x in q :: x in visited || x == sink || QueuedBack(g, status, visited, prev, x)
  }

  /** Polling the head of the queue marks it visited and gives it the next rank. */
  lemma PollKeepsState(g: Graph, status: Node -> NodeStatus, sink: Node, used0: set<Node>,
                       q: seq<Node>, visited: set<Node>, used: set<Node>,
                       prev: map<Node, Node>, rank: map<Node, nat>)
    requires q != [] && SearchState(g, status, sink, used0, q, visited, used, prev, rank)
    ensures var rank' := if q[0] in visited then rank else rank[q[0] := |visited|];
      SearchState(g, status, sink, used0, q[1..], visited + {q[0]}, used, prev, rank')
  {
    var curr := q[0];
    assert curr in visited || curr == sink || QueuedBack(g, status, visited, prev, curr);
    PollBackPointers(g, status, sink, visited, prev, rank, curr);
    PollQueue(g, status, sink, q, visited, prev);
    if visited == {} {
      assert curr == sink;
    }
  }

  /** The back pointers after polling `curr`. */
  lemma PollBackPointers(g: Graph, status: Node -> NodeStatus, sink: Node, visited: set<Node>,
                         prev: map<Node, Node>, rank: map<Node, nat>, curr: Node)
    requires BackPointers(g, status, sink, visited, prev, rank)
    requires curr in visited || curr == sink || QueuedBack(g, status, visited, prev, curr)
    ensures var rank' := if curr in visited then rank else rank[curr := |visited|];
      BackPointers(g, status, sink, visited + {curr}, prev, rank')
  {
    PollRanks(visited, rank, curr);
    PollPointsBack(g, status, sink, visited, prev, rank, curr);
  }

  lemma PollPointsBack(g: Graph, status: Node -> NodeStatus, sink: Node, visited: set<Node>,
                       prev: map<Node, Node>, rank: map<Node, nat>, curr: Node)
    requires BackPointers(g, status, sink, visited, prev, rank)
    requires curr in visited || curr == sink || QueuedBack(g, status, visited, prev, curr)
    ensures var rank' := if curr in visited then rank else rank[curr := |visited|];
      forall x | x in visited + {curr} && x != sink :: PointsBack(g, status, visited + {curr}, prev, rank', x)
  {
    var rank' := if curr in visited then rank else rank[curr := |visited|];
    forall x | x in visited + {curr} && x != sink
      ensures PointsBack(g, status, visited + {curr}, prev, rank', x)
    {
      if x in visited {
        assert PointsBack(g, status, visited, prev, rank, x);
      }
    }
  }

  lemma PollQueue(g: Graph, status: Node -> NodeStatus, sink: Node, q: seq<Node>, visited: set<Node>,
                  prev: map<Node, Node>)
    requires q != []
    requires forall x | x in q :: x in visited || x == sink || QueuedBack(g, status, visited, prev, x)
    ensures forall x | x in q[1..] ::
      x in visited + {q[0]} || x == sink || QueuedBack(g, status, visited + {q[0]}, prev, x)
  {
    forall x | x in q[1..]
      ensures x in visited + {q[0]} || x == sink || QueuedBack(g, status, visited + {q[0]}, prev, x)
    {
      var j :| 0 <= j < |q[1..]| && q[1..][j] == x;
      assert q[j + 1] == x;
    }
  }

  /** The polled node gets a rank above every visited node's, unless it was visited already. */
  lemma PollRanks(visited: set<Node>, rank: map<Node, nat>, curr: Node)
    requires forall x | x in visited :: x in rank && rank[x] < |visited|
    ensures var rank' := if curr in visited then rank else rank[curr := |visited|];
      forall x | x in visited + {curr} :: x in rank' && rank'[x] < |visited + {curr}|
  {
    if curr in visited {
      assert visited + {curr} == visited;
    } else {
      assert |visited + {curr}| == |visited| + 1;
    }
  }

  /** Giving an unvisited node `up` the back pointer `curr` and queueing it keeps the search state. */
  lemma EnqueueKeepsState(g: Graph, status: Node -> NodeStatus, sink: Node, used0: set<Node>,
                          q: seq<Node>, visited: set<Node>, used: set<Node>,
                          prev: map<Node, Node>, rank: map<Node, nat>, curr: Node, up: Node)
    requires SearchState(g, status, sink, used0, q, visited, used, prev, rank)
    requires curr in visited && sink in visited && up !in visited
    requires SearchStep(g, status, up, curr)
    ensures SearchState(g, status, sink, used0, q + [up], visited, used, prev[up := curr], rank)
  {
    var prev' := prev[up := curr];
    forall x | x in visited && x != sink
      ensures PointsBack(g, status, visited, prev', rank, x)
    {
      assert PointsBack(g, status, visited, prev, rank, x);
    }
    forall x | x in q + [up]
      ensures x in visited || x == sink || QueuedBack(g, status, visited, prev', x)
    {
      if x != up && x !in visited && x != sink {
        assert x in q;
        assert QueuedBack(g, status, visited, prev, x);
      }
    }
  }

  /** pruneNode adding an in-use node to the used set keeps the search state. */
  lemma UseKeepsState(g: Graph, status: Node -> NodeStatus, sink: Node, used0: set<Node>,
                      q: seq<Node>, visited: set<Node>, used: set<Node>,
                      prev: map<Node, Node>, rank: map<Node, nat>, used': set<Node>)
    requires SearchState(g, status, sink, used0, q, visited, used, prev, rank)
    requires used <= used' && forall n | n in used' - used :: status(n) == InUse
    ensures SearchState(g, status, sink, used0, q, visited, used', prev, rank)
  {
  }

  /**
   * Uphill node `up` of the polled node `curr` joins the queue: the step is not a skipped
   * route-thru and pruneNode keeps `up` (its intent is not pruned, it is not unavailable, and it
   * was not visited).
   */
  predicate Enqueued(g: Graph, status: Node -> NodeStatus, visited: set<Node>, curr: Node, up: Node)
  {
    !SkippedRouteThru(g, up, curr) && !PrunedIntent(g.intent(up)) && status(up) != Unavailable
    && up !in visited
  }

  /** pruneNode is asked about an in-use node: it records it as used. */
  predicate UseRecorded(g: Graph, status: Node -> NodeStatus, curr: Node, up: Node)
  {
    !SkippedRouteThru(g, up, curr) && !PrunedIntent(g.intent(up)) && status(up) == InUse
  }

  /** pruneNode is asked about an in-use node that was visited already: its assertion fails. */
  predicate UseRevisited(g: Graph, status: Node -> NodeStatus, visited: set<Node>, curr: Node, up: Node)
  {
    UseRecorded(g, status, curr, up) && up in visited
  }

  /** The uphill nodes among `ups` that join the queue, in their order in `ups`. */
  function KeptUphill(g: Graph, status: Node -> NodeStatus, visited: set<Node>, curr: Node, ups: seq<Node>)
    : (kept: seq<Node>)
    ensures forall u :: u in kept <==> u in ups && Enqueued(g, status, visited, curr, u)
    decreases |ups|
  {
    if ups == [] then []
    else
      var last := ups[|ups| - 1];
      KeptUphill(g, status, visited, curr, ups[..|ups| - 1])
      + (if Enqueued(g, status, visited, curr, last) then [last] else [])
  }

  /** The in-use uphill nodes among `ups` that pruneNode records as used. */
  function UsedUphill(g: Graph, status: Node -> NodeStatus, curr: Node, ups: seq<Node>): set<Node>
  {
    set u | u in ups && UseRecorded(g, status, curr, u)
  }

  /** The back pointers after the expansion: every node kept points back at `curr`. */
  ghost predicate PointsAt(prev0: map<Node, Node>, prev: map<Node, Node>, kept: seq<Node>, curr: Node)
  {
    && (forall x :: x in prev <==> x in prev0 || x in kept)
    && (forall x | x in kept :: prev[x] == curr)
    && (forall x | x in prev0 && x !in kept :: prev[x] == prev0[x])
  }

  /** Enqueueing one more uphill node, if pruneNode keeps it, extends the queue by the kept nodes. */
  lemma QueueStep(g: Graph, status: Node -> NodeStatus, visited: set<Node>, curr: Node, ups: seq<Node>, k: nat,
                  q0: seq<Node>, q: seq<Node>, q': seq<Node>)
    requires k < |ups| && q == q0 + KeptUphill(g, status, visited, curr, ups[..k])
    requires q' == q + (if Enqueued(g, status, visited, curr, ups[k]) then [ups[k]] else [])
    ensures q' == q0 + KeptUphill(g, status, visited, curr, ups[..k + 1])
  {
    assert ups[..k + 1][..k] == ups[..k];
    var kept := KeptUphill(g, status, visited, curr, ups[..k]);
    if Enqueued(g, status, visited, curr, ups[k]) {
      assert q' == q0 + (kept + [ups[k]]);
    }
  }

  /** Recording one more in-use uphill node extends the used set by the recorded uses. */
  lemma UsedStep(g: Graph, status: Node -> NodeStatus, curr: Node, ups: seq<Node>, k: nat,
                 used1: set<Node>, used: set<Node>, used': set<Node>)
    requires k < |ups| && used == used1 + UsedUphill(g, status, curr, ups[..k])
    requires used' == used + (if UseRecorded(g, status, curr, ups[k]) then {ups[k]} else {})
    ensures used' == used1 + UsedUphill(g, status, curr, ups[..k + 1])
  {
    assert forall u :: u in ups[..k + 1] <==> u in ups[..k] || u == ups[k];
  }

  /** Pointing one more kept node back at `curr` keeps the back pointers as stated. */
  lemma PointsStep(g: Graph, status: Node -> NodeStatus, visited: set<Node>, curr: Node, ups: seq<Node>, k: nat,
                   prev0: map<Node, Node>, prev: map<Node, Node>, prev': map<Node, Node>)
    requires k < |ups| && PointsAt(prev0, prev, KeptUphill(g, status, visited, curr, ups[..k]), curr)
    requires prev' == if Enqueued(g, status, visited, curr, ups[k]) then prev[ups[k] := curr] else prev
    ensures PointsAt(prev0, prev', KeptUphill(g, status, visited, curr, ups[..k + 1]), curr)
  {
    assert ups[..k + 1][..k] == ups[..k];
  }

  /** pruneNode is asked about no in-use node of `ups` that was visited already. */
  predicate NoneRevisited(g: Graph, status: Node -> NodeStatus, visited: set<Node>, curr: Node, ups: seq<Node>)
  {
    forall j | 0 <= j < |ups| :: !UseRevisited(g, status, visited, curr, ups[j])
  }

  lemma NoneRevisitedStep(g: Graph, status: Node -> NodeStatus, visited: set<Node>, curr: Node, ups: seq<Node>, k: nat)
    requires k < |ups| && NoneRevisited(g, status, visited, curr, ups[..k])
    requires !UseRevisited(g, status, visited, curr, ups[k])
    ensures NoneRevisited(g, status, visited, curr, ups[..k + 1])
  {
    assert forall j | 0 <= j < k :: ups[..k + 1][j] == ups[..k][j];
  }

  /** The queue, the used set and the back pointers after expanding the uphill nodes `ups`. */
  ghost predicate ExpandedSoFar(g: Graph, status: Node -> NodeStatus, visited: set<Node>, curr: Node,
                                ups: seq<Node>, q0: seq<Node>, used1: set<Node>, prev0: map<Node, Node>,
                                q: seq<Node>, used: set<Node>, prev: map<Node, Node>)
  {
    && q == q0 + KeptUphill(g, status, visited, curr, ups)
    && used == used1 + UsedUphill(g, status, curr, ups)
    && PointsAt(prev0, prev, KeptUphill(g, status, visited, curr, ups), curr)
    && NoneRevisited(g, status, visited, curr, ups)
  }

  /** Expanding one more uphill node as pruneNode decides extends the expansion so far. */
  lemma ExpandedStep(g: Graph, status: Node -> NodeStatus, visited: set<Node>, curr: Node,
                     ups: seq<Node>, k: nat, q0: seq<Node>, used1: set<Node>, prev0: map<Node, Node>,
                     q: seq<Node>, used: set<Node>, prev: map<Node, Node>,
                     q': seq<Node>, used': set<Node>, prev': map<Node, Node>)
    requires k < |ups| && ExpandedSoFar(g, status, visited, curr, ups[..k], q0, used1, prev0, q, used, prev)
    requires !UseRevisited(g, status, visited, curr, ups[k])
    requires q' == q + (if Enqueued(g, status, visited, curr, ups[k]) then [ups[k]] else [])
    requires used' == used + (if UseRecorded(g, status, curr, ups[k]) then {ups[k]} else {})
    requires prev' == if Enqueued(g, status, visited, curr, ups[k]) then prev[ups[k] := curr] else prev
    ensures ExpandedSoFar(g, status, visited, curr, ups[..k + 1], q0, used1, prev0, q', used', prev')
  {
    QueueStep(g, status, visited, curr, ups, k, q0, q, q');
    UsedStep(g, status, curr, ups, k, used1, used, used');
    PointsStep(g, status, visited, curr, ups, k, prev0, prev, prev');
    NoneRevisitedStep(g, status, visited, curr, ups, k);
  }

  /**
   * The inner loop of routeStaticNet over the uphill nodes of the polled node `curr`: each one
   * that is not a skipped route-thru and that pruneNode keeps gets `curr` as its back pointer and
   * joins the queue, in uphill order; the in-use ones pruneNode is asked about are recorded as
   * used. It fails exactly when pruneNode is asked about an in-use node already visited.
   */
  method ExpandUphill(g: Graph, status: Node -> NodeStatus, sink: Node, used0: set<Node>, curr: Node,
                      q0: seq<Node>, visited: set<Node>, used1: set<Node>, prev0: map<Node, Node>,
                      ghost rank: map<Node, nat>)
    returns (r: Result<(seq<Node>, set<Node>, map<Node, Node>), RouteError>)
    requires curr in visited && sink in visited
    requires SearchState(g, status, sink, used0, q0, visited, used1, prev0, rank)
    ensures r.Err? ==> r.error == AssertionViolated
    ensures r.Err? <==> exists k | 0 <= k < |g.uphill(curr)| :: UseRevisited(g, status, visited, curr, g.uphill(curr)[k])
    ensures r.Ok? ==> r.value.0 == q0 + KeptUphill(g, status, visited, curr, g.uphill(curr))
    ensures r.Ok? ==> r.value.1 == used1 + UsedUphill(g, status, curr, g.uphill(curr))
    ensures r.Ok? ==> PointsAt(prev0, r.value.2, KeptUphill(g, status, visited, curr, g.uphill(curr)), curr)
    ensures r.Ok? ==> SearchState(g, status, sink, used0, r.value.0, visited, r.value.1, r.value.2, rank)
  {
    var q: seq<Node>, used: set<Node>, prev: map<Node, Node> := q0, used1, prev0;
    var ups := g.uphill(curr);
    var k := 0;
    while k < |ups|
      invariant 0 <= k <= |ups|
      invariant SearchState(g, status, sink, used0, q, visited, used, prev, rank)
      invariant ExpandedSoFar(g, status, visited, curr, ups[..k], q0, used1, prev0, q, used, prev)
    {
      var step := ExpandOne(g, status, sink, used0, curr, ups[k], q, visited, used, prev, rank);
      if step.Err? {
        assert UseRevisited(g, status, visited, curr, ups[k]);
        return Err(step.error);
      }
      ExpandedStep(g, status, visited, curr, ups, k, q0, used1, prev0, q, used, prev,
                   step.value.0, step.value.1, step.value.2);
      q, used, prev := step.value.0, step.value.1, step.value.2;
      k := k + 1;
    }
    assert ups[..k] == ups;
    return Ok((q, used, prev));
  }

  /**
   * One uphill node `up` of the polled node `curr`: unless the step is a skipped route-thru,
   * pruneNode decides whether `up` gets `curr` as its back pointer and joins the queue.
   */
  method ExpandOne(g: Graph, status: Node -> NodeStatus, sink: Node, used0: set<Node>, curr: Node,
                   up: Node, q: seq<Node>, visited: set<Node>, used: set<Node>, prev: map<Node, Node>,
                   ghost rank: map<Node, nat>)
    returns (r: Result<(seq<Node>, set<Node>, map<Node, Node>), RouteError>)
    requires curr in visited && sink in visited && up in g.uphill(curr)
    requires SearchState(g, status, sink, used0, q, visited, used, prev, rank)
    ensures r.Err? <==> UseRevisited(g, status, visited, curr, up)
    ensures r.Err? ==> r.error == AssertionViolated
    ensures r.Ok? ==> r.value.0 == q + (if Enqueued(g, status, visited, curr, up) then [up] else [])
    ensures r.Ok? ==> r.value.1 == used + (if UseRecorded(g, status, curr, up) then {up} else {})
    ensures r.Ok? ==> r.value.2 == if Enqueued(g, status, visited, curr, up) then prev[up := curr] else prev
    ensures r.Ok? ==> SearchState(g, status, sink, used0, r.value.0, visited, r.value.1, r.value.2, rank)
  {
    if SkippedRouteThru(g, up, curr) {
      return Ok((q, used, prev));
    }
    var pruning := PruneNode(g, status, visited, used, up);
    if pruning.Err? {
      return Err(pruning.error);
    }
    var used' := pruning.value.used;
    UseKeepsState(g, status, sink, used0, q, visited, used, prev, rank, used');
    if pruning.value.prune {
      return Ok((q, used', prev));
    }
    EnqueueKeepsState(g, status, sink, used0, q, visited, used', prev, rank, curr, up);
    return Ok((q + [up], used', prev[up := curr]));
  }

  /**
   * What one sink's search gives: the used set only grew, by in-use nodes and nodes of the path;
   * a path found is one the search can find, runs without repeats to the sink, is used entirely,
   * and starts at a used node, an in-use node or a usable static source.
   */
  ghost predicate SinkSearched(g: Graph, d: Design, status: Node -> NodeStatus, netType: NetType,
                               sink: Node, used0: set<Node>, res: SinkSearch)
  {
    && used0 <= res.used
    && (forall n | n in res.used - used0 :: status(n) == InUse || (res.path.Some? && n in res.path.value))
    && (res.path.Some? ==>
          var path := res.path.value;
          && StaticPath(g, status, path, sink) && Distinct(path)
          && (forall n | n in path :: n in res.used)
          && (path[0] in used0 || status(path[0]) == InUse
              || IsNodeUsableStaticSource(g, d, path[0], netType) == Ok(true)))
  }

  /** The polled node `curr` is one of our static sources: trace the path back to the sink. */
  method SourceFound(g: Graph, d: Design, status: Node -> NodeStatus, netType: NetType, sink: Node,
                     used0: set<Node>, visited: set<Node>, used: set<Node>, prev: map<Node, Node>,
                     ghost rank: map<Node, nat>, curr: Node)
    returns (res: SinkSearch)
    requires used0 <= used && forall n | n in used - used0 :: status(n) == InUse
    requires BackPointers(g, status, sink, visited, prev, rank)
    requires curr in visited && sink in visited && sink !in prev
    requires IsThisOurStaticSource(g, d, used, curr, netType) == Ok(true)
    ensures SinkSearched(g, d, status, netType, sink, used0, res)
  {
    var path := TraceBack(g, status, sink, prev, curr, visited, rank);
    res := SinkSearch(Some(path), used + set n | n in path);
  }

  /**
   * The backward breadth-first search of routeStaticNet for one sink. The queue starts with the
   * sink; a node is marked visited when polled; the search stops at the first polled node that is
   * one of our static sources, and gives up when the queue empties or after 50000 expansions.
   */
  method StaticSinkSearch(g: Graph, d: Design, status: Node -> NodeStatus, netType: NetType,
                          sink: Node, used0: set<Node>)
    returns (r: Result<SinkSearch, RouteError>)
    ensures r.Err? ==>
      r.error == AssertionViolated || r.error == IndexOutOfRange || r.error == UnexpectedWireName
    ensures r.Ok? ==> SinkSearched(g, d, status, netType, sink, used0, r.value)
  {
    var q: seq<Node> := [sink];
    var visited: set<Node> := {};
    var used := used0;
    var prev: map<Node, Node> := map[];
    ghost var rank: map<Node, nat> := map[];
    var watchdog := 50000;
    while q != []
      invariant watchdog >= 0
      invariant SearchState(g, status, sink, used0, q, visited, used, prev, rank)
      decreases watchdog
    {
      PollKeepsState(g, status, sink, used0, q, visited, used, prev, rank);
      var curr := q[0];
      q := q[1..];
      if curr !in visited {
        rank := rank[curr := |visited|];
      }
      visited := visited + {curr};
      var isSource := IsThisOurStaticSource(g, d, used, curr, netType);
      if isSource.Err? {
        return Err(isSource.error);
      }
      if isSource.value {
        var found := SourceFound(g, d, status, netType, sink, used0, visited, used, prev, rank, curr);
        return Ok(found);
      }
      var expanded := ExpandUphill(g, status, sink, used0, curr, q, visited, used, prev, rank);
      if expanded.Err? {
        return Err(expanded.error);
      }
      q, used, prev := expanded.value.0, expanded.value.1, expanded.value.2;
      watchdog := watchdog - 1;
      if watchdog < 0 {
        break;
      }
    }
    return Ok(SinkSearch(None, used));
  }

  /** Every PIP between consecutive nodes of the path is in `pips`. */
  ghost predicate PathPipsIn(path: seq<Node>, pips: seq<Pip>)
  {
    forall k | 0 <= k < |path| - 1 :: Pip(path[k], path[k + 1]) in pips
  }

  /**
   * A node a path of the static net may start at: a node the net already uses (in-use), or a
   * usable static source for the net's type.
   */
  ghost predicate SourceNode(g: Graph, d: Design, status: Node -> NodeStatus, netType: NetType, n: Node)
  {
    status(n) == InUse || IsNodeUsableStaticSource(g, d, n, netType) == Ok(true)
  }

  /** The net's PIPs hold a path the search can find from a source node to `sink`. */
  ghost predicate Reached(g: Graph, d: Design, status: Node -> NodeStatus, netType: NetType,
                          pips: seq<Pip>, sink: Node)
  {
    exists path :: StaticPath(g, status, path, sink) && PathPipsIn(path, pips)
      && SourceNode(g, d, status, netType, path[0])
  }

  /** The PIP set `pips` holds a path the search can find from a source node to `n`. */
  ghost predicate Grounded(g: Graph, d: Design, status: Node -> NodeStatus, netType: NetType,
                           pips: set<Pip>, n: Node)
  {
    exists path :: StaticPath(g, status, path, n) && PathPips(path) <= pips
      && SourceNode(g, d, status, netType, path[0])
  }

  /** A source node is grounded by the empty path of PIPs. */
  lemma GroundedAtSource(g: Graph, d: Design, status: Node -> NodeStatus, netType: NetType,
                         pips: set<Pip>, n: Node)
    requires SourceNode(g, d, status, netType, n)
    ensures Grounded(g, d, status, netType, pips, n)
  {
    assert PathPips([n]) == {};
    assert StaticPath(g, status, [n], n);
  }

  /** More PIPs keep a grounded node grounded. */
  lemma GroundedGrows(g: Graph, d: Design, status: Node -> NodeStatus, netType: NetType,
                      pips: set<Pip>, pips': set<Pip>, n: Node)
    requires pips <= pips' && Grounded(g, d, status, netType, pips, n)
    ensures Grounded(g, d, status, netType, pips', n)
  {
    var path :| StaticPath(g, status, path, n) && PathPips(path) <= pips
      && SourceNode(g, d, status, netType, path[0]);
  }

  /** A search step whose PIP is held extends grounding from `n` to `m`. */
  lemma GroundedExtends(g: Graph, d: Design, status: Node -> NodeStatus, netType: NetType,
                        pips: set<Pip>, n: Node, m: Node)
    requires Grounded(g, d, status, netType, pips, n)
    requires SearchStep(g, status, n, m) && Pip(n, m) in pips
    ensures Grounded(g, d, status, netType, pips, m)
  {
    var path :| StaticPath(g, status, path, n) && PathPips(path) <= pips
      && SourceNode(g, d, status, netType, path[0]);
    var path' := path + [m];
    assert PipAt(path', |path| - 1) == Pip(n, m);
    forall p | p in PathPips(path') ensures p in pips {
      var k :| 0 <= k < |path'| - 1 && p == PipAt(path', k);
      if k < |path| - 1 {
        assert PipAt(path', k) == PipAt(path, k);
      }
    }
    assert StaticPath(g, status, path', m);
  }

  /** Once the start of a path is grounded and its PIPs are held, every node of it is grounded. */
  lemma {:induction false} GroundedAlong(g: Graph, d: Design, status: Node -> NodeStatus, netType: NetType,
                                         pips: set<Pip>, path: seq<Node>, sink: Node, k: nat)
    requires StaticPath(g, status, path, sink) && PathPips(path) <= pips
    requires Grounded(g, d, status, netType, pips, path[0])
    requires k < |path|
    ensures Grounded(g, d, status, netType, pips, path[k])
    decreases k
  {
    if k > 0 {
      GroundedAlong(g, d, status, netType, pips, path, sink, k - 1);
      assert PipAt(path, k - 1) in PathPips(path);
      GroundedExtends(g, d, status, netType, pips, path[k - 1], path[k]);
    }
  }

  /**
   * The source pin to create for a path whose source node is not tied to the net's constant:
   * the node's output site pin, if it has one.
   */
  function SourcePinToCreate(g: Graph, netType: NetType, source: Node): (r: Option<SitePin>)
    ensures r.Some? ==> !r.value.isInput && g.sitePin(source) == r
    ensures r.Some? ==> netType in {Gnd, Vcc} && !TiedToConstant(g, source, netType)
    ensures (netType in {Gnd, Vcc} && !TiedToConstant(g, source, netType)
             && g.sitePin(source).Some? && !g.sitePin(source).value.isInput) ==> r == g.sitePin(source)
  {
    if (netType == Gnd && !g.tiedToGnd(source)) || (netType == Vcc && !g.tiedToVcc(source)) then
      match g.sitePin(source)
      case Some(sp) => if !sp.isInput then Some(sp) else None
      case None => None
    else None
  }

  /**
   * The pins of `pins` routed since `routed0` are input pins, each with a path the search can find
   * whose PIPs are among `pips`, and each reached through `pips` from a source node.
   */
  ghost predicate SinksRouted(g: Graph, d: Design, status: Node -> NodeStatus, netType: NetType,
                              pins: seq<Pin>, routed0: set<nat>, routed: set<nat>,
                              paths: map<nat, seq<Node>>, pips: set<Pip>)
  {
    forall j | j in routed - routed0 && j < |pins| ::
      && !pins[j].isOut && j in paths
      && StaticPath(g, status, paths[j], pins[j].node) && PathPips(paths[j]) <= pips
      && Grounded(g, d, status, netType, pips, pins[j].node)
  }

  /** Every node the search treats as used is in use, or grounded through `pips`. */
  ghost predicate UsedGrounded(g: Graph, d: Design, status: Node -> NodeStatus, netType: NetType,
                               used: set<Node>, pips: set<Pip>)
  {
    forall n | n in used :: status(n) == InUse || Grounded(g, d, status, netType, pips, n)
  }

  /** The output site pins to create for the sources of `paths`. */
  ghost function PathSourcePins(g: Graph, netType: NetType, paths: map<nat, seq<Node>>): set<SitePin>
  {
    set j | j in paths && |paths[j]| > 0 && SourcePinToCreate(g, netType, paths[j][0]).Some?
      :: SourcePinToCreate(g, netType, paths[j][0]).value
  }

  /** The site pin of the source of `path`, if one is to be created. */
  ghost function SourcePinOf(g: Graph, netType: NetType, path: seq<Node>): set<SitePin>
    requires |path| > 0
  {
    if SourcePinToCreate(g, netType, path[0]).Some? then {SourcePinToCreate(g, netType, path[0]).value} else {}
  }

  /** Recording the path of a pin not routed before adds the site pin of its source, if any. */
  lemma PathSourcePinsStep(g: Graph, netType: NetType, paths: map<nat, seq<Node>>, i: nat, path: seq<Node>)
    requires |path| > 0 && i !in paths
    ensures PathSourcePins(g, netType, paths[i := path])
         == PathSourcePins(g, netType, paths) + SourcePinOf(g, netType, path)
  {
    PathSourcePinsGrow(g, netType, paths, i, path);
    PathSourcePinsShrink(g, netType, paths, i, path);
  }

  lemma PathSourcePinsGrow(g: Graph, netType: NetType, paths: map<nat, seq<Node>>, i: nat, path: seq<Node>)
    requires |path| > 0 && i !in paths
    ensures PathSourcePins(g, netType, paths) + SourcePinOf(g, netType, path)
         <= PathSourcePins(g, netType, paths[i := path])
  {
    var paths' := paths[i := path];
    forall sp | sp in PathSourcePins(g, netType, paths)
      ensures sp in PathSourcePins(g, netType, paths')
    {
      var j :| j in paths && |paths[j]| > 0 && SourcePinToCreate(g, netType, paths[j][0]).Some?
        && sp == SourcePinToCreate(g, netType, paths[j][0]).value;
      assert paths'[j] == paths[j];
    }
    if SourcePinToCreate(g, netType, path[0]).Some? {
      assert paths'[i] == path;
    }
  }

  lemma PathSourcePinsShrink(g: Graph, netType: NetType, paths: map<nat, seq<Node>>, i: nat, path: seq<Node>)
    requires |path| > 0 && i !in paths
    ensures PathSourcePins(g, netType, paths[i := path])
         <= PathSourcePins(g, netType, paths) + SourcePinOf(g, netType, path)
  {
    var paths' := paths[i := path];
    forall sp | sp in PathSourcePins(g, netType, paths')
      ensures sp in PathSourcePins(g, netType, paths) + SourcePinOf(g, netType, path)
    {
      var j :| j in paths' && |paths'[j]| > 0 && SourcePinToCreate(g, netType, paths'[j][0]).Some?
        && sp == SourcePinToCreate(g, netType, paths'[j][0]).value;
      if j != i {
        assert j in paths && paths[j] == paths'[j];
      }
    }
  }

  /** The PIPs of every path of `paths`. */
  ghost function AllPathPips(paths: map<nat, seq<Node>>): set<Pip>
  {
    set j, p | j in paths && p in PathPips(paths[j]) :: p
  }

  /** Recording the path of a pin not routed before adds exactly that path's PIPs. */
  lemma AllPathPipsStep(paths: map<nat, seq<Node>>, i: nat, path: seq<Node>)
    requires i !in paths
    ensures AllPathPips(paths[i := path]) == AllPathPips(paths) + PathPips(path)
  {
    var paths' := paths[i := path];
    forall p | p in AllPathPips(paths')
      ensures p in AllPathPips(paths) + PathPips(path)
    {
      var j :| j in paths' && p in PathPips(paths'[j]);
      if j != i {
        assert paths[j] == paths'[j];
      }
    }
    forall p | p in AllPathPips(paths)
      ensures p in AllPathPips(paths')
    {
      var j :| j in paths && p in PathPips(paths[j]);
      assert paths'[j] == paths[j];
    }
    assert paths'[i] == path;
  }

  /** `pips` holds the PIPs `pips0` and otherwise only search steps. */
  ghost predicate PipsFromSearch(g: Graph, status: Node -> NodeStatus, pips0: seq<Pip>,
                                 pips: set<Pip>)
  {
    && (forall p | p in pips0 :: p in pips)
    && (forall p | p in pips && p !in pips0 :: SearchStep(g, status, p.startNode, p.endNode))
  }

  /** A path the search found starts at a grounded node, once every used node is in use or grounded. */
  lemma StartGrounded(g: Graph, d: Design, status: Node -> NodeStatus, netType: NetType, sink: Node,
                      used0: set<Node>, pips: set<Pip>, res: SinkSearch)
    requires UsedGrounded(g, d, status, netType, used0, pips)
    requires SinkSearched(g, d, status, netType, sink, used0, res) && res.path.Some?
    ensures Grounded(g, d, status, netType, pips, res.path.value[0])
  {
    var n := res.path.value[0];
    if n !in used0 || status(n) == InUse {
      GroundedAtSource(g, d, status, netType, pips, n);
    }
  }

  /** After a search, every used node is still in use or grounded, once the path found is grounded. */
  lemma UsedGroundedStep(g: Graph, d: Design, status: Node -> NodeStatus, netType: NetType, sink: Node,
                         used0: set<Node>, pips: set<Pip>, pips': set<Pip>, res: SinkSearch)
    requires UsedGrounded(g, d, status, netType, used0, pips) && pips <= pips'
    requires SinkSearched(g, d, status, netType, sink, used0, res)
    requires res.path.Some? ==> forall n | n in res.path.value :: Grounded(g, d, status, netType, pips', n)
    ensures UsedGrounded(g, d, status, netType, res.used, pips')
  {
    forall n | n in res.used && status(n) != InUse
      ensures Grounded(g, d, status, netType, pips', n)
    {
      if n in used0 {
        GroundedGrows(g, d, status, netType, pips, pips', n);
      }
    }
  }

  /** Routing one more sink along a path the search found, from a grounded start. */
  lemma SinkRoutedStep(g: Graph, d: Design, status: Node -> NodeStatus, netType: NetType, pins: seq<Pin>,
                       routed0: set<nat>, routed: set<nat>, paths: map<nat, seq<Node>>, pips0: seq<Pip>,
                       pips: set<Pip>, i: nat, path: seq<Node>)
    requires SinksRouted(g, d, status, netType, pins, routed0, routed, paths, pips)
    requires PipsFromSearch(g, status, pips0, pips)
    requires i < |pins| && !pins[i].isOut && StaticPath(g, status, path, pins[i].node)
    requires Grounded(g, d, status, netType, pips, path[0])
    ensures SinksRouted(g, d, status, netType, pins, routed0, routed + {i}, paths[i := path], pips + PathPips(path))
    ensures PipsFromSearch(g, status, pips0, pips + PathPips(path))
    ensures forall n | n in path :: Grounded(g, d, status, netType, pips + PathPips(path), n)
  {
    var pips' := pips + PathPips(path);
    forall p | p in PathPips(path) ensures SearchStep(g, status, p.startNode, p.endNode) {
      var k :| 0 <= k < |path| - 1 && p == PipAt(path, k);
    }
    GroundedGrows(g, d, status, netType, pips, pips', path[0]);
    forall n | n in path
      ensures Grounded(g, d, status, netType, pips', n)
    {
      var k :| 0 <= k < |path| && path[k] == n;
      GroundedAlong(g, d, status, netType, pips', path, pins[i].node, k);
    }
    forall j | j in (routed + {i}) - routed0 && j < |pins| && j != i
      ensures Grounded(g, d, status, netType, pips', pins[j].node)
    {
      GroundedGrows(g, d, status, netType, pips, pips', pins[j].node);
    }
  }

  /** Pins appended after `pins` leave the routed pins of `pins` as they were. */
  lemma SinksRoutedBeyond(g: Graph, d: Design, status: Node -> NodeStatus, netType: NetType, pins: seq<Pin>,
                          routed0: set<nat>, routed: set<nat>, routed': set<nat>,
                          paths: map<nat, seq<Node>>, pips: set<Pip>)
    requires SinksRouted(g, d, status, netType, pins, routed0, routed, paths, pips)
    requires routed <= routed' && forall j | j in routed' && j !in routed :: |pins| <= j
    ensures SinksRouted(g, d, status, netType, pins, routed0, routed', paths, pips)
  {
    forall j | j in routed' - routed0 && j < |pins|
      ensures !pins[j].isOut && j in paths
    {
    }
  }

  /** Once the net's PIPs are `pips`, every routed sink is reached through them from a source node. */
  lemma SinksReached(g: Graph, d: Design, status: Node -> NodeStatus, netType: NetType, pins: seq<Pin>,
                     routed0: set<nat>, routed: set<nat>, paths: map<nat, seq<Node>>, pips: set<Pip>,
                     netPips: seq<Pip>)
    requires SinksRouted(g, d, status, netType, pins, routed0, routed, paths, pips)
    requires forall p :: p in netPips <==> p in pips
    ensures forall j | j in routed - routed0 && j < |pins| ::
      Reached(g, d, status, netType, netPips, pins[j].node)
  {
    forall j | j in routed - routed0 && j < |pins|
      ensures Reached(g, d, status, netType, netPips, pins[j].node)
    {
      var path :| StaticPath(g, status, path, pins[j].node) && PathPips(path) <= pips
        && SourceNode(g, d, status, netType, path[0]);
      forall k | 0 <= k < |path| - 1
        ensures Pip(path[k], path[k + 1]) in netPips
      {
        assert PipAt(path, k) in PathPips(path);
      }
      assert StaticPath(g, status, path, pins[j].node) && PathPipsIn(path, netPips);
    }
  }

  /**
   * The first loop of routeStaticNet: every unrouted input pin the search reaches is marked routed
   * and the PIPs of its path join `netPips`; a pin the search cannot reach is left unrouted. The
   * output site pins to create for the sources of the paths are collected in `sitePins`.
   */
  method RouteSinks(net: Net, g: Graph, d: Design, status: Node -> NodeStatus)
    returns (r: Result<(), RouteError>, netPips: set<Pip>, sitePins: set<SitePin>,
             ghost paths: map<nat, seq<Node>>)
    requires net.Valid()
    modifies net
    ensures net.Valid() && net.pins == old(net.pins) && net.pips == old(net.pips)
    ensures old(net.routed) <= net.routed && paths.Keys == net.routed - old(net.routed)
    ensures SinksRouted(g, d, status, net.netType, net.pins, old(net.routed), net.routed, paths, netPips)
    ensures r.Ok? ==> PipsFromSearch(g, status, net.pips, netPips)
    ensures netPips == (set p | p in net.pips) + AllPathPips(paths)
    ensures sitePins == PathSourcePins(g, net.netType, paths)
    ensures forall sp | sp in sitePins :: !sp.isInput
  {
    netPips := set p | p in net.pips;
    var used: set<Node> := {};
    sitePins := {};
    paths := map[];
    var i := 0;
    while i < |net.pins|
      invariant 0 <= i <= |net.pins|
      invariant net.Valid() && net.pins == old(net.pins) && net.pips == old(net.pips)
      invariant old(net.routed) <= net.routed
      invariant SinksSoFar(g, d, status, net.netType, net.pins, old(net.routed), net.routed, paths,
                           net.pips, netPips, used, sitePins)
    {
      var sink := net.pins[i];
      if i !in net.routed && !sink.isOut {
        var search := StaticSinkSearch(g, d, status, net.netType, sink.node, used);
        if search.Err? {
          return Err(search.error), netPips, sitePins, paths;
        }
        if search.value.path.Some? {
          netPips, sitePins, paths := RouteFoundSink(net, g, d, status, old(net.routed), paths, netPips, used,
                                                     sitePins, i, search.value);
        } else {
          SinkMissedStep(g, d, status, net.netType, net.pins, old(net.routed), net.routed, paths,
                         net.pips, netPips, used, sitePins, sink.node, search.value);
        }
        used := search.value.used;
      }
      i := i + 1;
    }
    r := Ok(());
  }

  /**
   * The first loop of routeStaticNet on a sink whose search found a path: the sink is marked
   * routed, the path's PIPs join `netPips` and the site pin of its source, if any, joins `sitePins`.
   */
  method RouteFoundSink(net: Net, g: Graph, d: Design, status: Node -> NodeStatus, ghost routed0: set<nat>,
                        ghost paths: map<nat, seq<Node>>, netPips: set<Pip>, ghost used: set<Node>,
                        sitePins: set<SitePin>, i: nat, res: SinkSearch)
    returns (netPips': set<Pip>, sitePins': set<SitePin>, ghost paths': map<nat, seq<Node>>)
    requires net.Valid() && routed0 <= net.routed
    requires SinksSoFar(g, d, status, net.netType, net.pins, routed0, net.routed, paths, net.pips, netPips, used,
                        sitePins)
    requires i < |net.pins| && !net.pins[i].isOut && i !in net.routed
    requires SinkSearched(g, d, status, net.netType, net.pins[i].node, used, res) && res.path.Some?
    modifies net
    ensures net.Valid() && net.pins == old(net.pins) && net.pips == old(net.pips)
    ensures net.routed == old(net.routed) + {i} && paths' == paths[i := res.path.value]
    ensures SinksSoFar(g, d, status, net.netType, net.pins, routed0, net.routed, paths', net.pips, netPips',
                       res.used, sitePins')
  {
    var path := res.path.value;
    var sp := SourcePinToCreate(g, net.netType, path[0]);
    SinkFoundStep(g, d, status, net.netType, net.pins, routed0, net.routed, paths, net.pips, netPips, used,
                  sitePins, i, res);
    netPips' := netPips + PathPips(path);
    sitePins' := sitePins;
    if sp.Some? {
      sitePins' := sitePins + {sp.value};
    }
    net.SetRouted(i);
    paths' := paths[i := path];
  }

  /** What the first loop of routeStaticNet keeps: the routed sinks, the PIPs, the used nodes and the site pins. */
  ghost predicate SinksSoFar(g: Graph, d: Design, status: Node -> NodeStatus, netType: NetType, pins: seq<Pin>,
                             routed0: set<nat>, routed: set<nat>, paths: map<nat, seq<Node>>,
                             pips0: seq<Pip>, netPips: set<Pip>, used: set<Node>, sitePins: set<SitePin>)
  {
    && paths.Keys == routed - routed0
    && SinksRouted(g, d, status, netType, pins, routed0, routed, paths, netPips)
    && PipsFromSearch(g, status, pips0, netPips)
    && netPips == (set p | p in pips0) + AllPathPips(paths)
    && UsedGrounded(g, d, status, netType, used, netPips)
    && sitePins == PathSourcePins(g, netType, paths)
    && (forall sp | sp in sitePins :: !sp.isInput)
  }

  /** Routing sink i along the path its search found keeps what the first loop keeps. */
  lemma SinkFoundStep(g: Graph, d: Design, status: Node -> NodeStatus, netType: NetType, pins: seq<Pin>,
                      routed0: set<nat>, routed: set<nat>, paths: map<nat, seq<Node>>,
                      pips0: seq<Pip>, netPips: set<Pip>, used: set<Node>, sitePins: set<SitePin>,
                      i: nat, res: SinkSearch)
    requires SinksSoFar(g, d, status, netType, pins, routed0, routed, paths, pips0, netPips, used, sitePins)
    requires i < |pins| && !pins[i].isOut && i !in routed && routed0 <= routed
    requires SinkSearched(g, d, status, netType, pins[i].node, used, res) && res.path.Some?
    ensures var path := res.path.value;
      SinksSoFar(g, d, status, netType, pins, routed0, routed + {i}, paths[i := path], pips0,
                 netPips + PathPips(path), res.used, sitePins + SourcePinOf(g, netType, path))
  {
    var path := res.path.value;
    StartGrounded(g, d, status, netType, pins[i].node, used, netPips, res);
    SinkRoutedStep(g, d, status, netType, pins, routed0, routed, paths, pips0, netPips, i, path);
    UsedGroundedStep(g, d, status, netType, pins[i].node, used, netPips, netPips + PathPips(path), res);
    PathSourcePinsStep(g, netType, paths, i, path);
    AllPathPipsStep(paths, i, path);
  }

  /** A sink whose search found no path keeps what the first loop keeps. */
  lemma SinkMissedStep(g: Graph, d: Design, status: Node -> NodeStatus, netType: NetType, pins: seq<Pin>,
                       routed0: set<nat>, routed: set<nat>, paths: map<nat, seq<Node>>,
                       pips0: seq<Pip>, netPips: set<Pip>, used: set<Node>, sitePins: set<SitePin>,
                       sink: Node, res: SinkSearch)
    requires SinksSoFar(g, d, status, netType, pins, routed0, routed, paths, pips0, netPips, used, sitePins)
    requires SinkSearched(g, d, status, netType, sink, used, res) && res.path.None?
    ensures SinksSoFar(g, d, status, netType, pins, routed0, routed, paths, pips0, netPips, res.used, sitePins)
  {
    UsedGroundedStep(g, d, status, netType, sink, used, netPips, netPips, res);
  }

  /** The site already has the pin, on this net. */
  predicate OnThisNet(d: Design, id: nat, sp: SitePin)
  {
    d.siteInst(sp.site).Some? && d.sitePinInst(d.siteInst(sp.site).value, sp.pinName) == Some(Some(id))
  }

  /** The site already has the pin, on another net or on none. */
  predicate OnOtherNet(d: Design, id: nat, sp: SitePin)
  {
    && d.siteInst(sp.site).Some?
    && d.sitePinInst(d.siteInst(sp.site).value, sp.pinName).Some?
    && d.sitePinInst(d.siteInst(sp.site).value, sp.pinName).value != Some(id)
  }

  /** The site has no such pin yet: a new one is created. */
  predicate NeedsPin(d: Design, id: nat, sp: SitePin)
  {
    !OnThisNet(d, id, sp) && !OnOtherNet(d, id, sp)
  }

  /** The pin instance created for an output site pin. */
  function NewSourcePin(sp: SitePin): Pin
  {
    Pin(sp.pinName, !sp.isInput, sp.node, sp.tileRegion, None)
  }

  /** The site pins among `sps` for which a new pin is created. */
  function Needed(d: Design, id: nat, sps: set<SitePin>): set<SitePin>
  {
    set sp | sp in sps && NeedsPin(d, id, sp)
  }

  lemma NeededStep(d: Design, id: nat, done: set<SitePin>, sp: SitePin)
    requires sp !in done
    ensures NeedsPin(d, id, sp) ==>
      Needed(d, id, done + {sp}) == Needed(d, id, done) + {sp}
      && |Needed(d, id, done + {sp})| == |Needed(d, id, done)| + 1
    ensures !NeedsPin(d, id, sp) ==> Needed(d, id, done + {sp}) == Needed(d, id, done)
  {
    if NeedsPin(d, id, sp) {
      assert sp !in Needed(d, id, done);
    }
  }

  /** The new pins of the site pins in `sps`. */
  function NewPins(sps: set<SitePin>): set<Pin>
  {
    set sp | sp in sps :: NewSourcePin(sp)
  }

  /** Every pin from index `lo` on is the new pin of a site pin in `sps`. */
  predicate PinsFrom(pins: seq<Pin>, lo: nat, sps: set<SitePin>)
    requires lo <= |pins|
  {
    forall p | p in pins[lo..] :: p in NewPins(sps)
  }

  /** Every site pin in `sps` has its new pin at some index from `lo` on. */
  predicate PinsFor(pins: seq<Pin>, lo: nat, sps: set<SitePin>)
    requires lo <= |pins|
  {
    forall sp | sp in sps :: NewSourcePin(sp) in pins[lo..]
  }

  /** Appending the new pin of `sp` keeps every new pin the pin of a site pin, now of `sps + {sp}`. */
  lemma PinsFromStep(pins: seq<Pin>, lo: nat, sps: set<SitePin>, sp: SitePin)
    requires lo <= |pins| && PinsFrom(pins, lo, sps)
    ensures PinsFrom(pins + [NewSourcePin(sp)], lo, sps + {sp})
  {
    assert (pins + [NewSourcePin(sp)])[lo..] == pins[lo..] + [NewSourcePin(sp)];
  }

  /** Appending the new pin of `sp` gives `sp` a new pin and keeps those of `sps`. */
  lemma PinsForStep(pins: seq<Pin>, lo: nat, sps: set<SitePin>, sp: SitePin)
    requires lo <= |pins| && PinsFor(pins, lo, sps)
    ensures PinsFor(pins + [NewSourcePin(sp)], lo, sps + {sp})
  {
    assert (pins + [NewSourcePin(sp)])[lo..] == pins[lo..] + [NewSourcePin(sp)];
  }

  /** Every pin from index `lo` on is an output pin marked routed. */
  predicate NewPinsRouted(pins: seq<Pin>, routed: set<nat>, lo: nat)
  {
    forall j | lo <= j < |pins| :: pins[j].isOut && j in routed
  }

  lemma NewPinsRoutedStep(pins: seq<Pin>, routed: set<nat>, lo: nat, p: Pin)
    requires NewPinsRouted(pins, routed, lo) && p.isOut
    ensures NewPinsRouted(pins + [p], routed + {|pins|}, lo)
  {
  }

  /**
   * One iteration of the second loop of routeStaticNet: the site pin `sp` gets a new routed pin
   * on the net, unless the site has that pin already; a pin on another net throws.
   */
  method CreateSourcePin(net: Net, d: Design, sp: SitePin) returns (r: Result<(), RouteError>)
    requires net.Valid() && !sp.isInput
    modifies net
    ensures net.Valid() && net.pips == old(net.pips)
    ensures r.Err? <==> OnOtherNet(d, net.id, sp)
    ensures r.Err? ==> r.error == PinOnOtherNet || r.error == NullDereference
    ensures NeedsPin(d, net.id, sp) ==>
      net.pins == old(net.pins) + [NewSourcePin(sp)] && net.routed == old(net.routed) + {|old(net.pins)|}
    ensures !NeedsPin(d, net.id, sp) ==> net.pins == old(net.pins) && net.routed == old(net.routed)
  {
    var si := d.siteInst(sp.site);
    if si.Some? {
      var spi := d.sitePinInst(si.value, sp.pinName);
      if spi.Some? {
        if spi.value == Some(net.id) {
          return Ok(());
        }
        if spi.value.None? {
          return Err(NullDereference);
        }
        return Err(PinOnOtherNet);
      }
    }
    var added := net.AddPin(NewSourcePin(sp));
    net.SetRouted(added);
    r := Ok(());
  }

  /**
   * The second loop of routeStaticNet: each output site pin is added to the net as a routed pin,
   * unless the site already has that pin on this net; a pin already on another net throws. Without
   * an error, exactly the site pins that need a new pin get one each.
   */
  method CreateSourcePins(net: Net, d: Design, sitePins: set<SitePin>) returns (r: Result<(), RouteError>)
    requires net.Valid() && forall sp | sp in sitePins :: !sp.isInput
    modifies net
    ensures net.Valid() && net.pips == old(net.pips)
    ensures |old(net.pins)| <= |net.pins| && net.pins[..|old(net.pins)|] == old(net.pins)
    ensures old(net.routed) <= net.routed
    ensures forall j | j in net.routed && j !in old(net.routed) :: |old(net.pins)| <= j
    ensures forall j | |old(net.pins)| <= j < |net.pins| :: net.pins[j].isOut && j in net.routed
    ensures r.Err? <==> exists sp | sp in sitePins :: OnOtherNet(d, net.id, sp)
    ensures r.Err? ==> r.error == PinOnOtherNet || r.error == NullDereference
    ensures PinsFrom(net.pins, |old(net.pins)|, Needed(d, net.id, sitePins))
    ensures r.Ok? ==> PinsFor(net.pins, |old(net.pins)|, Needed(d, net.id, sitePins))
    ensures r.Ok? ==> |net.pins| == |old(net.pins)| + |Needed(d, net.id, sitePins)|
  {
    var rest := sitePins;
    ghost var done: set<SitePin> := {};
    while rest != {}
      invariant net.Valid() && net.pips == old(net.pips)
      invariant rest + done == sitePins && rest !! done
      invariant CreatedSoFar(d, net.id, old(net.pins), old(net.routed), done, net.pins, net.routed)
      decreases rest
    {
      var sp :| sp in rest;
      CreatedStep(d, net.id, old(net.pins), old(net.routed), done, net.pins, net.routed, sp);
      rest := rest - {sp};
      r := CreateSourcePin(net, d, sp);
      if r.Err? {
        NeededMonotone(d, net.id, done, sitePins);
        return;
      }
      done := done + {sp};
    }
    assert done == sitePins;
    r := Ok(());
  }

  /**
   * The pins and routed flags after the site pins `done` are handled: the old pins come first,
   * followed by one new routed output pin per site pin of `done` that needed one.
   */
  ghost predicate CreatedSoFar(d: Design, id: nat, pins0: seq<Pin>, routed0: set<nat>, done: set<SitePin>,
                               pins: seq<Pin>, routed: set<nat>)
  {
    && |pins0| <= |pins| && pins[..|pins0|] == pins0
    && routed0 <= routed && (forall j | j in routed && j !in routed0 :: |pins0| <= j)
    && NewPinsRouted(pins, routed, |pins0|)
    && (forall sp | sp in done :: !OnOtherNet(d, id, sp))
    && PinsFrom(pins, |pins0|, Needed(d, id, done))
    && PinsFor(pins, |pins0|, Needed(d, id, done))
    && |pins| == |pins0| + |Needed(d, id, done)|
  }

  /** Handling one more output site pin as CreateSourcePin does extends what was created so far. */
  lemma CreatedStep(d: Design, id: nat, pins0: seq<Pin>, routed0: set<nat>, done: set<SitePin>,
                    pins: seq<Pin>, routed: set<nat>, sp: SitePin)
    requires CreatedSoFar(d, id, pins0, routed0, done, pins, routed) && sp !in done && !sp.isInput
    ensures !OnOtherNet(d, id, sp) && NeedsPin(d, id, sp) ==>
      CreatedSoFar(d, id, pins0, routed0, done + {sp}, pins + [NewSourcePin(sp)], routed + {|pins|})
    ensures !OnOtherNet(d, id, sp) && !NeedsPin(d, id, sp) ==>
      CreatedSoFar(d, id, pins0, routed0, done + {sp}, pins, routed)
  {
    NeededStep(d, id, done, sp);
    if NeedsPin(d, id, sp) {
      PinsFromStep(pins, |pins0|, Needed(d, id, done), sp);
      PinsForStep(pins, |pins0|, Needed(d, id, done), sp);
      NewPinsRoutedStep(pins, routed, |pins0|, NewSourcePin(sp));
      assert (pins + [NewSourcePin(sp)])[..|pins0|] == pins[..|pins0|];
    }
  }

  /** A subset of the site pins needs a subset of the new pins. */
  lemma NeededMonotone(d: Design, id: nat, done: set<SitePin>, all: set<SitePin>)
    requires done <= all
    ensures Needed(d, id, done) <= Needed(d, id, all)
  {
  }

  /** Site pin `sp` is the one to create for the source of a path of `pips` to a pin in `newly`. */
  ghost predicate CreatedFor(g: Graph, status: Node -> NodeStatus, netType: NetType, pips: seq<Pip>,
                             pins: seq<Pin>, newly: set<nat>, sp: SitePin)
  {
    exists i, path | i in newly && i < |pins| ::
      StaticPath(g, status, path, pins[i].node) && PathPipsIn(path, pips)
      && SourcePinToCreate(g, netType, path[0]) == Some(sp)
  }

  /** The site pins to create for the sources of the routed paths are created for those paths. */
  lemma SourcePinsCreatedFor(g: Graph, d: Design, status: Node -> NodeStatus, netType: NetType,
                             pins: seq<Pin>, routed0: set<nat>, routed: set<nat>,
                             paths: map<nat, seq<Node>>, pips: set<Pip>, netPips: seq<Pip>)
    requires SinksRouted(g, d, status, netType, pins, routed0, routed, paths, pips)
    requires paths.Keys <= routed - routed0 && forall j | j in paths :: j < |pins|
    requires forall p :: p in netPips <==> p in pips
    ensures forall sp | sp in PathSourcePins(g, netType, paths) ::
      CreatedFor(g, status, netType, netPips, pins, routed - routed0, sp)
  {
    forall sp | sp in PathSourcePins(g, netType, paths)
      ensures CreatedFor(g, status, netType, netPips, pins, routed - routed0, sp)
    {
      var j :| j in paths && |paths[j]| > 0 && SourcePinToCreate(g, netType, paths[j][0]).Some?
        && sp == SourcePinToCreate(g, netType, paths[j][0]).value;
      var path := paths[j];
      forall k | 0 <= k < |path| - 1
        ensures Pip(path[k], path[k + 1]) in netPips
      {
        assert PipAt(path, k) in PathPips(path);
      }
      assert StaticPath(g, status, path, pins[j].node) && PathPipsIn(path, netPips);
    }
  }

  /**
   * routeStaticNet: every unrouted input pin the search reaches is marked routed and the PIPs of
   * its path are added to the net, so that the pin is reached through the net's PIPs from an
   * in-use node or a usable static source; a pin the search cannot reach is left unrouted. Output
   * site pins at the sources of the paths are then added to the net as routed pins, unless the
   * site already has that pin on this net; a pin already on another net throws. The net's PIPs
   * become exactly its old PIPs and the PIPs of the paths found. `paths` holds the path found for
   * each newly routed pin; `searched` says the first loop ended without an error.
   */
  method RouteStaticNet(net: Net, g: Graph, d: Design, status: Node -> NodeStatus)
    returns (r: Result<(), RouteError>, ghost paths: map<nat, seq<Node>>, ghost searched: bool)
    requires net.Valid()
    modifies net
    ensures net.Valid()
    ensures |old(net.pins)| <= |net.pins| && net.pins[..|old(net.pins)|] == old(net.pins)
    ensures old(net.routed) <= net.routed
    ensures forall i | i in net.routed - old(net.routed) && i < |old(net.pins)| ::
      !net.pins[i].isOut && (r.Ok? ==> Reached(g, d, status, net.netType, net.pips, net.pins[i].node))
    ensures forall i | i in net.routed - old(net.routed) && i < |old(net.pins)| :: i in paths
    ensures forall j | j in paths ::
      j < |old(net.pins)| && j in net.routed - old(net.routed) && StaticPath(g, status, paths[j], net.pins[j].node)
    ensures forall i | |old(net.pins)| <= i < |net.pins| :: net.pins[i].isOut && i in net.routed
    ensures !searched ==> r.Err? && net.pins == old(net.pins) && net.pips == old(net.pips)
    ensures searched ==>
      (r.Err? <==> exists sp | sp in PathSourcePins(g, net.netType, paths) :: OnOtherNet(d, net.id, sp))
    ensures PinsFrom(net.pins, |old(net.pins)|, Needed(d, net.id, PathSourcePins(g, net.netType, paths)))
    ensures r.Ok? ==> PinsFor(net.pins, |old(net.pins)|, Needed(d, net.id, PathSourcePins(g, net.netType, paths)))
    ensures r.Ok? ==>
      |net.pins| == |old(net.pins)| + |Needed(d, net.id, PathSourcePins(g, net.netType, paths))|
    ensures r.Ok? ==> forall j | |old(net.pins)| <= j < |net.pins| ::
      PinCreatedFor(g, d, status, net.netType, net.pips, old(net.pins), net.routed - old(net.routed), net.id,
                    net.pins[j])
    ensures r.Ok? ==> Distinct(net.pips)
    ensures r.Ok? ==> forall p :: p in net.pips <==> p in old(net.pips) || p in AllPathPips(paths)
    ensures r.Ok? ==> forall p | p in net.pips && p !in old(net.pips) :: SearchStep(g, status, p.startNode, p.endNode)
    ensures r.Err? ==> net.pips == old(net.pips)
  {
    ghost var pins0, routed0 := net.pins, net.routed;
    var netPips, sitePins;
    r, netPips, sitePins, paths := RouteSinks(net, g, d, status);
    searched := r.Ok?;
    if r.Ok? {
      ghost var routed1 := net.routed;
      r := CreateSourcePins(net, d, sitePins);
      assert forall j | 0 <= j < |pins0| :: net.pins[j] == pins0[j];
      SinksRoutedBeyond(g, d, status, net.netType, pins0, routed0, routed1, net.routed, paths, netPips);
      if r.Ok? {
        net.SetPips(netPips);
        StaticNetRouted(g, d, status, net.netType, net.id, pins0, routed0, paths, netPips, sitePins, net.pins,
                        net.routed, net.pips);
      }
    }
    SinksKept(g, d, status, net.netType, pins0, routed0, net.routed, paths, netPips, net.pins);
  }

  /** The pins routed by the sink search keep their paths once site pins are appended. */
  lemma SinksKept(g: Graph, d: Design, status: Node -> NodeStatus, netType: NetType, pins0: seq<Pin>,
                  routed0: set<nat>, routed: set<nat>, paths: map<nat, seq<Node>>, netPips: set<Pip>,
                  pins: seq<Pin>)
    requires SinksRouted(g, d, status, netType, pins0, routed0, routed, paths, netPips)
    requires paths.Keys <= routed - routed0 && forall j | j in paths :: j < |pins0|
    requires |pins0| <= |pins| && pins[..|pins0|] == pins0
    ensures forall i | i in routed - routed0 && i < |pins0| :: !pins[i].isOut && i in paths
    ensures forall j | j in paths :: j < |pins0| && j in routed - routed0 && StaticPath(g, status, paths[j], pins[j].node)
  {
    assert forall j | 0 <= j < |pins0| :: pins[j] == pins0[j];
  }

  /**
   * Once the net's PIPs are `pips`, every newly routed old pin is reached through them, and every
   * appended pin is the new pin of a site pin created for the source of a routed path.
   */
  lemma StaticNetRouted(g: Graph, d: Design, status: Node -> NodeStatus, netType: NetType, id: nat,
                        pins0: seq<Pin>, routed0: set<nat>, paths: map<nat, seq<Node>>, netPips: set<Pip>,
                        sitePins: set<SitePin>, pins: seq<Pin>, routed: set<nat>, pips: seq<Pip>)
    requires SinksRouted(g, d, status, netType, pins0, routed0, routed, paths, netPips)
    requires paths.Keys <= routed - routed0 && forall j | j in paths :: j < |pins0|
    requires sitePins == PathSourcePins(g, netType, paths)
    requires |pins0| <= |pins| && pins[..|pins0|] == pins0
    requires PinsFrom(pins, |pins0|, Needed(d, id, sitePins))
    requires forall p :: p in pips <==> p in netPips
    ensures forall i | i in routed - routed0 && i < |pins0| :: Reached(g, d, status, netType, pips, pins[i].node)
    ensures forall j | |pins0| <= j < |pins| ::
      PinCreatedFor(g, d, status, netType, pips, pins0, routed - routed0, id, pins[j])
  {
    assert forall j | 0 <= j < |pins0| :: pins[j] == pins0[j];
    SinksReached(g, d, status, netType, pins0, routed0, routed, paths, netPips, pips);
    SourcePinsCreatedFor(g, d, status, netType, pins0, routed0, routed, paths, netPips, pips);
    NewPinsCreatedFor(g, d, status, netType, pips, pins0, routed - routed0, id, sitePins, pins, |pins0|);
  }

  /** Pin `p` is the new pin of a site pin created for the source of a routed path. */
  ghost predicate PinCreatedFor(g: Graph, d: Design, status: Node -> NodeStatus, netType: NetType, pips: seq<Pip>,
                                pins0: seq<Pin>, newly: set<nat>, id: nat, p: Pin)
  {
    exists sp | NeedsPin(d, id, sp) && p == NewSourcePin(sp) :: CreatedFor(g, status, netType, pips, pins0, newly, sp)
  }

  /** Every pin created for a site pin that was created for a routed path is one of those. */
  lemma NewPinsCreatedFor(g: Graph, d: Design, status: Node -> NodeStatus, netType: NetType, pips: seq<Pip>,
                          pins0: seq<Pin>, newly: set<nat>, id: nat, sitePins: set<SitePin>,
                          pins: seq<Pin>, lo: nat)
    requires lo <= |pins| && PinsFrom(pins, lo, Needed(d, id, sitePins))
    requires forall sp | sp in sitePins :: CreatedFor(g, status, netType, pips, pins0, newly, sp)
    ensures forall j | lo <= j < |pins| :: PinCreatedFor(g, d, status, netType, pips, pins0, newly, id, pins[j])
  {
    forall j | lo <= j < |pins|
      ensures PinCreatedFor(g, d, status, netType, pips, pins0, newly, id, pins[j])
    {
      assert pins[j] in pins[lo..];
      var sp :| sp in Needed(d, id, sitePins) && NewSourcePin(sp) == pins[j];
      assert NeedsPin(d, id, sp) && CreatedFor(g, status, netType, pips, pins0, newly, sp);
    }
  }
}

=== FILE: StaticSources.dfy ===
/**
 * Where the VCC/GND router may take its constant from: the table of LUT output wire names, the
 * test that decides whether a node can serve as a static source, and the pruning rule of the
 * backward static-net search.
 */
module StaticSources {
  import opened Wrappers
  import opened Device
  import opened Strings

  // ---------------------------------------------------------------- LUT output wire names

  /** The two CLE flavours the table names: SLICEL and SLICEM. */
  datatype Cle = CleL | CleM

  /**
   * The three wire-name shapes of a LUT output: the 6-LUT output `<X>_O` and the output mux
   * `<X>MUX` on UltraScale-style tiles, and `<X>_O_PIN` of site 0 or 1 on Versal tiles.
   */
  datatype LutForm = SixOut | MuxOut | VersalOut(siteIndex: nat)

  /** A LUT output: its CLE flavour, its LUT letter (A to H) and the shape of its wire name. */
  datatype LutPin = LutPin(cle: Cle, letter: char, form: LutForm)

  predicate ValidLutPin(p: LutPin)
  {
    'A' <= p.letter <= 'H' && (p.form.VersalOut? ==> p.form.siteIndex < 2)
  }

  function CleChar(c: Cle): char
  {
    match c
    case CleL => 'L'
    case CleM => 'M'
  }

  function DigitChar(k: nat): char
    requires k < 10
  {
    ('0' as int + k) as char
  }

  /** The wire name of a LUT output, as the table spells it. */
  function LutPinName(p: LutPin): string
    requires ValidLutPin(p)
  {
    match p.form
    case SixOut => "CLE_CLE_" + [CleChar(p.cle)] + "_SITE_0_" + [p.letter] + "_O"
    case MuxOut => "CLE_CLE_" + [CleChar(p.cle)] + "_SITE_0_" + [p.letter] + "MUX"
    case VersalOut(k) => "CLE_SLICE" + [CleChar(p.cle)] + "_TOP_" + [DigitChar(k)] + "_" + [p.letter] + "_O_PIN"
  }

  /**
   * The k-th name the table's initializer adds: CLE flavour outermost, then the letter, then the
   * 6-LUT output, the mux output and the two Versal site outputs.
   */
  function LutPinAt(k: nat): (p: LutPin)
    requires k < 64
    ensures ValidLutPin(p)
  {
    var cle := if k / 32 == 0 then CleL else CleM;
    var letter := ('A' as int + (k % 32) / 4) as char;
    var f := k % 4;
    LutPin(cle, letter, if f == 0 then SixOut else if f == 1 then MuxOut else VersalOut(f - 2))
  }

  /** The position of a LUT output in the initializer's order. */
  function LutPinIndex(p: LutPin): nat
    requires ValidLutPin(p)
  {
    (if p.cle == CleL then 0 else 32) + (p.letter as int - 'A' as int) * 4
    + (match p.form case SixOut => 0 case MuxOut => 1 case VersalOut(s) => 2 + s)
  }

  lemma LutPinIndexInverts(p: LutPin)
    requires ValidLutPin(p)
    ensures LutPinIndex(p) < 64 && LutPinAt(LutPinIndex(p)) == p
  {
  }

  lemma LutPinAtInverts(k: nat)
    requires k < 64
    ensures LutPinIndex(LutPinAt(k)) == k
  {
  }

  /** lutOutputPinNames. */
  function LutOutputPinNames(): set<string>
  {
    TablePrefix(64)
  }

  /** The names the initializer has added after its first n additions. */
  function TablePrefix(n: nat): set<string>
    requires n <= 64
  {
    set k | 0 <= k < n :: LutPinName(LutPinAt(k))
  }

  /** Distinct LUT outputs have distinct wire names: the name determines form, CLE and letter. */
  lemma LutPinNameInjective(p: LutPin, q: LutPin)
    requires ValidLutPin(p) && ValidLutPin(q)
    requires LutPinName(p) == LutPinName(q)
    ensures p == q
  {
    var w := LutPinName(p);
    LutPinNameFields(p);
    LutPinNameFields(q);
    if p.form.VersalOut? {
      assert q.form.VersalOut?;
      assert DigitChar(p.form.siteIndex) == w[15] == DigitChar(q.form.siteIndex);
    }
  }

  /** Where each field of a LUT output sits in its wire name. */
  lemma LutPinNameFields(p: LutPin)
    requires ValidLutPin(p)
    ensures var w := LutPinName(p);
      && |w| == (match p.form case SixOut => 20 case MuxOut => 21 case VersalOut(_) => 24)
      && w[17] == p.letter
      && (p.form.VersalOut? ==> w[9] == CleChar(p.cle) && w[15] == DigitChar(p.form.siteIndex))
      && (!p.form.VersalOut? ==> w[8] == CleChar(p.cle))
  {
  }

  /** The table holds exactly the wire names of the 64 LUT outputs. */
  lemma LutTableMembers(w: string)
    ensures w in LutOutputPinNames() <==> exists p | ValidLutPin(p) :: LutPinName(p) == w
  {
    if exists p | ValidLutPin(p) :: LutPinName(p) == w {
      var p :| ValidLutPin(p) && LutPinName(p) == w;
      LutPinIndexInverts(p);
    }
  }

  /** Adding the n-th name grows the table by one new name. */
  lemma TablePrefixStep(n: nat)
    requires n < 64
    ensures TablePrefix(n + 1) == TablePrefix(n) + {LutPinName(LutPinAt(n))}
    ensures LutPinName(LutPinAt(n)) !in TablePrefix(n)
  {
    if LutPinName(LutPinAt(n)) in TablePrefix(n) {
      var k :| 0 <= k < n && LutPinName(LutPinAt(k)) == LutPinName(LutPinAt(n));
      LutPinNameInjective(LutPinAt(k), LutPinAt(n));
      LutPinAtInverts(k);
      LutPinAtInverts(n);
    }
  }

  /** Adds the name of the LUT output with index n to the first n names. */
  method AddLutName(names: set<string>, n: nat, p: LutPin) returns (r: set<string>)
    requires n < 64 && ValidLutPin(p) && LutPinIndex(p) == n
    requires names == TablePrefix(n) && |names| == n
    ensures r == TablePrefix(n + 1) && |r| == n + 1
  {
    LutPinIndexInverts(p);
    TablePrefixStep(n);
    r := names + {LutPinName(p)};
  }

  /**
   * The static initializer of lutOutputPinNames: for each CLE flavour and LUT letter it adds the
   * 6-LUT output, the mux output and both Versal site outputs, 64 different names in all.
   */
  method BuildLutOutputPinNames() returns (names: set<string>)
    ensures names == LutOutputPinNames()
    ensures |names| == 64
  {
    names := {};
    var cles := [CleL, CleM];
    for c := 0 to 2
      invariant names == TablePrefix(c * 32) && |names| == c * 32
    {
      var cle := cles[c];
      for l := 0 to 8
        invariant names == TablePrefix(c * 32 + l * 4) && |names| == c * 32 + l * 4
      {
        var letter := ('A' as int + l) as char;
        var n := c * 32 + l * 4;
        names := AddLutName(names, n, LutPin(cle, letter, SixOut));
        names := AddLutName(names, n + 1, LutPin(cle, letter, MuxOut));
        for s := 0 to 2
          invariant names == TablePrefix(n + 2 + s) && |names| == n + 2 + s
        {
          names := AddLutName(names, n + 2 + s, LutPin(cle, letter, VersalOut(s)));
        }
      }
    }
  }

  /** A table name is long enough for every index the usability test reads. */
  lemma LutTableNameLength(w: string)
    requires w in LutOutputPinNames()
    ensures |w| >= 20
  {
    LutTableMembers(w);
    var p :| ValidLutPin(p) && LutPinName(p) == w;
    LutPinNameFields(p);
  }

  // ---------------------------------------------------------------- usable static sources

  /**
   * The part of the design the usability test consults: the device series, the sites of a
   * node's tile, the site instance placed on a site, the type of the net on a site wire of a
   * site instance (None for no net), and the site-pin instance of a site instance by pin name
   * (Some(None) for a pin instance without a net).
   */
  datatype Design = Design(
    series: Series,
    tileSites: Node -> seq<nat>,
    siteInst: nat -> Option<nat>,
    siteWireNet: (nat, string) -> Option<NetType>,
    sitePinInst: (nat, string) -> Option<Option<nat>>
  )

  /** The node is hard-wired to the constant the net carries. */
  predicate TiedToConstant(g: Graph, node: Node, netType: NetType)
  {
    (netType == Vcc && g.tiedToVcc(node)) || (netType == Gnd && g.tiedToGnd(node))
  }

  /** The site wire carries no net, or a net of the type being routed. */
  predicate WireFreeFor(d: Design, si: nat, wire: string, netType: NetType)
  {
    d.siteWireNet(si, wire).None? || d.siteWireNet(si, wire).value == netType
  }

  /**
   * The site index the test reads from a Versal wire name: the site digit of a Versal name,
   * and for an UltraScale-style name the letter found at the same distance from the end.
   */
  function VersalSiteIndex(p: LutPin): int
  {
    match p.form
    case VersalOut(s) => s
    case SixOut => 'I' as int - '0' as int
    case MuxOut => 'T' as int - '0' as int
  }

  /**
   * What the test decides for a LUT output p of the node's tile, stated on p's fields: the
   * site is the Versal site of p (site 0 elsewhere); an empty site is usable; otherwise the
   * site wire of p's output pin must be free, and for a mux output the 6-LUT and 5-LUT outputs
   * of the same letter must be free as well.
   */
  function UsableLut(d: Design, node: Node, netType: NetType, p: LutPin): Result<bool, RouteError>
  {
    var isVersal := d.series == Versal;
    var siteIndex := if isVersal then VersalSiteIndex(p) else 0;
    var sites := d.tileSites(node);
    if siteIndex < 0 || siteIndex >= |sites| then Err(IndexOutOfRange)
    else match d.siteInst(sites[siteIndex])
      case None => Ok(true)
      case Some(si) =>
        if isVersal then
          if p.form.VersalOut? then Ok(WireFreeFor(d, si, [p.letter] + "_O", netType))
          else Err(AssertionViolated)
        else match p.form
          case SixOut => Ok(WireFreeFor(d, si, [p.letter] + "_O", netType))
          case MuxOut =>
            if !WireFreeFor(d, si, [p.letter] + "_O", netType) then Ok(false)
            else if !WireFreeFor(d, si, [p.letter] + "5LUT_O5", netType) then Ok(false)
            else Ok(WireFreeFor(d, si, [p.letter] + "MUX", netType))
          case VersalOut(_) => Err(UnexpectedWireName)
  }

  /**
   * isNodeUsableStaticSource: a node tied to the net's constant is usable; a LUT output is
   * usable when its site is empty or the site pin's net is free; anything else is not. The
   * site index and the site-pin name are cut out of the wire name.
   */
  function IsNodeUsableStaticSource(g: Graph, d: Design, node: Node, netType: NetType): (r: Result<bool, RouteError>)
    ensures TiedToConstant(g, node, netType) ==> r == Ok(true)
    ensures !TiedToConstant(g, node, netType) && g.wireName(node) !in LutOutputPinNames() ==> r == Ok(false)
    ensures r.Err? ==>
      r.error == IndexOutOfRange || r.error == AssertionViolated || r.error == UnexpectedWireName
  {
    var w := g.wireName(node);
    if TiedToConstant(g, node, netType) then Ok(true)
    else if w !in LutOutputPinNames() then Ok(false)
    else
      LutTableNameLength(w);
      LutSiteTest(d, node, netType, w)
  }

  /**
   * The test of isNodeUsableStaticSource on a LUT output's wire name `w`: the Versal site index
   * is the digit nine characters from the end, and the site-pin names are cut from the end of `w`.
   */
  function LutSiteTest(d: Design, node: Node, netType: NetType, w: string): (r: Result<bool, RouteError>)
    requires |w| >= 20
    ensures r.Err? ==>
      r.error == IndexOutOfRange || r.error == AssertionViolated || r.error == UnexpectedWireName
  {
    var isVersal := d.series == Versal;
    var siteIndex := if isVersal then w[|w| - 9] as int - '0' as int else 0;
    var sites := d.tileSites(node);
    if siteIndex < 0 || siteIndex >= |sites| then Err(IndexOutOfRange)
    else match d.siteInst(sites[siteIndex])
      case None => Ok(true)
      case Some(si) =>
        if isVersal then
          if !EndsWith(w, "_O_PIN") then Err(AssertionViolated)
          else Ok(WireFreeFor(d, si, w[|w| - 7..|w| - 4], netType))
        else if EndsWith(w, "_O") then
          Ok(WireFreeFor(d, si, w[|w| - 3..], netType))
        else if EndsWith(w, "MUX") then
          var lutLetter := w[|w| - 4];
          if !WireFreeFor(d, si, [lutLetter] + "_O", netType) then Ok(false)
          else if !WireFreeFor(d, si, [lutLetter] + "5LUT_O5", netType) then Ok(false)
          else Ok(WireFreeFor(d, si, w[|w| - 4..], netType))
        else Err(UnexpectedWireName)
  }

  /** How the test slices each kind of table name. */
  lemma LutNameSlices(p: LutPin)
    requires ValidLutPin(p)
    ensures var w := LutPinName(p);
      && |w| >= 20
      && w[|w| - 9] as int - '0' as int == VersalSiteIndex(p)
      && (EndsWith(w, "_O_PIN") <==> p.form.VersalOut?)
      && (p.form.VersalOut? ==> w[|w| - 7..|w| - 4] == [p.letter] + "_O")
      && (EndsWith(w, "_O") <==> p.form == SixOut)
      && (p.form == SixOut ==> w[|w| - 3..] == [p.letter] + "_O")
      && (EndsWith(w, "MUX") <==> p.form == MuxOut)
      && (p.form == MuxOut ==> w[|w| - 4] == p.letter && w[|w| - 4..] == [p.letter] + "MUX")
  {
    var w := LutPinName(p);
    LutPinNameFields(p);
    match p.form
    case SixOut =>
      assert w[|w| - 6..] != "_O_PIN" by { assert w[|w| - 5] == '0'; }
      assert w[|w| - 3..] != "MUX" by { assert w[|w| - 1] == 'O'; }
    case MuxOut =>
      assert w[|w| - 6..] != "_O_PIN" by { assert w[|w| - 1] == 'X'; }
      assert w[|w| - 2..] != "_O" by { assert w[|w| - 1] == 'X'; }
    case VersalOut(_) =>
      assert w[|w| - 2..] != "_O" by { assert w[|w| - 1] == 'N'; }
      assert w[|w| - 3..] != "MUX" by { assert w[|w| - 1] == 'N'; }
  }

  /** The slicing test decides, on the name of LUT output `p`, what UsableLut decides on `p`. */
  lemma LutSiteTestByLutPin(d: Design, node: Node, netType: NetType, p: LutPin)
    requires ValidLutPin(p)
    ensures |LutPinName(p)| >= 20
    ensures LutSiteTest(d, node, netType, LutPinName(p)) == UsableLut(d, node, netType, p)
  {
    LutNameSlices(p);
  }

  /**
   * The string slicing of isNodeUsableStaticSource decides, for the wire name of every LUT
   * output, exactly what UsableLut decides on that output's fields.
   */
  lemma UsableStaticSourceByLutPin(g: Graph, d: Design, node: Node, netType: NetType, p: LutPin)
    requires ValidLutPin(p) && g.wireName(node) == LutPinName(p)
    requires !TiedToConstant(g, node, netType)
    ensures IsNodeUsableStaticSource(g, d, node, netType) == UsableLut(d, node, netType, p)
  {
    LutTableMembers(g.wireName(node));
    LutSiteTestByLutPin(d, node, netType, p);
  }

  /** A mux output whose 6-LUT or 5-LUT output drives a net of another type is never used. */
  lemma MuxNeedsFreeLuts(g: Graph, d: Design, node: Node, netType: NetType, p: LutPin)
    requires ValidLutPin(p) && g.wireName(node) == LutPinName(p) && p.form == MuxOut
    requires !TiedToConstant(g, node, netType) && d.series != Versal
    requires |d.tileSites(node)| > 0 && d.siteInst(d.tileSites(node)[0]).Some?
    requires var si := d.siteInst(d.tileSites(node)[0]).value;
      !WireFreeFor(d, si, [p.letter] + "_O", netType) || !WireFreeFor(d, si, [p.letter] + "5LUT_O5", netType)
    ensures IsNodeUsableStaticSource(g, d, node, netType) == Ok(false)
  {
    UsableStaticSourceByLutPin(g, d, node, netType, p);
  }

  /**
   * isThisOurStaticSource: a node the net already uses is a source; otherwise the node must be
   * a usable static source.
   */
  function IsThisOurStaticSource(g: Graph, d: Design, used: set<Node>, node: Node, netType: NetType): (r: Result<bool, RouteError>)
    ensures node in used ==> r == Ok(true)
    ensures node !in used ==> r == IsNodeUsableStaticSource(g, d, node, netType)
  {
    if node in used then Ok(true) else IsNodeUsableStaticSource(g, d, node, netType)
  }

  // ---------------------------------------------------------------- pruning

  /** The global and long-line intents the static-net search never goes through. */
  predicate PrunedIntent(ic: IntentCode)
  {
    ic in {GlobalVdistr, GlobalHroute, GlobalHdistr, Hlong, Vlong, GlobalVroute, GlobalLeaf, GlobalBufg}
  }

  /** The decision of pruneNode and the used-node set after it. */
  datatype Pruning = Pruning(prune: bool, used: set<Node>)

  /**
   * pruneNode: global and long-line nodes and unavailable nodes are pruned; an in-use node is
   * kept and recorded as used (asserting it was not visited); any other node is pruned iff it
   * was visited.
   */
  function PruneNode(g: Graph, status: Node -> NodeStatus, visited: set<Node>, used: set<Node>, n: Node)
    : (r: Result<Pruning, RouteError>)
    ensures r.Err? <==> !PrunedIntent(g.intent(n)) && status(n) == InUse && n in visited
    ensures r.Ok? ==> r.value.used == used || (r.value.used == used + {n} && status(n) == InUse)
    ensures r.Ok? ==> (r.value.prune <==>
      PrunedIntent(g.intent(n)) || status(n) == Unavailable || (status(n) == Available && n in visited))
    ensures r.Ok? && !r.value.prune ==> n !in visited && status(n) != Unavailable && !PrunedIntent(g.intent(n))
    ensures r.Ok? && !PrunedIntent(g.intent(n)) && status(n) == InUse ==> !r.value.prune && n in r.value.used
  {
    if PrunedIntent(g.intent(n)) then Ok(Pruning(true, used))
    else match status(n)
      case Unavailable => Ok(Pruning(true, used))
      case InUse => if n in visited then Err(AssertionViolated) else Ok(Pruning(false, used + {n}))
      case Available => Ok(Pruning(n in visited, used))
  }
}

=== FILE: Strings.dfy ===
/** The few java.lang.String queries the router makes on wire names. */
module Strings {

  predicate StartsWith(s: string, prefix: string)
  {
    |prefix| <= |s| && s[..|prefix|] == prefix
  }

  predicate EndsWith(s: string, suffix: string)
  {
    |suffix| <= |s| && s[|s| - |suffix|..] == suffix
  }

  /** `part` occurs in `s` at position i. */
  predicate OccursAt(s: string, i: nat, part: string)
  {
    i + |part| <= |s| && s[i..i + |part|] == part
  }

  predicate Contains(s: string, part: string)
  {
    exists i: nat | i <= |s| :: OccursAt(s, i, part)
  }
}

=== FILE: VersalClockRouting.dfy ===
/**
 * The trunk of a Versal clock route: from the clock buffer to the nearest horizontal routing
 * track, from a routing track to the centroid clock region, and from the centroid routing track
 * to a vertical distribution line. Each stage is a search from a root whose parent is reset; a
 * stage that succeeds appends the PIPs of the found entry's back-pointer path to the clock net.
 */
module VersalClockRouting {
  import opened Wrappers
  import opened Device
  import opened Strings
  import opened SearchArena
  import opened Nets

  /** Polls the nearest-track search makes after the first before it gives up. */
  const TrackWatchDog: nat := 300
  /** Polls the centroid search makes after the first before it throws. */
  const CentroidWatchDog: nat := 10000000
  /** Polls the search for a distribution line makes after the first before it gives up. */
  const TransitionWatchDog: nat := 100000

  /** The intent codes the centroid search may enqueue. */
  const CentroidAllowed: set<IntentCode> :=
    {GlobalGclk, GlobalHrouteHsr, GlobalVroute, GlobalVdistrLvl2}

  function IsHsr(g: Graph): Node -> bool
  {
    (n: Node) => g.intent(n) == GlobalHrouteHsr
  }

  /** The filter of the distribution-line search: only Versal clocking wires are followed. */
  function ClockingOnly(g: Graph): Node -> bool
  {
    (n: Node) => g.isVersalClocking(g.intent(n))
  }

  /** None of the first `n` entries wraps an HROUTE_HSR. */
  ghost predicate NoHsrBefore(g: Graph, arena: seq<RouteNode>, n: nat)
    requires n <= |arena|
  {
    forall j | 0 <= j < n :: g.intent(arena[j].node) != GlobalHrouteHsr
  }

  lemma NoHsrBeforeStep(g: Graph, arena: seq<RouteNode>, n: nat, next: seq<RouteNode>)
    requires n < |arena| <= |next| && next[..|arena|] == arena && NoHsrBefore(g, arena, n)
    requires g.intent(arena[n].node) != GlobalHrouteHsr
    ensures NoHsrBefore(g, next, n + 1)
  {
    assert forall j | 0 <= j < n + 1 :: next[j] == arena[j];
  }

  /** Node `n` is a vertical distribution line of clock region `cr`. */
  predicate DistributionLineOf(g: Graph, cr: Option<ClockRegion>, n: Node)
  {
    g.region(n) == cr && g.intent(n) == GlobalVdistr
  }

  /** Every one of the first `n` entries has a clock region and is not a line of `cr`. */
  ghost predicate NoLineBefore(g: Graph, cr: Option<ClockRegion>, arena: seq<RouteNode>, n: nat)
    requires n <= |arena|
  {
    forall j | 0 <= j < n :: g.region(arena[j].node).Some? && !DistributionLineOf(g, cr, arena[j].node)
  }

  lemma NoLineBeforeStep(g: Graph, cr: Option<ClockRegion>, arena: seq<RouteNode>, n: nat,
                         next: seq<RouteNode>)
    requires n < |arena| <= |next| && next[..|arena|] == arena && NoLineBefore(g, cr, arena, n)
    requires g.region(arena[n].node).Some? && !DistributionLineOf(g, cr, arena[n].node)
    ensures NoLineBefore(g, cr, next, n + 1)
  {
    assert forall j | 0 <= j < n + 1 :: next[j] == arena[j];
  }

  function IsDistributionLineIn(g: Graph, cr: Option<ClockRegion>): Node -> bool
  {
    (n: Node) => DistributionLineOf(g, cr, n)
  }

  // ---------------------------------------------------------------------------------------------
  // routeBUFGToNearestRoutingTrack

  /**
   * The breadth-first search of routeBUFGToNearestRoutingTrack from the clock source: it enqueues
   * every downhill node (there is no visited set), stops at the first polled HROUTE_HSR entry and
   * gives up after its watchdog. `expanded` counts the entries polled and expanded.
   */
  method NearestTrackSearch(g: Graph, source: Node)
    returns (arena: seq<RouteNode>, found: Option<nat>, ghost expanded: nat)
    ensures BfsState(arena, g.downhill, AnyNode, source, expanded)
    ensures expanded <= TrackWatchDog + 1
    ensures expanded <= |arena| && NoHsrBefore(g, arena, expanded)
    ensures found.Some? ==>
      found.value == expanded < |arena| && g.intent(arena[expanded].node) == GlobalHrouteHsr
    ensures found.None? ==> expanded == |arena| || expanded == TrackWatchDog + 1
    ensures found.Some? ==>
      && found.value < |arena| && g.intent(arena[found.value].node) == GlobalHrouteHsr
      && forall j | 0 <= j < found.value :: g.intent(arena[j].node) != GlobalHrouteHsr
  {
    arena := [RouteNode(source, None, 0)];
    found := None;
    var head := 0;
    var watchDog: int := TrackWatchDog;
    while head < |arena|
      invariant head <= TrackWatchDog && watchDog == TrackWatchDog - head
      invariant BfsState(arena, g.downhill, AnyNode, source, head)
      invariant head <= |arena| && NoHsrBefore(g, arena, head)
      decreases TrackWatchDog - head
    {
      var curr := head;
      if g.intent(arena[curr].node) == GlobalHrouteHsr {
        found := Some(curr);
        expanded := curr;
        return;
      }
      BfsStateStep(arena, g.downhill, AnyNode, source, curr);
      ghost var before := arena;
      arena := AppendChildren(arena, g.downhill(arena[curr].node), AnyNode, curr);
      NoHsrBeforeStep(g, before, curr, arena);
      head := head + 1;
      var expired := watchDog == 0;
      watchDog := watchDog - 1;
      if expired {
        break;
      }
    }
    expanded := head;
  }

  /**
   * routeBUFGToNearestRoutingTrack on the clock net: a found routing track's back PIPs, a walk
   * from the source, are appended to the net, and no walk reaches an HROUTE_HSR node in fewer
   * hops; otherwise nothing is appended. A net without a source is a null dereference.
   */
  method RouteBufgToNearestRoutingTrack(clk: Net, g: Graph, source: Option<Node>)
    returns (r: Result<Option<Node>, RouteError>, ghost added: seq<Pip>)
    modifies clk
    ensures clk.pins == old(clk.pins) && clk.routed == old(clk.routed)
    ensures clk.pips == old(clk.pips) + added
    ensures r.Err? <==> source.None?
    ensures r.Err? ==> r.error == NullDereference
    ensures r.Ok? && r.value.Some? ==>
      && g.intent(r.value.value) == GlobalHrouteHsr
      && BackChain(added, g.downhill, source.value, r.value.value)
      && forall w | Walk(w, g.downhill, AnyNode) && 0 < |w| && w[0] == source.value
                    && g.intent(w[|w| - 1]) == GlobalHrouteHsr :: |added| <= |w| - 1
    ensures !(r.Ok? && r.value.Some?) ==> added == []
  {
    if source.None? {
      return Err(NullDereference), [];
    }
    var arena, found, expanded := NearestTrackSearch(g, source.value);
    if found.None? {
      return Ok(None), [];
    }
    var f := found.value;
    SingleRoot(arena, f);
    BackPipsChain(arena, g.downhill, f);
    var pips := BackPips(arena, f);
    added := pips;
    forall w | Walk(w, g.downhill, AnyNode) && 0 < |w| && w[0] == source.value
               && g.intent(w[|w| - 1]) == GlobalHrouteHsr
      ensures |added| <= |w| - 1
    {
      assert forall j | 0 <= j < f :: !IsHsr(g)(arena[j].node);
      NoNearerGoal(arena, g.downhill, AnyNode, IsHsr(g), f, w);
    }
    clk.AddPips(pips);
    r := Ok(Some(arena[f].node));
  }

  // ---------------------------------------------------------------------------------------------
  // routeToCentroid

  /** An entry the centroid search may create: allowed intent, known region, cost to `cr`. */
  ghost predicate CentroidCandidate(g: Graph, cr: ClockRegion, adjusted: bool, findHroute: bool,
                                    e: RouteNode)
  {
    && g.intent(e.node) in CentroidAllowed
    && !(adjusted && !findHroute && g.intent(e.node) == GlobalHrouteHsr)
    && g.region(e.node).Some?
    && e.cost == RegionDistance(g.region(e.node).value, cr)
  }

  /** Entry `p` is not an HROUTE_HSR reached from a VROUTE, which the search never expands. */
  ghost predicate Expandable(g: Graph, arena: seq<RouteNode>, p: nat)
    requires WellFormed(arena) && p < |arena|
  {
    !(&& g.intent(arena[p].node) == GlobalHrouteHsr
      && arena[p].parent.Some?
      && g.intent(arena[arena[p].parent.value].node) == GlobalVroute)
  }

  /**
   * The pattern at which the centroid search stops on entry `c`: a GCLK of region `cr` with a
   * VDISTR_LVL2 downhill node, reached from a VROUTE of `cr` whose wire name contains "BOT".
   */
  ghost predicate CentroidStop(g: Graph, arena: seq<RouteNode>, cr: ClockRegion, c: nat)
    requires WellFormed(arena) && c < |arena|
  {
    && arena[c].parent.Some?
    && var n, p := arena[c].node, arena[arena[c].parent.value].node;
    && g.intent(n) == GlobalGclk && g.intent(p) == GlobalVroute
    && g.region(n) == Some(cr) && g.region(p) == Some(cr)
    && Contains(g.wireName(p), "BOT")
    && exists d | d in g.downhill(n) :: g.intent(d) == GlobalVdistrLvl2
  }

  /**
   * The nearest entry at or above `i` on its parent chain that wraps an HROUTE_HSR node, if any:
   * it lies on the chain and no node after it on the chain is an HROUTE_HSR.
   */
  function NearestHsr(g: Graph, arena: seq<RouteNode>, i: nat): (r: Option<nat>)
    requires WellFormed(arena) && i < |arena|
    ensures r.Some? ==> r.value <= i && g.intent(arena[r.value].node) == GlobalHrouteHsr
    ensures r.Some? ==>
      && PathTo(arena, r.value) <= PathTo(arena, i)
      && forall k | |PathTo(arena, r.value)| <= k < |PathTo(arena, i)| ::
           g.intent(PathTo(arena, i)[k]) != GlobalHrouteHsr
    ensures r.None? ==> forall k | 0 <= k < |PathTo(arena, i)| ::
      g.intent(PathTo(arena, i)[k]) != GlobalHrouteHsr
    decreases i
  {
    if g.intent(arena[i].node) == GlobalHrouteHsr then Some(i)
    else
      match arena[i].parent
      case None => None
      case Some(p) =>
        assert PathTo(arena, i) == PathTo(arena, p) + [arena[i].node];
        NearestHsr(g, arena, p)
  }

  /** The walk up the parent chain to an HROUTE_HSR; None where the router dereferences null. */
  method WalkToHsr(g: Graph, arena: seq<RouteNode>, from: nat) returns (h: Option<nat>)
    requires WellFormed(arena) && from < |arena|
    ensures h == NearestHsr(g, arena, from)
  {
    var cur: nat := from;
    while g.intent(arena[cur].node) != GlobalHrouteHsr
      invariant cur < |arena| && NearestHsr(g, arena, cur) == NearestHsr(g, arena, from)
      decreases cur
    {
      match arena[cur].parent
      case None =>
        return None;
      case Some(p) =>
        cur := p;
    }
    h := Some(cur);
  }

  /**
   * The arena of the centroid search from `start`: every entry after the root is a centroid
   * candidate whose node has been marked visited and whose parent may be expanded, and no node is
   * wrapped by two of them.
   */
  ghost predicate CentroidArena(g: Graph, start: Node, cr: ClockRegion, adjusted: bool,
                                findHroute: bool, arena: seq<RouteNode>, visited: set<Node>)
  {
    && 0 < |arena| && arena[0] == RouteNode(start, None, 0) && LinkedBy(arena, g.downhill)
    && (forall i | 0 < i < |arena| :: CentroidEntry(g, cr, adjusted, findHroute, arena, visited, i))
    && (forall i, j | 0 < i < j < |arena| :: arena[i].node != arena[j].node)
  }

  /** Entry `i` is a visited centroid candidate whose parent may be expanded. */
  ghost predicate CentroidEntry(g: Graph, cr: ClockRegion, adjusted: bool, findHroute: bool,
                                arena: seq<RouteNode>, visited: set<Node>, i: nat)
    requires WellFormed(arena) && i < |arena|
  {
    && arena[i].parent.Some? && arena[i].node in visited
    && CentroidCandidate(g, cr, adjusted, findHroute, arena[i])
    && Expandable(g, arena, arena[i].parent.value)
  }

  lemma CentroidAppend(g: Graph, start: Node, cr: ClockRegion, adjusted: bool, findHroute: bool,
                       arena: seq<RouteNode>, visited: set<Node>, curr: nat, d: Node, dr: ClockRegion)
    requires CentroidArena(g, start, cr, adjusted, findHroute, arena, visited)
    requires curr < |arena| && Expandable(g, arena, curr) && d in g.downhill(arena[curr].node)
    requires g.intent(d) in CentroidAllowed && !(adjusted && !findHroute && g.intent(d) == GlobalHrouteHsr)
    requires d !in visited && g.region(d) == Some(dr)
    ensures var next := arena + [RouteNode(d, Some(curr), RegionDistance(dr, cr))];
      CentroidArena(g, start, cr, adjusted, findHroute, next, visited + {d}) && next[..|arena|] == arena
  {
    var next := arena + [RouteNode(d, Some(curr), RegionDistance(dr, cr))];
    assert LinkedBy(next, g.downhill) by {
      forall i | 0 <= i < |next| ensures LinkOk(next, g.downhill, i) {
        if i < |arena| {
          assert next[i] == arena[i] && LinkOk(arena, g.downhill, i);
          if arena[i].parent.Some? {
            assert next[arena[i].parent.value] == arena[arena[i].parent.value];
          }
        } else {
          assert next[curr] == arena[curr];
        }
      }
    }
    CentroidAppendEntries(g, start, cr, adjusted, findHroute, arena, visited, curr, next, visited + {d});
    forall i, j | 0 < i < j < |next| ensures next[i].node != next[j].node {
      if j == |arena| {
        assert next[i] == arena[i] && CentroidEntry(g, cr, adjusted, findHroute, arena, visited, i);
      } else {
        assert next[i] == arena[i] && next[j] == arena[j];
      }
    }
  }

  lemma CentroidAppendEntries(g: Graph, start: Node, cr: ClockRegion, adjusted: bool,
                              findHroute: bool, arena: seq<RouteNode>, visited: set<Node>,
                              curr: nat, next: seq<RouteNode>, visited': set<Node>)
    requires CentroidArena(g, start, cr, adjusted, findHroute, arena, visited)
    requires curr < |arena| && Expandable(g, arena, curr)
    requires |next| == |arena| + 1 && next[..|arena|] == arena && WellFormed(next)
    requires next[|arena|].parent == Some(curr) && next[|arena|].node in visited'
    requires CentroidCandidate(g, cr, adjusted, findHroute, next[|arena|]) && visited <= visited'
    ensures forall i | 0 < i < |next| :: CentroidEntry(g, cr, adjusted, findHroute, next, visited', i)
  {
    forall i | 0 < i < |next|
      ensures CentroidEntry(g, cr, adjusted, findHroute, next, visited', i)
    {
      if i < |arena| {
        assert next[i] == arena[i];
        assert CentroidEntry(g, cr, adjusted, findHroute, arena, visited, i);
      }
      var p := next[i].parent.value;
      assert next[p] == arena[p];
      if arena[p].parent.Some? {
        assert next[arena[p].parent.value] == arena[arena[p].parent.value];
      }
    }
  }

  datatype Expansion = Expanded | StopFound | NullDeref

  /**
   * The inner loop of routeToCentroid over the downhill nodes `ds` of entry `curr`: the stop
   * pattern is checked at each node before it is filtered; a node that passes the filters is
   * enqueued with its cost and marked visited; a candidate without a clock region is a null
   * dereference.
   */
  method CentroidExpand(g: Graph, start: Node, cr: ClockRegion, adjusted: bool, findHroute: bool,
                        arena: seq<RouteNode>, q: seq<nat>, visited: set<Node>, curr: nat)
    returns (arena': seq<RouteNode>, q': seq<nat>, visited': set<Node>, outcome: Expansion)
    requires CentroidArena(g, start, cr, adjusted, findHroute, arena, visited) && QueuedIn(q, arena)
    requires curr < |arena| && Expandable(g, arena, curr)
    ensures CentroidArena(g, start, cr, adjusted, findHroute, arena', visited')
    ensures QueuedIn(q', arena') && |arena| <= |arena'| && arena'[..|arena|] == arena
    ensures outcome == StopFound ==> CentroidStop(g, arena', cr, curr)
  {
    arena', q', visited' := arena, q, visited;
    var currNode := arena[curr].node;
    var parent := arena[curr].parent;
    var ds := g.downhill(currNode);
    var t := 0;
    while t < |ds|
      invariant t <= |ds|
      invariant CentroidArena(g, start, cr, adjusted, findHroute, arena', visited')
      invariant QueuedIn(q', arena') && |arena| <= |arena'| && arena'[..|arena|] == arena
    {
      var d := ds[t];
      t := t + 1;
      assert arena'[curr] == arena[curr];
      if parent.Some? {
        var pn := arena[parent.value].node;
        if && g.intent(d) == GlobalVdistrLvl2 && g.intent(currNode) == GlobalGclk
           && g.intent(pn) == GlobalVroute
           && g.region(currNode) == Some(cr) && g.region(pn) == Some(cr)
           && Contains(g.wireName(pn), "BOT")
        {
          assert arena'[parent.value] == arena[parent.value];
          return arena', q', visited', StopFound;
        }
      }
      if g.intent(d) !in CentroidAllowed {
        continue;
      }
      if adjusted && !findHroute && g.intent(d) == GlobalHrouteHsr {
        continue;
      }
      if d in visited' {
        continue;
      }
      var dr := g.region(d);
      if dr.None? {
        return arena', q', visited', NullDeref;
      }
      CentroidAppend(g, start, cr, adjusted, findHroute, arena', visited', curr, d, dr.value);
      arena' := arena' + [RouteNode(d, Some(curr), RegionDistance(dr.value, cr))];
      q' := q' + [|arena'| - 1];
      visited' := visited' + {d};
    }
    outcome := Expanded;
  }

  /**
   * The best-first search of routeToCentroid. Every created entry is a centroid candidate whose
   * node is enqueued at most once, no HROUTE_HSR reached from a VROUTE is expanded, and on success
   * the returned entry is, by the flags, the stop entry, its parent, or the nearest HROUTE_HSR
   * above the parent.
   */
  method CentroidSearch(g: Graph, start: Node, cr: ClockRegion, adjusted: bool, findHroute: bool)
    returns (arena: seq<RouteNode>, r: Result<Option<nat>, RouteError>, ghost stop: nat)
    ensures exists visited :: CentroidArena(g, start, cr, adjusted, findHroute, arena, visited)
    ensures r.Err? ==> r.error == WatchdogExpired || r.error == NullDereference
    ensures r.Ok? && r.value.Some? ==>
      && stop < |arena| && CentroidStop(g, arena, cr, stop)
      && r.value.value < |arena|
      && (!adjusted ==> r.value.value == stop)
      && (adjusted && !findHroute ==> r.value.value == arena[stop].parent.value)
      && (adjusted && findHroute ==> r.value == NearestHsr(g, arena, arena[stop].parent.value))
  {
    arena := [RouteNode(start, None, 0)];
    stop := 0;
    var q: seq<nat> := [0];
    var visited: set<Node> := {};
    var watchDog: nat := CentroidWatchDog;
    while q != []
      invariant CentroidArena(g, start, cr, adjusted, findHroute, arena, visited)
      invariant QueuedIn(q, arena)
      decreases watchDog
    {
      var k := PollMin(arena, q);
      var curr := q[k];
      q := RemoveAt(q, k);
      var parent := arena[curr].parent;
      // The router makes this check for each downhill node, with the same outcome for each.
      var blocked := parent.Some? && g.intent(arena[parent.value].node) == GlobalVroute
                     && g.intent(arena[curr].node) == GlobalHrouteHsr;
      if !blocked {
        var outcome;
        arena, q, visited, outcome :=
          CentroidExpand(g, start, cr, adjusted, findHroute, arena, q, visited, curr);
        if outcome == NullDeref {
          return arena, Err(NullDereference), stop;
        } else if outcome == StopFound {
          stop := curr;
          var p := arena[curr].parent.value;
          if !adjusted {
            return arena, Ok(Some(curr)), stop;
          } else if !findHroute {
            return arena, Ok(Some(p)), stop;
          }
          var h := WalkToHsr(g, arena, p);
          if h.None? {
            return arena, Err(NullDereference), stop;
          }
          return arena, Ok(h), stop;
        }
      }
      if watchDog == 0 {
        return arena, Err(WatchdogExpired), stop;
      }
      watchDog := watchDog - 1;
    }
    r := Ok(None);
  }

  /**
   * routeToCentroid on the clock net (the three-argument form passes false for both flags): the
   * back PIPs of the returned entry, a walk from the start node, are appended to the net.
   */
  method RouteToCentroid(clk: Net, g: Graph, start: Node, cr: ClockRegion, adjusted: bool,
                         findHroute: bool)
    returns (r: Result<Option<Node>, RouteError>, ghost added: seq<Pip>)
    modifies clk
    ensures clk.pins == old(clk.pins) && clk.routed == old(clk.routed)
    ensures clk.pips == old(clk.pips) + added
    ensures r.Err? ==> r.error == WatchdogExpired || r.error == NullDereference
    ensures r.Ok? && r.value.Some? ==> BackChain(added, g.downhill, start, r.value.value)
    ensures r.Ok? && r.value.Some? && adjusted && findHroute ==>
      g.intent(r.value.value) == GlobalHrouteHsr
    ensures r.Ok? && r.value.Some? && !adjusted ==> g.intent(r.value.value) == GlobalGclk
    ensures r.Ok? && r.value.Some? && adjusted && !findHroute ==>
      g.intent(r.value.value) == GlobalVroute && g.region(r.value.value) == Some(cr)
    ensures !(r.Ok? && r.value.Some?) ==> added == []
  {
    var arena, res, stop := CentroidSearch(g, start, cr, adjusted, findHroute);
    if res.Err? {
      return Err(res.error), [];
    }
    if res.value.None? {
      return Ok(None), [];
    }
    var f := res.value.value;
    ghost var visited :| CentroidArena(g, start, cr, adjusted, findHroute, arena, visited);
    forall j | 0 < j < |arena| ensures arena[j].parent.Some? {
      assert CentroidEntry(g, cr, adjusted, findHroute, arena, visited, j);
    }
    SingleRoot(arena, f);
    BackPipsChain(arena, g.downhill, f);
    var pips := BackPips(arena, f);
    added := pips;
    clk.AddPips(pips);
    r := Ok(Some(arena[f].node));
  }

  // ---------------------------------------------------------------------------------------------
  // transitionCentroidTo*DistributionLine

  /**
   * The breadth-first search of the three-argument transitionCentroidToDistributionLine: it
   * follows every Versal clocking wire connection (there is no visited set), stops at the first
   * polled VDISTR of region `cr`, dereferences null on a polled node without a clock region, and
   * gives up after its watchdog.
   */
  method DistributionLineSearch(g: Graph, start: Node, cr: Option<ClockRegion>)
    returns (arena: seq<RouteNode>, r: Result<Option<nat>, RouteError>, ghost expanded: nat)
    ensures BfsState(arena, g.wireConnections, ClockingOnly(g), start, expanded)
    ensures expanded <= TransitionWatchDog + 1
    ensures expanded <= |arena| && NoLineBefore(g, cr, arena, expanded)
    ensures r.Err? ==>
      r.error == NullDereference && expanded < |arena| && g.region(arena[expanded].node).None?
    ensures r.Ok? && r.value.Some? ==>
      && r.value.value == expanded < |arena| && DistributionLineOf(g, cr, arena[expanded].node)
      && g.region(arena[expanded].node).Some?
    ensures r.Ok? && r.value.None? ==> expanded == |arena| || expanded == TransitionWatchDog + 1
    ensures r.Err? ==> r.error == NullDereference
    ensures r.Ok? && r.value.Some? ==>
      && r.value.value < |arena| && DistributionLineOf(g, cr, arena[r.value.value].node)
      && forall j | 0 <= j < r.value.value :: !DistributionLineOf(g, cr, arena[j].node)
  {
    arena := [RouteNode(start, None, 0)];
    var head := 0;
    var watchDog: int := TransitionWatchDog;
    while head < |arena|
      invariant head <= TransitionWatchDog && watchDog == TransitionWatchDog - head
      invariant BfsState(arena, g.wireConnections, ClockingOnly(g), start, head)
      invariant head <= |arena| && NoLineBefore(g, cr, arena, head)
      decreases TransitionWatchDog - head
    {
      var curr := head;
      var currNode := arena[curr].node;
      if g.region(currNode).None? {
        return arena, Err(NullDereference), curr;
      }
      if g.region(currNode) == cr && g.intent(currNode) == GlobalVdistr {
        return arena, Ok(Some(curr)), curr;
      }
      BfsStateStep(arena, g.wireConnections, ClockingOnly(g), start, curr);
      ghost var before := arena;
      arena := AppendChildren(arena, g.wireConnections(currNode), ClockingOnly(g), curr);
      NoLineBeforeStep(g, cr, before, curr, arena);
      head := head + 1;
      var expired := watchDog == 0;
      watchDog := watchDog - 1;
      if expired {
        break;
      }
    }
    r := Ok(None);
    expanded := head;
  }

  /**
   * The three-argument transitionCentroidToDistributionLine on the clock net: a found VDISTR of
   * region `cr` is reached by the appended PIPs, a walk over clocking wire connections from the
   * line, and no such walk reaches one in fewer hops.
   */
  method TransitionToRegion(clk: Net, g: Graph, line: Node, cr: Option<ClockRegion>)
    returns (r: Result<Option<Node>, RouteError>, ghost added: seq<Pip>)
    modifies clk
    ensures clk.pins == old(clk.pins) && clk.routed == old(clk.routed)
    ensures clk.pips == old(clk.pips) + added
    ensures r.Err? ==> r.error == NullDereference
    ensures r.Ok? && r.value.Some? ==>
      && g.intent(r.value.value) == GlobalVdistr && g.region(r.value.value) == cr && cr.Some?
      && BackChain(added, g.wireConnections, line, r.value.value)
      && forall w | Walk(w, g.wireConnections, ClockingOnly(g)) && 0 < |w| && w[0] == line
                    && IsDistributionLineIn(g, cr)(w[|w| - 1]) :: |added| <= |w| - 1
    ensures !(r.Ok? && r.value.Some?) ==> added == []
  {
    var arena, res, expanded := DistributionLineSearch(g, line, cr);
    if res.Err? {
      return Err(res.error), [];
    }
    if res.value.None? {
      return Ok(None), [];
    }
    var f := res.value.value;
    SingleRoot(arena, f);
    BackPipsChain(arena, g.wireConnections, f);
    var pips := BackPips(arena, f);
    added := pips;
    forall w | Walk(w, g.wireConnections, ClockingOnly(g)) && 0 < |w| && w[0] == line
               && IsDistributionLineIn(g, cr)(w[|w| - 1])
      ensures |added| <= |w| - 1
    {
      assert forall j | 0 <= j < f :: !IsDistributionLineIn(g, cr)(arena[j].node);
      NoNearerGoal(arena, g.wireConnections, ClockingOnly(g), IsDistributionLineIn(g, cr), f, w);
    }
    clk.AddPips(pips);
    r := Ok(Some(arena[f].node));
  }

  /**
   * The two-argument transitionCentroidToDistributionLine: a VDISTR line is its own answer;
   * otherwise the search looks for a VDISTR in the line's own clock region.
   */
  method TransitionCentroidToDistributionLine(clk: Net, g: Graph, line: Node)
    returns (r: Result<Option<Node>, RouteError>, ghost added: seq<Pip>)
    modifies clk
    ensures clk.pins == old(clk.pins) && clk.routed == old(clk.routed)
    ensures clk.pips == old(clk.pips) + added
    ensures g.intent(line) == GlobalVdistr ==> r == Ok(Some(line)) && added == []
    ensures r.Ok? && r.value.Some? ==>
      && g.intent(r.value.value) == GlobalVdistr
      && BackChain(added, g.wireConnections, line, r.value.value)
      && (g.intent(line) != GlobalVdistr ==> g.region(r.value.value) == g.region(line))
  {
    if g.intent(line) == GlobalVdistr {
      return Ok(Some(line)), [];
    }
    r, added := TransitionToRegion(clk, g, line, g.region(line));
  }

  /** The region transitionCentroidToVerticalDistributionLine aims at: one row down if asked. */
  function VerticalTarget(cr: ClockRegion, down: bool): (t: ClockRegion)
    ensures t.col == cr.col
    ensures t.row == (if down && cr.row > 0 then cr.row - 1 else cr.row)
  {
    if down && cr.row > 0 then ClockRegion(cr.row - 1, cr.col) else cr
  }

  /**
   * transitionCentroidToVerticalDistributionLine: like the two-argument form, except that when
   * routing down from a region above row 0 the target is the region below; a line without a clock
   * region cannot be moved down and is a null dereference.
   */
  method TransitionCentroidToVerticalDistributionLine(clk: Net, g: Graph, line: Node, down: bool)
    returns (r: Result<Option<Node>, RouteError>, ghost added: seq<Pip>)
    modifies clk
    ensures clk.pins == old(clk.pins) && clk.routed == old(clk.routed)
    ensures clk.pips == old(clk.pips) + added
    ensures g.intent(line) == GlobalVdistr ==> r == Ok(Some(line)) && added == []
    ensures g.intent(line) != GlobalVdistr && down && g.region(line).None? ==>
      r == Err(NullDereference) && added == []
    ensures r.Ok? && r.value.Some? && g.intent(line) != GlobalVdistr ==>
      && g.intent(r.value.value) == GlobalVdistr
      && BackChain(added, g.wireConnections, line, r.value.value)
      && g.region(line).Some?
      && g.region(r.value.value) == Some(VerticalTarget(g.region(line).value, down))
  {
    if g.intent(line) == GlobalVdistr {
      return Ok(Some(line)), [];
    }
    var cr := g.region(line);
    if down && cr.None? {
      return Err(NullDereference), [];
    }
    if cr.Some? {
      cr := Some(VerticalTarget(cr.value, down));
    }
    r, added := TransitionToRegion(clk, g, line, cr);
  }

  // ---------------------------------------------------------------------------------------------
  // The nearest VROUTE in incrementalClockRouter

  /** Java's Integer.MAX_VALUE, the starting distance of the nearest-VROUTE scans. */
  const IntMax: int := 0x7fff_ffff

  /** How far a VROUTE lies from the centroid row: above it when going up, below it otherwise. */
  function VrouteDelta(g: Graph, centroidY: int, up: bool, n: Node): int
  {
    if up then g.tileY(n) - centroidY else centroidY - g.tileY(n)
  }

  /**
   * The choice of the VROUTE nearest to the centroid among those found going up (or down): a
   * VROUTE on the wrong side of the centroid fails the assertion of the scan; otherwise the answer
   * is a VROUTE of least distance, and none when every distance reaches Integer.MAX_VALUE (in
   * particular when there is no VROUTE).
   */
  method NearestVroute(g: Graph, vroutes: set<Node>, centroidY: int, up: bool)
    returns (r: Result<Option<Node>, RouteError>)
    ensures r.Err? <==> exists v | v in vroutes :: VrouteDelta(g, centroidY, up, v) < 0
    ensures r.Err? ==> r.error == AssertionViolated
    ensures r.Ok? ==>
      (r.value.None? <==> forall v | v in vroutes :: VrouteDelta(g, centroidY, up, v) >= IntMax)
    ensures r.Ok? && r.value.Some? ==>
      && r.value.value in vroutes
      && VrouteDelta(g, centroidY, up, r.value.value) < IntMax
      && forall v | v in vroutes ::
           VrouteDelta(g, centroidY, up, r.value.value) <= VrouteDelta(g, centroidY, up, v)
  {
    var order := Enumerate(vroutes);
    var curr: Option<Node> := None;
    var currDelta := IntMax;
    var i := 0;
    while i < |order|
      invariant i <= |order|
      invariant forall j | 0 <= j < i :: 0 <= VrouteDelta(g, centroidY, up, order[j])
      invariant forall j | 0 <= j < i :: currDelta <= VrouteDelta(g, centroidY, up, order[j])
      invariant curr.None? ==> currDelta == IntMax
      invariant curr.Some? ==>
        curr.value in vroutes && currDelta == VrouteDelta(g, centroidY, up, curr.value) < IntMax
    {
      var delta := VrouteDelta(g, centroidY, up, order[i]);
      if delta < 0 {
        assert order[i] in vroutes;
        return Err(AssertionViolated);
      }
      if delta < currDelta {
        currDelta := delta;
        curr := Some(order[i]);
      }
      i := i + 1;
    }
    r := Ok(curr);
    forall v | v in vroutes
      ensures 0 <= currDelta <= VrouteDelta(g, centroidY, up, v)
    {
      var j :| 0 <= j < |order| && order[j] == v;
    }
  }
}

=== FILE: VersalDistribution.dfy ===
/**
 * The distribution stage of a Versal clock route: from a vertical routing track (VROUTE) to a
 * vertical distribution line (VDISTR) in the row of each target clock region, and from each of
 * those lines to a horizontal distribution line (HDISTR_LOCAL) that drives a GCLK of the region.
 */
module VersalDistribution {
  import opened Wrappers
  import opened Device
  import opened SearchArena
  import opened Nets

  /** The intent codes the search for vertical distribution lines may enqueue. */
  const VdistrAllowed: set<IntentCode> :=
    {GlobalVdistr, GlobalVdistrLvl1, GlobalVdistrLvl2, GlobalGclk}

  /** The intent codes the search for horizontal distribution lines may enqueue. */
  const HdistrAllowed: set<IntentCode> :=
    {GlobalHdistr, GlobalVdistr, Pinfeed, GlobalHdistrLocal, GlobalGclk}

  function IntentIn(g: Graph, allowed: set<IntentCode>): Node -> bool
  {
    (n: Node) => g.intent(n) in allowed
  }

  /** The cost the vertical search gives a node: its tile's distance to the centre of `cr`. */
  function CenterCost(g: Graph, cr: ClockRegion): Node -> int
  {
    (n: Node) => g.centerDistance(n, cr)
  }

  /** The cost of a RouteNode nobody sets a cost on. */
  function NoCost(n: Node): int
  {
    0
  }

  /** `n` is a vertical distribution line in clock-region row `row`. */
  predicate VdistrOfRow(g: Graph, row: int, n: Node)
  {
    g.region(n).Some? && g.region(n).value.row == row && g.intent(n) == GlobalVdistr
  }

  /** Each starting point names an entry of the arena that wraps it. */
  ghost predicate StartsIn(arena: seq<RouteNode>, starts: map<Node, nat>)
  {
    forall n | n in starts :: starts[n] < |arena| && arena[starts[n]].node == n
  }

  // ---------------------------------------------------------------------------------------------
  // routeVrouteToVerticalDistributionLines

  /**
   * The search of one target region: best first from the starting points, over downhill nodes of
   * the allowed intents, each enqueued at most once and ordered by its distance to the centre of
   * `cr`; it stops at the first polled VDISTR of the row of `cr`. The entries it creates are
   * appended to the arena the regions share.
   */
  method VdistrSearch(g: Graph, arena: seq<RouteNode>, starts: map<Node, nat>, cr: ClockRegion)
    returns (next: seq<RouteNode>, found: Option<nat>)
    requires Closed(g) && NodesIn(arena, g.nodes) && LinkedBy(arena, g.downhill)
    requires StartsIn(arena, starts)
    ensures |arena| <= |next| && next[..|arena|] == arena
    ensures GrownFrom(g, next, |arena|, VdistrAllowed)
    ensures found.Some? ==> found.value < |next| && VdistrOfRow(g, cr.row, next[found.value].node)
  {
    next := arena;
    forall v | v in starts.Values ensures v < |arena| {
      var n :| n in starts && starts[n] == v;
    }
    var q := Enumerate(starts.Values);
    assert forall k | 0 <= k < |q| :: q[k] in starts.Values;
    var visited: set<Node> := {};
    while q != []
      invariant |arena| <= |next| && next[..|arena|] == arena
      invariant GrownFrom(g, next, |arena|, VdistrAllowed)
      invariant QueuedIn(q, next)
      decreases |g.nodes - visited|, |q|
    {
      var k := PollMin(next, q);
      var curr := q[k];
      var n := next[curr].node;
      if VdistrOfRow(g, cr.row, n) {
        return next, Some(curr);
      }
      var grown, marked := ExpandUnmarked(next, g.downhill(n), IntentIn(g, VdistrAllowed), AnyNode,
                                          CenterCost(g, cr), curr, visited);
      GrowChildren(g, next, curr, grown, VdistrAllowed, AnyNode, CenterCost(g, cr), visited, marked,
                   |arena|);
      ExpandedMeasure(g.nodes, next, grown, g.downhill(n), IntentIn(g, VdistrAllowed), AnyNode,
                      CenterCost(g, cr), curr, visited, marked);
      PrefixTrans(arena, next, grown);
      QueueGrow(q, k, next, grown);
      q := RemoveAt(q, k) + Span(|next|, |grown|);
      next, visited := grown, marked;
    }
    found := None;
  }

  /** The entries from `from` on are children whose intent codes are in `allowed`. */
  ghost predicate ChildrenFrom(g: Graph, arena: seq<RouteNode>, from: nat, allowed: set<IntentCode>)
    requires from <= |arena|
  {
    forall i | from <= i < |arena| :: arena[i].parent.Some? && g.intent(arena[i].node) in allowed
  }

  /**
   * The arena lies in the device graph, is linked along downhill edges, and its entries from
   * `from` on are children of allowed intents.
   */
  ghost predicate GrownFrom(g: Graph, arena: seq<RouteNode>, from: nat, allowed: set<IntentCode>)
    requires from <= |arena|
  {
    NodesIn(arena, g.nodes) && LinkedBy(arena, g.downhill) && ChildrenFrom(g, arena, from, allowed)
  }

  /**
   * The children of entry `curr` an expansion appends keep the arena inside the device graph,
   * linked, and made of children of allowed intents from `from` on.
   */
  lemma GrowChildren(g: Graph, arena: seq<RouteNode>, curr: nat, grown: seq<RouteNode>,
                     allowed: set<IntentCode>, keep: Node -> bool, cost: Node -> int,
                     marked: set<Node>, marked': set<Node>, from: nat)
    requires Closed(g) && curr < |arena| && from <= |arena| && GrownFrom(g, arena, from, allowed)
    requires |arena| <= |grown| && grown[..|arena|] == arena
    requires Expanded(arena, grown, g.downhill(arena[curr].node), IntentIn(g, allowed), keep, cost,
                      curr, marked, marked')
    ensures GrownFrom(g, grown, from, allowed)
    ensures forall d | d in g.downhill(arena[curr].node) :: d in g.nodes
  {
    AppendChildrenLinked(arena, g.downhill, curr, grown);
    forall i | 0 <= i < |grown|
      ensures grown[i].node in g.nodes
      ensures from <= i ==> grown[i].parent.Some? && g.intent(grown[i].node) in allowed
    {
      if i < |arena| {
        assert grown[i] == arena[i];
      } else {
        assert UnmarkedChild(grown[i], g.downhill(arena[curr].node), IntentIn(g, allowed), keep, cost, curr, marked);
      }
    }
  }

  /** Polling position `k` and enqueueing the new entries keeps the queue inside the arena. */
  lemma QueueGrow(q: seq<nat>, k: nat, arena: seq<RouteNode>, grown: seq<RouteNode>)
    requires QueuedIn(q, arena) && k < |q| && |arena| <= |grown|
    ensures QueuedIn(RemoveAt(q, k) + Span(|arena|, |grown|), grown)
  {
  }

  /** An entry is a child of an allowed intent, or a root at the VROUTE or at an end of a PIP. */
  ghost predicate Anchored(g: Graph, vroute: Node, arena: seq<RouteNode>, pips: set<Pip>, i: nat)
    requires i < |arena|
  {
    if arena[i].parent.Some? then g.intent(arena[i].node) in VdistrAllowed
    else arena[i].node == vroute || arena[i].node in PipNodes(pips)
  }

  /** What a starting point may be: the VROUTE, an end of a collected PIP, or an INUSE line. */
  ghost predicate StartingPoint(g: Graph, status: Node -> NodeStatus, vroute: Node, pips: set<Pip>,
                                n: Node)
  {
    n == vroute || n in PipNodes(pips) || (status(n) == InUse && g.intent(n) == GlobalVdistr)
  }

  /** `n` is reached by a walk of `pips` from the VROUTE. */
  ghost predicate ReachedByWalk(g: Graph, vroute: Node, pips: set<Pip>, n: Node)
  {
    exists path: seq<Pip> :: BackChain(path, g.downhill, vroute, n) && PipSet(path) <= pips
  }

  /**
   * The starting points and collected PIPs of routeVrouteToVerticalDistributionLines: the VROUTE
   * and both ends of every PIP are starting points, every starting point is one of those or an
   * INUSE line, both ends of every PIP are reached by a walk of collected PIPs from the VROUTE,
   * and every PIP is a downhill edge into a node the search may enter. An INUSE line that is a
   * starting point need not be reached: no PIP to it is collected.
   */
  ghost predicate StartsValid(g: Graph, status: Node -> NodeStatus, vroute: Node, starting: set<Node>,
                              pips: set<Pip>)
  {
    && vroute in starting && PipNodes(pips) <= starting
    && (forall n | n in starting :: StartingPoint(g, status, vroute, pips, n))
    && (forall n | n in PipNodes(pips) :: ReachedByWalk(g, vroute, pips, n))
    && (forall p | p in pips :: p.endNode in g.downhill(p.startNode) && g.intent(p.endNode) in VdistrAllowed)
  }

  /** A walk of some PIPs is a walk of more PIPs. */
  lemma ReachedGrows(g: Graph, vroute: Node, pips: set<Pip>, pips': set<Pip>, n: Node)
    requires ReachedByWalk(g, vroute, pips, n) && pips <= pips'
    ensures ReachedByWalk(g, vroute, pips', n)
  {
    var path: seq<Pip> :| BackChain(path, g.downhill, vroute, n) && PipSet(path) <= pips;
    assert BackChain(path, g.downhill, vroute, n) && PipSet(path) <= pips';
  }

  /**
   * When `from` is reached by a walk of `pips`, a walk `path` from `from` reaches both ends of
   * each of its PIPs, with the PIPs of the path added.
   */
  lemma {:induction false} ReachedAlong(g: Graph, vroute: Node, pips: set<Pip>, from: Node,
                                        path: seq<Pip>, to: Node)
    requires ReachedByWalk(g, vroute, pips, from) && BackChain(path, g.downhill, from, to)
    ensures forall n | n in PipNodes(PipSet(path)) :: ReachedByWalk(g, vroute, pips + PipSet(path), n)
    ensures ReachedByWalk(g, vroute, pips + PipSet(path), to)
  {
    var pips' := pips + PipSet(path);
    var q: seq<Pip> :| BackChain(q, g.downhill, vroute, from) && PipSet(q) <= pips;
    ChainJoin(path, q, g.downhill, vroute, from, to);
    assert PipSet(path + q) <= pips';
    forall k | 0 <= k < |path|
      ensures ReachedByWalk(g, vroute, pips', path[k].startNode)
      ensures ReachedByWalk(g, vroute, pips', path[k].endNode)
    {
      ChainSuffix(path, g.downhill, from, to, k);
      ChainJoin(path[k..], q, g.downhill, vroute, from, path[k].endNode);
      ChainJoin(path[k + 1..], q, g.downhill, vroute, from, path[k].startNode);
      assert PipSet(path[k..] + q) <= pips';
      assert PipSet(path[k + 1..] + q) <= pips';
    }
  }

  /**
   * What routeVrouteToVerticalDistributionLines keeps between regions: the arena of search
   * entries, the starting points (each with the entry that stands for it) and the PIPs collected.
   */
  ghost predicate VrouteState(g: Graph, status: Node -> NodeStatus, vroute: Node,
                              arena: seq<RouteNode>, starts: map<Node, nat>, pips: set<Pip>)
  {
    && NodesIn(arena, g.nodes) && LinkedBy(arena, g.downhill)
    && (forall i | 0 <= i < |arena| :: Anchored(g, vroute, arena, pips, i))
    && StartsIn(arena, starts)
    && StartsValid(g, status, vroute, starts.Keys, pips)
  }

  /** The entries from `from` on are roots at nodes of `nodes`. */
  ghost predicate RootsIn(arena: seq<RouteNode>, from: nat, nodes: set<Node>)
    requires from <= |arena|
  {
    forall i | from <= i < |arena| :: arena[i].parent.None? && arena[i].node in nodes
  }

  /**
   * `arena'` and `starts'` extend `arena` and `starts` by roots at `nodes`, which are exactly the
   * starting points added.
   */
  ghost predicate StartsAdded(arena: seq<RouteNode>, starts: map<Node, nat>, arena': seq<RouteNode>,
                              starts': map<Node, nat>, nodes: set<Node>)
  {
    && StartsIn(arena', starts') && starts'.Keys == starts.Keys + nodes
    && |arena| <= |arena'| && arena'[..|arena|] == arena
    && RootsIn(arena', |arena|, nodes)
  }

  /** `HashSet.add` of a starting point: a new node gets a root entry of its own. */
  method AddStart(arena: seq<RouteNode>, starts: map<Node, nat>, n: Node)
    returns (arena': seq<RouteNode>, starts': map<Node, nat>)
    requires StartsIn(arena, starts)
    ensures StartsAdded(arena, starts, arena', starts', {n})
    ensures forall i | |arena| <= i < |arena'| :: arena'[i] == RouteNode(n, None, 0)
  {
    if n in starts {
      return arena, starts;
    }
    arena' := arena + [RouteNode(n, None, 0)];
    starts' := starts[n := |arena|];
    assert forall m | m in starts :: arena'[starts[m]] == arena[starts[m]];
  }

  /** Two extensions in a row are one. */
  lemma StartsAddedTrans(a0: seq<RouteNode>, s0: map<Node, nat>, a1: seq<RouteNode>,
                         s1: map<Node, nat>, a2: seq<RouteNode>, s2: map<Node, nat>,
                         n1: set<Node>, n2: set<Node>)
    requires StartsAdded(a0, s0, a1, s1, n1) && StartsAdded(a1, s1, a2, s2, n2)
    ensures StartsAdded(a0, s0, a2, s2, n1 + n2)
  {
    assert forall i | |a0| <= i < |a1| :: a2[i] == a1[i];
  }

  /** Both ends of PIP `p` become starting points. */
  method AddPipEnds(arena: seq<RouteNode>, starts: map<Node, nat>, p: Pip)
    returns (arena': seq<RouteNode>, starts': map<Node, nat>)
    requires StartsIn(arena, starts)
    ensures StartsAdded(arena, starts, arena', starts', {p.startNode, p.endNode})
  {
    var a1, s1 := AddStart(arena, starts, p.startNode);
    arena', starts' := AddStart(a1, s1, p.endNode);
    StartsAddedTrans(arena, starts, a1, s1, arena', starts', {p.startNode}, {p.endNode});
  }

  /** Both ends of every PIP of `path` become starting points. */
  method AddEndpoints(arena: seq<RouteNode>, starts: map<Node, nat>, path: seq<Pip>)
    returns (arena': seq<RouteNode>, starts': map<Node, nat>)
    requires StartsIn(arena, starts)
    ensures StartsAdded(arena, starts, arena', starts', PipNodes(PipSet(path)))
  {
    arena', starts' := arena, starts;
    var t := 0;
    assert PipSet(path[..0]) == {};
    while t < |path|
      invariant t <= |path|
      invariant StartsAdded(arena, starts, arena', starts', PipNodes(PipSet(path[..t])))
    {
      PipNodesSnoc(path, t);
      ghost var a1, s1 := arena', starts';
      arena', starts' := AddPipEnds(arena', starts', path[t]);
      StartsAddedTrans(arena, starts, a1, s1, arena', starts', PipNodes(PipSet(path[..t])),
                       {path[t].startNode, path[t].endNode});
      t := t + 1;
    }
    assert path[..t] == path;
  }

  /** The entries a region's search appends keep the state. */
  lemma SearchKeepsState(g: Graph, status: Node -> NodeStatus, vroute: Node, arena: seq<RouteNode>,
                         starts: map<Node, nat>, pips: set<Pip>, next: seq<RouteNode>)
    requires VrouteState(g, status, vroute, arena, starts, pips)
    requires |arena| <= |next| && next[..|arena|] == arena
    requires GrownFrom(g, next, |arena|, VdistrAllowed)
    ensures VrouteState(g, status, vroute, next, starts, pips)
  {
    forall i | 0 <= i < |next| ensures Anchored(g, vroute, next, pips, i) {
      if i < |arena| {
        assert next[i] == arena[i] && Anchored(g, vroute, arena, pips, i);
      }
    }
    assert forall n | n in starts :: next[starts[n]] == arena[starts[n]];
  }

  /** Collecting the back PIPs of a reached line and their ends keeps the state. */
  lemma CollectKeepsState(g: Graph, status: Node -> NodeStatus, vroute: Node, arena: seq<RouteNode>,
                          starts: map<Node, nat>, pips: set<Pip>, f: nat, arena': seq<RouteNode>,
                          starts': map<Node, nat>)
    requires VrouteState(g, status, vroute, arena, starts, pips) && f < |arena|
    requires StartsAdded(arena, starts, arena', starts', PipNodes(PipSet(BackPips(arena, f))))
    ensures VrouteState(g, status, vroute, arena', starts', pips + PipSet(BackPips(arena, f)))
  {
    var path := BackPips(arena, f);
    var pips' := pips + PipSet(path);
    PipNodesGrow(pips, pips');
    PipNodesGrow(PipSet(path), pips');
    forall j | 0 <= j < |arena| && arena[j].parent.Some?
      ensures IntentIn(g, VdistrAllowed)(arena[j].node)
    {
      assert Anchored(g, vroute, arena, pips, j);
    }
    BackPipsWithin(arena, f, g.nodes, IntentIn(g, VdistrAllowed));
    BackPipsFollowLinks(arena, g.downhill, f);
    AppendRootsLinked(arena, g.downhill, arena');
    forall i | 0 <= i < |arena'| ensures arena'[i].node in g.nodes && Anchored(g, vroute, arena', pips', i) {
      if i < |arena| {
        assert arena'[i] == arena[i] && Anchored(g, vroute, arena, pips, i);
      }
    }
    forall n | n in starts' ensures StartingPoint(g, status, vroute, pips', n) {
      if n in starts {
        assert StartingPoint(g, status, vroute, pips, n);
      }
    }
    CollectKeepsReached(g, status, vroute, arena, starts, pips, f);
  }

  /**
   * The back PIPs of a reached line run from a root at the VROUTE or at an end of an earlier PIP,
   * which a walk of earlier PIPs reaches; so the line and both ends of every PIP are reached too.
   */
  lemma CollectKeepsReached(g: Graph, status: Node -> NodeStatus, vroute: Node,
                            arena: seq<RouteNode>, starts: map<Node, nat>, pips: set<Pip>, f: nat)
    requires VrouteState(g, status, vroute, arena, starts, pips) && f < |arena|
    ensures forall n | n in PipNodes(pips + PipSet(BackPips(arena, f))) ::
      ReachedByWalk(g, vroute, pips + PipSet(BackPips(arena, f)), n)
    ensures ReachedByWalk(g, vroute, pips + PipSet(BackPips(arena, f)), arena[f].node)
  {
    var path := BackPips(arena, f);
    var pips' := pips + PipSet(path);
    var root := Root(arena, f);
    BackPipsChain(arena, g.downhill, f);
    assert Anchored(g, vroute, arena, pips, root);
    if arena[root].node == vroute {
      assert BackChain([], g.downhill, vroute, vroute) && PipSet([]) <= pips;
    }
    ReachedAlong(g, vroute, pips, arena[root].node, path, arena[f].node);
    forall n | n in PipNodes(pips') ensures ReachedByWalk(g, vroute, pips', n) {
      if n !in PipNodes(PipSet(path)) {
        ReachedGrows(g, vroute, pips, pips', n);
      }
    }
  }

  /** An INUSE line that becomes a starting point keeps the state. */
  lemma InUseKeepsState(g: Graph, status: Node -> NodeStatus, vroute: Node, arena: seq<RouteNode>,
                        starts: map<Node, nat>, pips: set<Pip>, f: nat)
    requires VrouteState(g, status, vroute, arena, starts, pips) && f < |arena|
    requires status(arena[f].node) == InUse && g.intent(arena[f].node) == GlobalVdistr
    ensures var n := arena[f].node;
      VrouteState(g, status, vroute, arena, if n in starts then starts else starts[n := f], pips)
  {
    assert forall m | m in starts :: StartingPoint(g, status, vroute, pips, m);
  }

  /**
   * One region of routeVrouteToVerticalDistributionLines. A reached VDISTR that is INUSE becomes a
   * starting point itself; otherwise its back PIPs are collected and both ends of each become
   * starting points. The back PIPs run from the VROUTE or from an end of an earlier PIP.
   */
  method VdistrStep(g: Graph, status: Node -> NodeStatus, vroute: Node, arena: seq<RouteNode>,
                    starts: map<Node, nat>, pips: set<Pip>, cr: ClockRegion)
    returns (arena': seq<RouteNode>, starts': map<Node, nat>, pips': set<Pip>,
             r: Result<Node, RouteError>, ghost from: Node, ghost path: seq<Pip>)
    requires Closed(g) && VrouteState(g, status, vroute, arena, starts, pips)
    ensures VrouteState(g, status, vroute, arena', starts', pips')
    ensures pips <= pips' && starts.Keys <= starts'.Keys
    ensures r.Err? ==> r.error == Unroutable
    ensures r.Ok? ==> VdistrOfRow(g, cr.row, r.value) && r.value in g.nodes
    ensures r.Ok? && status(r.value) == InUse ==> r.value in starts' && pips' == pips
    ensures r.Ok? && status(r.value) != InUse ==>
      && (from == vroute || from in PipNodes(pips))
      && BackChain(path, g.downhill, from, r.value)
      && pips' == pips + PipSet(path)
      && starts'.Keys == starts.Keys + PipNodes(PipSet(path))
    ensures r.Ok? && status(r.value) != InUse ==> ReachedByWalk(g, vroute, pips', r.value)
  {
    var next, found := VdistrSearch(g, arena, starts, cr);
    if found.None? {
      return arena, starts, pips, Err(Unroutable), vroute, [];
    }
    SearchKeepsState(g, status, vroute, arena, starts, pips, next);
    var f := found.value;
    var n := next[f].node;
    if status(n) == InUse {
      arena', pips' := next, pips;
      starts' := if n in starts then starts else starts[n := f];
      InUseKeepsState(g, status, vroute, next, starts, pips, f);
      return arena', starts', pips', Ok(n), vroute, [];
    }
    var p := BackPips(next, f);
    path := p;
    from := next[Root(next, f)].node;
    BackPipsChain(next, g.downhill, f);
    assert Anchored(g, vroute, next, pips, Root(next, f));
    arena', starts' := AddEndpoints(next, starts, p);
    CollectKeepsState(g, status, vroute, next, starts, pips, f, arena', starts');
    CollectKeepsReached(g, status, vroute, next, starts, pips, f);
    pips' := pips + PipSet(p);
    r := Ok(n);
  }

  /** The regions of a prefix one element longer. */
  lemma RegionsSnoc(regions: seq<ClockRegion>, t: nat, u: nat, keys: set<ClockRegion>)
    requires t < u == t + 1 <= |regions| && keys == set cr | cr in regions[..t]
    ensures keys + {regions[t]} == set cr | cr in regions[..u]
  {
    assert regions[..u] == regions[..t] + [regions[t]];
  }

  /**
   * What holds of the lines found so far: each is a VDISTR of its region's row; an INUSE one is a
   * starting point; any other is reached by a walk of collected PIPs from the VROUTE.
   */
  ghost predicate LinesReached(g: Graph, status: Node -> NodeStatus, vroute: Node,
                               lines: map<ClockRegion, Node>, starting: set<Node>, pips: set<Pip>)
  {
    && (forall cr | cr in lines :: VdistrOfRow(g, cr.row, lines[cr]) && lines[cr] in g.nodes)
    && (forall cr | cr in lines && status(lines[cr]) == InUse :: lines[cr] in starting)
    && (forall cr | cr in lines && status(lines[cr]) != InUse ::
          ReachedByWalk(g, vroute, pips, lines[cr]))
  }

  lemma LinesReachedStep(g: Graph, status: Node -> NodeStatus, vroute: Node,
                         lines: map<ClockRegion, Node>, starting: set<Node>, pips: set<Pip>,
                         starting': set<Node>, pips': set<Pip>, cr: ClockRegion, n: Node)
    requires LinesReached(g, status, vroute, lines, starting, pips)
    requires starting <= starting' && pips <= pips'
    requires VdistrOfRow(g, cr.row, n) && n in g.nodes
    requires status(n) == InUse ==> n in starting'
    requires status(n) != InUse ==> ReachedByWalk(g, vroute, pips', n)
    ensures LinesReached(g, status, vroute, lines[cr := n], starting', pips')
  {
    forall c | c in lines && c != cr && status(lines[c]) != InUse
      ensures ReachedByWalk(g, vroute, pips', lines[c])
    {
      ReachedGrows(g, vroute, pips, pips', lines[c]);
    }
  }

  /** The state of routeVrouteToVerticalDistributionLines with the lines found so far. */
  ghost predicate VerticalState(g: Graph, status: Node -> NodeStatus, vroute: Node,
                                arena: seq<RouteNode>, starts: map<Node, nat>, pips: set<Pip>,
                                lines: map<ClockRegion, Node>)
  {
    VrouteState(g, status, vroute, arena, starts, pips)
    && LinesReached(g, status, vroute, lines, starts.Keys, pips)
  }

  /**
   * The line `line` found for a region of row `row` while `earlier` were the PIPs collected, and
   * the walk collected for it: nothing for an INUSE line, otherwise its back path, which runs from
   * the VROUTE or from an end of an earlier PIP.
   */
  ghost predicate WalkTo(g: Graph, status: Node -> NodeStatus, vroute: Node, earlier: set<Pip>,
                         row: int, line: Node, walk: seq<Pip>)
  {
    && VdistrOfRow(g, row, line) && line in g.nodes
    && (status(line) == InUse ==> walk == [])
    && (status(line) != InUse ==>
          exists from :: (from == vroute || from in PipNodes(earlier)) && BackChain(walk, g.downhill, from, line))
  }

  /**
   * The lines `found` and walks `walks` of the first regions, in order: each walk is collected for
   * its region's line with the PIPs of the walks before it.
   */
  ghost predicate WalksCollected(g: Graph, status: Node -> NodeStatus, vroute: Node,
                                 regions: seq<ClockRegion>, found: seq<Node>, walks: seq<seq<Pip>>)
    decreases |walks|
  {
    && |found| == |walks| <= |regions|
    && (walks != [] ==>
          var n := |walks| - 1;
          && WalksCollected(g, status, vroute, regions, found[..n], walks[..n])
          && WalkTo(g, status, vroute, UnionPips(walks[..n]), regions[n].row, found[n], walks[n]))
  }

  /** Region by region: the t-th walk is collected for the t-th line, after the walks before it. */
  lemma {:induction false} WalksCollectedAt(g: Graph, status: Node -> NodeStatus, vroute: Node,
                                            regions: seq<ClockRegion>, found: seq<Node>,
                                            walks: seq<seq<Pip>>, t: nat)
    requires WalksCollected(g, status, vroute, regions, found, walks) && t < |walks|
    ensures WalkTo(g, status, vroute, UnionPips(walks[..t]), regions[t].row, found[t], walks[t])
    decreases |walks|
  {
    var n := |walks| - 1;
    if t < n {
      WalksCollectedAt(g, status, vroute, regions, found[..n], walks[..n], t);
      assert walks[..n][..t] == walks[..t];
    }
  }

  /** The line of each region among the first `|found|`: the last one found for it. */
  ghost function LinesOf(regions: seq<ClockRegion>, found: seq<Node>): map<ClockRegion, Node>
    requires |found| <= |regions|
  {
    if found == [] then map[]
    else LinesOf(regions, found[..|found| - 1])[regions[|found| - 1] := found[|found| - 1]]
  }

  /** One more region's line and walk extend what was collected. */
  lemma WalksStep(g: Graph, status: Node -> NodeStatus, vroute: Node, regions: seq<ClockRegion>,
                  found: seq<Node>, walks: seq<seq<Pip>>, line: Node, walk: seq<Pip>)
    requires WalksCollected(g, status, vroute, regions, found, walks) && |walks| < |regions|
    requires WalkTo(g, status, vroute, UnionPips(walks), regions[|walks|].row, line, walk)
    ensures WalksCollected(g, status, vroute, regions, found + [line], walks + [walk])
  {
    assert (walks + [walk])[..|walks|] == walks && (found + [line])[..|found|] == found;
  }

  /** One more region's line overrides the region's earlier one. */
  lemma LinesOfSnoc(regions: seq<ClockRegion>, found: seq<Node>, line: Node)
    requires |found| < |regions|
    ensures LinesOf(regions, found + [line]) == LinesOf(regions, found)[regions[|found|] := line]
  {
    assert (found + [line])[..|found|] == found;
  }

  /** VdistrStep together with the bookkeeping of the lines found so far. */
  method VerticalRegion(g: Graph, status: Node -> NodeStatus, vroute: Node, arena: seq<RouteNode>,
                        starts: map<Node, nat>, pips: set<Pip>, lines: map<ClockRegion, Node>,
                        cr: ClockRegion)
    returns (arena': seq<RouteNode>, starts': map<Node, nat>, pips': set<Pip>,
             r: Result<Node, RouteError>, ghost walk: seq<Pip>)
    requires Closed(g) && VerticalState(g, status, vroute, arena, starts, pips, lines)
    ensures StartsValid(g, status, vroute, starts'.Keys, pips')
    ensures r.Err? ==> r.error == Unroutable
    ensures r.Ok? ==> VerticalState(g, status, vroute, arena', starts', pips', lines[cr := r.value])
    ensures r.Ok? ==> WalkTo(g, status, vroute, pips, cr.row, r.value, walk) && pips' == pips + PipSet(walk)
  {
    ghost var from;
    arena', starts', pips', r, from, walk := VdistrStep(g, status, vroute, arena, starts, pips, cr);
    if r.Ok? {
      LinesReachedStep(g, status, vroute, lines, starts.Keys, pips, starts'.Keys, pips', cr, r.value);
      if status(r.value) == InUse {
        walk := [];
      }
    }
  }

  /**
   * The loop state of routeVrouteToVerticalDistributionLines after the first `t` regions: the
   * search state, the line of each region so far, and the lines and walks found region by region,
   * whose PIPs are exactly the PIPs collected.
   */
  ghost predicate VerticalUpTo(g: Graph, status: Node -> NodeStatus, vroute: Node, regions: seq<ClockRegion>,
                               t: nat, arena: seq<RouteNode>, starts: map<Node, nat>, pips: set<Pip>,
                               lines: map<ClockRegion, Node>, found: seq<Node>, walks: seq<seq<Pip>>)
  {
    && t <= |regions| && lines.Keys == (set cr | cr in regions[..t])
    && VerticalState(g, status, vroute, arena, starts, pips, lines)
    && |walks| == t && WalksCollected(g, status, vroute, regions, found, walks)
    && pips == UnionPips(walks) && lines == LinesOf(regions, found)
  }

  /** One iteration of routeVrouteToVerticalDistributionLines: the region `regions[t]`. */
  method VerticalStep(g: Graph, status: Node -> NodeStatus, vroute: Node, regions: seq<ClockRegion>, t: nat,
                      arena: seq<RouteNode>, starts: map<Node, nat>, pips: set<Pip>,
                      lines: map<ClockRegion, Node>, ghost found: seq<Node>, ghost walks: seq<seq<Pip>>)
    returns (r: Result<(), RouteError>, arena': seq<RouteNode>, starts': map<Node, nat>, pips': set<Pip>,
             lines': map<ClockRegion, Node>, ghost found': seq<Node>, ghost walks': seq<seq<Pip>>)
    requires Closed(g) && t < |regions|
    requires VerticalUpTo(g, status, vroute, regions, t, arena, starts, pips, lines, found, walks)
    ensures StartsValid(g, status, vroute, starts'.Keys, pips')
    ensures r.Err? ==> r.error == Unroutable
    ensures r.Ok? ==> VerticalUpTo(g, status, vroute, regions, t + 1, arena', starts', pips', lines', found', walks')
  {
    var cr := regions[t];
    var res;
    ghost var walk;
    arena', starts', pips', res, walk := VerticalRegion(g, status, vroute, arena, starts, pips, lines, cr);
    if res.Err? {
      return Err(res.error), arena', starts', pips', lines, found, walks;
    }
    VerticalUpToStep(g, status, vroute, regions, t, arena, starts, pips, lines, found, walks,
                     arena', starts', pips', res.value, walk);
    lines' := lines[cr := res.value];
    found', walks' := found + [res.value], walks + [walk];
    r := Ok(());
  }

  /** The bookkeeping of VerticalStep: one more region's line and walk keep VerticalUpTo. */
  lemma VerticalUpToStep(g: Graph, status: Node -> NodeStatus, vroute: Node, regions: seq<ClockRegion>, t: nat,
                         arena: seq<RouteNode>, starts: map<Node, nat>, pips: set<Pip>,
                         lines: map<ClockRegion, Node>, found: seq<Node>, walks: seq<seq<Pip>>,
                         arena': seq<RouteNode>, starts': map<Node, nat>, pips': set<Pip>,
                         line: Node, walk: seq<Pip>)
    requires t < |regions|
    requires VerticalUpTo(g, status, vroute, regions, t, arena, starts, pips, lines, found, walks)
    requires VerticalState(g, status, vroute, arena', starts', pips', lines[regions[t] := line])
    requires WalkTo(g, status, vroute, pips, regions[t].row, line, walk) && pips' == pips + PipSet(walk)
    ensures VerticalUpTo(g, status, vroute, regions, t + 1, arena', starts', pips', lines[regions[t] := line],
                         found + [line], walks + [walk])
  {
    WalksStep(g, status, vroute, regions, found, walks, line, walk);
    UnionPipsSnoc(walks, walk);
    LinesOfSnoc(regions, found, line);
    RegionsSnoc(regions, t, t + 1, lines.Keys);
  }

  /**
   * routeVrouteToVerticalDistributionLines without its final update of the net: the VDISTR line
   * found for each region, the PIPs collected, and (as ghosts) the final starting points and the
   * lines and walks found region by region.
   */
  method VerticalLinesSearch(g: Graph, status: Node -> NodeStatus, vroute: Node,
                             regions: seq<ClockRegion>)
    returns (r: Result<map<ClockRegion, Node>, RouteError>, pips: set<Pip>, ghost starting: set<Node>,
             ghost found: seq<Node>, ghost walks: seq<seq<Pip>>)
    requires Closed(g) && vroute in g.nodes
    ensures r.Err? ==> r.error == Unroutable
    ensures r.Ok? ==> r.value.Keys == set cr | cr in regions
    ensures r.Ok? ==> LinesReached(g, status, vroute, r.value, starting, pips)
    ensures StartsValid(g, status, vroute, starting, pips)
    ensures r.Ok? ==> |walks| == |regions| && WalksCollected(g, status, vroute, regions, found, walks)
    ensures r.Ok? ==> pips == UnionPips(walks) && r.value == LinesOf(regions, found)
  {
    var arena := [RouteNode(vroute, None, 0)];
    var starts: map<Node, nat> := map[vroute := 0];
    pips := {};
    var lines: map<ClockRegion, Node> := map[];
    found, walks := [], [];
    var t := 0;
    while t < |regions|
      invariant VerticalUpTo(g, status, vroute, regions, t, arena, starts, pips, lines, found, walks)
    {
      var res;
      res, arena, starts, pips, lines, found, walks :=
        VerticalStep(g, status, vroute, regions, t, arena, starts, pips, lines, found, walks);
      if res.Err? {
        return Err(res.error), pips, starts.Keys, found, walks;
      }
      t := t + 1;
    }
    assert regions[..t] == regions;
    r := Ok(lines);
    starting := starts.Keys;
  }

  /**
   * routeVrouteToVerticalDistributionLines on the clock net: maps every target region to a VDISTR
   * in its row. The collected PIPs, each once, are appended to the net only when every region is
   * reached, and they are exactly the walks collected region by region (`walks`, for the lines
   * `found`). A line that is not INUSE is reached by a walk of appended PIPs from the VROUTE, and
   * so is each end of every appended PIP.
   */
  method RouteVrouteToVerticalDistributionLines(clk: Net, g: Graph, status: Node -> NodeStatus,
                                                vroute: Node, regions: seq<ClockRegion>)
    returns (r: Result<map<ClockRegion, Node>, RouteError>, ghost added: seq<Pip>,
             ghost found: seq<Node>, ghost walks: seq<seq<Pip>>)
    requires Closed(g) && vroute in g.nodes
    modifies clk
    ensures clk.pins == old(clk.pins) && clk.routed == old(clk.routed)
    ensures clk.pips == old(clk.pips) + added && Distinct(added)
    ensures r.Err? ==> r.error == Unroutable && added == []
    ensures r.Ok? ==> r.value.Keys == set cr | cr in regions
    ensures r.Ok? ==> forall cr | cr in r.value ::
      VdistrOfRow(g, cr.row, r.value[cr]) && r.value[cr] in g.nodes
    ensures r.Ok? ==> forall cr | cr in r.value && status(r.value[cr]) != InUse ::
      ReachedByWalk(g, vroute, PipSet(added), r.value[cr])
    ensures forall n | n in PipNodes(PipSet(added)) :: ReachedByWalk(g, vroute, PipSet(added), n)
    ensures forall p | p in added ::
      p.endNode in g.downhill(p.startNode) && g.intent(p.endNode) in VdistrAllowed
    ensures r.Ok? ==> |walks| == |regions| && WalksCollected(g, status, vroute, regions, found, walks)
    ensures r.Ok? ==> PipSet(added) == UnionPips(walks) && r.value == LinesOf(regions, found)
  {
    var res, pips;
    ghost var starting;
    res, pips, starting, found, walks := VerticalLinesSearch(g, status, vroute, regions);
    if res.Err? {
      return res, [], found, walks;
    }
    var listed := Enumerate(pips);
    assert PipSet(listed) == pips;
    added := listed;
    clk.AddPips(listed);
    r := res;
  }

  // ---------------------------------------------------------------------------------------------
  // routeVerticalToHorizontalDistributionLines

  /** `n` is a GCLK of clock region `cr`. */
  predicate GclkIn(g: Graph, cr: ClockRegion, n: Node)
  {
    g.region(n) == Some(cr) && g.intent(n) == GlobalGclk
  }

  /** `n` is an HDISTR_LOCAL that drives a GCLK of clock region `cr`. */
  ghost predicate FeedsGclkIn(g: Graph, cr: ClockRegion, n: Node)
  {
    g.intent(n) == GlobalHdistrLocal && exists d | d in g.downhill(n) :: GclkIn(g, cr, d)
  }

  /**
   * The search of one target region: breadth first from the region's vertical line over downhill
   * nodes of the allowed intents, each enqueued at most once. It stops at the first polled GCLK of
   * `cr` whose parent is an HDISTR_LOCAL and answers that parent; the parent of the line itself is
   * null, so a line that is a GCLK of `cr` is a null dereference.
   */
  method HdistrSearch(g: Graph, line: Node, cr: ClockRegion)
    returns (arena: seq<RouteNode>, r: Result<Option<nat>, RouteError>)
    requires Closed(g) && line in g.nodes
    ensures 0 < |arena| && arena[0] == RouteNode(line, None, 0) && GrownFrom(g, arena, 1, HdistrAllowed)
    ensures r.Err? <==> GclkIn(g, cr, line)
    ensures r.Err? ==> r.error == NullDereference
    ensures r.Ok? && r.value.Some? ==>
      r.value.value < |arena| && FeedsGclkIn(g, cr, arena[r.value.value].node)
  {
    arena := [RouteNode(line, None, 0)];
    var visited := {line};
    var head := 0;
    while head < |arena|
      invariant 0 < |arena| && arena[0] == RouteNode(line, None, 0) && head <= |arena|
      invariant GrownFrom(g, arena, 1, HdistrAllowed)
      invariant head > 0 ==> !GclkIn(g, cr, line)
      decreases |g.nodes - visited|, |arena| - head
    {
      var curr := head;
      var n := arena[curr].node;
      if GclkIn(g, cr, n) {
        match arena[curr].parent
        case None =>
          return arena, Err(NullDereference);
        case Some(p) =>
          if g.intent(arena[p].node) == GlobalHdistrLocal {
            assert LinkOk(arena, g.downhill, curr);
            return arena, Ok(Some(p));
          }
      }
      var grown, marked := ExpandUnmarked(arena, g.downhill(n), IntentIn(g, HdistrAllowed), AnyNode,
                                          NoCost, curr, visited);
      GrowChildren(g, arena, curr, grown, HdistrAllowed, AnyNode, NoCost, visited, marked, 1);
      ExpandedMeasure(g.nodes, arena, grown, g.downhill(n), IntentIn(g, HdistrAllowed), AnyNode,
                      NoCost, curr, visited, marked);
      assert grown[0] == arena[0];
      arena, visited := grown, marked;
      head := head + 1;
    }
    r := Ok(None);
  }

  /** The number of PIPs, nearest first, before the first one whose start node is INUSE. */
  function FirstInUse(pips: seq<Pip>, status: Node -> NodeStatus): (k: nat)
    ensures k <= |pips|
    ensures forall j | 0 <= j < k :: status(pips[j].startNode) != InUse
    ensures k < |pips| ==> status(pips[k].startNode) == InUse
    decreases |pips|
  {
    if pips == [] || status(pips[0].startNode) == InUse then 0
    else 1 + FirstInUse(pips[1..], status)
  }

  /**
   * The PIPs of a back path, nearest first, up to and including the first one that starts at an
   * INUSE node: the rest of the path is already part of the net.
   */
  function ThroughFirstInUse(pips: seq<Pip>, status: Node -> NodeStatus): (r: seq<Pip>)
    ensures r <= pips && (r == [] <==> pips == [])
    ensures forall j | 0 <= j < |r| - 1 :: status(r[j].startNode) != InUse
    ensures |r| < |pips| ==> status(r[|r| - 1].startNode) == InUse
  {
    var k := FirstInUse(pips, status);
    if k < |pips| then pips[..k + 1] else pips
  }

  /**
   * The PIP loop of routeVerticalToHorizontalDistributionLines: it takes each PIP, nearest first,
   * stops after the first one that starts at an INUSE node, and asserts that every other one it
   * takes starts at an AVAILABLE node.
   */
  method CollectUntilInUse(pips: seq<Pip>, status: Node -> NodeStatus)
    returns (r: Result<seq<Pip>, RouteError>)
    ensures r.Ok? <==>
      forall j | 0 <= j < FirstInUse(pips, status) :: status(pips[j].startNode) == Available
    ensures r.Ok? ==> r.value == ThroughFirstInUse(pips, status)
    ensures r.Err? ==> r.error == AssertionViolated
  {
    var taken: seq<Pip> := [];
    var t := 0;
    while t < |pips|
      invariant t <= FirstInUse(pips, status) && taken == pips[..t]
      invariant forall j | 0 <= j < t :: status(pips[j].startNode) == Available
    {
      taken := taken + [pips[t]];
      var s := status(pips[t].startNode);
      if s == InUse {
        return Ok(taken);
      }
      if s != Available {
        return Err(AssertionViolated);
      }
      t := t + 1;
    }
    r := Ok(taken);
  }

  /**
   * What the horizontal stage establishes for one region: `n` is an HDISTR_LOCAL driving a GCLK of
   * `cr`, `path` is its full back path from the region's vertical line `line`, and every PIP of
   * the path before the first INUSE one starts at an AVAILABLE node.
   */
  ghost predicate HdistrReached(g: Graph, status: Node -> NodeStatus, line: Node, cr: ClockRegion,
                                n: Node, path: seq<Pip>)
  {
    && FeedsGclkIn(g, cr, n) && BackChain(path, g.downhill, line, n)
    && forall j | 0 <= j < FirstInUse(path, status) :: status(path[j].startNode) == Available
  }

  /**
   * One region of routeVerticalToHorizontalDistributionLines: the HDISTR_LOCAL found from the
   * region's vertical line and the PIPs kept, which run up to the first INUSE one.
   */
  method HorizontalRegion(g: Graph, status: Node -> NodeStatus, lines: map<ClockRegion, Node>,
                          cr: ClockRegion)
    returns (r: Result<(Node, seq<Pip>), RouteError>, ghost path: seq<Pip>)
    requires Closed(g) && forall c | c in lines :: lines[c] in g.nodes
    ensures r.Err? ==>
      r.error == NullDereference || r.error == Unroutable || r.error == AssertionViolated
    ensures r == Err(NullDereference) <==> cr !in lines || GclkIn(g, cr, lines[cr])
    ensures r.Ok? ==> cr in lines && HdistrReached(g, status, lines[cr], cr, r.value.0, path)
    ensures r.Ok? ==> r.value.1 == ThroughFirstInUse(path, status)
    ensures r.Ok? ==> forall p | p in r.value.1 ::
      p.endNode in g.downhill(p.startNode) && g.intent(p.endNode) in HdistrAllowed
  {
    if cr !in lines {
      return Err(NullDereference), [];
    }
    var line := lines[cr];
    var arena, res := HdistrSearch(g, line, cr);
    if res.Err? {
      return Err(NullDereference), [];
    }
    if res.value.None? {
      return Err(Unroutable), [];
    }
    var f := res.value.value;
    var back := BackPips(arena, f);
    path := back;
    var kept := CollectUntilInUse(back, status);
    if kept.Err? {
      return Err(AssertionViolated), path;
    }
    SingleRoot(arena, f);
    BackPipsChain(arena, g.downhill, f);
    BackPipsFollowLinks(arena, g.downhill, f);
    BackPipsWithin(arena, f, g.nodes, IntentIn(g, HdistrAllowed));
    r := Ok((arena[f].node, kept.value));
  }

  /**
   * The regions handled so far by the horizontal stage: each is reached from its vertical line as
   * `HdistrReached` says, the PIPs of its path up to the first INUSE one are collected, and every
   * collected PIP is a downhill edge into a node the search may enter.
   */
  ghost predicate HdistrFound(g: Graph, status: Node -> NodeStatus, lines: map<ClockRegion, Node>,
                              found: map<ClockRegion, Node>, paths: map<ClockRegion, seq<Pip>>,
                              pips: set<Pip>)
  {
    && (forall cr | cr in found ::
          && cr in lines && cr in paths
          && HdistrReached(g, status, lines[cr], cr, found[cr], paths[cr])
          && PipSet(ThroughFirstInUse(paths[cr], status)) <= pips)
    && (forall p | p in pips ::
          p.endNode in g.downhill(p.startNode) && g.intent(p.endNode) in HdistrAllowed)
  }

  lemma HdistrFoundStep(g: Graph, status: Node -> NodeStatus, lines: map<ClockRegion, Node>,
                        found: map<ClockRegion, Node>, paths: map<ClockRegion, seq<Pip>>,
                        pips: set<Pip>, cr: ClockRegion, n: Node, path: seq<Pip>, kept: seq<Pip>)
    requires HdistrFound(g, status, lines, found, paths, pips)
    requires cr in lines && HdistrReached(g, status, lines[cr], cr, n, path)
    requires kept == ThroughFirstInUse(path, status)
    requires forall p | p in kept ::
      p.endNode in g.downhill(p.startNode) && g.intent(p.endNode) in HdistrAllowed
    ensures HdistrFound(g, status, lines, found[cr := n], paths[cr := path], pips + PipSet(kept))
  {
  }

  /**
   * The HDISTR_LOCALs `locals` and full back paths `walks` found for the first regions, in order:
   * each is reached from its region's vertical line as `HdistrReached` says.
   */
  ghost predicate HdistrSteps(g: Graph, status: Node -> NodeStatus, lines: map<ClockRegion, Node>,
                              regions: seq<ClockRegion>, locals: seq<Node>, walks: seq<seq<Pip>>)
    decreases |walks|
  {
    && |locals| == |walks| <= |regions|
    && (walks != [] ==>
          var n := |walks| - 1;
          && HdistrSteps(g, status, lines, regions, locals[..n], walks[..n])
          && regions[n] in lines && HdistrReached(g, status, lines[regions[n]], regions[n], locals[n], walks[n]))
  }

  /** Region by region: the t-th HDISTR_LOCAL is reached from the t-th region's line by the t-th walk. */
  lemma {:induction false} HdistrStepsAt(g: Graph, status: Node -> NodeStatus, lines: map<ClockRegion, Node>,
                                         regions: seq<ClockRegion>, locals: seq<Node>, walks: seq<seq<Pip>>,
                                         t: nat)
    requires HdistrSteps(g, status, lines, regions, locals, walks) && t < |walks|
    ensures regions[t] in lines && HdistrReached(g, status, lines[regions[t]], regions[t], locals[t], walks[t])
    decreases |walks|
  {
    var n := |walks| - 1;
    if t < n {
      HdistrStepsAt(g, status, lines, regions, locals[..n], walks[..n], t);
    }
  }

  /** One more region's HDISTR_LOCAL and walk extend what was found. */
  lemma HdistrStepsStep(g: Graph, status: Node -> NodeStatus, lines: map<ClockRegion, Node>,
                        regions: seq<ClockRegion>, locals: seq<Node>, walks: seq<seq<Pip>>, n: Node,
                        walk: seq<Pip>)
    requires HdistrSteps(g, status, lines, regions, locals, walks) && |walks| < |regions|
    requires regions[|walks|] in lines
    requires HdistrReached(g, status, lines[regions[|walks|]], regions[|walks|], n, walk)
    ensures HdistrSteps(g, status, lines, regions, locals + [n], walks + [walk])
  {
    assert (walks + [walk])[..|walks|] == walks && (locals + [n])[..|locals|] == locals;
  }

  /** The PIPs kept of every walk: each up to its first INUSE start. */
  ghost function KeptPips(walks: seq<seq<Pip>>, status: Node -> NodeStatus): set<Pip>
  {
    if walks == [] then {}
    else KeptPips(walks[..|walks| - 1], status) + PipSet(ThroughFirstInUse(walks[|walks| - 1], status))
  }

  lemma KeptPipsSnoc(walks: seq<seq<Pip>>, status: Node -> NodeStatus, walk: seq<Pip>)
    ensures KeptPips(walks + [walk], status) == KeptPips(walks, status) + PipSet(ThroughFirstInUse(walk, status))
  {
    assert (walks + [walk])[..|walks|] == walks;
  }

  /**
   * The loop state of the horizontal search after the first `t` target regions: the HDISTR_LOCAL
   * of each region so far, and the HDISTR_LOCALs and walks found region by region, whose kept
   * PIPs are exactly the PIPs collected.
   */
  ghost predicate HorizontalUpTo(g: Graph, status: Node -> NodeStatus, lines: map<ClockRegion, Node>,
                                 regions: seq<ClockRegion>, t: nat, found: map<ClockRegion, Node>,
                                 paths: map<ClockRegion, seq<Pip>>, pips: set<Pip>, locals: seq<Node>,
                                 walks: seq<seq<Pip>>)
  {
    && t <= |regions| && found.Keys == (set cr | cr in regions[..t])
    && HdistrFound(g, status, lines, found, paths, pips)
    && |walks| == t && HdistrSteps(g, status, lines, regions, locals, walks)
    && pips == KeptPips(walks, status) && found == LinesOf(regions, locals)
  }

  /** The HDISTR_LOCAL `n` of the next target region, reached by `path`, extends the loop state. */
  lemma HorizontalUpToStep(g: Graph, status: Node -> NodeStatus, lines: map<ClockRegion, Node>,
                           regions: seq<ClockRegion>, t: nat, found: map<ClockRegion, Node>,
                           paths: map<ClockRegion, seq<Pip>>, pips: set<Pip>, locals: seq<Node>,
                           walks: seq<seq<Pip>>, n: Node, path: seq<Pip>, kept: seq<Pip>)
    requires t < |regions| && HorizontalUpTo(g, status, lines, regions, t, found, paths, pips, locals, walks)
    requires regions[t] in lines && HdistrReached(g, status, lines[regions[t]], regions[t], n, path)
    requires kept == ThroughFirstInUse(path, status)
    requires forall p | p in kept ::
      p.endNode in g.downhill(p.startNode) && g.intent(p.endNode) in HdistrAllowed
    ensures HorizontalUpTo(g, status, lines, regions, t + 1, found[regions[t] := n],
                           paths[regions[t] := path], pips + PipSet(kept), locals + [n], walks + [path])
  {
    RegionsSnoc(regions, t, t + 1, found.Keys);
    HdistrFoundStep(g, status, lines, found, paths, pips, regions[t], n, path, kept);
    HdistrStepsStep(g, status, lines, regions, locals, walks, n, path);
    KeptPipsSnoc(walks, status, path);
    LinesOfSnoc(regions, locals, n);
  }

  /** One iteration of the horizontal search: the target region `regions[t]`. */
  method HorizontalStep(g: Graph, status: Node -> NodeStatus, lines: map<ClockRegion, Node>,
                        regions: seq<ClockRegion>, t: nat, found: map<ClockRegion, Node>,
                        ghost paths: map<ClockRegion, seq<Pip>>, pips: set<Pip>, ghost locals: seq<Node>,
                        ghost walks: seq<seq<Pip>>)
    returns (r: Result<(), RouteError>, found': map<ClockRegion, Node>,
             ghost paths': map<ClockRegion, seq<Pip>>, pips': set<Pip>, ghost locals': seq<Node>,
             ghost walks': seq<seq<Pip>>)
    requires Closed(g) && forall cr | cr in lines :: lines[cr] in g.nodes
    requires t < |regions| && HorizontalUpTo(g, status, lines, regions, t, found, paths, pips, locals, walks)
    ensures r.Err? ==>
      r.error == NullDereference || r.error == Unroutable || r.error == AssertionViolated
    ensures r == Err(NullDereference) ==>
      regions[t] !in lines || GclkIn(g, regions[t], lines[regions[t]])
    ensures r.Ok? ==> HorizontalUpTo(g, status, lines, regions, t + 1, found', paths', pips', locals', walks')
  {
    var cr := regions[t];
    var res;
    ghost var path;
    res, path := HorizontalRegion(g, status, lines, cr);
    if res.Err? {
      return Err(res.error), found, paths, pips, locals, walks;
    }
    HorizontalUpToStep(g, status, lines, regions, t, found, paths, pips, locals, walks, res.value.0,
                       path, res.value.1);
    r, pips' := Ok(()), pips + PipSet(res.value.1);
    found', paths' := found[cr := res.value.0], paths[cr := path];
    locals', walks' := locals + [res.value.0], walks + [path];
  }

  /**
   * routeVerticalToHorizontalDistributionLines without its final update of the net: for each
   * target region, the HDISTR_LOCAL found from the region's vertical line and the PIPs collected;
   * the ghost `paths` holds each region's full back path from its vertical line.
   */
  method HorizontalLinesSearch(g: Graph, status: Node -> NodeStatus, lines: map<ClockRegion, Node>,
                               regions: seq<ClockRegion>)
    returns (r: Result<map<ClockRegion, Node>, RouteError>, pips: set<Pip>,
             ghost paths: map<ClockRegion, seq<Pip>>, ghost locals: seq<Node>, ghost walks: seq<seq<Pip>>)
    requires Closed(g) && forall cr | cr in lines :: lines[cr] in g.nodes
    ensures r.Err? ==>
      r.error == NullDereference || r.error == Unroutable || r.error == AssertionViolated
    ensures r == Err(NullDereference) ==>
      exists cr | cr in regions :: cr !in lines || GclkIn(g, cr, lines[cr])
    ensures r.Ok? ==> r.value.Keys == set cr | cr in regions
    ensures r.Ok? ==> HdistrFound(g, status, lines, r.value, paths, pips)
    ensures r.Ok? ==> |walks| == |regions| && HdistrSteps(g, status, lines, regions, locals, walks)
    ensures r.Ok? ==> pips == KeptPips(walks, status) && r.value == LinesOf(regions, locals)
  {
    pips, paths := {}, map[];
    locals, walks := [], [];
    var found: map<ClockRegion, Node> := map[];
    var t := 0;
    while t < |regions|
      invariant HorizontalUpTo(g, status, lines, regions, t, found, paths, pips, locals, walks)
    {
      var res;
      res, found, paths, pips, locals, walks :=
        HorizontalStep(g, status, lines, regions, t, found, paths, pips, locals, walks);
      if res.Err? {
        return Err(res.error), pips, paths, locals, walks;
      }
      t := t + 1;
    }
    HorizontalDone(g, status, lines, regions, found, paths, pips, locals, walks);
    r := Ok(found);
  }

  /** Once every target region is handled, the loop state is the answer of the horizontal search. */
  lemma HorizontalDone(g: Graph, status: Node -> NodeStatus, lines: map<ClockRegion, Node>,
                       regions: seq<ClockRegion>, found: map<ClockRegion, Node>,
                       paths: map<ClockRegion, seq<Pip>>, pips: set<Pip>, locals: seq<Node>,
                       walks: seq<seq<Pip>>)
    requires HorizontalUpTo(g, status, lines, regions, |regions|, found, paths, pips, locals, walks)
    ensures found.Keys == set cr | cr in regions
    ensures HdistrFound(g, status, lines, found, paths, pips)
    ensures |walks| == |regions| && HdistrSteps(g, status, lines, regions, locals, walks)
    ensures pips == KeptPips(walks, status) && found == LinesOf(regions, locals)
  {
    assert regions[..|regions|] == regions;
  }

  /**
   * routeVerticalToHorizontalDistributionLines on the clock net: the collected PIPs, each once,
   * are appended only when every region is reached, and they are exactly the kept PIPs of the
   * walks found region by region (`walks`, to the HDISTR_LOCALs `locals`).
   */
  method RouteVerticalToHorizontalDistributionLines(clk: Net, g: Graph, status: Node -> NodeStatus,
                                                    lines: map<ClockRegion, Node>,
                                                    regions: seq<ClockRegion>)
    returns (r: Result<map<ClockRegion, Node>, RouteError>, ghost added: seq<Pip>,
             ghost locals: seq<Node>, ghost walks: seq<seq<Pip>>)
    requires Closed(g) && forall cr | cr in lines :: lines[cr] in g.nodes
    modifies clk
    ensures clk.pins == old(clk.pins) && clk.routed == old(clk.routed)
    ensures clk.pips == old(clk.pips) + added && Distinct(added)
    ensures r.Err? ==> added == []
    ensures r.Err? ==>
      r.error == NullDereference || r.error == Unroutable || r.error == AssertionViolated
    ensures r == Err(NullDereference) ==>
      exists cr | cr in regions :: cr !in lines || GclkIn(g, cr, lines[cr])
    ensures r.Ok? ==> r.value.Keys == set cr | cr in regions
    ensures r.Ok? ==> forall cr | cr in r.value ::
      cr in lines && exists path :: HdistrReached(g, status, lines[cr], cr, r.value[cr], path)
                                    && PipSet(ThroughFirstInUse(path, status)) <= PipSet(added)
    ensures forall p | p in added ::
      p.endNode in g.downhill(p.startNode) && g.intent(p.endNode) in HdistrAllowed
    ensures r.Ok? ==> |walks| == |regions| && HdistrSteps(g, status, lines, regions, locals, walks)
    ensures r.Ok? ==> PipSet(added) == KeptPips(walks, status) && r.value == LinesOf(regions, locals)
  {
    var res, pips;
    ghost var paths;
    res, pips, paths, locals, walks := HorizontalLinesSearch(g, status, lines, regions);
    if res.Err? {
      return res, [], locals, walks;
    }
    var listed := Enumerate(pips);
    assert PipSet(listed) == pips;
    added := listed;
    clk.AddPips(listed);
    r := res;
    forall cr | cr in r.value
      ensures exists path :: HdistrReached(g, status, lines[cr], cr, r.value[cr], path)
                             && PipSet(ThroughFirstInUse(path, status)) <= PipSet(added)
    {
      assert HdistrReached(g, status, lines[cr], cr, r.value[cr], paths[cr]);
    }
  }

  /** A VDISTR is never a GCLK, so a line per region leaves no region to dereference null. */
  lemma VdistrLinesAreNotGclks(g: Graph, lines: map<ClockRegion, Node>, regions: seq<ClockRegion>)
    requires lines.Keys == set cr | cr in regions
    requires forall cr | cr in lines :: VdistrOfRow(g, cr.row, lines[cr])
    ensures forall cr | cr in regions :: cr in lines && !GclkIn(g, cr, lines[cr])
  {
  }

  /**
   * What routeToHorizontalDistributionLines establishes for region `cr`: its vertical line `line`
   * is a VDISTR of the region's row and, unless INUSE, is reached by a walk of `pips` from the
   * VROUTE; `local` is an HDISTR_LOCAL driving a GCLK of `cr`, reached from
   * `line` by a walk whose PIPs up to the first INUSE start are in `pips`.
   */
  ghost predicate RegionRouted(g: Graph, status: Node -> NodeStatus, vroute: Node, pips: set<Pip>,
                               cr: ClockRegion, line: Node, local: Node)
  {
    && VdistrOfRow(g, cr.row, line)
    && (status(line) != InUse ==> ReachedByWalk(g, vroute, pips, line))
    && exists path :: HdistrReached(g, status, line, cr, local, path)
                      && PipSet(ThroughFirstInUse(path, status)) <= pips
  }

  /**
   * routeToHorizontalDistributionLines: the vertical stage, then the horizontal stage on the lines
   * it found. Every target region has a VDISTR line and no VDISTR is a GCLK, so the horizontal
   * stage never dereferences null. The PIPs of both stages are appended; on success each region's
   * HDISTR_LOCAL is routed from the VROUTE through its vertical line as RegionRouted states, and
   * the appended PIPs are exactly the vertical walks (`walks`, to the lines `found`) and the kept
   * PIPs of the horizontal walks (`hwalks`, to the HDISTR_LOCALs `locals`).
   */
  method RouteToHorizontalDistributionLines(clk: Net, g: Graph, status: Node -> NodeStatus,
                                            vroute: Node, regions: seq<ClockRegion>)
    returns (r: Result<map<ClockRegion, Node>, RouteError>, ghost added: seq<Pip>,
             ghost vertical: map<ClockRegion, Node>, ghost found: seq<Node>, ghost walks: seq<seq<Pip>>,
             ghost locals: seq<Node>, ghost hwalks: seq<seq<Pip>>)
    requires Closed(g) && vroute in g.nodes
    modifies clk
    ensures clk.pins == old(clk.pins) && clk.routed == old(clk.routed)
    ensures clk.pips == old(clk.pips) + added
    ensures r.Err? ==> r.error == Unroutable || r.error == AssertionViolated
    ensures r.Ok? ==> r.value.Keys == set cr | cr in regions
    ensures r.Ok? ==> forall cr | cr in r.value :: FeedsGclkIn(g, cr, r.value[cr])
    ensures r.Ok? ==> vertical.Keys == r.value.Keys && forall cr | cr in r.value ::
      RegionRouted(g, status, vroute, PipSet(added), cr, vertical[cr], r.value[cr])
    ensures forall p | p in added :: p.endNode in g.downhill(p.startNode)
    ensures r.Ok? ==> |walks| == |regions| && WalksCollected(g, status, vroute, regions, found, walks)
    ensures r.Ok? ==> vertical == LinesOf(regions, found)
    ensures r.Ok? ==> |hwalks| == |regions| && HdistrSteps(g, status, vertical, regions, locals, hwalks)
    ensures r.Ok? ==> r.value == LinesOf(regions, locals)
    ensures r.Ok? ==> PipSet(added) == UnionPips(walks) + KeptPips(hwalks, status)
  {
    var vert;
    ghost var added1;
    vert, added1, found, walks := RouteVrouteToVerticalDistributionLines(clk, g, status, vroute, regions);
    if vert.Err? {
      return Err(vert.error), added1, map[], found, walks, [], [];
    }
    vertical := vert.value;
    VdistrLinesAreNotGclks(g, vertical, regions);
    ghost var added2;
    r, added2, locals, hwalks := RouteVerticalToHorizontalDistributionLines(clk, g, status, vert.value, regions);
    added := added1 + added2;
    PipSetConcat(added1, added2);
    if r.Ok? {
      RegionsRouted(g, status, vroute, vertical, r.value, added1, added2);
    }
  }

  /** The two stages' statements about each region, over the PIPs both of them append. */
  lemma RegionsRouted(g: Graph, status: Node -> NodeStatus, vroute: Node,
                      vertical: map<ClockRegion, Node>, local: map<ClockRegion, Node>,
                      added1: seq<Pip>, added2: seq<Pip>)
    requires forall cr | cr in vertical :: VdistrOfRow(g, cr.row, vertical[cr])
    requires forall cr | cr in vertical && status(vertical[cr]) != InUse ::
      ReachedByWalk(g, vroute, PipSet(added1), vertical[cr])
    requires forall cr | cr in local ::
      cr in vertical && exists path :: HdistrReached(g, status, vertical[cr], cr, local[cr], path)
                                       && PipSet(ThroughFirstInUse(path, status)) <= PipSet(added2)
    ensures forall cr | cr in local ::
      RegionRouted(g, status, vroute, PipSet(added1 + added2), cr, vertical[cr], local[cr])
  {
    var added := added1 + added2;
    PipSetConcat(added1, added2);
    forall cr | cr in local
      ensures RegionRouted(g, status, vroute, PipSet(added), cr, vertical[cr], local[cr])
    {
      if status(vertical[cr]) != InUse {
        ReachedGrows(g, vroute, PipSet(added1), PipSet(added), vertical[cr]);
      }
      var path :| HdistrReached(g, status, vertical[cr], cr, local[cr], path)
                  && PipSet(ThroughFirstInUse(path, status)) <= PipSet(added2);
      assert PipSet(ThroughFirstInUse(path, status)) <= PipSet(added);
    }
  }
}

=== FILE: VersalLeafRouting.dfy ===
/**
 * The leaf stage of a Versal clock route: from the horizontal distribution line of each clock
 * region to the leaf clock buffers (LCBs) of that region, and from each LCB to the site pins it
 * drives.
 */
module VersalLeafRouting {
  import opened Wrappers
  import opened Device
  import opened Strings
  import opened SearchArena
  import opened Nets

  // ---------------------------------------------------------------------------------------------
  // getStartingPoints

  /** Each clock region with a distribution line starts its LCB searches from that line alone. */
  function GetStartingPoints(distLines: map<ClockRegion, Node>): (sp: map<ClockRegion, set<Node>>)
    ensures sp.Keys == distLines.Keys
    ensures forall cr | cr in sp :: distLines[cr] in sp[cr] && |sp[cr]| == 1
  {
    map cr | cr in distLines :: {distLines[cr]}
  }

  // ---------------------------------------------------------------------------------------------
  // routeToLCBs

  /** The intent codes the LCB search may enter. */
  const LcbAllowed: set<IntentCode> := {Pinfeed, GlobalLeaf, GlobalGclk}

  /**
   * A node the LCB search of region `cr` may enter: it lies in `cr`, has an allowed intent code,
   * and its wire is neither a cascade input nor a clear pin.
   */
  predicate LcbEnterable(g: Graph, cr: ClockRegion, n: Node)
  {
    && g.region(n) == Some(cr)
    && g.intent(n) in LcbAllowed
    && !EndsWith(g.wireName(n), "_I_CASC_PIN")
    && !EndsWith(g.wireName(n), "_CLR_B_PIN")
  }

  function LcbFilter(g: Graph, cr: ClockRegion): Node -> bool
  {
    (n: Node) => LcbEnterable(g, cr, n)
  }

  /** The LCB search orders its queue by the Manhattan distance of each node to the LCB. */
  function LcbCost(g: Graph, lcb: Node): Node -> int
  {
    (n: Node) => g.nodeDistance(n, lcb)
  }

  /** Some walk of enterable nodes of `cr` leads from one of `starts` to `lcb`. */
  ghost predicate LcbWalk(g: Graph, cr: ClockRegion, starts: set<Node>, lcb: Node)
  {
    exists w: seq<Node> ::
      0 < |w| && w[0] in starts && w[|w| - 1] == lcb && Walk(w, g.downhill, LcbFilter(g, cr))
  }

  /** The arena of an LCB search: roots are starting points, children enterable nodes of `cr`. */
  ghost predicate LcbArena(g: Graph, cr: ClockRegion, starts: set<Node>, arena: seq<RouteNode>)
  {
    && NodesIn(arena, g.nodes) && LinkedBy(arena, g.downhill)
    && forall i | 0 <= i < |arena| ::
         if arena[i].parent.None? then arena[i].node in starts else LcbEnterable(g, cr, arena[i].node)
  }

  /** Some queued index names an entry for node `n`. */
  ghost predicate Queued(arena: seq<RouteNode>, q: set<nat>, n: Node)
  {
    exists k | k in q :: k < |arena| && arena[k].node == n
  }

  /**
   * The state of an LCB search between two polls: every starting point, and every enterable
   * successor of a visited node, is visited or queued; the LCB is not visited yet.
   */
  ghost predicate LcbFrontier(g: Graph, cr: ClockRegion, lcb: Node, starts: set<Node>,
                              arena: seq<RouteNode>, q: set<nat>, visited: set<Node>)
  {
    && LcbArena(g, cr, starts, arena)
    && (forall k | k in q :: k < |arena|)
    && visited <= g.nodes && lcb !in visited
    && (forall s | s in starts :: s in visited || Queued(arena, q, s))
    && (forall v, d | v in visited && d in g.downhill(v) && LcbEnterable(g, cr, d) ::
          d in visited || Queued(arena, q, d))
  }

  /** The queued entries whose node was visited since they were queued. */
  function Stale(arena: seq<RouteNode>, q: set<nat>, visited: set<Node>): set<nat>
  {
    set k | k in q && k < |arena| && arena[k].node in visited
  }

  /** The indices lo, lo + 1, ..., hi - 1 of the entries an expansion appends. */
  function Fresh(lo: nat, hi: nat): (s: set<nat>)
    ensures forall j :: j in s <==> lo <= j < hi
    decreases hi - lo
  {
    if hi <= lo then {} else {lo} + Fresh(lo + 1, hi)
  }

  /** RouteNode.createPriorityQueue().poll(): an entry of least cost (ties unspecified). */
  method PollCheapest(arena: seq<RouteNode>, q: set<nat>) returns (k: nat)
    requires q != {} && forall j | j in q :: j < |arena|
    ensures k in q && forall j | j in q :: arena[k].cost <= arena[j].cost
  {
    k :| k in q;
    var rest := q - {k};
    while rest != {}
      invariant rest <= q && k in q
      invariant forall j | j in q && j !in rest :: arena[k].cost <= arena[j].cost
      decreases rest
    {
      var j :| j in rest;
      if arena[j].cost < arena[k].cost {
        k := j;
      }
      rest := rest - {j};
    }
  }

  /** What EnqueueChildren keeps after the first `t` successors. */
  ghost predicate EnqueuedUpTo(arena: seq<RouteNode>, next: seq<RouteNode>, ds: seq<Node>, t: nat,
                               ok: Node -> bool, visited: set<Node>, cost: Node -> int, parent: nat)
    requires t <= |ds|
  {
    && |arena| <= |next| && next[..|arena|] == arena
    && (forall k | |arena| <= k < |next| ::
          next[k] == RouteNode(next[k].node, Some(parent), cost(next[k].node))
          && next[k].node in ds && ok(next[k].node) && next[k].node !in visited)
    && (forall d | d in ds[..t] && ok(d) && d !in visited ::
          exists k | |arena| <= k < |next| :: next[k].node == d)
  }

  /** EnqueueChildren's result: the children of `parent` over every successor in `ds`. */
  ghost predicate Enqueued(arena: seq<RouteNode>, next: seq<RouteNode>, ds: seq<Node>,
                           ok: Node -> bool, visited: set<Node>, cost: Node -> int, parent: nat)
  {
    && |arena| <= |next| && next[..|arena|] == arena
    && (forall k | |arena| <= k < |next| ::
          next[k] == RouteNode(next[k].node, Some(parent), cost(next[k].node))
          && next[k].node in ds && ok(next[k].node) && next[k].node !in visited)
    && (forall d | d in ds && ok(d) && d !in visited ::
          exists k | |arena| <= k < |next| :: next[k].node == d)
  }

  /**
   * The inner loop of routeToLCBs: every successor in `ds` that passes `ok` and was not visited is
   * queued as a child of `parent`, with cost `cost(d)`; nothing is marked, so a successor listed
   * twice is queued twice.
   */
  method EnqueueChildren(arena: seq<RouteNode>, ds: seq<Node>, ok: Node -> bool,
                         visited: set<Node>, cost: Node -> int, parent: nat)
    returns (next: seq<RouteNode>)
    ensures Enqueued(arena, next, ds, ok, visited, cost, parent)
  {
    next := arena;
    var t := 0;
    while t < |ds|
      invariant t <= |ds| && EnqueuedUpTo(arena, next, ds, t, ok, visited, cost, parent)
    {
      var d := ds[t];
      ghost var prev := next;
      if ok(d) && d !in visited {
        next := next + [RouteNode(d, Some(parent), cost(d))];
      }
      assert ds[..t + 1] == ds[..t] + [d];
      forall e | e in ds[..t + 1] && ok(e) && e !in visited
        ensures exists k | |arena| <= k < |next| :: next[k].node == e
      {
        if e == d {
          assert next[|next| - 1].node == e;
        } else {
          var k :| |arena| <= k < |prev| && prev[k].node == e;
          assert next[k] == prev[k];
        }
      }
      t := t + 1;
    }
    assert ds[..t] == ds;
  }

  /** The queue after a poll and an expansion still covers every starting point. */
  lemma FrontierStarts(arena: seq<RouteNode>, q: set<nat>, visited: set<Node>, k: nat,
                       next: seq<RouteNode>, q': set<nat>, starts: set<Node>)
    requires k in q && k < |arena| && |arena| <= |next| && next[..|arena|] == arena
    requires q' == (q - {k}) + Fresh(|arena|, |next|)
    requires forall s | s in starts :: s in visited || Queued(arena, q, s)
    ensures forall s | s in starts ::
      s in visited + {arena[k].node} || Queued(next, q', s)
  {
    forall s | s in starts && s !in visited + {arena[k].node} ensures Queued(next, q', s) {
      var j :| j in q && j < |arena| && arena[j].node == s;
      assert j != k && next[j] == arena[j] && j in q';
    }
  }

  /** The queue after a poll and an expansion still covers the enterable successors. */
  lemma FrontierClosed(g: Graph, cr: ClockRegion, arena: seq<RouteNode>, q: set<nat>,
                       visited: set<Node>, k: nat, next: seq<RouteNode>, q': set<nat>,
                       cost: Node -> int)
    requires k in q && k < |arena|
    requires q' == (q - {k}) + Fresh(|arena|, |next|)
    requires Enqueued(arena, next, g.downhill(arena[k].node), LcbFilter(g, cr),
                      visited + {arena[k].node}, cost, k)
    requires forall v, d | v in visited && d in g.downhill(v) && LcbEnterable(g, cr, d) ::
      d in visited || Queued(arena, q, d)
    ensures forall v, d | v in visited + {arena[k].node} && d in g.downhill(v) && LcbEnterable(g, cr, d) ::
      d in visited + {arena[k].node} || Queued(next, q', d)
  {
    var c := arena[k].node;
    forall v, d | v in visited + {c} && d in g.downhill(v) && LcbEnterable(g, cr, d)
      ensures d in visited + {c} || Queued(next, q', d)
    {
      if v == c {
        ChildQueued(g, cr, arena, next, q', visited + {c}, cost, k, d);
      } else if d !in visited + {c} {
        StillQueued(arena, q, k, next, q', d);
      }
    }
  }

  /** An enterable, unvisited successor of the expanded node is queued. */
  lemma ChildQueued(g: Graph, cr: ClockRegion, arena: seq<RouteNode>, next: seq<RouteNode>,
                    q': set<nat>, visited: set<Node>, cost: Node -> int, k: nat, d: Node)
    requires k < |arena| && Fresh(|arena|, |next|) <= q'
    requires Enqueued(arena, next, g.downhill(arena[k].node), LcbFilter(g, cr), visited, cost, k)
    requires d in g.downhill(arena[k].node) && LcbEnterable(g, cr, d)
    ensures d in visited || Queued(next, q', d)
  {
    if d !in visited {
      assert LcbFilter(g, cr)(d);
      var j :| |arena| <= j < |next| && next[j].node == d;
      assert j in Fresh(|arena|, |next|);
    }
  }

  /** An entry queued before the poll of another entry stays queued. */
  lemma StillQueued(arena: seq<RouteNode>, q: set<nat>, k: nat, next: seq<RouteNode>,
                    q': set<nat>, d: Node)
    requires k < |arena| && |arena| <= |next| && next[..|arena|] == arena
    requires q - {k} <= q' && Queued(arena, q, d) && d != arena[k].node
    ensures Queued(next, q', d)
  {
    var j :| j in q && j < |arena| && arena[j].node == d;
    assert next[j] == arena[j];
  }

  /** Polling entry `k` visits its node: either a new node, or a stale entry leaves the queue. */
  lemma PollMeasure(g: Graph, arena: seq<RouteNode>, q: set<nat>, visited: set<Node>, k: nat,
                    next: seq<RouteNode>, q': set<nat>, visited': set<Node>)
    requires k in q && k < |arena| && arena[k].node in g.nodes && visited <= g.nodes
    requires |arena| <= |next| && next[..|arena|] == arena
    requires q' == (q - {k}) + Fresh(|arena|, |next|) && visited' == visited + {arena[k].node}
    requires forall j | |arena| <= j < |next| :: next[j].node !in visited'
    ensures Progress(g, arena, q, visited, next, q', visited')
  {
    var c := arena[k].node;
    if c !in visited {
      MarkShrinks(g.nodes, visited, visited', c);
      assert c in visited' - visited;
    } else {
      assert visited' == visited;
      var stale, stale' := Stale(arena, q, visited), Stale(next, q', visited);
      forall j | j in stale' ensures j in stale - {k} {
        assert j < |arena| && next[j] == arena[j];
      }
      SubsetCard(stale', stale - {k});
      assert k in stale;
    }
  }


  /** The children appended by an expansion keep the arena an LCB-search arena. */
  lemma ExpandArena(g: Graph, cr: ClockRegion, starts: set<Node>, arena: seq<RouteNode>, k: nat,
                    next: seq<RouteNode>, visited: set<Node>, cost: Node -> int)
    requires Closed(g) && LcbArena(g, cr, starts, arena) && k < |arena|
    requires Enqueued(arena, next, g.downhill(arena[k].node), LcbFilter(g, cr), visited, cost, k)
    ensures LcbArena(g, cr, starts, next)
  {
    var c := arena[k].node;
    assert forall j | |arena| <= j < |next| :: next[j].node in g.downhill(c);
    AppendChildrenLinked(arena, g.downhill, k, next);
    forall j | 0 <= j < |next|
      ensures next[j].node in g.nodes
      ensures if next[j].parent.None? then next[j].node in starts
              else LcbEnterable(g, cr, next[j].node)
    {
      if j < |arena| {
        assert next[j] == arena[j];
      } else {
        assert LcbFilter(g, cr)(next[j].node);
      }
    }
  }

  /** A poll of the search either visits a new node or drops a stale entry from the queue. */
  ghost predicate Progress(g: Graph, arena: seq<RouteNode>, q: set<nat>, visited: set<Node>,
                           next: seq<RouteNode>, q': set<nat>, visited': set<Node>)
  {
    && visited <= visited'
    && (visited' != visited ==> |g.nodes - visited'| < |g.nodes - visited|)
    && (visited' == visited ==> |Stale(next, q', visited)| < |Stale(arena, q, visited)|)
  }

  /** An expansion of the polled entry `k` keeps the frontier of the search. */
  lemma ExpandFrontier(g: Graph, cr: ClockRegion, lcb: Node, starts: set<Node>,
                       arena: seq<RouteNode>, q: set<nat>, visited: set<Node>, k: nat,
                       next: seq<RouteNode>, q': set<nat>, visited': set<Node>, cost: Node -> int)
    requires Closed(g) && LcbFrontier(g, cr, lcb, starts, arena, q, visited)
    requires k in q && arena[k].node != lcb && visited' == visited + {arena[k].node}
    requires Enqueued(arena, next, g.downhill(arena[k].node), LcbFilter(g, cr), visited', cost, k)
    requires q' == (q - {k}) + Fresh(|arena|, |next|)
    ensures LcbFrontier(g, cr, lcb, starts, next, q', visited')
  {
    ExpandArena(g, cr, starts, arena, k, next, visited', cost);
    FrontierStarts(arena, q, visited, k, next, q', starts);
    FrontierClosed(g, cr, arena, q, visited, k, next, q', cost);
  }

  /** One poll of the LCB search that did not reach the LCB: visit and expand entry `k`. */
  method LcbExpand(g: Graph, cr: ClockRegion, lcb: Node, starts: set<Node>,
                   arena: seq<RouteNode>, q: set<nat>, visited: set<Node>, k: nat)
    returns (next: seq<RouteNode>, q': set<nat>, visited': set<Node>)
    requires Closed(g) && LcbFrontier(g, cr, lcb, starts, arena, q, visited)
    requires k in q && arena[k].node != lcb
    ensures LcbFrontier(g, cr, lcb, starts, next, q', visited')
    ensures Progress(g, arena, q, visited, next, q', visited')
  {
    var c := arena[k].node;
    visited' := visited + {c};
    next := EnqueueChildren(arena, g.downhill(c), LcbFilter(g, cr), visited', LcbCost(g, lcb), k);
    q' := (q - {k}) + Fresh(|arena|, |next|);
    ExpandFrontier(g, cr, lcb, starts, arena, q, visited, k, next, q', visited', LcbCost(g, lcb));
    PollMeasure(g, arena, q, visited, k, next, q', visited');
  }

  /** Every node of a walk from the visited nodes through enterable nodes is visited. */
  lemma {:induction false} WalkVisited(g: Graph, cr: ClockRegion, w: seq<Node>, m: nat,
                                       visited: set<Node>)
    requires m < |w| && w[0] in visited && Walk(w, g.downhill, LcbFilter(g, cr))
    requires forall v, d | v in visited && d in g.downhill(v) && LcbEnterable(g, cr, d) ::
      d in visited
    ensures w[m] in visited
  {
    if m > 0 {
      WalkVisited(g, cr, w, m - 1, visited);
      assert w[m] in g.downhill(w[m - 1]) && LcbFilter(g, cr)(w[m]);
    }
  }

  /** A search whose queue ran empty has no walk to the LCB. */
  lemma ExhaustedNoWalk(g: Graph, cr: ClockRegion, lcb: Node, starts: set<Node>,
                        arena: seq<RouteNode>, visited: set<Node>)
    requires LcbFrontier(g, cr, lcb, starts, arena, {}, visited)
    ensures !LcbWalk(g, cr, starts, lcb)
  {
    if w: seq<Node> :| 0 < |w| && w[0] in starts && w[|w| - 1] == lcb
                       && Walk(w, g.downhill, LcbFilter(g, cr)) {
      WalkVisited(g, cr, w, |w| - 1, visited);
      assert false;
    }
  }

  /** q.addAll(starts): one root entry per starting point, all queued, nothing visited. */
  method LcbRoots(g: Graph, cr: ClockRegion, starts: set<Node>, lcb: Node)
    returns (arena: seq<RouteNode>, q: set<nat>)
    requires starts <= g.nodes
    ensures LcbFrontier(g, cr, lcb, starts, arena, q, {})
  {
    var roots := Enumerate(starts);
    arena := seq(|roots|, j requires 0 <= j < |roots| => RouteNode(roots[j], None, 0));
    q := Fresh(0, |roots|);
    AppendRootsLinked([], g.downhill, arena);
    forall s | s in starts ensures Queued(arena, q, s) {
      var j :| 0 <= j < |roots| && roots[j] == s;
      assert j in q && arena[j].node == s;
    }
  }

  /**
   * The search of routeToLCBs for one LCB of region `cr`: best first from `starts`, closest to
   * the LCB first, over enterable downhill nodes not visited yet; a node is visited when polled.
   * It finds the LCB exactly when some walk of enterable nodes leads there.
   */
  method LcbSearch(g: Graph, cr: ClockRegion, starts: set<Node>, lcb: Node)
    returns (arena: seq<RouteNode>, found: Option<nat>)
    requires Closed(g) && starts <= g.nodes
    ensures LcbArena(g, cr, starts, arena)
    ensures found.Some? ==> found.value < |arena| && arena[found.value].node == lcb
    ensures found.None? <==> !LcbWalk(g, cr, starts, lcb)
  {
    var q;
    arena, q := LcbRoots(g, cr, starts, lcb);
    var visited: set<Node> := {};
    while q != {}
      invariant LcbFrontier(g, cr, lcb, starts, arena, q, visited)
      decreases |g.nodes - visited|, |Stale(arena, q, visited)|
    {
      var k := PollCheapest(arena, q);
      if arena[k].node == lcb {
        found := Some(k);
        LcbFound(g, cr, starts, arena, k);
        return;
      }
      arena, q, visited := LcbExpand(g, cr, lcb, starts, arena, q, visited, k);
    }
    found := None;
    ExhaustedNoWalk(g, cr, lcb, starts, arena, visited);
  }

  /** The back path of a found entry is a walk of enterable nodes from a starting point. */
  lemma LcbFound(g: Graph, cr: ClockRegion, starts: set<Node>, arena: seq<RouteNode>, k: nat)
    requires LcbArena(g, cr, starts, arena) && k < |arena|
    ensures LcbWalk(g, cr, starts, arena[k].node)
  {
    PathWalk(g, cr, starts, arena, k);
    var w := PathTo(arena, k);
    assert 0 < |w| && w[0] in starts && w[|w| - 1] == arena[k].node;
  }

  /** The nodes from the root of entry `k` down to entry `k` form a walk of enterable nodes. */
  lemma {:induction false} PathWalk(g: Graph, cr: ClockRegion, starts: set<Node>,
                                    arena: seq<RouteNode>, k: nat)
    requires LcbArena(g, cr, starts, arena) && k < |arena|
    ensures var w := PathTo(arena, k);
      0 < |w| && w[0] in starts && w[|w| - 1] == arena[k].node
      && Walk(w, g.downhill, LcbFilter(g, cr))
    decreases k
  {
    match arena[k].parent
    case None =>
    case Some(p) =>
      PathWalk(g, cr, starts, arena, p);
      var w0 := PathTo(arena, p);
      var w := PathTo(arena, k);
      assert w == w0 + [arena[k].node];
      assert LinkOk(arena, g.downhill, k);
      forall m | 0 < m < |w| ensures w[m] in g.downhill(w[m - 1]) && LcbFilter(g, cr)(w[m]) {
        if m < |w0| {
          assert w[m] == w0[m] && w[m - 1] == w0[m - 1];
        }
      }
  }

  /** The PIPs of a back path that every LCB search of region `cr` could have taken. */
  ghost predicate InRegion(g: Graph, cr: ClockRegion, path: seq<Pip>)
  {
    forall p | p in path :: LcbEnterable(g, cr, p.endNode)
  }

  /**
   * `n` is reached from one of `starts` by a back path whose PIPs are all in `pips` and all enter
   * enterable nodes of region `cr`.
   */
  ghost predicate ReachedFrom(g: Graph, cr: ClockRegion, starts: set<Node>, pips: set<Pip>, n: Node)
  {
    exists from: Node, path: seq<Pip> ::
      from in starts && BackChain(path, g.downhill, from, n) && PipSet(path) <= pips
      && InRegion(g, cr, path)
  }

  /** More PIPs reach at least as much. */
  lemma ReachedGrow(g: Graph, cr: ClockRegion, starts: set<Node>, pips: set<Pip>,
                    pips': set<Pip>, n: Node)
    requires ReachedFrom(g, cr, starts, pips, n) && pips <= pips'
    ensures ReachedFrom(g, cr, starts, pips', n)
  {
    var from, path :| from in starts && BackChain(path, g.downhill, from, n)
                      && PipSet(path) <= pips && InRegion(g, cr, path);
    assert PipSet(path) <= pips';
  }

  /** A back path from `r` to `n`, after one from a starting point to `r`, reaches `n`. */
  lemma ReachedVia(g: Graph, cr: ClockRegion, starts: set<Node>, pips: set<Pip>, from: Node,
                   path0: seq<Pip>, r: Node, part: seq<Pip>, n: Node)
    requires from in starts && BackChain(path0, g.downhill, from, r)
    requires PipSet(path0) <= pips && InRegion(g, cr, path0)
    requires BackChain(part, g.downhill, r, n) && PipSet(part) <= pips && InRegion(g, cr, part)
    ensures ReachedFrom(g, cr, starts, pips, n)
  {
    ChainJoin(part, path0, g.downhill, from, r, n);
    assert PipSet(part + path0) <= pips;
    assert InRegion(g, cr, part + path0);
  }

  /**
   * A back path from a reached node `r` to `n` reaches `n`, and both ends of each of its PIPs,
   * once its PIPs are added.
   */
  lemma ReachedExtend(g: Graph, cr: ClockRegion, starts: set<Node>, pips: set<Pip>,
                      path: seq<Pip>, r: Node, n: Node)
    requires ReachedFrom(g, cr, starts, pips, r)
    requires BackChain(path, g.downhill, r, n) && InRegion(g, cr, path)
    ensures ReachedFrom(g, cr, starts, pips + PipSet(path), n)
    ensures forall p | p in path ::
      && ReachedFrom(g, cr, starts, pips + PipSet(path), p.startNode)
      && ReachedFrom(g, cr, starts, pips + PipSet(path), p.endNode)
  {
    var pips' := pips + PipSet(path);
    var from, path0 :| from in starts && BackChain(path0, g.downhill, from, r)
                       && PipSet(path0) <= pips && InRegion(g, cr, path0);
    ReachedVia(g, cr, starts, pips', from, path0, r, path, n);
    forall p | p in path
      ensures ReachedFrom(g, cr, starts, pips', p.startNode)
      ensures ReachedFrom(g, cr, starts, pips', p.endNode)
    {
      var k :| 0 <= k < |path| && path[k] == p;
      ChainSuffix(path, g.downhill, r, n, k);
      ReachedVia(g, cr, starts, pips', from, path0, r, path[k..], p.endNode);
      ReachedVia(g, cr, starts, pips', from, path0, r, path[k + 1..], p.startNode);
    }
  }

  /** A back path of PIPs entering enterable nodes of `cr` is a walk of such nodes. */
  lemma {:induction false} ChainWalk(g: Graph, cr: ClockRegion, path: seq<Pip>, from: Node, n: Node)
    returns (w: seq<Node>)
    requires BackChain(path, g.downhill, from, n) && InRegion(g, cr, path)
    ensures 0 < |w| && w[0] == from && w[|w| - 1] == n && Walk(w, g.downhill, LcbFilter(g, cr))
    decreases |path|
  {
    if path == [] {
      w := [from];
    } else {
      var w0 := ChainWalk(g, cr, path[1..], from, path[0].startNode);
      w := w0 + [n];
      assert path[0] in path;
      forall m | 0 < m < |w| ensures w[m] in g.downhill(w[m - 1]) && LcbFilter(g, cr)(w[m]) {
        if m < |w0| {
          assert w[m] == w0[m] && w[m - 1] == w0[m - 1];
        }
      }
    }
  }

  /** Being reached through PIPs of the region implies being routable in it. */
  lemma ReachedWalks(g: Graph, cr: ClockRegion, starts: set<Node>, pips: set<Pip>, n: Node)
    requires ReachedFrom(g, cr, starts, pips, n)
    ensures LcbWalk(g, cr, starts, n)
  {
    var from, path :| from in starts && BackChain(path, g.downhill, from, n)
                      && PipSet(path) <= pips && InRegion(g, cr, path);
    var w := ChainWalk(g, cr, path, from, n);
  }

  /** A walk from fewer starting points is a walk from more. */
  lemma WalkFromMore(g: Graph, cr: ClockRegion, starts: set<Node>, starts': set<Node>, n: Node)
    requires starts <= starts' && LcbWalk(g, cr, starts, n)
    ensures LcbWalk(g, cr, starts', n)
  {
    var w :| 0 < |w| && w[0] in starts && w[|w| - 1] == n && Walk(w, g.downhill, LcbFilter(g, cr));
  }

  /** A PIP the LCB stage adds: a downhill edge into an enterable node of the end node's region. */
  predicate LcbPipOk(g: Graph, p: Pip)
  {
    && p.endNode in g.downhill(p.startNode)
    && g.region(p.endNode).Some? && LcbEnterable(g, g.region(p.endNode).value, p.endNode)
  }

  /** An LCB some walk of its own region leads to from the region's starting points. */
  ghost predicate LcbRoutable(g: Graph, sp: map<ClockRegion, set<Node>>, lcb: Node)
  {
    && g.region(lcb).Some? && g.region(lcb).value in sp
    && LcbWalk(g, g.region(lcb).value, sp[g.region(lcb).value], lcb)
  }

  /** An LCB reached by PIPs of its own region from the region's starting points. */
  ghost predicate LcbReached(g: Graph, sp: map<ClockRegion, set<Node>>, pips: set<Pip>, lcb: Node)
  {
    && g.region(lcb).Some? && g.region(lcb).value in sp
    && ReachedFrom(g, g.region(lcb).value, sp[g.region(lcb).value], pips, lcb)
  }

  /** The starting points of each region only grow, within the node universe. */
  ghost predicate RegionsGrown(g: Graph, sp0: map<ClockRegion, set<Node>>,
                               sp: map<ClockRegion, set<Node>>)
  {
    && sp.Keys == sp0.Keys
    && forall cr | cr in sp :: sp0[cr] <= sp[cr] <= g.nodes
  }

  /** Every starting point of a region is reached from the region's original ones. */
  ghost predicate StartsReached(g: Graph, sp0: map<ClockRegion, set<Node>>,
                                sp: map<ClockRegion, set<Node>>, pips: set<Pip>)
    requires sp.Keys == sp0.Keys
  {
    forall cr, n | cr in sp && n in sp[cr] :: ReachedFrom(g, cr, sp0[cr], pips, n)
  }

  /** The first `t` LCBs are starting points of their own clock regions. */
  ghost predicate LcbsIn(g: Graph, sp: map<ClockRegion, set<Node>>, lcbs: seq<Node>, t: nat)
    requires t <= |lcbs|
  {
    forall j | 0 <= j < t ::
      g.region(lcbs[j]).Some? && g.region(lcbs[j]).value in sp && lcbs[j] in sp[g.region(lcbs[j]).value]
  }

  /**
   * The PIPs of those back paths of `paths` whose LCB (the entry of `lcbs` at the same position)
   * lies in clock region `cr`.
   */
  ghost function RegionPips(g: Graph, cr: ClockRegion, lcbs: seq<Node>, paths: seq<seq<Pip>>): set<Pip>
    decreases |paths|
  {
    if paths == [] then {}
    else
      var n := |paths| - 1;
      RegionPips(g, cr, lcbs, paths[..n])
        + (if n < |lcbs| && g.region(lcbs[n]) == Some(cr) then PipSet(paths[n]) else {})
  }

  lemma RegionPipsSnoc(g: Graph, cr: ClockRegion, lcbs: seq<Node>, paths: seq<seq<Pip>>, path: seq<Pip>)
    ensures RegionPips(g, cr, lcbs, paths + [path])
         == RegionPips(g, cr, lcbs, paths)
              + (if |paths| < |lcbs| && g.region(lcbs[|paths|]) == Some(cr) then PipSet(path) else {})
  {
    assert (paths + [path])[..|paths|] == paths;
  }

  /**
   * The back path `path` kept for `lcb` after the paths `earlier` of the LCBs before it: it runs,
   * through enterable nodes of the LCB's clock region, from an original starting point of that
   * region or from an end of a PIP kept earlier for an LCB of the same region.
   */
  ghost predicate LcbPathOf(g: Graph, sp0: map<ClockRegion, set<Node>>, lcbs: seq<Node>,
                            earlier: seq<seq<Pip>>, lcb: Node, path: seq<Pip>)
  {
    && g.region(lcb).Some? && g.region(lcb).value in sp0 && InRegion(g, g.region(lcb).value, path)
    && exists from ::
         && (from in sp0[g.region(lcb).value] || from in PipNodes(RegionPips(g, g.region(lcb).value, lcbs, earlier)))
         && BackChain(path, g.downhill, from, lcb)
  }

  /** The back paths kept for the first `|paths|` LCBs, in order, each after the ones before it. */
  ghost predicate LcbPaths(g: Graph, sp0: map<ClockRegion, set<Node>>, lcbs: seq<Node>, paths: seq<seq<Pip>>)
    decreases |paths|
  {
    && |paths| <= |lcbs|
    && (paths != [] ==>
          var n := |paths| - 1;
          && LcbPaths(g, sp0, lcbs, paths[..n])
          && LcbPathOf(g, sp0, lcbs, paths[..n], lcbs[n], paths[n]))
  }

  /** LCB by LCB: the t-th back path is kept for the t-th LCB, after the ones before it. */
  lemma {:induction false} LcbPathsAt(g: Graph, sp0: map<ClockRegion, set<Node>>, lcbs: seq<Node>,
                                      paths: seq<seq<Pip>>, t: nat)
    requires LcbPaths(g, sp0, lcbs, paths) && t < |paths|
    ensures LcbPathOf(g, sp0, lcbs, paths[..t], lcbs[t], paths[t])
    decreases |paths|
  {
    var n := |paths| - 1;
    if t < n {
      LcbPathsAt(g, sp0, lcbs, paths[..n], t);
      assert paths[..n][..t] == paths[..t];
    }
  }

  /**
   * The state of routeToLCBs after the first `t` LCBs: the starting points of each region are
   * its original ones and the ends of the PIPs kept for LCBs of that region, all reached from the
   * original ones; every PIP is an LCB-stage PIP, and every LCB handled so far is a starting
   * point. The PIPs are exactly those of the back paths `paths` kept for the LCBs so far.
   */
  ghost predicate LcbsUpTo(g: Graph, sp0: map<ClockRegion, set<Node>>,
                           sp: map<ClockRegion, set<Node>>, pips: set<Pip>, lcbs: seq<Node>, t: nat,
                           paths: seq<seq<Pip>>)
  {
    && t <= |lcbs| && RegionsGrown(g, sp0, sp)
    && StartsReached(g, sp0, sp, pips)
    && (forall p | p in pips :: LcbPipOk(g, p))
    && LcbsIn(g, sp, lcbs, t)
    && (forall cr | cr in sp :: sp[cr] == sp0[cr] + PipNodes(RegionPips(g, cr, lcbs, paths)))
    && |paths| == t && LcbPaths(g, sp0, lcbs, paths) && pips == UnionPips(paths)
  }

  /** Before any LCB, the starting points are the original ones and no PIP is kept. */
  lemma LcbsUpToInit(g: Graph, sp: map<ClockRegion, set<Node>>, lcbs: seq<Node>)
    requires forall cr | cr in sp :: sp[cr] <= g.nodes
    ensures LcbsUpTo(g, sp, sp, {}, lcbs, 0, [])
  {
    StartsReachedInit(g, sp);
    StartsExactInit(g, sp, lcbs);
    assert LcbsIn(g, sp, lcbs, 0) && LcbPaths(g, sp, lcbs, []) && UnionPips([]) == {};
  }

  lemma StartsReachedInit(g: Graph, sp: map<ClockRegion, set<Node>>)
    ensures StartsReached(g, sp, sp, {})
  {
    forall cr, n | cr in sp && n in sp[cr] ensures ReachedFrom(g, cr, sp[cr], {}, n) {
      ReachedStart(g, cr, sp[cr], {}, n);
    }
  }

  lemma StartsExactInit(g: Graph, sp: map<ClockRegion, set<Node>>, lcbs: seq<Node>)
    ensures forall cr | cr in sp :: sp[cr] == sp[cr] + PipNodes(RegionPips(g, cr, lcbs, []))
  {
    forall cr | cr in sp ensures sp[cr] == sp[cr] + PipNodes(RegionPips(g, cr, lcbs, [])) {
      assert RegionPips(g, cr, lcbs, []) == {};
    }
  }

  /** Adding a back path's PIP ends to region `cr` keeps the starting points within the nodes. */
  lemma RegionsGrownStep(g: Graph, sp0: map<ClockRegion, set<Node>>, sp: map<ClockRegion, set<Node>>,
                         cr: ClockRegion, path: seq<Pip>)
    requires RegionsGrown(g, sp0, sp) && cr in sp
    requires forall p | p in path :: p.startNode in g.nodes && p.endNode in g.nodes
    ensures RegionsGrown(g, sp0, sp[cr := sp[cr] + PipNodes(PipSet(path))])
  {
    PipNodesWithin(path, g.nodes);
  }

  /** A back path from a starting point of `cr` reaches its end and the ends of its PIPs. */
  lemma StartsReachedStep(g: Graph, sp0: map<ClockRegion, set<Node>>,
                          sp: map<ClockRegion, set<Node>>, pips: set<Pip>, cr: ClockRegion,
                          path: seq<Pip>, root: Node, n: Node)
    requires sp.Keys == sp0.Keys && StartsReached(g, sp0, sp, pips)
    requires cr in sp && root in sp[cr]
    requires BackChain(path, g.downhill, root, n) && InRegion(g, cr, path)
    ensures StartsReached(g, sp0, sp[cr := sp[cr] + PipNodes(PipSet(path))], pips + PipSet(path))
    ensures ReachedFrom(g, cr, sp0[cr], pips + PipSet(path), n)
  {
    var pips' := pips + PipSet(path);
    forall c, m | c in sp && m in sp[c] ensures ReachedFrom(g, c, sp0[c], pips', m) {
      ReachedGrow(g, c, sp0[c], pips, pips', m);
    }
    ReachedExtend(g, cr, sp0[cr], pips, path, root, n);
    PipEndsReached(g, sp0, sp, pips', cr, path);
  }

  /** A starting point is reached without any PIP. */
  lemma ReachedStart(g: Graph, cr: ClockRegion, starts: set<Node>, pips: set<Pip>, n: Node)
    requires n in starts
    ensures ReachedFrom(g, cr, starts, pips, n)
  {
    var path: seq<Pip> := [];
    assert BackChain(path, g.downhill, n, n) && PipSet(path) <= pips && InRegion(g, cr, path);
  }

  /** The back path of an entry of an LCB-search arena: a path of LCB-stage PIPs from a start. */
  lemma FoundPath(g: Graph, cr: ClockRegion, starts: set<Node>, arena: seq<RouteNode>, f: nat)
    requires LcbArena(g, cr, starts, arena) && f < |arena|
    ensures var path := BackPips(arena, f);
      && arena[Root(arena, f)].node in starts
      && BackChain(path, g.downhill, arena[Root(arena, f)].node, arena[f].node)
      && InRegion(g, cr, path)
      && forall p | p in path :: LcbPipOk(g, p) && p.startNode in g.nodes && p.endNode in g.nodes
  {
    BackPipsChain(arena, g.downhill, f);
    BackPipsFollowLinks(arena, g.downhill, f);
    assert forall j | 0 <= j < |arena| && arena[j].parent.Some? :: LcbFilter(g, cr)(arena[j].node);
    BackPipsWithin(arena, f, g.nodes, LcbFilter(g, cr));
  }

  /** The ends of the PIPs of a back path from a reached node are reached. */
  lemma PipEndsReached(g: Graph, sp0: map<ClockRegion, set<Node>>, sp: map<ClockRegion, set<Node>>,
                       pips': set<Pip>, cr: ClockRegion, path: seq<Pip>)
    requires sp.Keys == sp0.Keys && cr in sp
    requires forall c, n | c in sp && n in sp[c] :: ReachedFrom(g, c, sp0[c], pips', n)
    requires forall p | p in path ::
      && ReachedFrom(g, cr, sp0[cr], pips', p.startNode)
      && ReachedFrom(g, cr, sp0[cr], pips', p.endNode)
    ensures var sp' := sp[cr := sp[cr] + PipNodes(PipSet(path))];
      forall c, n | c in sp' && n in sp'[c] :: ReachedFrom(g, c, sp0[c], pips', n)
  {
    var sp' := sp[cr := sp[cr] + PipNodes(PipSet(path))];
    forall c, n | c in sp' && n in sp'[c] ensures ReachedFrom(g, c, sp0[c], pips', n) {
      if c == cr && n !in sp[cr] {
        var p :| p in PipSet(path) && (n == p.startNode || n == p.endNode);
      }
    }
  }

  lemma PipNodesWithin(path: seq<Pip>, nodes: set<Node>)
    requires forall p | p in path :: p.startNode in nodes && p.endNode in nodes
    ensures PipNodes(PipSet(path)) <= nodes
  {
    forall n | n in PipNodes(PipSet(path)) ensures n in nodes {
      var p :| p in PipSet(path) && (n == p.startNode || n == p.endNode);
    }
  }

  /** The back path of a found LCB: the grown starting points stay within the nodes and reached. */
  lemma StartsStep(g: Graph, sp0: map<ClockRegion, set<Node>>, sp: map<ClockRegion, set<Node>>,
                   pips: set<Pip>, cr: ClockRegion, arena: seq<RouteNode>, f: nat, path: seq<Pip>)
    requires RegionsGrown(g, sp0, sp) && StartsReached(g, sp0, sp, pips)
    requires cr in sp && LcbArena(g, cr, sp[cr], arena) && f < |arena| && path == BackPips(arena, f)
    ensures var sp' := sp[cr := sp[cr] + PipNodes(PipSet(path))];
      && RegionsGrown(g, sp0, sp') && StartsReached(g, sp0, sp', pips + PipSet(path))
      && forall p | p in path :: LcbPipOk(g, p)
  {
    FoundPath(g, cr, sp[cr], arena, f);
    RegionsGrownStep(g, sp0, sp, cr, path);
    StartsReachedStep(g, sp0, sp, pips, cr, path, arena[Root(arena, f)].node, arena[f].node);
  }

  lemma PipsOkUnion(g: Graph, pips: set<Pip>, path: seq<Pip>)
    requires forall p | p in pips :: LcbPipOk(g, p)
    requires forall p | p in path :: LcbPipOk(g, p)
    ensures forall p | p in pips + PipSet(path) :: LcbPipOk(g, p)
  {
    forall p | p in pips + PipSet(path) ensures LcbPipOk(g, p) {
      if p !in pips {
        assert p in path;
      }
    }
  }

  /** The LCB found joins the starting points of its region, with the ends of its back path. */
  lemma LcbsInStep(g: Graph, sp: map<ClockRegion, set<Node>>, lcbs: seq<Node>, t: nat,
                   cr: ClockRegion, arena: seq<RouteNode>, f: nat, path: seq<Pip>)
    requires t < |lcbs| && LcbsIn(g, sp, lcbs, t) && g.region(lcbs[t]) == Some(cr)
    requires cr in sp && LcbArena(g, cr, sp[cr], arena)
    requires f < |arena| && arena[f].node == lcbs[t] && path == BackPips(arena, f)
    ensures LcbsIn(g, sp[cr := sp[cr] + PipNodes(PipSet(path))], lcbs, t + 1)
  {
    FoundPath(g, cr, sp[cr], arena, f);
  }

  /** The back path of a found LCB adds PIPs of its region that reach it and keep the state. */
  lemma LcbsUpToStep(g: Graph, sp0: map<ClockRegion, set<Node>>, sp: map<ClockRegion, set<Node>>,
                     pips: set<Pip>, lcbs: seq<Node>, t: nat, paths: seq<seq<Pip>>, cr: ClockRegion,
                     arena: seq<RouteNode>, f: nat, path: seq<Pip>,
                     sp': map<ClockRegion, set<Node>>, pips': set<Pip>)
    requires LcbsUpTo(g, sp0, sp, pips, lcbs, t, paths) && t < |lcbs| && g.region(lcbs[t]) == Some(cr)
    requires cr in sp && LcbArena(g, cr, sp[cr], arena)
    requires f < |arena| && arena[f].node == lcbs[t]
    requires path == BackPips(arena, f)
    requires sp' == sp[cr := sp[cr] + PipNodes(PipSet(path))] && pips' == pips + PipSet(path)
    ensures LcbsUpTo(g, sp0, sp', pips', lcbs, t + 1, paths + [path])
  {
    LcbsInStep(g, sp, lcbs, t, cr, arena, f, path);
    StartsStep(g, sp0, sp, pips, cr, arena, f, path);
    PipsOkUnion(g, pips, path);
    LcbPathsStep(g, sp0, sp, pips, lcbs, paths, cr, arena, f, path);
    UnionPipsSnoc(paths, path);
    StartsExactStep(g, sp0, sp, lcbs, paths, cr, path);
  }

  /** The ends of a back path kept for an LCB of `cr` join the starting points of `cr` only. */
  lemma StartsExactStep(g: Graph, sp0: map<ClockRegion, set<Node>>, sp: map<ClockRegion, set<Node>>,
                        lcbs: seq<Node>, paths: seq<seq<Pip>>, cr: ClockRegion, path: seq<Pip>)
    requires sp.Keys == sp0.Keys && cr in sp
    requires |paths| < |lcbs| && g.region(lcbs[|paths|]) == Some(cr)
    requires forall c | c in sp :: sp[c] == sp0[c] + PipNodes(RegionPips(g, c, lcbs, paths))
    ensures var sp' := sp[cr := sp[cr] + PipNodes(PipSet(path))];
      forall c | c in sp' :: sp'[c] == sp0[c] + PipNodes(RegionPips(g, c, lcbs, paths + [path]))
  {
    var sp' := sp[cr := sp[cr] + PipNodes(PipSet(path))];
    forall c | c in sp' ensures sp'[c] == sp0[c] + PipNodes(RegionPips(g, c, lcbs, paths + [path])) {
      var before, after := RegionPips(g, c, lcbs, paths), RegionPips(g, c, lcbs, paths + [path]);
      RegionPipsSnoc(g, c, lcbs, paths, path);
      if c == cr {
        assert after == before + PipSet(path);
        PipNodesUnion(before, PipSet(path));
      } else {
        assert after == before && sp'[c] == sp[c];
      }
    }
  }

  lemma PipNodesUnion(a: set<Pip>, b: set<Pip>)
    ensures PipNodes(a + b) == PipNodes(a) + PipNodes(b)
  {
  }

  /** The back path of a found LCB runs from a starting point of its region and extends the paths kept. */
  lemma LcbPathsStep(g: Graph, sp0: map<ClockRegion, set<Node>>, sp: map<ClockRegion, set<Node>>,
                     pips: set<Pip>, lcbs: seq<Node>, paths: seq<seq<Pip>>, cr: ClockRegion,
                     arena: seq<RouteNode>, f: nat, path: seq<Pip>)
    requires LcbPaths(g, sp0, lcbs, paths) && pips == UnionPips(paths) && |paths| < |lcbs|
    requires sp.Keys == sp0.Keys && forall c | c in sp :: sp[c] == sp0[c] + PipNodes(RegionPips(g, c, lcbs, paths))
    requires g.region(lcbs[|paths|]) == Some(cr) && cr in sp && LcbArena(g, cr, sp[cr], arena)
    requires f < |arena| && arena[f].node == lcbs[|paths|] && path == BackPips(arena, f)
    ensures LcbPaths(g, sp0, lcbs, paths + [path])
  {
    FoundPath(g, cr, sp[cr], arena, f);
    var from := arena[Root(arena, f)].node;
    assert (from in sp0[cr] || from in PipNodes(RegionPips(g, cr, lcbs, paths)))
      && BackChain(path, g.downhill, from, lcbs[|paths|]);
    assert (paths + [path])[..|paths|] == paths;
  }

  /**
   * One LCB of routeToLCBs: a search of its clock region from the region's current starting
   * points; when it succeeds, the PIPs back to the starting point are kept and both ends of each
   * become starting points of the region.
   */
  method RouteOneLcb(g: Graph, sp0: map<ClockRegion, set<Node>>, sp: map<ClockRegion, set<Node>>,
                     pips: set<Pip>, lcbs: seq<Node>, t: nat, ghost paths: seq<seq<Pip>>)
    returns (ok: bool, sp': map<ClockRegion, set<Node>>, pips': set<Pip>, ghost paths': seq<seq<Pip>>)
    requires Closed(g) && t < |lcbs| && LcbsUpTo(g, sp0, sp, pips, lcbs, t, paths)
    ensures ok ==> LcbsUpTo(g, sp0, sp', pips', lcbs, t + 1, paths')
    ensures !ok ==> !LcbRoutable(g, sp0, lcbs[t])
  {
    var lcb := lcbs[t];
    sp', pips', paths' := sp, pips, paths;
    if g.region(lcb).None? {
      return false, sp', pips', paths';
    }
    var cr := g.region(lcb).value;
    var starts := if cr in sp then sp[cr] else {};
    var arena, found := LcbSearch(g, cr, starts, lcb);
    if found.None? {
      if cr in sp0 && LcbWalk(g, cr, sp0[cr], lcb) {
        WalkFromMore(g, cr, sp0[cr], starts, lcb);
        assert false;
      }
      return false, sp', pips', paths';
    }
    var f := found.value;
    assert arena[Root(arena, f)].node in starts;
    var path := BackPips(arena, f);
    pips' := pips + PipSet(path);
    sp' := sp[cr := sp[cr] + PipNodes(PipSet(path))];
    LcbsUpToStep(g, sp0, sp, pips, lcbs, t, paths, cr, arena, f, path, sp', pips');
    paths' := paths + [path];
    ok := true;
  }

  /** When every listed LCB is a reached starting point, every LCB of the set is reached. */
  lemma AllLcbsReached(g: Graph, sp0: map<ClockRegion, set<Node>>, sp: map<ClockRegion, set<Node>>,
                       pips: set<Pip>, lcbs: seq<Node>, lcbTargets: set<Node>)
    requires RegionsGrown(g, sp0, sp) && StartsReached(g, sp0, sp, pips)
    requires LcbsIn(g, sp, lcbs, |lcbs|)
    requires forall lcb | lcb in lcbTargets :: lcb in lcbs
    ensures forall lcb | lcb in lcbTargets :: LcbReached(g, sp0, pips, lcb) && LcbRoutable(g, sp0, lcb)
  {
    forall lcb | lcb in lcbTargets ensures LcbReached(g, sp0, pips, lcb) && LcbRoutable(g, sp0, lcb) {
      var j :| 0 <= j < |lcbs| && lcbs[j] == lcb;
      var cr := g.region(lcb).value;
      assert lcb in sp[cr];
      ReachedWalks(g, cr, sp0[cr], pips, lcb);
    }
  }

  /**
   * routeToLCBs without the final update of the net: the PIPs that reach every LCB from the
   * starting points of its clock region. It succeeds exactly when every LCB has a walk of
   * enterable nodes of its region from those starting points. The PIPs are exactly those of the
   * back paths `paths` kept for the LCBs, in the order `lcbs` the set is visited in.
   */
  method LcbRoutes(g: Graph, sp: map<ClockRegion, set<Node>>, lcbTargets: set<Node>)
    returns (r: Result<set<Pip>, RouteError>, ghost lcbs: seq<Node>, ghost paths: seq<seq<Pip>>)
    requires Closed(g) && forall cr | cr in sp :: sp[cr] <= g.nodes
    ensures r.Ok? <==> forall lcb | lcb in lcbTargets :: LcbRoutable(g, sp, lcb)
    ensures r.Ok? ==> forall lcb | lcb in lcbTargets :: LcbReached(g, sp, r.value, lcb)
    ensures r.Ok? ==> forall p | p in r.value :: LcbPipOk(g, p)
    ensures r.Ok? ==> (forall lcb :: lcb in lcbs <==> lcb in lcbTargets) && |paths| == |lcbs|
    ensures r.Ok? ==> LcbPaths(g, sp, lcbs, paths) && r.value == UnionPips(paths)
    ensures r.Err? ==> r.error == Unroutable
  {
    var listed := Enumerate(lcbTargets);
    lcbs := listed;
    var starting, allPips := sp, {};
    paths := [];
    var t := 0;
    LcbsUpToInit(g, sp, listed);
    while t < |listed|
      invariant LcbsUpTo(g, sp, starting, allPips, listed, t, paths)
    {
      var ok;
      ok, starting, allPips, paths := RouteOneLcb(g, sp, starting, allPips, listed, t, paths);
      if !ok {
        return Err(Unroutable), lcbs, paths;
      }
      t := t + 1;
    }
    AllLcbsReached(g, sp, starting, allPips, listed, lcbTargets);
    r := Ok(allPips);
  }

  /**
   * routeToLCBs: the PIPs found are appended to the net, which is left unchanged on failure. The
   * PIPs appended are exactly those of the back paths `paths` kept for the LCBs `lcbs`.
   */
  method RouteToLcbs(clk: Net, g: Graph, sp: map<ClockRegion, set<Node>>, lcbTargets: set<Node>)
    returns (r: Result<(), RouteError>, ghost lcbs: seq<Node>, ghost paths: seq<seq<Pip>>)
    requires Closed(g) && forall cr | cr in sp :: sp[cr] <= g.nodes
    modifies clk
    ensures clk.pins == old(clk.pins) && clk.routed == old(clk.routed)
    ensures r.Ok? <==> forall lcb | lcb in lcbTargets :: LcbRoutable(g, sp, lcb)
    ensures r.Err? ==> r.error == Unroutable && clk.pips == old(clk.pips)
    ensures r.Ok? ==> |old(clk.pips)| <= |clk.pips| && clk.pips[..|old(clk.pips)|] == old(clk.pips)
    ensures r.Ok? ==> var added := PipSet(clk.pips[|old(clk.pips)|..]);
      && Distinct(clk.pips[|old(clk.pips)|..])
      && (forall p | p in added :: LcbPipOk(g, p))
      && (forall lcb | lcb in lcbTargets :: LcbReached(g, sp, added, lcb))
    ensures r.Ok? ==> (forall lcb :: lcb in lcbs <==> lcb in lcbTargets) && |paths| == |lcbs|
    ensures r.Ok? ==> LcbPaths(g, sp, lcbs, paths) && PipSet(clk.pips[|old(clk.pips)|..]) == UnionPips(paths)
  {
    var found;
    found, lcbs, paths := LcbRoutes(g, sp, lcbTargets);
    if found.Err? {
      return Err(found.error), lcbs, paths;
    }
    var listed := Enumerate(found.value);
    clk.AddPips(listed);
    assert clk.pips[|old(clk.pips)|..] == listed;
    assert PipSet(listed) == found.value;
    r := Ok(());
  }

  /**
   * routeDistributionToLCBs: the LCB stage started from one distribution line per region. The
   * PIPs appended are exactly those of the back paths `paths` kept for the LCBs `lcbs`.
   */
  method RouteDistributionToLcbs(clk: Net, g: Graph, distLines: map<ClockRegion, Node>,
                                 lcbTargets: set<Node>)
    returns (r: Result<(), RouteError>, ghost lcbs: seq<Node>, ghost paths: seq<seq<Pip>>)
    requires Closed(g) && forall cr | cr in distLines :: distLines[cr] in g.nodes
    modifies clk
    ensures clk.pins == old(clk.pins) && clk.routed == old(clk.routed)
    ensures r.Ok? <==> forall lcb | lcb in lcbTargets ::
      LcbRoutable(g, GetStartingPoints(distLines), lcb)
    ensures r.Err? ==> r.error == Unroutable && clk.pips == old(clk.pips)
    ensures r.Ok? ==> |old(clk.pips)| <= |clk.pips| && clk.pips[..|old(clk.pips)|] == old(clk.pips)
    ensures r.Ok? ==> forall lcb | lcb in lcbTargets ::
      LcbReached(g, GetStartingPoints(distLines), PipSet(clk.pips[|old(clk.pips)|..]), lcb)
    ensures r.Ok? ==> (forall lcb :: lcb in lcbs <==> lcb in lcbTargets) && |paths| == |lcbs|
    ensures r.Ok? ==> LcbPaths(g, GetStartingPoints(distLines), lcbs, paths)
    ensures r.Ok? ==> PipSet(clk.pips[|old(clk.pips)|..]) == UnionPips(paths)
  {
    var sp := GetStartingPoints(distLines);
    r, lcbs, paths := RouteToLcbs(clk, g, sp, lcbTargets);
  }
}

=== FILE: VersalSinkRouting.dfy ===
/**
 * The sink stage of a Versal clock route (routeLCBsToSinks): from each leaf clock buffer (LCB) a
 * breadth-first search over downhill nodes to each site pin the LCB drives, and the PIPs of the
 * paths found.
 */
module VersalSinkRouting {
  import opened Wrappers
  import opened Device
  import opened SearchArena
  import opened Nets
  import opened VersalDistribution

  /** The intent codes the sink search may enter. */
  const SinkAllowed: set<IntentCode> :=
    {CleCnode, IntfCnode, CleCtrl, IntfCtrl, Iri, Inode, Pinbounce, CleBnode, Imux, Pinfeed}

  /**
   * The checks the search makes of a downhill node `to` of `from` besides its intent code: `to`
   * is not used by the PIPs of an earlier LCB, the PIP from `from` to `to` is not a route-thru
   * unless `to` is an IRI node, and `to` is not reserved for another net.
   */
  predicate SinkEnterable(g: Graph, status: Node -> NodeStatus, used: set<Node>, from: Node, to: Node)
  {
    && to !in used
    && !(g.isRouteThru(from, to) && g.intent(to) != Iri)
    && status(to) != Unavailable
  }

  /** Every check the search makes of the edge from `from` to `to`. */
  predicate SinkEdgeOk(g: Graph, status: Node -> NodeStatus, used: set<Node>, from: Node, to: Node)
  {
    g.intent(to) in SinkAllowed && SinkEnterable(g, status, used, from, to)
  }

  /** The filter the source applies before it marks a node visited: the intent code alone. */
  function IntentAt(g: Graph): Node -> (Node -> bool)
  {
    (from: Node) => IntentIn(g, SinkAllowed)
  }

  /** The filter the source applies after it has marked a node visited. */
  function EnterableAt(g: Graph, status: Node -> NodeStatus, used: set<Node>): Node -> (Node -> bool)
  {
    (from: Node) => (to: Node) => SinkEnterable(g, status, used, from, to)
  }

  /** Every check of an edge, applied before a node is marked. */
  function SinkEdgeAt(g: Graph, status: Node -> NodeStatus, used: set<Node>): Node -> (Node -> bool)
  {
    (from: Node) => (to: Node) => SinkEdgeOk(g, status, used, from, to)
  }

  /** No filter after marking: every marked node is enqueued. */
  function KeepAll(): Node -> (Node -> bool)
  {
    (from: Node) => AnyNode
  }

  /** The queue of a search from `lcb` at its start: the LCB alone, without a parent. */
  function Start(lcb: Node): seq<RouteNode>
  {
    [RouteNode(lcb, None, 0)]
  }

  // ---------------------------------------------------------------------------------------------
  // The search, as a function

  /**
   * Expanding entry `head` of an arena inside the device graph keeps the arena inside the graph
   * and either marks a node of the graph or appends nothing.
   */
  lemma ExpandStep(g: Graph, arena: seq<RouteNode>, head: nat, ok: Node -> bool, keep: Node -> bool,
                   marked: set<Node>, next: seq<RouteNode>, marked': set<Node>)
    requires Closed(g) && NodesIn(arena, g.nodes) && head < |arena|
    requires (next, marked') == ExpandFrom(g.downhill(arena[head].node), 0, ok, keep, NoCost, head,
                                          arena, marked)
    ensures NodesIn(next, g.nodes) && |arena| <= |next| && next[..|arena|] == arena
    ensures marked' == marked ==> |next| == |arena|
    ensures marked' != marked ==> |g.nodes - marked'| < |g.nodes - marked|
  {
    var ds := g.downhill(arena[head].node);
    ExpansionExpanded(arena, ds, ok, keep, NoCost, head, marked);
    ExpandedMeasure(g.nodes, arena, next, ds, ok, keep, NoCost, head, marked, marked');
    forall i | 0 <= i < |next| ensures next[i].node in g.nodes {
      if i < |arena| {
        assert next[i] == arena[i];
      } else {
        assert UnmarkedChild(next[i], ds, ok, keep, NoCost, head, marked);
      }
    }
  }

  /**
   * The first-in first-out search for `target` from entry `head` on, with the nodes `marked`
   * visited: the polled entry is the answer if it wraps `target`; otherwise each downhill node
   * of it that passes `okAt` of it and is not yet marked is marked, and enqueued if it also
   * passes `keepAt` of it. The answer is the final arena and the index of the entry found.
   */
  function SinkBfs(g: Graph, okAt: Node -> (Node -> bool), keepAt: Node -> (Node -> bool),
                   target: Node, arena: seq<RouteNode>, head: nat, marked: set<Node>)
    : (seq<RouteNode>, Option<nat>)
    requires Closed(g) && NodesIn(arena, g.nodes) && head <= |arena|
    decreases |g.nodes - marked|, |arena| - head
  {
    if head == |arena| then (arena, None)
    else if arena[head].node == target then (arena, Some(head))
    else
      var n := arena[head].node;
      var e := ExpandFrom(g.downhill(n), 0, okAt(n), keepAt(n), NoCost, head, arena, marked);
      ExpandStep(g, arena, head, okAt(n), keepAt(n), marked, e.0, e.1);
      SinkBfs(g, okAt, keepAt, target, e.0, head + 1, e.1)
  }

  /** Polling entry `head`, which does not wrap the target, and expanding it is one step. */
  lemma BfsUnfold(g: Graph, okAt: Node -> (Node -> bool), keepAt: Node -> (Node -> bool),
                  target: Node, arena: seq<RouteNode>, head: nat, marked: set<Node>,
                  next: seq<RouteNode>, marked': set<Node>)
    requires Closed(g) && NodesIn(arena, g.nodes) && head < |arena| && arena[head].node != target
    requires (next, marked') == ExpandFrom(g.downhill(arena[head].node), 0, okAt(arena[head].node),
                                          keepAt(arena[head].node), NoCost, head, arena, marked)
    ensures NodesIn(next, g.nodes) && head + 1 <= |next|
    ensures marked' == marked ==> |next| == |arena|
    ensures marked' != marked ==> |g.nodes - marked'| < |g.nodes - marked|
    ensures SinkBfs(g, okAt, keepAt, target, arena, head, marked)
         == SinkBfs(g, okAt, keepAt, target, next, head + 1, marked')
  {
    ExpandStep(g, arena, head, okAt(arena[head].node), keepAt(arena[head].node), marked, next,
               marked');
  }

  /** Entry `i` has a parent, and its node passes both filters of the parent's node. */
  ghost predicate ChildOk(okAt: Node -> (Node -> bool), keepAt: Node -> (Node -> bool),
                          arena: seq<RouteNode>, i: nat)
    requires WellFormed(arena) && i < |arena|
  {
    && arena[i].parent.Some?
    && var p := arena[arena[i].parent.value].node;
       okAt(p)(arena[i].node) && keepAt(p)(arena[i].node)
  }

  /**
   * The arena of a search from `lcb`: the LCB is its first entry and only root, it lies in the
   * device graph, and every other entry is a downhill node of its parent that passed both filters.
   */
  ghost predicate SinkArena(g: Graph, okAt: Node -> (Node -> bool), keepAt: Node -> (Node -> bool),
                            lcb: Node, arena: seq<RouteNode>)
  {
    && 0 < |arena| && arena[0] == RouteNode(lcb, None, 0)
    && NodesIn(arena, g.nodes) && LinkedBy(arena, g.downhill)
    && forall i | 0 < i < |arena| :: ChildOk(okAt, keepAt, arena, i)
  }

  /** One expansion keeps a search arena a search arena. */
  lemma ExpandArena(g: Graph, okAt: Node -> (Node -> bool), keepAt: Node -> (Node -> bool),
                    lcb: Node, arena: seq<RouteNode>, head: nat, marked: set<Node>,
                    next: seq<RouteNode>, marked': set<Node>)
    requires SinkArena(g, okAt, keepAt, lcb, arena) && head < |arena| && NodesIn(next, g.nodes)
    requires Expanded(arena, next, g.downhill(arena[head].node), okAt(arena[head].node),
                      keepAt(arena[head].node), NoCost, head, marked, marked')
    ensures SinkArena(g, okAt, keepAt, lcb, next)
  {
    var n := arena[head].node;
    forall i | |arena| <= i < |next|
      ensures next[i].parent == Some(head) && next[i].node in g.downhill(n)
    {
      assert UnmarkedChild(next[i], g.downhill(n), okAt(n), keepAt(n), NoCost, head, marked);
    }
    AppendChildrenLinked(arena, g.downhill, head, next);
    forall i | 0 < i < |next| ensures ChildOk(okAt, keepAt, next, i) {
      if i < |arena| {
        assert next[i] == arena[i];
        assert ChildOk(okAt, keepAt, arena, i);
        assert next[arena[i].parent.value] == arena[arena[i].parent.value];
      } else {
        assert UnmarkedChild(next[i], g.downhill(n), okAt(n), keepAt(n), NoCost, head, marked);
        assert next[head] == arena[head];
      }
    }
  }

  /**
   * Whatever the filters, the search answers an arena of children that passed them, and the
   * entry it answers wraps the target.
   */
  lemma {:induction false} BfsSound(g: Graph, okAt: Node -> (Node -> bool),
                                    keepAt: Node -> (Node -> bool), lcb: Node, target: Node,
                                    arena: seq<RouteNode>, head: nat, marked: set<Node>)
    requires Closed(g) && head <= |arena| && SinkArena(g, okAt, keepAt, lcb, arena)
    ensures var r := SinkBfs(g, okAt, keepAt, target, arena, head, marked);
      && SinkArena(g, okAt, keepAt, lcb, r.0)
      && (r.1.Some? ==> r.1.value < |r.0| && r.0[r.1.value].node == target)
    decreases |g.nodes - marked|, |arena| - head
  {
    if head < |arena| && arena[head].node != target {
      var n := arena[head].node;
      var e := ExpandFrom(g.downhill(n), 0, okAt(n), keepAt(n), NoCost, head, arena, marked);
      ExpandStep(g, arena, head, okAt(n), keepAt(n), marked, e.0, e.1);
      ExpansionExpanded(arena, g.downhill(n), okAt(n), keepAt(n), NoCost, head, marked);
      ExpandArena(g, okAt, keepAt, lcb, arena, head, marked, e.0, e.1);
      BfsSound(g, okAt, keepAt, lcb, target, e.0, head + 1, e.1);
    }
  }

  // ---------------------------------------------------------------------------------------------
  // Completeness of the search that checks every edge before marking

  /** `w` is a walk along downhill edges each of which passes `edgeOk`. */
  ghost predicate EdgeWalk(g: Graph, edgeOk: Node -> (Node -> bool), w: seq<Node>)
  {
    forall m | 0 < m < |w| :: w[m] in g.downhill(w[m - 1]) && edgeOk(w[m - 1])(w[m])
  }

  /** Some walk from `lcb` to `target` passes `edgeOk` on each of its edges. */
  ghost predicate SinkWalk(g: Graph, edgeOk: Node -> (Node -> bool), lcb: Node, target: Node)
  {
    exists w: seq<Node> :: 0 < |w| && w[0] == lcb && w[|w| - 1] == target && EdgeWalk(g, edgeOk, w)
  }

  /** Some entry of the arena wraps `d`. */
  ghost predicate Listed(arena: seq<RouteNode>, d: Node)
  {
    exists i | 0 <= i < |arena| :: arena[i].node == d
  }

  /** Every downhill node of `n` reached over an edge that passes `okAt` is marked. */
  ghost predicate Explored(g: Graph, okAt: Node -> (Node -> bool), n: Node, marked: set<Node>)
  {
    forall d | d in g.downhill(n) && okAt(n)(d) :: d in marked
  }

  /**
   * What the search from `lcb` keeps while every marked node is enqueued: no entry polled so far
   * wraps the target, every entry polled so far is explored, every marked node is in the arena,
   * and every entry is reached from the LCB.
   */
  ghost predicate BfsFrontier(g: Graph, okAt: Node -> (Node -> bool), lcb: Node, target: Node,
                              arena: seq<RouteNode>, head: nat, marked: set<Node>)
  {
    && 0 < |arena| && arena[0].node == lcb && head <= |arena|
    && (forall i | 0 <= i < head :: arena[i].node != target)
    && (forall i | 0 <= i < head :: Explored(g, okAt, arena[i].node, marked))
    && (forall d | d in marked :: Listed(arena, d))
    && (forall i | 0 <= i < |arena| :: SinkWalk(g, okAt, lcb, arena[i].node))
  }

  /** A walk that reaches `n` extends over an edge out of `n` that passes the filter. */
  lemma WalkExtend(g: Graph, okAt: Node -> (Node -> bool), lcb: Node, n: Node, d: Node)
    requires SinkWalk(g, okAt, lcb, n) && d in g.downhill(n) && okAt(n)(d)
    ensures SinkWalk(g, okAt, lcb, d)
  {
    var w :| 0 < |w| && w[0] == lcb && w[|w| - 1] == n && EdgeWalk(g, okAt, w);
    var w' := w + [d];
    assert EdgeWalk(g, okAt, w') by {
      forall m | 0 < m < |w'| ensures w'[m] in g.downhill(w'[m - 1]) && okAt(w'[m - 1])(w'[m]) {
        if m < |w| {
          assert w'[m] == w[m] && w'[m - 1] == w[m - 1];
        }
      }
    }
  }

  /** Polling and expanding one entry that is not the target keeps the frontier. */
  lemma FrontierStep(g: Graph, okAt: Node -> (Node -> bool), lcb: Node, target: Node,
                     arena: seq<RouteNode>, head: nat, marked: set<Node>,
                     next: seq<RouteNode>, marked': set<Node>)
    requires BfsFrontier(g, okAt, lcb, target, arena, head, marked)
    requires head < |arena| && arena[head].node != target
    requires Expanded(arena, next, g.downhill(arena[head].node), okAt(arena[head].node),
                      KeepAll()(arena[head].node), NoCost, head, marked, marked')
    ensures BfsFrontier(g, okAt, lcb, target, next, head + 1, marked')
  {
    var n := arena[head].node;
    var ds := g.downhill(n);
    assert next[head] == arena[head] && next[0] == arena[0];
    forall i | 0 <= i < head + 1 ensures next[i].node != target {
      assert next[i] == arena[i];
    }
    forall i | 0 <= i < head + 1 ensures Explored(g, okAt, next[i].node, marked') {
      assert next[i] == arena[i];
    }
    forall d | d in marked' ensures Listed(next, d) {
      if d in marked {
        var i :| 0 <= i < |arena| && arena[i].node == d;
        assert next[i] == arena[i];
      } else {
        assert KeepAll()(n)(d);
      }
    }
    forall i | 0 <= i < |next| ensures SinkWalk(g, okAt, lcb, next[i].node) {
      if i < |arena| {
        assert next[i] == arena[i];
      } else {
        assert UnmarkedChild(next[i], ds, okAt(n), KeepAll()(n), NoCost, head, marked);
        WalkExtend(g, okAt, lcb, n, next[i].node);
      }
    }
  }

  /** Once every entry is polled, every node a walk from the LCB reaches is in the arena. */
  lemma {:induction false} WalkListed(g: Graph, okAt: Node -> (Node -> bool), lcb: Node,
                                      target: Node, arena: seq<RouteNode>, marked: set<Node>,
                                      w: seq<Node>, m: nat)
    requires BfsFrontier(g, okAt, lcb, target, arena, |arena|, marked)
    requires 0 < |w| && w[0] == lcb && EdgeWalk(g, okAt, w) && m < |w|
    ensures Listed(arena, w[m])
  {
    if m == 0 {
      assert arena[0].node == w[0];
    } else {
      WalkListed(g, okAt, lcb, target, arena, marked, w, m - 1);
      var i :| 0 <= i < |arena| && arena[i].node == w[m - 1];
      assert Explored(g, okAt, arena[i].node, marked);
    }
  }

  /** A search that has polled every entry without meeting the target leaves no walk to it. */
  lemma ExhaustedNoWalk(g: Graph, okAt: Node -> (Node -> bool), lcb: Node, target: Node,
                        arena: seq<RouteNode>, marked: set<Node>)
    requires BfsFrontier(g, okAt, lcb, target, arena, |arena|, marked)
    ensures !SinkWalk(g, okAt, lcb, target)
  {
    if SinkWalk(g, okAt, lcb, target) {
      var w :| 0 < |w| && w[0] == lcb && w[|w| - 1] == target && EdgeWalk(g, okAt, w);
      WalkListed(g, okAt, lcb, target, arena, marked, w, |w| - 1);
    }
  }

  /** One step of the search that enqueues every marked node keeps its frontier. */
  lemma CompleteStep(g: Graph, okAt: Node -> (Node -> bool), lcb: Node, target: Node,
                     arena: seq<RouteNode>, head: nat, marked: set<Node>,
                     next: seq<RouteNode>, marked': set<Node>)
    requires Closed(g) && NodesIn(arena, g.nodes)
    requires BfsFrontier(g, okAt, lcb, target, arena, head, marked)
    requires head < |arena| && arena[head].node != target
    requires (next, marked') == ExpandFrom(g.downhill(arena[head].node), 0, okAt(arena[head].node),
                                          KeepAll()(arena[head].node), NoCost, head, arena, marked)
    ensures NodesIn(next, g.nodes) && BfsFrontier(g, okAt, lcb, target, next, head + 1, marked')
    ensures marked' == marked ==> |next| == |arena|
    ensures marked' != marked ==> |g.nodes - marked'| < |g.nodes - marked|
    ensures SinkBfs(g, okAt, KeepAll(), target, arena, head, marked)
         == SinkBfs(g, okAt, KeepAll(), target, next, head + 1, marked')
  {
    var n := arena[head].node;
    ExpandStep(g, arena, head, okAt(n), KeepAll()(n), marked, next, marked');
    ExpansionExpanded(arena, g.downhill(n), okAt(n), KeepAll()(n), NoCost, head, marked);
    FrontierStep(g, okAt, lcb, target, arena, head, marked, next, marked');
  }

  /** When every marked node is enqueued, the target the search finds is reached by a walk. */
  lemma {:induction false} BfsFoundWalks(g: Graph, okAt: Node -> (Node -> bool), lcb: Node,
                                          target: Node, arena: seq<RouteNode>, head: nat,
                                          marked: set<Node>)
    requires Closed(g) && NodesIn(arena, g.nodes)
    requires BfsFrontier(g, okAt, lcb, target, arena, head, marked)
    ensures SinkBfs(g, okAt, KeepAll(), target, arena, head, marked).1.Some? ==>
      SinkWalk(g, okAt, lcb, target)
    decreases |g.nodes - marked|, |arena| - head
  {
    if head == |arena| {
    } else if arena[head].node == target {
      assert SinkWalk(g, okAt, lcb, arena[head].node);
    } else {
      var n := arena[head].node;
      var e := ExpandFrom(g.downhill(n), 0, okAt(n), KeepAll()(n), NoCost, head, arena, marked);
      CompleteStep(g, okAt, lcb, target, arena, head, marked, e.0, e.1);
      BfsFoundWalks(g, okAt, lcb, target, e.0, head + 1, e.1);
    }
  }

  /**
   * When every marked node is enqueued, the search finds the target whenever some walk from the
   * LCB reaches it over edges that pass the filter.
   */
  lemma {:induction false} BfsComplete(g: Graph, okAt: Node -> (Node -> bool), lcb: Node,
                                        target: Node, arena: seq<RouteNode>, head: nat,
                                        marked: set<Node>)
    requires Closed(g) && NodesIn(arena, g.nodes)
    requires BfsFrontier(g, okAt, lcb, target, arena, head, marked)
    ensures SinkWalk(g, okAt, lcb, target) ==>
      SinkBfs(g, okAt, KeepAll(), target, arena, head, marked).1.Some?
    decreases |g.nodes - marked|, |arena| - head
  {
    if head == |arena| {
      ExhaustedNoWalk(g, okAt, lcb, target, arena, marked);
    } else if arena[head].node != target {
      var n := arena[head].node;
      var e := ExpandFrom(g.downhill(n), 0, okAt(n), KeepAll()(n), NoCost, head, arena, marked);
      CompleteStep(g, okAt, lcb, target, arena, head, marked, e.0, e.1);
      BfsComplete(g, okAt, lcb, target, e.0, head + 1, e.1);
    }
  }

  /** The frontier at the start of a search. */
  lemma StartFrontier(g: Graph, okAt: Node -> (Node -> bool), lcb: Node, target: Node)
    ensures BfsFrontier(g, okAt, lcb, target, Start(lcb), 0, {})
  {
    assert EdgeWalk(g, okAt, [lcb]);
  }

  /** A search from `lcb` alone, whatever the filters, starts from a search arena. */
  lemma StartArena(g: Graph, okAt: Node -> (Node -> bool), keepAt: Node -> (Node -> bool), lcb: Node)
    requires lcb in g.nodes
    ensures SinkArena(g, okAt, keepAt, lcb, Start(lcb))
  {
    assert LinkOk(Start(lcb), g.downhill, 0);
  }

  /**
   * The search from `lcb` alone that enqueues every marked node answers a search arena; it finds
   * the target exactly when a walk from the LCB over edges that pass `okAt` reaches it.
   */
  lemma SearchFromStart(g: Graph, okAt: Node -> (Node -> bool), lcb: Node, target: Node)
    requires Closed(g) && lcb in g.nodes
    ensures var r := SinkBfs(g, okAt, KeepAll(), target, Start(lcb), 0, {});
      && SinkArena(g, okAt, KeepAll(), lcb, r.0)
      && (r.1.Some? ==> r.1.value < |r.0| && r.0[r.1.value].node == target)
      && (r.1.Some? <==> SinkWalk(g, okAt, lcb, target))
  {
    StartArena(g, okAt, KeepAll(), lcb);
    BfsSound(g, okAt, KeepAll(), lcb, target, Start(lcb), 0, {});
    StartFrontier(g, okAt, lcb, target);
    BfsFoundWalks(g, okAt, lcb, target, Start(lcb), 0, {});
    BfsComplete(g, okAt, lcb, target, Start(lcb), 0, {});
  }

  // ---------------------------------------------------------------------------------------------
  // The search as the source writes it, and the corrected search

  /**
   * The search as written: a downhill node is marked visited once its intent code passes, before
   * the checks that depend on the edge it is reached over; a node those checks reject is never
   * enqueued afterwards, even over another edge.
   */
  function SinkSearchAsWritten(g: Graph, status: Node -> NodeStatus, used: set<Node>, lcb: Node,
                               target: Node): (r: (seq<RouteNode>, Option<nat>))
    requires Closed(g) && lcb in g.nodes
    ensures SinkArena(g, IntentAt(g), EnterableAt(g, status, used), lcb, r.0)
    ensures r.1.Some? ==> r.1.value < |r.0| && r.0[r.1.value].node == target
  {
    StartArena(g, IntentAt(g), EnterableAt(g, status, used), lcb);
    BfsSound(g, IntentAt(g), EnterableAt(g, status, used), lcb, target, Start(lcb), 0, {});
    SinkBfs(g, IntentAt(g), EnterableAt(g, status, used), target, Start(lcb), 0, {})
  }

  /**
   * The downhill nodes of a four-node graph on which the search as written misses a sink: LCB 0
   * drives nodes 1 and 2, node 2 drives node 1, and node 1 drives the sink node 3.
   */
  function MissDownhill(n: Node): seq<Node>
  {
    if n == 0 then [1, 2] else if n == 2 then [1] else if n == 1 then [3] else []
  }

  /** In that graph the PIP from node 0 to node 1 alone is a route-thru. */
  function MissRouteThru(a: Node, b: Node): bool
  {
    a == 0 && b == 1
  }

  function NoNodes(n: Node): seq<Node>
  {
    []
  }

  function NoFlag(n: Node): bool
  {
    false
  }

  /** The four-node graph; every node is an IMUX, and no other query matters to the search. */
  function MissGraph(): Graph
  {
    Graph({0, 1, 2, 3}, MissDownhill, NoNodes, NoNodes, (n: Node) => Imux, (n: Node) => None,
          (n: Node) => "", (n: Node) => 0, (n: Node) => [], (n: Node, cr: ClockRegion) => 0,
          (a: Node, b: Node) => 0, MissRouteThru, (c: IntentCode) => false, NoFlag, NoFlag,
          NoFlag, (n: Node) => None)
  }

  function AllAvailable(n: Node): NodeStatus
  {
    Available
  }

  lemma MissGraphClosed()
    ensures Closed(MissGraph())
  {
    var g := MissGraph();
    assert forall n | n in g.nodes :: n == 0 || n == 1 || n == 2 || n == 3;
  }

  /** The arena of the search as written on MissGraph after its first expansion. */
  function MissArena(): seq<RouteNode>
  {
    [RouteNode(0, None, 0), RouteNode(2, Some(0), 0)]
  }

  /** Both downhill nodes of LCB 0 pass the intent check; the edge to node 1 is a route-thru. */
  lemma MissChecks()
    ensures var g := MissGraph();
      && g.downhill(0) == [1, 2]
      && IntentAt(g)(0)(1) && IntentAt(g)(0)(2)
      && !EnterableAt(g, AllAvailable, {})(0)(1) && EnterableAt(g, AllAvailable, {})(0)(2)
  {
  }

  /** The second downhill node of LCB 0, node 2, is marked and enqueued. */
  lemma MissFirstTail()
    ensures var g := MissGraph();
      ExpandFrom([1, 2], 1, IntentAt(g)(0), EnterableAt(g, AllAvailable, {})(0), NoCost, 0,
                 Start(0), {1}) == (MissArena(), {1, 2})
  {
    var g := MissGraph();
    var ok, keep := IntentAt(g)(0), EnterableAt(g, AllAvailable, {})(0);
    MissChecks();
    assert Start(0) + [RouteNode(2, Some(0), NoCost(2))] == MissArena();
    assert {1} + {2} == {1, 2};
    assert ExpandFrom([1, 2], 2, ok, keep, NoCost, 0, MissArena(), {1, 2}) == (MissArena(), {1, 2});
  }

  /** Expanding LCB 0 marks nodes 1 and 2 and enqueues node 2 alone. */
  lemma MissFirstExpansion()
    ensures var g := MissGraph();
      ExpandFrom(g.downhill(0), 0, IntentAt(g)(0), EnterableAt(g, AllAvailable, {})(0), NoCost, 0,
                 Start(0), {}) == (MissArena(), {1, 2})
  {
    var g := MissGraph();
    var ok, keep := IntentAt(g)(0), EnterableAt(g, AllAvailable, {})(0);
    MissChecks();
    MissFirstTail();
    assert {} + {1} == {1};
    assert ExpandFrom([1, 2], 0, ok, keep, NoCost, 0, Start(0), {})
        == ExpandFrom([1, 2], 1, ok, keep, NoCost, 0, Start(0), {1});
  }

  /** Expanding node 2 meets node 1 again, already marked, and enqueues nothing. */
  lemma MissSecondExpansion()
    ensures var g := MissGraph();
      ExpandFrom(g.downhill(2), 0, IntentAt(g)(2), EnterableAt(g, AllAvailable, {})(2), NoCost, 1,
                 MissArena(), {1, 2}) == (MissArena(), {1, 2})
  {
    var g := MissGraph();
    assert g.downhill(2) == [1];
  }

  /** The walk 0 -> 2 -> 1 -> 3 of MissGraph passes every check of the sink search. */
  lemma MissWalk()
    ensures SinkWalk(MissGraph(), SinkEdgeAt(MissGraph(), AllAvailable, {}), 0, 3)
  {
    assert EdgeWalk(MissGraph(), SinkEdgeAt(MissGraph(), AllAvailable, {}), [0, 2, 1, 3]);
  }

  /** The search as written polls node 0 and node 2 and then has nothing left to poll. */
  lemma AsWrittenFails()
    ensures Closed(MissGraph())
    ensures SinkSearchAsWritten(MissGraph(), AllAvailable, {}, 0, 3).1 == None
  {
    var g := MissGraph();
    MissGraphClosed();
    var ok, keep := IntentAt(g), EnterableAt(g, AllAvailable, {});
    MissFirstExpansion();
    BfsUnfold(g, ok, keep, 3, Start(0), 0, {}, MissArena(), {1, 2});
    MissSecondExpansion();
    BfsUnfold(g, ok, keep, 3, MissArena(), 1, {1, 2}, MissArena(), {1, 2});
  }

  /**
   * From LCB 0 of MissGraph to the sink on node 3: node 1 is first met over the route-thru PIP
   * 0 -> 1, which the search rejects, after marking node 1; the legal path 0 -> 2 -> 1 -> 3 is
   * then never followed, and the search as written fails. The corrected search finds node 3.
   */
  lemma AsWrittenMissesSink()
    ensures Closed(MissGraph())
    ensures SinkWalk(MissGraph(), SinkEdgeAt(MissGraph(), AllAvailable, {}), 0, 3)
    ensures SinkSearchAsWritten(MissGraph(), AllAvailable, {}, 0, 3).1 == None
    ensures SinkBfs(MissGraph(), SinkEdgeAt(MissGraph(), AllAvailable, {}), KeepAll(), 3, Start(0),
                    0, {}).1.Some?
  {
    MissWalk();
    AsWrittenFails();
    SearchFromStart(MissGraph(), SinkEdgeAt(MissGraph(), AllAvailable, {}), 0, 3);
  }

  // ---------------------------------------------------------------------------------------------
  // The search of one sink

  /**
   * The loop of the search from `lcb` for the node `target`: the queue is the part of the arena
   * from `head` on, each polled entry that does not wrap the target is expanded over its downhill
   * nodes with the filters `okAt` (before marking) and `keepAt` (after marking).
   */
  method BfsLoop(g: Graph, okAt: Node -> (Node -> bool), keepAt: Node -> (Node -> bool),
                 lcb: Node, target: Node)
    returns (arena: seq<RouteNode>, found: Option<nat>)
    requires Closed(g) && lcb in g.nodes
    ensures (arena, found) == SinkBfs(g, okAt, keepAt, target, Start(lcb), 0, {})
  {
    arena := Start(lcb);
    var visited: set<Node> := {};
    var head := 0;
    while head < |arena|
      invariant NodesIn(arena, g.nodes) && head <= |arena|
      invariant SinkBfs(g, okAt, keepAt, target, arena, head, visited)
             == SinkBfs(g, okAt, keepAt, target, Start(lcb), 0, {})
      decreases |g.nodes - visited|, |arena| - head
    {
      var n := arena[head].node;
      if n == target {
        return arena, Some(head);
      }
      var grown, marked := ExpandUnmarked(arena, g.downhill(n), okAt(n), keepAt(n), NoCost, head,
                                          visited);
      BfsUnfold(g, okAt, keepAt, target, arena, head, visited, grown, marked);
      arena, visited := grown, marked;
      head := head + 1;
    }
    found := None;
  }

  /**
   * The search from `lcb` for the node of one sink, with every check of an edge made before its
   * end node is marked visited (the correction of SinkSearchAsWritten). It answers a chain of
   * checked edges from the LCB, and fails exactly when no walk from the LCB over edges that pass
   * the checks reaches the sink.
   */
  method SinkSearch(g: Graph, status: Node -> NodeStatus, used: set<Node>, lcb: Node, target: Node)
    returns (arena: seq<RouteNode>, found: Option<nat>)
    requires Closed(g) && lcb in g.nodes
    ensures SinkArena(g, SinkEdgeAt(g, status, used), KeepAll(), lcb, arena)
    ensures found.Some? ==> found.value < |arena| && arena[found.value].node == target
    ensures found.Some? <==> SinkWalk(g, SinkEdgeAt(g, status, used), lcb, target)
  {
    arena, found := BfsLoop(g, SinkEdgeAt(g, status, used), KeepAll(), lcb, target);
    SearchFromStart(g, SinkEdgeAt(g, status, used), lcb, target);
  }

  // ---------------------------------------------------------------------------------------------
  // The PIPs of one sink

  /**
   * What the PIP loop of routeLCBsToSinks asserts of a back path, nearest first: every PIP before
   * the first one that starts at an INUSE node starts at an AVAILABLE node, and every PIP after it
   * starts at an INUSE node.
   */
  ghost predicate StatusesOk(path: seq<Pip>, status: Node -> NodeStatus)
  {
    var k := FirstInUse(path, status);
    && (forall j | 0 <= j < k :: status(path[j].startNode) == Available)
    && (forall j | k < j < |path| :: status(path[j].startNode) == InUse)
  }

  /**
   * The PIP loop of routeLCBsToSinks: it takes each PIP, nearest first, up to and including the
   * first one that starts at an INUSE node, and checks the status of every start node on the way.
   */
  method CollectThroughInUse(path: seq<Pip>, status: Node -> NodeStatus)
    returns (r: Result<seq<Pip>, RouteError>)
    ensures r.Ok? <==> StatusesOk(path, status)
    ensures r.Ok? ==> r.value == ThroughFirstInUse(path, status)
    ensures r.Err? ==> r.error == AssertionViolated
  {
    ghost var k := FirstInUse(path, status);
    var taken: seq<Pip> := [];
    var inUse := false;
    var t := 0;
    while t < |path|
      invariant t <= |path| && (inUse <==> k < t)
      invariant taken == path[..if inUse then k + 1 else t]
      invariant forall j | 0 <= j < t && j < k :: status(path[j].startNode) == Available
      invariant forall j | k < j < t :: status(path[j].startNode) == InUse
    {
      var s := status(path[t].startNode);
      if inUse {
        if s != InUse {
          return Err(AssertionViolated);
        }
      } else {
        taken := taken + [path[t]];
        if s == InUse {
          inUse := true;
        } else if s != Available {
          return Err(AssertionViolated);
        }
      }
      t := t + 1;
    }
    assert path[..|path|] == path;
    return Ok(taken);
  }

  // ---------------------------------------------------------------------------------------------
  // The sinks of one LCB

  /** `p` is a downhill edge that passes every check of the sink search. */
  predicate SinkPipOk(g: Graph, status: Node -> NodeStatus, used: set<Node>, p: Pip)
  {
    p.endNode in g.downhill(p.startNode) && SinkEdgeOk(g, status, used, p.startNode, p.endNode)
  }

  /** The back PIPs of an entry of a search arena are edges that passed the filter. */
  lemma {:induction false} BackPipsChecked(g: Graph, okAt: Node -> (Node -> bool),
                                           keepAt: Node -> (Node -> bool), lcb: Node,
                                           arena: seq<RouteNode>, i: nat)
    requires SinkArena(g, okAt, keepAt, lcb, arena) && i < |arena|
    ensures forall p | p in BackPips(arena, i) ::
      p.endNode in g.downhill(p.startNode) && okAt(p.startNode)(p.endNode)
    decreases i
  {
    match arena[i].parent
    case None =>
    case Some(q) =>
      assert LinkOk(arena, g.downhill, i);
      assert ChildOk(okAt, keepAt, arena, i);
      BackPipsChecked(g, okAt, keepAt, lcb, arena, q);
  }

  /**
   * The back PIPs of the entry the sink search found form a walk from the LCB to the sink, and
   * each passed every check.
   */
  lemma FoundChain(g: Graph, status: Node -> NodeStatus, used: set<Node>, lcb: Node,
                   arena: seq<RouteNode>, f: nat)
    requires SinkArena(g, SinkEdgeAt(g, status, used), KeepAll(), lcb, arena) && f < |arena|
    ensures BackChain(BackPips(arena, f), g.downhill, lcb, arena[f].node)
    ensures forall p | p in BackPips(arena, f) :: SinkPipOk(g, status, used, p)
  {
    forall j | 0 < j < |arena| ensures arena[j].parent.Some? {
      assert ChildOk(SinkEdgeAt(g, status, used), KeepAll(), arena, j);
    }
    SingleRoot(arena, f);
    BackPipsChain(arena, g.downhill, f);
    BackPipsChecked(g, SinkEdgeAt(g, status, used), KeepAll(), lcb, arena, f);
  }

  /**
   * The sink on node `target` of `lcb` is reached by `pips`: some walk of downhill edges, given as
   * its PIPs nearest first, leads from the LCB to the sink with the statuses the source asserts,
   * and its PIPs up to and including the first that starts at an INUSE node are among `pips`.
   */
  ghost predicate SinkReached(g: Graph, status: Node -> NodeStatus, pips: set<Pip>, lcb: Node,
                              target: Node)
  {
    exists path: seq<Pip> ::
      && BackChain(path, g.downhill, lcb, target) && StatusesOk(path, status)
      && PipSet(ThroughFirstInUse(path, status)) <= pips
  }

  /** The first `s` sinks of `lcb`, indices into `pins`, are routed and reached by `pips`. */
  ghost predicate SinksUpTo(g: Graph, status: Node -> NodeStatus, pins: seq<Pin>, routed: set<nat>,
                            pips: set<Pip>, lcb: Node, sinks: seq<nat>, s: nat)
  {
    forall j | 0 <= j < s && j < |sinks| ::
      sinks[j] < |pins| && sinks[j] in routed && SinkReached(g, status, pips, lcb, pins[sinks[j]].node)
  }

  /** More routed pins and more PIPs keep the sinks routed and reached. */
  lemma SinksUpToGrow(g: Graph, status: Node -> NodeStatus, pins: seq<Pin>, routed: set<nat>,
                      pips: set<Pip>, lcb: Node, sinks: seq<nat>, s: nat, routed': set<nat>,
                      pips': set<Pip>)
    requires SinksUpTo(g, status, pins, routed, pips, lcb, sinks, s)
    requires routed <= routed' && pips <= pips'
    ensures SinksUpTo(g, status, pins, routed', pips', lcb, sinks, s)
  {
    forall j | 0 <= j < s && j < |sinks|
      ensures SinkReached(g, status, pips', lcb, pins[sinks[j]].node)
    {
      var path :| && BackChain(path, g.downhill, lcb, pins[sinks[j]].node)
                  && StatusesOk(path, status)
                  && PipSet(ThroughFirstInUse(path, status)) <= pips;
    }
  }

  /** The sink found next is routed and reached through the PIPs kept from its back path. */
  lemma SinkStep(g: Graph, status: Node -> NodeStatus, used: set<Node>, pins: seq<Pin>,
                 routed: set<nat>, pips: set<Pip>, lcb: Node, sinks: seq<nat>, s: nat,
                 path: seq<Pip>, kept: seq<Pip>)
    requires SinksUpTo(g, status, pins, routed, pips, lcb, sinks, s)
    requires s < |sinks| && sinks[s] < |pins|
    requires BackChain(path, g.downhill, lcb, pins[sinks[s]].node) && StatusesOk(path, status)
    requires forall p | p in path :: SinkPipOk(g, status, used, p)
    requires forall p | p in pips :: SinkPipOk(g, status, used, p)
    requires kept == ThroughFirstInUse(path, status)
    ensures SinksUpTo(g, status, pins, routed + {sinks[s]}, pips + PipSet(kept), lcb, sinks, s + 1)
    ensures forall p | p in pips + PipSet(kept) :: SinkPipOk(g, status, used, p)
  {
    SinksUpToGrow(g, status, pins, routed, pips, lcb, sinks, s, routed + {sinks[s]},
                  pips + PipSet(kept));
    assert SinkReached(g, status, pips + PipSet(kept), lcb, pins[sinks[s]].node);
    forall p | p in PipSet(kept) ensures p in path {
      assert kept <= path;
    }
  }

  /**
   * `kept` is what the PIP loop keeps of a back path to `target`: a walk of downhill edges from
   * the LCB, each passing every check of the sink search avoiding `used`, with the statuses the
   * source asserts, cut after its first PIP that starts at an INUSE node.
   */
  ghost predicate SinkPathOf(g: Graph, status: Node -> NodeStatus, used: set<Node>, lcb: Node,
                             target: Node, kept: seq<Pip>)
  {
    exists path: seq<Pip> ::
      && BackChain(path, g.downhill, lcb, target) && StatusesOk(path, status)
      && (forall p | p in path :: SinkPipOk(g, status, used, p))
      && kept == ThroughFirstInUse(path, status)
  }

  /** `kepts[j]` is what was kept for the j-th sink of `sinks`, for each of the first `|kepts|`. */
  ghost predicate SinkPaths(g: Graph, status: Node -> NodeStatus, used: set<Node>, lcb: Node,
                            pins: seq<Pin>, sinks: seq<nat>, kepts: seq<seq<Pip>>)
    decreases |kepts|
  {
    && |kepts| <= |sinks|
    && (kepts != [] ==>
          var n := |kepts| - 1;
          && SinkPaths(g, status, used, lcb, pins, sinks, kepts[..n])
          && sinks[n] < |pins| && SinkPathOf(g, status, used, lcb, pins[sinks[n]].node, kepts[n]))
  }

  /** Sink by sink: the j-th kept path belongs to the j-th sink. */
  lemma {:induction false} SinkPathsAt(g: Graph, status: Node -> NodeStatus, used: set<Node>,
                                       lcb: Node, pins: seq<Pin>, sinks: seq<nat>,
                                       kepts: seq<seq<Pip>>, j: nat)
    requires SinkPaths(g, status, used, lcb, pins, sinks, kepts) && j < |kepts|
    ensures sinks[j] < |pins| && SinkPathOf(g, status, used, lcb, pins[sinks[j]].node, kepts[j])
    decreases |kepts|
  {
    var n := |kepts| - 1;
    if j < n {
      SinkPathsAt(g, status, used, lcb, pins, sinks, kepts[..n], j);
    }
  }

  /**
   * The sinks of one LCB, in their listed order: each is searched from the LCB, the PIPs of its
   * path through the first INUSE node are kept, and the sink is marked routed. The PIPs kept for
   * the LCB are the answer: exactly the PIPs kept, `kepts`, sink by sink. A sink that no checked
   * walk reaches fails the call.
   */
  method RouteLcbSinks(clk: Net, g: Graph, status: Node -> NodeStatus, used: set<Node>, lcb: Node,
                       sinks: seq<nat>)
    returns (r: Result<set<Pip>, RouteError>, ghost kepts: seq<seq<Pip>>)
    requires Closed(g) && lcb in g.nodes && clk.Valid()
    requires forall j | 0 <= j < |sinks| :: sinks[j] < |clk.pins|
    modifies clk
    ensures clk.Valid() && clk.pins == old(clk.pins) && clk.pips == old(clk.pips)
    ensures old(clk.routed) <= clk.routed
    ensures forall i | i in clk.routed && i !in old(clk.routed) :: i in sinks
    ensures r.Ok? ==> SinksUpTo(g, status, clk.pins, clk.routed, r.value, lcb, sinks, |sinks|)
    ensures r.Ok? ==> forall p | p in r.value :: SinkPipOk(g, status, used, p)
    ensures r.Ok? ==> |kepts| == |sinks| && SinkPaths(g, status, used, lcb, clk.pins, sinks, kepts)
    ensures r.Ok? ==> r.value == UnionPips(kepts)
    ensures r.Err? ==> r.error == Unroutable || r.error == AssertionViolated
    ensures r.Err? && r.error == Unroutable ==> exists j | 0 <= j < |sinks| ::
      !SinkWalk(g, SinkEdgeAt(g, status, used), lcb, clk.pins[sinks[j]].node)
  {
    var curr: set<Pip> := {};
    kepts := [];
    var s := 0;
    while s < |sinks|
      invariant s <= |sinks| && clk.Valid() && clk.pins == old(clk.pins) && clk.pips == old(clk.pips)
      invariant old(clk.routed) <= clk.routed
      invariant forall i | i in clk.routed && i !in old(clk.routed) :: i in sinks
      invariant SinksState(g, status, used, lcb, clk.pins, clk.routed, sinks, s, curr, kepts)
    {
      var i := sinks[s];
      var arena, found := SinkSearch(g, status, used, lcb, clk.pins[i].node);
      if found.None? {
        return Err(Unroutable), kepts;
      }
      var path := BackPips(arena, found.value);
      FoundChain(g, status, used, lcb, arena, found.value);
      var kept := CollectThroughInUse(path, status);
      if kept.Err? {
        return Err(AssertionViolated), kepts;
      }
      SinksStateStep(g, status, used, lcb, clk.pins, clk.routed, sinks, s, curr, kepts, path,
                     kept.value);
      curr := curr + PipSet(kept.value);
      kepts := kepts + [kept.value];
      clk.SetRouted(i);
      s := s + 1;
    }
    return Ok(curr), kepts;
  }

  /**
   * The state of the loop over the sinks of `lcb` after the first `s`: they are routed and
   * reached, and the PIPs kept, each passing every check, are exactly those of `kepts`.
   */
  ghost predicate SinksState(g: Graph, status: Node -> NodeStatus, used: set<Node>, lcb: Node,
                             pins: seq<Pin>, routed: set<nat>, sinks: seq<nat>, s: nat,
                             curr: set<Pip>, kepts: seq<seq<Pip>>)
  {
    && SinksUpTo(g, status, pins, routed, curr, lcb, sinks, s)
    && (forall p | p in curr :: SinkPipOk(g, status, used, p))
    && |kepts| == s && SinkPaths(g, status, used, lcb, pins, sinks, kepts)
    && curr == UnionPips(kepts)
  }

  /** The sink found next joins the state with the PIPs kept from its back path. */
  lemma SinksStateStep(g: Graph, status: Node -> NodeStatus, used: set<Node>, lcb: Node,
                       pins: seq<Pin>, routed: set<nat>, sinks: seq<nat>, s: nat, curr: set<Pip>,
                       kepts: seq<seq<Pip>>, path: seq<Pip>, kept: seq<Pip>)
    requires SinksState(g, status, used, lcb, pins, routed, sinks, s, curr, kepts)
    requires s < |sinks| && sinks[s] < |pins|
    requires BackChain(path, g.downhill, lcb, pins[sinks[s]].node) && StatusesOk(path, status)
    requires forall p | p in path :: SinkPipOk(g, status, used, p)
    requires kept == ThroughFirstInUse(path, status)
    ensures SinksState(g, status, used, lcb, pins, routed + {sinks[s]}, sinks, s + 1,
                       curr + PipSet(kept), kepts + [kept])
  {
    SinkStep(g, status, used, pins, routed, curr, lcb, sinks, s, path, kept);
    SinkPathsStep(g, status, used, lcb, pins, sinks, kepts, path, kept);
    UnionPipsSnoc(kepts, kept);
  }

  /** The PIPs kept for the next sink extend the kept paths. */
  lemma SinkPathsStep(g: Graph, status: Node -> NodeStatus, used: set<Node>, lcb: Node,
                      pins: seq<Pin>, sinks: seq<nat>, kepts: seq<seq<Pip>>, path: seq<Pip>,
                      kept: seq<Pip>)
    requires SinkPaths(g, status, used, lcb, pins, sinks, kepts) && |kepts| < |sinks|
    requires sinks[|kepts|] < |pins|
    requires BackChain(path, g.downhill, lcb, pins[sinks[|kepts|]].node) && StatusesOk(path, status)
    requires forall p | p in path :: SinkPipOk(g, status, used, p)
    requires kept == ThroughFirstInUse(path, status)
    ensures SinkPaths(g, status, used, lcb, pins, sinks, kepts + [kept])
  {
    assert (kepts + [kept])[..|kepts|] == kepts;
  }

  // ---------------------------------------------------------------------------------------------
  // routeLCBsToSinks

  /** Pin `i` is listed as a sink of some LCB. */
  ghost predicate IsSink(lcbMappings: map<Node, seq<nat>>, i: nat)
  {
    exists lcb | lcb in lcbMappings :: i in lcbMappings[lcb]
  }

  /** The first `t` LCBs of `lcbs` have all their sinks routed and reached by `pips`. */
  ghost predicate LcbsDone(g: Graph, status: Node -> NodeStatus, pins: seq<Pin>, routed: set<nat>,
                           pips: set<Pip>, lcbMappings: map<Node, seq<nat>>, lcbs: seq<Node>, t: nat)
  {
    forall j | 0 <= j < t && j < |lcbs| ::
      && lcbs[j] in lcbMappings
      && SinksUpTo(g, status, pins, routed, pips, lcbs[j], lcbMappings[lcbs[j]],
                   |lcbMappings[lcbs[j]]|)
  }

  /** What the loop over the LCBs keeps about the PIPs it has added and the nodes they use. */
  ghost predicate PipsAdded(g: Graph, status: Node -> NodeStatus, added: seq<Pip>, used: set<Node>)
  {
    && used == PipNodes(PipSet(added))
    && forall k | 0 <= k < |added| :: SinkPipOk(g, status, {}, added[k])
  }

  /** Appending the PIPs of one more LCB. */
  lemma PipsAddedStep(g: Graph, status: Node -> NodeStatus, added: seq<Pip>, used: set<Node>,
                      more: set<Pip>, listed: seq<Pip>)
    requires PipsAdded(g, status, added, used)
    requires forall p | p in more :: SinkPipOk(g, status, used, p)
    requires forall p :: p in listed <==> p in more
    ensures PipSet(added + listed) == PipSet(added) + more
    ensures PipsAdded(g, status, added + listed, used + PipNodes(more))
  {
    assert PipSet(added + listed) == PipSet(added) + more;
    forall k | 0 <= k < |added + listed| ensures SinkPipOk(g, status, {}, (added + listed)[k]) {
      if k >= |added| {
        assert (added + listed)[k] in more;
      }
    }
  }

  /** The PIPs kept for an LCB, appended to the net, keep what the loop knows about them. */
  lemma LcbPipsAppended(g: Graph, status: Node -> NodeStatus, base: seq<Pip>, pips0: seq<Pip>,
                        listed: seq<Pip>, used: set<Node>, more: set<Pip>)
    requires |base| <= |pips0| && pips0[..|base|] == base
    requires PipsAdded(g, status, pips0[|base|..], used)
    requires forall p | p in more :: SinkPipOk(g, status, used, p)
    requires forall p :: p in listed <==> p in more
    ensures var pips := pips0 + listed;
      && pips[..|base|] == base && pips[|base|..] == pips0[|base|..] + listed
      && pips[..|pips0|] == pips0 && pips[|pips0|..] == listed
      && PipSet(pips[|base|..]) == PipSet(pips0[|base|..]) + more
      && PipsAdded(g, status, pips[|base|..], used + PipNodes(more))
      && forall k | |pips0| <= k < |pips| :: SinkPipOk(g, status, used, pips[k])
  {
    var pips := pips0 + listed;
    assert pips[|base|..] == pips0[|base|..] + listed;
    assert pips[..|base|] == base;
    assert forall k | |pips0| <= k < |pips| :: pips[k] in more;
    PipsAddedStep(g, status, pips0[|base|..], used, more, listed);
  }

  /** The LCB done last joins the LCBs done before it. */
  lemma LcbsDoneStep(g: Graph, status: Node -> NodeStatus, pins: seq<Pin>, routed: set<nat>,
                     pips: set<Pip>, lcbMappings: map<Node, seq<nat>>, lcbs: seq<Node>, t: nat,
                     routed': set<nat>, pips': set<Pip>)
    requires LcbsDone(g, status, pins, routed, pips, lcbMappings, lcbs, t) && t < |lcbs|
    requires lcbs[t] in lcbMappings && routed <= routed' && pips <= pips'
    requires SinksUpTo(g, status, pins, routed', pips', lcbs[t], lcbMappings[lcbs[t]],
                       |lcbMappings[lcbs[t]]|)
    ensures LcbsDone(g, status, pins, routed', pips', lcbMappings, lcbs, t + 1)
  {
    forall j | 0 <= j < t
      ensures SinksUpTo(g, status, pins, routed', pips', lcbs[j], lcbMappings[lcbs[j]],
                        |lcbMappings[lcbs[j]]|)
    {
      SinksUpToGrow(g, status, pins, routed, pips, lcbs[j], lcbMappings[lcbs[j]],
                    |lcbMappings[lcbs[j]]|, routed', pips');
    }
  }

  /**
   * One pass of the loop over the LCBs: the sinks of LCB `lcbs[t]` are routed avoiding `used`,
   * the nodes of the PIPs added since `base`; the PIPs kept for the LCB are then added.
   */
  method SinksOfLcb(clk: Net, g: Graph, lcbMappings: map<Node, seq<nat>>, status: Node -> NodeStatus,
                    lcbs: seq<Node>, t: nat, used: set<Node>, ghost base: seq<Pip>)
    returns (r: Result<(), RouteError>, used': set<Node>, ghost kepts: seq<seq<Pip>>)
    requires Closed(g) && clk.Valid() && t < |lcbs| && lcbs[t] in lcbMappings && lcbs[t] in g.nodes
    requires forall j | 0 <= j < |lcbMappings[lcbs[t]]| :: lcbMappings[lcbs[t]][j] < |clk.pins|
    requires |base| <= |clk.pips| && clk.pips[..|base|] == base
    requires PipsAdded(g, status, clk.pips[|base|..], used)
    requires LcbsDone(g, status, clk.pins, clk.routed, PipSet(clk.pips[|base|..]), lcbMappings, lcbs, t)
    modifies clk
    ensures clk.Valid() && clk.pins == old(clk.pins) && old(clk.routed) <= clk.routed
    ensures forall i | i in clk.routed && i !in old(clk.routed) :: i in lcbMappings[lcbs[t]]
    ensures |base| <= |clk.pips| && clk.pips[..|base|] == base
    ensures r.Ok? ==> PipsAdded(g, status, clk.pips[|base|..], used')
    ensures r.Ok? ==> forall k | |old(clk.pips)| <= k < |clk.pips| ::
      SinkPipOk(g, status, used, clk.pips[k])
    ensures r.Ok? ==>
      LcbsDone(g, status, clk.pins, clk.routed, PipSet(clk.pips[|base|..]), lcbMappings, lcbs, t + 1)
    ensures r.Ok? ==> |old(clk.pips)| <= |clk.pips| && clk.pips[..|old(clk.pips)|] == old(clk.pips)
    ensures r.Ok? ==> |kepts| == |lcbMappings[lcbs[t]]|
    ensures r.Ok? ==> SinkPaths(g, status, used, lcbs[t], clk.pins, lcbMappings[lcbs[t]], kepts)
    ensures r.Ok? ==> PipSet(clk.pips[|old(clk.pips)|..]) == UnionPips(kepts)
    ensures r.Err? ==> clk.pips == old(clk.pips)
    ensures r.Err? ==> r.error == Unroutable || r.error == AssertionViolated
    ensures r.Err? && r.error == Unroutable ==> exists i | i in lcbMappings[lcbs[t]] ::
      !SinkWalk(g, SinkEdgeAt(g, status, PipNodes(PipSet(clk.pips[|base|..]))), lcbs[t],
                clk.pins[i].node)
  {
    var lcb := lcbs[t];
    ghost var routed0, added0 := clk.routed, clk.pips[|base|..];
    var res;
    res, kepts := RouteLcbSinks(clk, g, status, used, lcb, lcbMappings[lcb]);
    if res.Err? {
      if res.error == Unroutable {
        ghost var j :| 0 <= j < |lcbMappings[lcb]| &&
          !SinkWalk(g, SinkEdgeAt(g, status, used), lcb, clk.pins[lcbMappings[lcb][j]].node);
        assert lcbMappings[lcb][j] in lcbMappings[lcb];
      }
      return Err(res.error), used, kepts;
    }
    AppendLcbPips(clk, g, status, lcbMappings, lcbs, t, used, base, res.value, routed0);
    return Ok(()), used + PipNodes(res.value), kepts;
  }

  /** The PIPs kept for the sinks of LCB `lcbs[t]` are appended to the net, each once. */
  method AppendLcbPips(clk: Net, g: Graph, status: Node -> NodeStatus, lcbMappings: map<Node, seq<nat>>,
                       lcbs: seq<Node>, t: nat, used: set<Node>, ghost base: seq<Pip>, more: set<Pip>,
                       ghost routed0: set<nat>)
    requires t < |lcbs| && lcbs[t] in lcbMappings && routed0 <= clk.routed
    requires |base| <= |clk.pips| && clk.pips[..|base|] == base
    requires PipsAdded(g, status, clk.pips[|base|..], used)
    requires LcbsDone(g, status, clk.pins, routed0, PipSet(clk.pips[|base|..]), lcbMappings, lcbs, t)
    requires SinksUpTo(g, status, clk.pins, clk.routed, more, lcbs[t], lcbMappings[lcbs[t]],
                       |lcbMappings[lcbs[t]]|)
    requires forall p | p in more :: SinkPipOk(g, status, used, p)
    modifies clk
    ensures clk.pins == old(clk.pins) && clk.routed == old(clk.routed)
    ensures |old(clk.pips)| <= |clk.pips| && clk.pips[..|old(clk.pips)|] == old(clk.pips)
    ensures PipSet(clk.pips[|old(clk.pips)|..]) == more
    ensures |base| <= |clk.pips| && clk.pips[..|base|] == base
    ensures PipsAdded(g, status, clk.pips[|base|..], used + PipNodes(more))
    ensures forall k | |old(clk.pips)| <= k < |clk.pips| :: SinkPipOk(g, status, used, clk.pips[k])
    ensures LcbsDone(g, status, clk.pins, clk.routed, PipSet(clk.pips[|base|..]), lcbMappings, lcbs,
                     t + 1)
  {
    var listed := Enumerate(more);
    ghost var pips0 := clk.pips;
    clk.AddPips(listed);
    LcbPipsAppended(g, status, base, pips0, listed, used, more);
    LcbsDoneStep(g, status, clk.pins, routed0, PipSet(pips0[|base|..]), lcbMappings, lcbs, t,
                 clk.routed, PipSet(clk.pips[|base|..]));
  }

  /** Appending to a list of PIPs adds the PIPs appended to those after position `b`. */
  lemma AppendedPips(before: seq<Pip>, after: seq<Pip>, b: nat)
    requires b <= |before| <= |after| && after[..|before|] == before
    ensures PipSet(after[b..]) == PipSet(before[b..]) + PipSet(after[|before|..])
  {
    assert after[b..] == before[b..] + after[|before|..];
    PipSetConcat(before[b..], after[|before|..]);
  }

  /** The PIPs kept for the sinks of each LCB in `sinkPaths`, one entry per LCB. */
  function AllSinkPips(sinkPaths: seq<seq<seq<Pip>>>): set<Pip>
  {
    if sinkPaths == [] then {}
    else AllSinkPips(sinkPaths[..|sinkPaths| - 1]) + UnionPips(sinkPaths[|sinkPaths| - 1])
  }

  /**
   * `sinkPaths[j]` is what was kept for the sinks of LCB `lcbs[j]`, sink by sink, each searched
   * avoiding the nodes of the PIPs kept for the LCBs before it.
   */
  ghost predicate LcbSinkPaths(g: Graph, status: Node -> NodeStatus, lcbMappings: map<Node, seq<nat>>,
                               pins: seq<Pin>, lcbs: seq<Node>, sinkPaths: seq<seq<seq<Pip>>>)
    decreases |sinkPaths|
  {
    && |sinkPaths| <= |lcbs|
    && (sinkPaths != [] ==>
          var n := |sinkPaths| - 1;
          && LcbSinkPaths(g, status, lcbMappings, pins, lcbs, sinkPaths[..n])
          && lcbs[n] in lcbMappings && |sinkPaths[n]| == |lcbMappings[lcbs[n]]|
          && SinkPaths(g, status, PipNodes(AllSinkPips(sinkPaths[..n])), lcbs[n], pins,
                       lcbMappings[lcbs[n]], sinkPaths[n]))
  }

  /** LCB by LCB: the j-th entry holds the kept paths of the j-th LCB's sinks. */
  lemma {:induction false} LcbSinkPathsAt(g: Graph, status: Node -> NodeStatus,
                                          lcbMappings: map<Node, seq<nat>>, pins: seq<Pin>,
                                          lcbs: seq<Node>, sinkPaths: seq<seq<seq<Pip>>>, j: nat)
    requires LcbSinkPaths(g, status, lcbMappings, pins, lcbs, sinkPaths) && j < |sinkPaths|
    ensures lcbs[j] in lcbMappings && |sinkPaths[j]| == |lcbMappings[lcbs[j]]|
    ensures SinkPaths(g, status, PipNodes(AllSinkPips(sinkPaths[..j])), lcbs[j], pins,
                      lcbMappings[lcbs[j]], sinkPaths[j])
    decreases |sinkPaths|
  {
    var n := |sinkPaths| - 1;
    if j < n {
      LcbSinkPathsAt(g, status, lcbMappings, pins, lcbs, sinkPaths[..n], j);
      assert sinkPaths[..n][..j] == sinkPaths[..j];
    }
  }

  /** The kept paths of one more LCB extend the record and its PIPs. */
  lemma LcbSinkPathsStep(g: Graph, status: Node -> NodeStatus, lcbMappings: map<Node, seq<nat>>,
                         pins: seq<Pin>, lcbs: seq<Node>, sinkPaths: seq<seq<seq<Pip>>>,
                         kepts: seq<seq<Pip>>)
    requires LcbSinkPaths(g, status, lcbMappings, pins, lcbs, sinkPaths) && |sinkPaths| < |lcbs|
    requires lcbs[|sinkPaths|] in lcbMappings && |kepts| == |lcbMappings[lcbs[|sinkPaths|]]|
    requires SinkPaths(g, status, PipNodes(AllSinkPips(sinkPaths)), lcbs[|sinkPaths|], pins,
                       lcbMappings[lcbs[|sinkPaths|]], kepts)
    ensures LcbSinkPaths(g, status, lcbMappings, pins, lcbs, sinkPaths + [kepts])
    ensures AllSinkPips(sinkPaths + [kepts]) == AllSinkPips(sinkPaths) + UnionPips(kepts)
  {
    assert (sinkPaths + [kepts])[..|sinkPaths|] == sinkPaths;
  }

  /**
   * The state of routeLCBsToSinks after the first `t` LCBs of `lcbs`, started with the PIPs
   * `base` and the routed pins `routed0`: only sinks were newly routed, `base` is still a prefix,
   * the PIPs appended since are checked edges whose nodes are `used`, the sinks of each LCB done
   * are routed and reached, and the PIPs appended are exactly those kept in `sinkPaths`.
   */
  ghost predicate LcbsLoop(g: Graph, status: Node -> NodeStatus, lcbMappings: map<Node, seq<nat>>,
                           pins: seq<Pin>, routed0: set<nat>, routed: set<nat>, base: seq<Pip>,
                           pips: seq<Pip>, used: set<Node>, lcbs: seq<Node>, t: nat,
                           sinkPaths: seq<seq<seq<Pip>>>)
  {
    && t <= |lcbs| && routed0 <= routed
    && (forall i | i in routed && i !in routed0 :: IsSink(lcbMappings, i))
    && |base| <= |pips| && pips[..|base|] == base
    && PipsAdded(g, status, pips[|base|..], used)
    && LcbsDone(g, status, pins, routed, PipSet(pips[|base|..]), lcbMappings, lcbs, t)
    && |sinkPaths| == t && LcbSinkPaths(g, status, lcbMappings, pins, lcbs, sinkPaths)
    && PipSet(pips[|base|..]) == AllSinkPips(sinkPaths)
  }

  /** One pass of the loop of routeLCBsToSinks, over the sinks of LCB `lcbs[t]`. */
  method RouteNextLcb(clk: Net, g: Graph, lcbMappings: map<Node, seq<nat>>, status: Node -> NodeStatus,
                      lcbs: seq<Node>, t: nat, used: set<Node>, ghost base: seq<Pip>,
                      ghost routed0: set<nat>, ghost sinkPaths: seq<seq<seq<Pip>>>)
    returns (r: Result<(), RouteError>, used': set<Node>, ghost sinkPaths': seq<seq<seq<Pip>>>)
    requires Closed(g) && clk.Valid() && t < |lcbs| && lcbs[t] in lcbMappings && lcbs[t] in g.nodes
    requires forall j | 0 <= j < |lcbMappings[lcbs[t]]| :: lcbMappings[lcbs[t]][j] < |clk.pins|
    requires LcbsLoop(g, status, lcbMappings, clk.pins, routed0, clk.routed, base, clk.pips, used,
                      lcbs, t, sinkPaths)
    modifies clk
    ensures clk.Valid() && clk.pins == old(clk.pins)
    ensures r.Ok? ==> LcbsLoop(g, status, lcbMappings, clk.pins, routed0, clk.routed, base, clk.pips,
                               used', lcbs, t + 1, sinkPaths')
    ensures r.Err? ==> && clk.pips == old(clk.pips) && routed0 <= clk.routed
                       && (forall i | i in clk.routed && i !in routed0 :: IsSink(lcbMappings, i))
                       && (r.error == Unroutable || r.error == AssertionViolated)
    ensures r.Err? && r.error == Unroutable ==> exists i | i in lcbMappings[lcbs[t]] ::
      !SinkWalk(g, SinkEdgeAt(g, status, PipNodes(PipSet(clk.pips[|base|..]))), lcbs[t],
                clk.pins[i].node)
  {
    ghost var routed1, pips0 := clk.routed, clk.pips;
    ghost var kepts;
    r, used', kepts := SinksOfLcb(clk, g, lcbMappings, status, lcbs, t, used, base);
    assert forall i | i in clk.routed && i !in routed1 :: IsSink(lcbMappings, i);
    sinkPaths' := sinkPaths;
    if r.Ok? {
      AppendedPips(pips0, clk.pips, |base|);
      LcbSinkPathsStep(g, status, lcbMappings, clk.pins, lcbs, sinkPaths, kepts);
      sinkPaths' := sinkPaths + [kepts];
    }
  }

  /**
   * routeLCBsToSinks: the LCBs in the iteration order of the map; the sinks of each are routed in
   * their listed order over nodes that the PIPs of earlier LCBs do not use, each sink is marked
   * routed once found, and the PIPs kept for an LCB are added to the net after its last sink. A
   * sink that cannot be reached ends the call; the sinks already marked routed stay so, and the
   * PIPs of the LCB being routed are dropped.
   */
  method RouteLcbsToSinks(clk: Net, g: Graph, lcbMappings: map<Node, seq<nat>>,
                          status: Node -> NodeStatus)
    returns (r: Result<(), RouteError>, ghost lcbs: seq<Node>, ghost sinkPaths: seq<seq<seq<Pip>>>)
    requires Closed(g) && clk.Valid()
    requires forall lcb | lcb in lcbMappings ::
      lcb in g.nodes && forall j | 0 <= j < |lcbMappings[lcb]| :: lcbMappings[lcb][j] < |clk.pins|
    modifies clk
    ensures clk.Valid() && clk.pins == old(clk.pins)
    ensures old(clk.routed) <= clk.routed
    ensures forall i | i in clk.routed && i !in old(clk.routed) :: IsSink(lcbMappings, i)
    ensures |old(clk.pips)| <= |clk.pips| && clk.pips[..|old(clk.pips)|] == old(clk.pips)
    ensures forall k | |old(clk.pips)| <= k < |clk.pips| :: SinkPipOk(g, status, {}, clk.pips[k])
    ensures r.Err? ==> r.error == Unroutable || r.error == AssertionViolated
    ensures r.Err? && r.error == Unroutable ==>
      exists lcb, i | lcb in lcbMappings && i in lcbMappings[lcb] ::
        !SinkWalk(g, SinkEdgeAt(g, status, PipNodes(PipSet(clk.pips[|old(clk.pips)|..]))), lcb,
                  clk.pins[i].node)
    ensures r.Ok? ==> forall lcb | lcb in lcbMappings ::
      SinksUpTo(g, status, clk.pins, clk.routed, PipSet(clk.pips[|old(clk.pips)|..]), lcb,
                lcbMappings[lcb], |lcbMappings[lcb]|)
    ensures forall lcb :: lcb in lcbs <==> lcb in lcbMappings
    ensures LcbSinkPaths(g, status, lcbMappings, clk.pins, lcbs, sinkPaths)
    ensures PipSet(clk.pips[|old(clk.pips)|..]) == AllSinkPips(sinkPaths)
    ensures r.Ok? ==> |sinkPaths| == |lcbs|
  {
    var listed := Enumerate(lcbMappings.Keys);
    lcbs := listed;
    sinkPaths := [];
    ghost var base := clk.pips;
    var used: set<Node> := {};
    var t := 0;
    assert clk.pips[|base|..] == [];
    while t < |listed|
      invariant clk.Valid() && clk.pins == old(clk.pins)
      invariant LcbsLoop(g, status, lcbMappings, clk.pins, old(clk.routed), clk.routed, base,
                         clk.pips, used, lcbs, t, sinkPaths)
    {
      ghost var done;
      r, used, done := RouteNextLcb(clk, g, lcbMappings, status, listed, t, used, base,
                                    old(clk.routed), sinkPaths);
      if r.Err? {
        return;
      }
      sinkPaths := done;
      t := t + 1;
    }
    r := Ok(());
    forall lcb | lcb in lcbMappings
      ensures SinksUpTo(g, status, clk.pins, clk.routed, PipSet(clk.pips[|base|..]), lcb,
                        lcbMappings[lcb], |lcbMappings[lcb]|)
    {
      var j :| 0 <= j < |listed| && listed[j] == lcb;
    }
  }
}

=== FILE: Wrappers.dfy ===
/** Optional values and results with an error, as the router's nullable returns and its exceptions. */
module Wrappers {

  datatype Option<+T> = None | Some(value: T)

  datatype Result<+T, +E> = Ok(value: T) | Err(error: E)
}
